=== FILE: README.md ===
# collisions — a Dafny model of the simulation core

`collisions` simulates hard discs (balls), horizontal pistons and fixed
polygonal obstacles in a box. It is an event-driven simulator: every mobile
predicts the earliest instant at which it will hit a ball, a piston, an
obstacle vertex or an obstacle segment, or leave its grid cell. These
predictions go into a time-ordered queue, together with the recurring
drawing, sampling and plotting events and the population-mutation timers.
The driver repeatedly advances the clock to the head of the queue and
performs every event due at that instant. It then re-predicts the
collisions of every mobile those events touched.

This project models that core in Dafny:

- `time.dfy` (`Times`): the `Time` value, a non-negative instant or
  `never`, with saturating arithmetic and its order.
- `geometry.dfy`, `segment.dfy`, `polygon.dfy`, `solver.dfy`
  (`Geometry`, `Segments`, `Polygons`, `Solver`): plane vectors,
  segments, polygons (even-odd inside test, circle intersection, bounds,
  area) and the quadratic-root selectors.
- `physics.dfy` (`Physics`): free flight under gravity, the contact-time
  predictions (ball–ball, ball–vertex, ball–segment, ball–piston,
  piston–piston), cell and row exit times, and the elastic bounces.
- `particle.dfy`, `piston.dfy` (`Particles`, `Pistons`): the mobiles
  themselves. This covers creation, moving, the free-path checkpoints,
  performing a collision, and moving into the next cell or row.
- `grid.dfy` (`Areas`): the spatial index that maps cells to balls,
  vertices and segments and rows to pistons, including how obstacles are
  registered.
- `scan.dfy` (`Scans`): the neighbourhood scans that list the collisions
  a ball or a piston must test.
- `events.dfy` (`Events`), `links.dfy` (`Links`): collision identity,
  and the graph of mobiles, pending queue entries and target times. This
  covers detaching, testing a pair or a single collision, and the rule
  that a collision just performed is not re-predicted at the same
  instant.
- `populations.dfy`, `reactions.dfy` (`Populations`, `Reactions`):
  populations, mutation timers and the reaction rules applied when two
  balls meet.
- `driver.dfy` (`Driver`): the simulator state, `avance`, performing one
  event, the sweep of everything due at the head instant, refreshing
  collisions and recurring events, `playNext`, and `restart`.
- `handlers.dfy` (`Handlers`): what a collision or a mutation timer does
  when it fires. A collision is recorded, then dispatched on the kinds of
  its mobiles, then the reaction rules run; a timer changes a population.
- `predict.dfy` (`Predictions`): the tests a mobile runs when its
  prediction is recomputed, namely its scan's candidates with their
  contact instants.
- `config.dfy` (`Configs`): the configuration checks and grid size.
- `colors.dfy`, `editor.dfy`, `charts.dfy` (`Colors`, `Editors`,
  `Charts`): the colour text codec, the polygon-list editor, and the
  curve and profile sample buffers.
- `wrappers.dfy`: `Option`.

Real numbers stand for doubles. The square root is a parameter, and the
properties that need it hold when it is exact. Nothing random or
time-dependent is computed inside the model: random draws and the
predictions of solvers not modelled here (`quartic`, `curvedX`,
`curvedY`, `curved`) are inputs. The driver takes the handler and the
predictor as parameters (`fire`, `predict`). Its contracts hold for every
handler that keeps the state's invariants and every predictor that names
known mobiles. `Handlers.Dispatch` and `Predictions.Predict` are the
simulator's own, and they are proved to be such.

## Model

| member | source | states |
|---|---|---|
| Times.Default | src/simul/time.cpp:33-37 | A default-constructed time is `never` and stores 0 |
| Times.FromReal | src/simul/time.cpp:39-43 | A negative real gives `never`; a non-negative one gives that instant |
| Times.Value | src/simul/time.hpp:68-71 | The stored value is non-negative, and 0 for `never` |
| Times.Sub | src/simul/time.cpp:59-75 | The difference is `never` when either side is `never` or the result would be negative; otherwise it is the exact difference |
| Times.Add | src/simul/time.cpp:77-93 | The sum is `never` when either side is `never`; otherwise it is the exact sum |
| Times.EqIsIdentity | src/simul/time.cpp:102-109 | Time equality holds exactly when the two values are identical |
| Times.LessIsStrictTotalOrder | src/simul/time.cpp:97-109 | `<` is irreflexive, transitive and total up to equality |
| Times.NeverIsUniqueMaximum | src/simul/time.hpp:62-63 | Nothing is later than `never`, and every other time is earlier |
| Times.LessEqIsLessOrEq | src/simul/time.hpp:62-65 | `<=` holds exactly when `<` or `==` does |
| Times.SubThenAdd | src/simul/time.cpp:59-93 | Subtracting `s` from a later finite `t` and adding `s` back gives `t` |
| Times.AddThenSub | src/simul/time.cpp:59-93 | Adding a finite `s` and then subtracting it gives the original time back |
| Times.AddIsMonotone | src/simul/time.cpp:84-93 | Adding a finite duration never makes a finite time earlier |
| Times.Earlier | src/simul/boule.cpp:207-209 | The `if (t < result) result = t` idiom yields one of the two times, no later than either, and `never` only when both are |
| Geometry.Min | src/math/coord.hpp:114-119 | The component-wise minimum is below both arguments and attains each coordinate |
| Geometry.Max | src/math/coord.hpp:114-119 | The component-wise maximum is above both arguments and attains each coordinate |
| Geometry.ScalarSymmetric | src/math/coord.hpp:121-122 | The scalar product is symmetric |
| Geometry.DetAntisymmetric | src/math/coord.hpp:123-124 | The determinant changes sign when its arguments are swapped |
| Geometry.ComplexProduct | src/math/coord.hpp:131-133 | Its coordinates are the scalar product with the conjugate and the determinant of the conjugate with the other vector |
| Geometry.ComplexProductSquareLength | src/math/coord.hpp:131-133 | The squared length of a complex product is the product of the squared lengths |
| Geometry.SquareLength | src/math/coord.hpp:140-141 | The squared length is non-negative |
| Geometry.SquareLengthIsSelfScalar | src/math/coord.hpp:140-141 | The squared length is a vector's scalar product with itself |
| Geometry.SquareLengthZero | src/math/coord.hpp:140-141 | The squared length is zero exactly for the zero vector |
| Geometry.LexLessIsStrictTotalOrder | src/math/coord.hpp:86-90 | The lexicographic order on points is a strict total order |
| Geometry.Perp | src/math/coord.hpp:121-124 | The perpendicular is orthogonal to its argument, and its determinant with it is the squared length |
| Geometry.ScalarDetIdentity | src/math/coord.hpp:121-124 | The squared scalar product plus the squared determinant is the product of the squared lengths (Lagrange's identity) |
| Geometry.UnitDecomposition | src/math/coord.hpp:121-124 | Along a unit vector, every vector is rebuilt from its scalar and determinant coordinates |
| Geometry.CellOf | src/math/segment.hpp:88-91 | A point's grid cell brackets the point in both coordinates |
| Segments.Make | src/math/segment.hpp:65-67 | A segment runs from its first point to its second, and is degenerate exactly when they coincide |
| Segments.LessIsStrictTotalOrder | src/math/segment.hpp:70-71 | The segment order used by the per-cell sets is a strict total order |
| Segments.EqIsIdentity | src/math/segment.hpp:72-73 | Segment equality is identity, and so holds exactly when both endpoints are equal |
| Segments.VectTo | src/math/segment.hpp:75-79 | The start plus the vector to a point is that point; the vector to the end is the segment's vector |
| Segments.Cell1 | src/math/segment.hpp:88-91 | The first endpoint lies in its cell |
| Segments.Cell2 | src/math/segment.hpp:88-91 | The second endpoint lies in its cell |
| Segments.YAtX | src/math/segment.hpp:93-94 | At the abscissa of either endpoint, the line gives that endpoint's ordinate |
| Segments.XAtY | src/math/segment.hpp:95-96 | At the ordinate of either endpoint, the line gives that endpoint's abscissa. The value is the source's formula, obtained as `YAtX` of the segment mirrored in the diagonal |
| Segments.EndpointsFace | src/math/segment.cpp:31-35 | Both endpoints face their own segment |
| Segments.FacesIgnoresPerpendicularShift | src/math/segment.cpp:31-35 | Shifting a point perpendicularly to the segment does not change whether it faces it |
| Segments.DegenerateFacesEverything | src/math/segment.cpp:31-35 | Every point faces a zero-length segment |
| Polygons.Clear | src/math/polygone.hpp:82-83 | A cleared polygon has no vertices |
| Polygons.Size | src/math/polygone.hpp:87-88 | The size is the number of vertices |
| Polygons.Edge | src/math/polygone.hpp:89-90 | Edge i runs from vertex i to vertex i+1, cyclically |
| Polygons.LastEdgeCloses | src/math/polygone.hpp:89-90 | The last edge ends at the first vertex |
| Polygons.Point | src/math/polygone.hpp:91-92 | A vertex read by index is one of the polygon's vertices |
| Polygons.CrossCount | src/math/polygone.cpp:25-34 | The crossing count over the first k edges is at most k, and 0 when none of them straddles the point's horizontal |
| Polygons.Inside | src/math/polygone.cpp:22-36 | The flip-per-crossing loop computes the even-odd rule; an empty polygon contains every point |
| Polygons.Intersect | src/math/polygone.cpp:39-51 | A circle meets the polygon exactly when some vertex is inside the circle or some edge comes within the radius |
| Polygons.VertexInsideCircleIntersects | src/math/polygone.cpp:46-47 | A vertex strictly inside the circle is enough for an intersection |
| Polygons.Left | src/math/polygone.cpp:65-74 | The left bound of a non-empty polygon is the smallest abscissa, attained by a vertex |
| Polygons.Top | src/math/polygone.cpp:76-85 | The top bound is the smallest ordinate (screen axes, y grows downward), attained by a vertex |
| Polygons.Right | src/math/polygone.cpp:87-96 | The right bound is the largest abscissa, attained by a vertex |
| Polygons.Bottom | src/math/polygone.cpp:98-107 | The bottom bound is the largest ordinate, attained by a vertex |
| Polygons.BoundsOrdered | src/math/polygone.cpp:65-107 | left ≤ right and top ≤ bottom |
| Polygons.OutsideVerticalBounds | src/math/polygone.cpp:24-35 | A point with ordinate below the top or at or beyond the bottom of a non-empty polygon is not inside it |
| Polygons.Surface | src/math/polygone.cpp:111-119 | The area is non-negative, and 0 for fewer than three vertices |
| Polygons.SurfaceIsHalfDeterminantSum | src/math/polygone.cpp:111-119 | The trapezoid sum equals half the absolute cyclic sum of the vertex determinants (shoelace formula) |
| Solver.FirstRoot | src/math/solveur.cpp:45-53 | -1 when the discriminant is negative; with an exact root, otherwise a root of the quadratic |
| Solver.SecondRoot | src/math/solveur.cpp:55-63 | -1 when the discriminant is negative; with an exact root, otherwise a root of the quadratic |
| Solver.FirstRootIsSmaller | src/math/solveur.cpp:45-63 | Given an exact square root of the discriminant, the first selected value is no larger than the second |
| Solver.SelectedRootsAreAllRoots | src/math/solveur.cpp:45-63 | A quadratic with a root has a non-negative discriminant, and each of its roots is one of the two selected |
| Configs.Check | src/config/configuration.cpp:22-35 | The check passes exactly when the particle total, summed modulo 2^32, is non-zero |
| Configs.CheckMeansSomeParticle | src/config/configuration.cpp:25-29 | Below 2^32 particles, the check passes exactly when some population has a particle |
| Configs.WrapAroundRefuses | src/config/configuration.cpp:25-29 | Populations of 2^32 − 1 and 1 particles wrap to 0 and are refused |
| Configs.SizeArea | src/config/configuration.cpp:38-54 | The cell size is 1 with no populations; otherwise at least 2.5 times every radius, and 2.5 times one of them when positive |
| Configs.EmptyObstacle | src/config/configuration.cpp:76 | The reset contour is an empty polygon |
| Configs.ResetObstacle | src/config/configuration.cpp:76 | The reset contour has no vertices and is white |
| Configs.Reset | src/config/configuration.cpp:71-81 | Reset keeps only the gravity and empties everything else |
| Configs.ResetIsCanonical | src/config/configuration.cpp:71-81 | A reset configuration fails the check; resetting twice changes nothing; configurations with the same gravity reset alike |
| Events.Other | src/simul/collision.cpp:87-96 | The other mobile of a pair collision is a participant, and differs from the given one unless the pair is a mobile with itself |
| Events.EqIsSameOrSwapped | src/simul/collision.cpp:134-150 | Two collisions are equal exactly when they have the same kind and the same participants, the pair possibly swapped |
| Events.EqIsTransitive | src/simul/collision.cpp:134-150 | Collision equality is transitive |
| Events.EqKeepsParticipants | src/simul/collision.cpp:134-150 | Equal collisions involve the same mobiles |
| Events.Ascending | src/simul/simulateur.cpp:376-377 | The members of a set of ids, each exactly once, in increasing order. This is the order in which the dirty set is visited |
| Particles.Create | src/simul/boule.cpp:29-38 | A new ball has the given motion and mass; its free-path record is invalid; it lies in its cell and has no timer |
| Particles.InvalidFreeHasNeverTime | src/simul/boule.hpp:94-97 | An invalid free-path record reports `never` as its free time |
| Particles.Advance | src/simul/boule.cpp:42-46 | Advancing by `never` changes nothing; otherwise only the motion changes |
| Particles.AdvanceComposes | src/simul/boule.cpp:42-46 | Advancing by s and then by t is advancing by s + t |
| Particles.Shift | src/simul/boule.cpp:257-262 | The old checkpoint takes the last one, and a new last checkpoint is taken here and now; the record is valid exactly when the last checkpoint was |
| Particles.Stamp | src/simul/boule.cpp:257-262 | Only the last checkpoint is overwritten; the free path is measured from the old checkpoint |
| Particles.StampedOnlyStaysInvalid | src/simul/boule.cpp:257-262 | A ball that is only ever stamped keeps an invalid record with time `never` |
| Particles.ShiftTwiceIsValid | src/simul/boule.cpp:257-262 | After two shifts at finite instants s and t, the record is valid and its free time is t − s |
| Particles.CollideBalls | src/simul/boule.cpp:248-285 | The contact is accepted exactly when the balls approach; only then do the velocities bounce, `self` is shifted and `other` stamped |
| Particles.CollideBallsIsElastic | src/simul/boule.cpp:248-285 | An accepted ball–ball contact keeps momentum and kinetic energy |
| Particles.CollidePiston | src/simul/boule.cpp:317-345 | Accepted exactly when ball and piston close in vertically; then an axial elastic bounce |
| Particles.CollideVertex | src/simul/boule.cpp:348-373 | Accepted exactly when the ball moves toward the vertex; then it reflects off it |
| Particles.CollideSegment | src/simul/boule.cpp:376-399 | Accepted exactly when the ball moves toward the segment's line; then it reflects off it |
| Particles.ObstacleContactsReflect | src/simul/boule.cpp:348-399 | Accepted obstacle contacts keep the speed and reverse the normal component |
| Particles.Round | src/simul/boule.cpp:410-428 | The nearest integer, within one half |
| Particles.RoundingError | src/simul/boule.cpp:410-428 | The distance to the nearest integer is between 0 and 1/2 |
| Particles.Toward | src/simul/boule.cpp:410-428 | The cell index ahead, taken half a cell in the direction of motion |
| Particles.NextArea | src/simul/boule.cpp:410-433 | The new cell changes along one axis only: the axis nearest a grid line, toward the motion |
| Particles.OnGridLine | src/simul/boule.cpp:410-428 | Exactly on grid line k, the cell ahead is k when moving forward and k−1 when moving back |
| Particles.EntersCellAhead | src/simul/boule.cpp:410-433 | A ball on a vertical or horizontal grid line moves into the cell on the far side of it |
| Physics.FlyLimits | src/simul/boule.cpp:42-46 | Without gravity the flight is uniform; a flight of length zero changes nothing |
| Physics.FlyComponents | src/simul/mobile.cpp:68-72 | Each coordinate follows p + v·t + g·t²/2 |
| Physics.FlightsCompose | src/simul/mobile.cpp:68-72 | Flying s and then t is flying s + t |
| Physics.Quotient | src/simul/boule.cpp:115 | d / v as a time: `never` exactly when v is 0 or the signs differ; otherwise v·t = d |
| Physics.FirstContact | src/simul/boule.cpp:118-129 | With no relative motion there is no contact |
| Physics.FirstContactIsEarliest | src/simul/boule.cpp:118-129 | With an exact root, a predicted contact puts the two at distance `reach`, and no earlier instant does |
| Physics.BallBallTime | src/simul/boule.cpp:118-129 | Two balls with equal velocities never meet |
| Physics.BallBallTouchFirst | src/simul/boule.cpp:118-129 | At a predicted instant the discs touch, and they overlap at no earlier instant |
| Physics.VertexTime | src/simul/boule.cpp:132-143 | Under gravity the quartic prediction is used; a resting ball without gravity meets nothing |
| Physics.VertexTouchFirst | src/simul/boule.cpp:132-143 | At a predicted instant the disc touches the vertex, and at no earlier instant does it cover it |
| Physics.BallPistonTime | src/simul/boule.cpp:98-116 | `never` when ball and piston move apart or move at the same vertical speed |
| Physics.BallPistonTouch | src/simul/boule.cpp:98-116 | At a predicted instant the ball touches the piston face it approaches |
| Physics.PistonPistonTimeAsWritten | src/simul/piston.cpp:52-66 | The source's prediction, with the sign of the closing speed reversed |
| Physics.PistonPistonAsWrittenMissesContact | src/simul/piston.cpp:52-66 | A resting piston and a rising one that do meet get `never` from the source's prediction |
| Physics.PistonPistonAsWrittenOnlyFindsPresentContact | src/simul/piston.cpp:52-66 | The source's prediction is finite only when the pistons are already past contact |
| Physics.PistonPistonTime | src/simul/piston.cpp:52-66 | Corrected prediction: pistons with equal speeds never meet |
| Physics.PistonPistonTouch | src/simul/piston.cpp:52-66 | At the corrected predicted instant the facing sides of the two pistons touch |
| Physics.SegmentTime | src/simul/boule.cpp:145-181 | A predicted instant finds the ball facing the segment; a ball moving away from the line without gravity never meets it |
| Physics.LineTime | src/simul/boule.cpp:145-181 | A line moved away from without gravity is never reached |
| Physics.LineTimeSolves | src/simul/boule.cpp:145-181 | At the predicted instant, the ball's distance to the line equals its radius |
| Physics.SegmentTouch | src/simul/boule.cpp:145-181 | At a predicted instant without gravity, the ball is at radius distance from the line and faces the segment |
| Physics.AxisExit | src/simul/boule.cpp:184-238 | Along one axis: `never` at rest; otherwise it reaches the slab boundary ahead, and does so whenever it starts inside |
| Physics.AxisStaysInSlab | src/simul/boule.cpp:184-238 | Before the exit time, the coordinate stays within the slab |
| Physics.BallExit | src/simul/boule.cpp:184-238 | Under two-axis gravity, the earlier of the curved predictions; without gravity, the earlier axis exit |
| Physics.BallLeavesCell | src/simul/boule.cpp:184-238 | A moving ball inside its cell gets a finite exit time |
| Physics.BallStaysInCell | src/simul/boule.cpp:184-238 | Before the exit time the ball stays in its closed cell |
| Physics.BallExitFree | src/simul/boule.cpp:184-238 | Without gravity, the exit time is the earlier of the two axis exits |
| Physics.PistonExit | src/simul/piston.cpp:69-114 | Under vertical gravity the curved prediction; without it, the time at which a face reaches the next row line |
| Physics.PistonLeavesRows | src/simul/piston.cpp:69-114 | A moving piston inside its rows gets a finite exit time |
| Physics.PistonStaysInRows | src/simul/piston.cpp:69-114 | Before the exit time, both faces stay within their rows |
| Physics.Unit | src/simul/boule.cpp:264 | With an exact root, the unit vector along a non-zero vector has length 1 and points the same way |
| Physics.UnitAlong | src/simul/boule.cpp:362 | The vector is its length times the unit vector |
| Physics.Exchange | src/simul/boule.cpp:332-333 | One-dimensional elastic exchange: keeps momentum, reverses the relative speed, swaps equal masses |
| Physics.ExchangeKeepsEnergy | src/simul/piston.cpp:140-141 | The one-dimensional exchange keeps kinetic energy |
| Physics.AxialBounce | src/simul/piston.cpp:140-141 | Horizontal speeds are kept; the vertical ones are exchanged exactly when the pair closes in |
| Physics.BallBallBounce | src/simul/boule.cpp:264-274 | Balls that do not approach keep their velocities |
| Physics.BallBallBounceKeepsMomentum | src/simul/boule.cpp:264-274 | The bounce keeps total momentum |
| Physics.BallBallBounceKeepsEnergy | src/simul/boule.cpp:264-274 | The bounce keeps total kinetic energy |
| Physics.BallBallBounceReflects | src/simul/boule.cpp:264-274 | The bounce keeps tangential components and reverses the approach along the line of centres |
| Physics.VertexBounce | src/simul/boule.cpp:362-363 | A ball moving away from the vertex keeps its velocity |
| Physics.VertexBounceReflects | src/simul/boule.cpp:362-363 | Toward the vertex, the velocity is mirrored about the tangent: same speed, reversed normal part |
| Physics.SegmentBounce | src/simul/boule.cpp:389-390 | A ball moving away from the line keeps its velocity |
| Physics.SegmentBounceReflects | src/simul/boule.cpp:389-390 | Toward the line, the velocity is mirrored about the segment: same speed, reversed normal part |
| Pistons.RowOf | src/simul/piston.cpp:27-38 | The row index brackets the ordinate |
| Pistons.Create | src/simul/piston.cpp:27-38 | A new piston sits on the vertical axis with its configured position, speed, mass, thickness and colour |
| Pistons.CreatedInRows | src/simul/piston.cpp:27-38 | Its lower face lies in the first row and its upper face in the second |
| Pistons.Place | src/simul/piston.cpp:33-37 | An unregistered piston is listed in exactly its two rows; balls, vertices and segments stay put |
| Pistons.CreatedRowsOrdered | src/simul/piston.cpp:28-31 | The first row is never above the second |
| Pistons.CreatedMovesVertically | src/simul/piston.cpp:28-31 | A new piston has horizontal position and speed zero |
| Pistons.Advance | src/simul/mobile.cpp:68-72 | Advancing by `never` changes nothing; otherwise the motion flies for that long |
| Pistons.AdvanceStaysOnAxis | src/simul/simulateur.cpp:404-406 | A piston that starts on the vertical axis stays on it |
| Pistons.CollidePistons | src/simul/piston.cpp:130-151 | Accepted exactly when the two close in; then an axial exchange, positions kept |
| Pistons.CollidePistonsIsElastic | src/simul/piston.cpp:130-151 | An accepted contact keeps momentum and energy; equal masses swap speeds |
| Pistons.NextRows | src/simul/piston.cpp:162-171 | Each face's new row is the row ahead of it in the direction of motion |
| Pistons.FaceEntersRowAhead | src/simul/piston.cpp:162-171 | A face on row line k enters row k going up, k−1 going down |
| Pistons.FaceKeepsRow | src/simul/piston.cpp:162-171 | A face strictly inside row k, within half a row of its centre, stays in row k |
| Pistons.ChangeAreaAsWritten | src/simul/piston.cpp:154-179 | The source's row change updates the piston's rows but re-registers it under the old ones |
| Pistons.AsWrittenKeepsOldRows | src/simul/piston.cpp:154-179 | After the source's row change, the piston is still listed in exactly its old rows |
| Pistons.AsWrittenMissesNewRow | src/simul/piston.cpp:154-179 | A piston moving up from rows 0,1 into rows 1,2 is not listed in row 2 |
| Pistons.ChangeArea | src/simul/piston.cpp:154-179 | Corrected row change: the rows are updated and only the piston's registration moves |
| Pistons.ChangeAreaKeepsRegistration | src/simul/piston.cpp:154-179 | A piston registered in its old rows ends up registered in exactly its new rows |
| Areas.Empty | src/simul/state.cpp:40 | A cleared grid lists nothing anywhere |
| Areas.InsertBall | src/simul/boule.cpp:36 | The ball is added to the front of its cell's list; no other cell changes |
| Areas.EraseBall | src/simul/boule.cpp:482-485 | The first copy of the ball leaves its cell's list; no other cell changes |
| Areas.EraseUndoesInsert | src/simul/boule.cpp:36 | Erasing right after inserting restores the grid |
| Areas.RemoveFirstCount | src/simul/boule.cpp:482-485 | Erasing removes exactly one occurrence |
| Areas.PlaceBall | src/simul/boule.cpp:35-36 | An unlisted ball ends up listed exactly in its cell; the counts of other balls do not change |
| Areas.ChangeBallArea | src/simul/boule.cpp:402-433 | The ball moves to the cell ahead of it |
| Areas.ChangeBallAreaKeepsRegistration | src/simul/boule.cpp:402-433 | A ball listed once in its old cell is listed once in its new cell and nowhere else |
| Areas.RegisterPiston | src/simul/piston.cpp:33-37 | The piston is added to both of its rows, twice to one row when both are the same |
| Areas.UnregisterPiston | src/simul/piston.cpp:156-159 | One copy per row is removed, two from a single shared row |
| Areas.RegisterPistonCounts | src/simul/piston.cpp:33-37 | Registering adds exactly one occurrence per row and leaves other pistons' counts alone |
| Areas.UnregisterPistonCounts | src/simul/piston.cpp:156-159 | Unregistering a piston listed in exactly its rows removes it entirely |
| Areas.UnregisterUndoesRegister | src/simul/piston.cpp:33-37 | Unregistering right after registering restores every row |
| Areas.VerticesIn | src/simul/state.cpp:88-89 | The obstacle vertices listed in a cell are exactly those lying in it |
| Areas.AddVertex | src/simul/state.cpp:88-89 | A vertex is added to the list of the cell it lies in; nothing else changes |
| Areas.SameCellRegistersNowhere | src/simul/state.cpp:101-118 | A segment whose endpoints share a cell is registered in no cell |
| Areas.RegisterSegment | src/simul/state.cpp:95-119 | The segment is added to exactly the cells that its column and row crossings name |
| Areas.AddSegmentAsWritten | src/simul/state.cpp:95-119 | The source's registration, which projects onto the i·size grid line |
| Areas.AsWrittenRegistersStrayCell | src/simul/state.cpp:106-117 | Segment (0.2,0.1)→(1.8,1.5) gets registered in cell (0,−1), which it does not meet |
| Areas.AddSegment | src/simul/state.cpp:95-119 | Corrected registration: projection onto the (i+1)·size grid line |
| Areas.CorrectedCellsMeetSegment | src/simul/state.cpp:95-119 | Every cell the corrected registration names is met by the segment |
| Areas.AddObstacle | src/simul/state.cpp:84-92 | Each cell lists the obstacle's vertices in it and gains the edges through it, edges placed by the corrected projection |
| Areas.ObstacleEdgesMeetTheirCells | src/simul/state.cpp:84-92 | Every edge registered in a cell meets that cell, with the corrected projection |
| Areas.ObstacleVerticesAreListed | src/simul/state.cpp:84-92 | Every vertex of the obstacle is listed in its cell |
| Areas.AllVertices | src/simul/state.cpp:75-81 | Every vertex of every polygon is collected |
| Areas.AddPolygons | src/simul/state.cpp:75-81 | Registering the polygons one by one gives every cell all their vertices in it and all the edges through it, edges placed by the corrected projection |
| Areas.AddObstacles | src/simul/state.cpp:75-81 | The obstacles and then the contour are registered, edges placed by the corrected projection; balls and pistons are untouched |
| Populations.SetPopulation | src/simul/boule.cpp:64-89 | A timer exists exactly when the population has a positive mutation delay; it is a fresh queue entry at now + delay; nothing else changes |
| Populations.Swap | src/simul/boule.cpp:489-505 | Same population: no change. Otherwise the ball moves between member lists, takes the new colour, and its timer is replaced. The queue changes only by mutation timers after now |
| Populations.Move | src/simul/boule.cpp:494-499 | The population list keeps its length and colours |
| Populations.MovePlaces | src/simul/boule.cpp:494-499 | After a move the ball belongs to the target population |
| Populations.MoveKeepsTotal | src/simul/boule.cpp:494-499 | A move keeps the total number of members |
| Populations.MoveKeepsOthers | src/simul/boule.cpp:494-499 | A move does not change any other ball's membership |
| Populations.SwapMovesMembership | src/simul/boule.cpp:489-505 | A real swap places the ball in the new population and keeps the total and everyone else |
| Populations.SwapErasesTimer | src/simul/boule.cpp:502-503 | The old timer's queue entry is gone after a swap |
| Populations.ChangePopulation | src/simul/boule.cpp:50-61 | Without a mutation rule nothing changes; otherwise the ball takes the rule's target population. The graph keeps its mobiles, targets and histories. The queue changes only by mutation timers after now |
| Populations.ArmingIsLater | src/simul/boule.cpp:64-89 | Arming a timer adds at most a mutation entry under a fresh handle, not before now and strictly after a finite now; every other entry is kept |
| Populations.SelfMutationKeepsTimer | src/simul/boule.cpp:489-492 | As written, a rule that mutates a population into itself changes nothing when its timer fires: `swap` returns at once, so the fired timer stays queued at the instant it fired (see Findings) |
| Populations.Remutate | src/simul/boule.cpp:50-61 | The corrected `changePopulation`: any rule other than one back into the same population is `ChangePopulation`. A rule back into the same population keeps the lists and the colour and only re-arms the timer. The graph keeps its mobiles, targets and histories; the queue changes only by mutation timers after now |
| Populations.RemutateRetiresTimer | src/simul/boule.cpp:489-504 | After the corrected change, the timer that fired is no longer queued, whichever population its rule names |
| Populations.Reaction | src/simul/boule.cpp:287-313 | With no applicable reaction nothing changes. Otherwise each ball takes its product population. The balls change only in population, colour and timer. The graph keeps its mobiles, targets and histories, and its queue changes only by mutation timers after now |
| Populations.TimerSurvivesOtherSwap | src/simul/boule.cpp:489-505 | Swapping one ball leaves another ball's timer valid and pending |
| Populations.TotalUpdate | src/simul/boule.cpp:494-499 | Replacing one population changes the total by the difference in member counts |
| Reactions.FirstReaction | src/simul/boule.cpp:288-292 | The first rule matching the pair, in either order, or none when none matches |
| Reactions.FirstReactionIsSymmetric | src/simul/boule.cpp:288-292 | The matching rule does not depend on the order of the pair |
| Reactions.React | src/simul/boule.cpp:288-313 | No matching rule gives no reaction; a reaction is the matched rule's products, oriented to `self` |
| Reactions.FailedDrawStopsTheScan | src/simul/boule.cpp:293-297 | A probabilistic rule whose draw fails gives no reaction |
| Reactions.OtherKindsIgnoreTheDraw | src/simul/boule.cpp:293-298 | A rule of another kind reacts whatever the draw |
| Reactions.ReactIsOriented | src/simul/boule.cpp:300-309 | The reaction happens for (a, b) exactly when it does for (b, a), with the products swapped |
| Reactions.FirstMutation | src/simul/boule.cpp:52-56 | The first mutation rule for the population, or none |
| Reactions.MutationDelay | src/simul/boule.cpp:76-84 | No rule gives no delay; otherwise the delay drawn from the first rule |
| Reactions.MutationTarget | src/simul/boule.cpp:52-59 | No rule gives no target; otherwise the target of a rule for this population |
| Reactions.DelayAndTargetAgree | src/simul/boule.cpp:52-84 | A delay exists exactly when a target does, and both come from the same rule |
| Scans.PairsWith | src/simul/boule.cpp:437-479 | One pair collision per listed mobile, optionally skipping the ball itself |
| Scans.Corners | src/simul/boule.cpp:437-479 | One vertex collision per listed vertex |
| Scans.Walls | src/simul/boule.cpp:437-479 | One segment collision per segment, in order |
| Scans.Sorted | src/simul/boule.cpp:440 | The segment set listed in increasing order, without losing or adding any |
| Scans.SortedIncreases | src/simul/boule.cpp:474 | The listed segments strictly increase |
| Scans.SortedIsDistinct | src/simul/boule.cpp:474 | No segment is listed twice |
| Scans.BallScan | src/simul/boule.cpp:437-479 | The scan ends with the cell-exit test |
| Scans.SegmentsInHolds | src/simul/boule.cpp:437-479 | The gathered segments are exactly those listed in one of the scanned cells |
| Scans.NeighbourhoodIsNear | src/simul/boule.cpp:437-479 | The scanned cells are exactly the 3×3 block around the ball's cell |
| Scans.NearSegmentsHolds | src/simul/boule.cpp:437-479 | The gathered segments are exactly those listed near the ball |
| Scans.CellScanLists | src/simul/boule.cpp:437-479 | A cell's scan lists every other ball and every vertex there, and nothing else |
| Scans.BallScanCovers | src/simul/boule.cpp:437-479 | Every nearby ball, vertex, segment and piston of the neighbouring rows gets a collision test |
| Scans.BallScanIsSound | src/simul/boule.cpp:437-479 | Every collision test involves the ball; it is paired with itself only if it is also listed as a piston |
| Scans.BallScanTestsSegmentsOnce | src/simul/boule.cpp:437-479 | Every nearby segment gets exactly one collision test |
| Areas.RowBallsLists | src/simul/piston.cpp:189-190 | The particles a piston meets in row `j` are exactly the particles registered in some cell of that row |
| Areas.RowBallsGoesRight | src/simul/map_ligne.hpp:34-45 | A row's particles come cell by cell in strictly increasing column, as the row's multimap keyed by column iterates, each cell's list most recent first; the cells visited are exactly the row's cells that hold a list |
| Scans.PistonScan | src/simul/piston.cpp:183-213 | The piston's scan ends with the row-exit test |
| Scans.PistonRowScanLists | src/simul/piston.cpp:183-213 | A row's scan pairs the piston with every ball and every other piston of that row, and nothing else |
| Scans.ScannedRowsAreNear | src/simul/piston.cpp:183-213 | The scanned rows are exactly those next to one of the piston's two rows |
| Scans.PistonScanCovers | src/simul/piston.cpp:183-213 | Every ball and other piston in a nearby row gets a collision test |
| Scans.PistonScanIsSound | src/simul/piston.cpp:183-213 | Every collision test pairs the piston with something listed nearby |
| Links.NewNode | src/simul/mobile.cpp:44-55 | A new mobile has no pending entries, targets or attached mobiles |
| Links.NewHistory | src/simul/mobile.cpp:44-55 | A new mobile has no last collision and its last time is `never` |
| Links.NextIndex | src/simul/mobile.cpp:27 | The 32-bit counter steps by one and wraps from its top value to 0 |
| Links.IndexIsRank | src/simul/mobile.cpp:53 | The k-th mobile created gets index k−1 |
| Links.IdsIncrease | src/simul/mobile.cpp:53 | Mobiles created later get larger indices, below 2^32 creations |
| Links.EmptyGraph | src/simul/mobile.cpp:44-55 | The empty graph is well formed |
| Links.AddMobile | src/simul/mobile.cpp:44-55 | A new mobile joins with target `never`; nothing else changes |
| Links.PendingIsLive | src/simul/mobile.cpp:139-146 | In a well-formed graph, every pending handle is in the queue |
| Links.DetachCollision | src/simul/mobile.cpp:149-159 | The scan removes at most one handle, and removes none only when no pending entry holds an equal collision |
| Links.ScanFindsLeast | src/simul/collision.cpp:87-96 | When h is the first pending handle holding an equal collision, the scan removes exactly h |
| Links.ScanReadsLive | src/simul/mobile.cpp:149-159 | The scan is defined only when every pending handle is in the queue |
| Links.EraseThenScanReadsErased | src/simul/mobile.cpp:221-226 | Erasing the entry before the partner's scan leaves the partner reading an erased entry |
| Links.Detach | src/simul/mobile.cpp:218-233 | The mobile drops every pending entry and target, partners forget it, others are unchanged, and the queue loses exactly its entries |
| Links.DetachedFacts | src/simul/mobile.cpp:218-233 | After detaching, no queued collision involves the mobile |
| Links.DetachedKeepsOthers | src/simul/mobile.cpp:218-233 | Detaching leaves the entries of uninvolved mobiles alone |
| Links.DropPending | src/simul/mobile.cpp:218-233 | The queue loses exactly the mobile's pending entries, and partners lose those handles |
| Links.UnlinkedIsDetached | src/simul/mobile.cpp:218-233 | Dropping the entries and then unlinking targets is the whole detach |
| Links.SetTarget | src/simul/mobile.cpp:141 | Only the mobile's target time changes |
| Links.AddTarget | src/simul/mobile.cpp:236-252 | The pair is linked both ways; a queue entry is added exactly when asked to and when the partner already targets the mobile |
| Links.AddTargetMutual | src/simul/mobile.cpp:236-252 | Targets and attachments stay mirror images |
| Links.SetLastCollision | src/simul/mobile.cpp:111-117 | The last time becomes now; the collision is appended at the same instant and restarts the list at a new one |
| Links.ScanRecords | src/simul/mobile.cpp:130-133 | A check fails exactly when the time matches and some recorded collision is equal |
| Links.CheckLastCollision | src/simul/mobile.cpp:120-135 | A check fails exactly when the collision was recorded at that instant |
| Links.CollisionTimeIsVetoedSum | src/simul/collision.cpp:100-131 | The prediction is now + the relative time, or `never` when every participant recorded the collision then |
| Links.Record | src/simul/collision.cpp:154-173 | Performing a collision records it for every participant and nobody else |
| Links.RecordedCollisionIsVetoed | src/simul/collision.cpp:121-130 | Right after a collision, an equal one is predicted `never` at once (any kind but a cell exit) |
| Links.RecordVetoes | src/simul/collision.cpp:156-164 | A recorded collision is vetoed at the same instant |
| Links.LaterInstantIsNotVetoed | src/simul/collision.cpp:121-130 | An unrecorded collision is predicted at now + its relative time |
| Links.Count | src/simul/collision.cpp:105 | The study counters count every non-default test, and pairs apart, modulo 2^32 |
| Links.Lower | src/simul/mobile.cpp:181-190 | The target becomes the earlier of the old target and the new time; nothing else changes |
| Links.TestPair | src/simul/mobile.cpp:172-197 | A vetoed or past pair changes nothing; otherwise both targets are lowered and at most one entry is queued; when the accepted instant is at or before both targets, the pair entry is queued at that instant under the next fresh id |
| Links.LinkPair | src/simul/mobile.cpp:192-196 | At most one new entry, queued at the pair's time; when both mobiles target that instant, exactly one pair entry is queued under the next fresh id, listing `a` first exactly when `b` already targeted `a` |
| Links.TestSingle | src/simul/mobile.cpp:200-214 | A vetoed prediction changes nothing; one no later than the target lowers it and queues the collision |
| Links.Enqueue | src/simul/mobile.cpp:213 | A fresh handle is added to the queue and to the mobile's pending set |
| Links.Schedule | src/simul/simulateur.cpp:259-272 | A fresh handle is queued with the entry; mobiles are untouched |
| Links.Cancel | src/simul/simulateur.cpp:259-272 | The entry is removed and nothing else changes |
| Links.EarliestIsLeast | src/simul/mobile.cpp:139-146 | The new target is no later than any test's time |
| Links.EarliestIsAttained | src/simul/mobile.cpp:139-146 | The new target is `never` or the time of one of the tests |
| Links.UpdateCollisions | src/simul/mobile.cpp:139-197 | The old entries go, the target becomes the earliest test time, the counters advance and non-collision entries are kept; only the partners of pair tests may change prediction, their targets only moving earlier (an accepted pair test detaches the partner, dropping its other pending entries) |
| Links.Forget | src/simul/mobile.cpp:141-142 | Detaching and resetting the target to `never` |
| Links.RunTests | src/simul/mobile.cpp:139-146 | Running the tests in order computes the earliest time and counts them all |
| Links.CountAllWraps | src/simul/collision.cpp:105 | Counting n tests advances the counters by n and by the pair count, modulo 2^32 |
| Links.UpdateRefresh | src/simul/mobile.cpp:163-168 | The mobile and every mobile attached to it join the dirty set |
| Driver.PeriodOf | src/simul/simulateur.cpp:259-272 | Each recurring kind gets its configured period |
| Driver.FlyBalls | src/simul/simulateur.cpp:395-409 | Every ball is advanced; the set of balls is kept |
| Driver.FlyPistons | src/simul/simulateur.cpp:395-409 | Every piston is advanced; the set of pistons is kept |
| Driver.Avance | src/simul/simulateur.cpp:395-409 | The clock moves to t, and only the mobiles change |
| Driver.AvanceMovesEach | src/simul/simulateur.cpp:395-409 | Each mobile is advanced by t − now |
| Driver.FlyNeverMovesNothing | src/simul/simulateur.cpp:395-409 | Advancing by `never` moves nothing |
| Driver.AvanceBackwardsOnlyRewinds | src/simul/simulateur.cpp:395-409 | Moving the clock back only rewinds it and moves nothing |
| Driver.AvanceComposes | src/simul/simulateur.cpp:395-409 | Advancing to t1 and then to a later t2 is advancing to t2 |
| Driver.PerformCollision | src/simul/simulateur.cpp:211-217 | The handler's effect, then the count grows modulo 2^32 for real collisions only. With the simulator's own handler the effect is `Handlers.Fire` (`Handlers.PerformRecordsFirst`) |
| Driver.Perform | src/simul/event.cpp:52-71 | A recurring event changes no state, a mutation and a collision apply their effect; the flags report recurring and drawing events |
| Driver.AddEvent | src/simul/event.cpp:31-48 | A recurring event is re-queued one period later under a fresh handle; others add nothing |
| Driver.AddEventIsLater | src/simul/simulateur.cpp:259-272 | The re-queued entry is not earlier than now, and every other entry is unchanged |
| Driver.FireOne | src/simul/simulateur.cpp:145-147 | An entry not due changes nothing. A due entry is performed. It is collected exactly when it is recurring. The flag is raised by a due drawing |
| Driver.FireDue | src/simul/simulateur.cpp:144-147 | The result is the fold of `FireOne` over the entries due when the sweep starts, in increasing handle order (the multimap's order within one instant), starting from a lowered flag |
| Driver.RefreshCollisions | src/simul/simulateur.cpp:374-379 | The dirty mobiles are re-predicted one after the other, in increasing id order. Each step passes the predictor's tests for the state reached so far to `Links.UpdateCollisions` (`Driver.RefreshedOnce`). The trace of these states is returned. At the end the dirty set is empty |
| Driver.RefreshOne | src/simul/simulateur.cpp:374-379 | One mobile's old entries go and its new predictions are added |
| Driver.RefreshKeepsPeriodic | src/simul/simulateur.cpp:374-379 | Refreshing collisions keeps every recurring entry |
| Driver.RefreshIsCausal | src/simul/simulateur.cpp:374-379 | After refreshing, no entry lies before now |
| Driver.Reput | src/simul/simulateur.cpp:386 | A recurring entry is put back one period later, never before now |
| Driver.PutBack | src/simul/simulateur.cpp:382-391 | Each collected entry is replaced by its later copy under consecutive fresh handles |
| Driver.RefreshDrawings | src/simul/simulateur.cpp:382-391 | The recurring entries collected in the sweep are re-queued one period later; the rest of the queue is kept |
| Driver.Begin | src/simul/simulateur.cpp:140 | The head entry is the earliest, the first-inserted on a tie |
| Driver.FirstIn | src/simul/simulateur.cpp:140 | The earliest entry among a set of handles, the smallest on a tie |
| Driver.HeadIsCausal | src/simul/simulateur.cpp:140-141 | Moving the clock to the head keeps every entry at or after now |
| Driver.Sweep | src/simul/simulateur.cpp:137-169 | The clock moves to the head instant. The state after firing is the `FireDue` fold over the entries due at that instant. The result is the last state of the `RefreshCollisions` trace from there, with the dirty set emptied. The recurring entries are collected |
| Driver.PlayNext | src/simul/simulateur.cpp:137-173 | The clock moves to the earliest queued instant. The entries due then are fired in handle order (the `FireDue` fold), and the dirty mobiles are then re-predicted in id order (the `RefreshCollisions` trace). A drawing due then is reported; recurring events continue one period later; no entry lies in the past |
| Driver.PlayNextQueue | src/simul/simulateur.cpp:137-173 | Recurring entries due now are replaced by later copies, others are kept, a drawing stays queued |
| Driver.PlayToNextDraw | src/simul/simulateur.cpp:131-134 | Playing until a drawing keeps time moving forward, and leaves the next drawing queued one period ahead |
| Driver.Clear | src/simul/simulateur.cpp:80-92 | Everything is emptied, the clock is 0, and the counters reset |
| Driver.Restart | src/simul/simulateur.cpp:77-128 | A cleared state with obstacles and pistons laid out and the three recurring events queued at their first periods |
| Driver.Prepare | src/simul/simulateur.cpp:77-104 | Clearing, grounding and building the pistons, with only collisions queued |
| Driver.Ground | src/simul/simulateur.cpp:94-97 | The cell size is positive, no piston is listed, and the grid holds exactly the obstacle and contour vertices and edges, edges placed by the corrected projection |
| Driver.BuildPistons | src/simul/simulateur.cpp:100-104 | Every configured piston is created in order and registered under consecutive ids |
| Driver.AddPiston | src/simul/state.cpp:58-62 | A new piston is created, registered in its two rows and given its predictions |
| Driver.AddRecurring | src/simul/simulateur.cpp:122-124 | The drawing, sampling and plotting events are queued one period after now |
| Driver.Shapes | src/simul/state.cpp:75-81 | The polygons of the obstacles, in order |
| Driver.RegisterAllRegisters | src/simul/simulateur.cpp:100-104 | Every built piston is registered in exactly its two rows, and no later id is listed |
| Handlers.MarkOne | src/simul/mobile.cpp:163-168 | After an accepted contact: the mobile and every mobile that targets it are marked. After a refused one: the mobile alone. Only known mobiles are ever added |
| Handlers.MarkTwo | src/simul/boule.cpp:275-285 | Both mobiles are marked. After an accepted contact, so is every mobile that targets either of them. After a refused contact, nothing else is marked |
| Handlers.BallBall | src/simul/boule.cpp:248-313 | The graph stays valid and keeps its mobiles, targets and histories. The queue changes only by mutation timers after now. Pistons and grid are unchanged |
| Handlers.BallBallReacts | src/simul/boule.cpp:287-313 | The reaction rules set both populations from the populations before the contact. This holds whether the bounce was accepted or refused. With no applicable rule, populations and lists are unchanged |
| Handlers.BallBallRefused | src/simul/boule.cpp:279-285 | Particles moving apart keep their motions, and exactly the two particles are added to the dirty set |
| Handlers.BallBallAccepted | src/simul/boule.cpp:254-277 | Approaching particles take the elastic-bounce velocities, with the second mobile as `self`, and keep their positions. Every mobile that targeted either particle is marked |
| Handlers.BallPiston | src/simul/boule.cpp:317-345 | Only the particle, the piston's motion and the dirty set change. The graph stays valid and keeps its mobiles, targets and histories. The dirty set holds known mobiles only |
| Handlers.PistonPiston | src/simul/piston.cpp:130-152 | Only the two pistons and the dirty set change. The graph keeps its mobiles, targets and histories, as for `BallPiston` |
| Handlers.BallVertex | src/simul/boule.cpp:348-373 | Only the particle and the dirty set change. The graph keeps its mobiles, targets and histories, as for `BallPiston` |
| Handlers.BallEdge | src/simul/boule.cpp:376-399 | Only the particle and the dirty set change. The graph keeps its mobiles, targets and histories, as for `BallPiston` |
| Handlers.Touch | src/simul/mobile.cpp:93-101 | A piston at an obstacle changes only the dirty set. The piston is marked, and so is every mobile that targets it |
| Handlers.BallArea | src/simul/boule.cpp:402-432 | Only the particle, the grid and the dirty set change. The particle takes its next cell and is marked for a new prediction |
| Handlers.PistonArea | src/simul/piston.cpp:154-179 | Only the piston, the grid and the dirty set change. The piston takes its next two rows and is marked for a new prediction |
| Handlers.Contact | src/simul/collision.cpp:158-173 | The dispatch on the kinds of the mobiles keeps the graph's mobiles, targets and histories, and keeps its validity. A contact of two particles is `BallBall` |
| Handlers.Recorded | src/simul/collision.cpp:156-163 | Both participants' histories record the collision at now. The other histories are kept. The graph stays valid |
| Handlers.Fire | src/simul/collision.cpp:154-173 | A fired event keeps the invariants, the clock and the counters. A collision is recorded before its contact happens. A state the source never fires in is left alone. Every new queue entry is a mutation timer strictly after a finite now |
| Handlers.Mutate | src/simul/simulateur.cpp:251-255 | Without a mutation rule nothing changes. Otherwise the particle takes the rule's target population, through the corrected `Populations.Remutate`. Only that particle, the population lists and the graph's timers change |
| Handlers.MutateRetiresTimer | src/simul/simulateur.cpp:251-255 | The timer that fired is gone after the mutation, so it cannot fire again at the same instant |
| Handlers.Dispatch | src/simul/simulateur.cpp:211-217 | The handler satisfies `Driver.IsHandler`: it keeps the invariants and leaves the collision counter to the driver |
| Handlers.FireOnParticles | src/simul/boule.cpp:242-248 | A collision of two particles is the contact of `BallBall` on the recorded state, with the second mobile as `self` |
| Handlers.PerformRecordsFirst | src/simul/simulateur.cpp:211-217 | A performed collision is first recorded and then its contact happens. The collision counter grows modulo 2^32 for real collisions only |
| Predictions.PairTime | src/simul/boule.cpp:93-130 | The double dispatch picks the contact time by the kinds of the two mobiles. It is the second mobile's method for two particles and the particle's for a particle and a piston. Two pistons get the corrected piston–piston time, with the second piston as `self`. An unknown mobile never meets anything |
| Predictions.PairTimeIsContact | src/simul/boule.cpp:93-130 | Whenever the pair time is finite, the two mobiles touch at that instant under gravity: two discs at the sum of their radii, a disc on the face of a piston, or two pistons face to face |
| Predictions.RelativeTime | src/simul/collision.cpp:100-120 | The default collision, and a piston at a vertex or a segment, never happen (`src/simul/mobile.cpp:76-89`) |
| Predictions.AsTest | src/simul/mobile.cpp:172-216 | The test of a candidate is well formed, names that candidate, and carries its relative instant |
| Predictions.ToTests | src/simul/boule.cpp:437-480 | Every candidate the graph can hold is tested and nothing else is. When every candidate can be held, the tests come in the scan's order |
| Predictions.Candidates | src/simul/piston.cpp:183-210 | A particle is scanned by the particle scan and a piston by the piston scan. A mobile of no known kind has no candidates |
| Predictions.Predict | src/simul/mobile.cpp:139-146 | The predictor satisfies `Driver.Predicts`: every test names a known other mobile or a collision of the mobile itself |
| Predictions.BallPredictionCovers | src/simul/boule.cpp:437-480 | A particle tests each of the following at the instant its kinds give: every other known particle of the nine cells, every piston of the three rows, every vertex and segment of the nine cells, and leaving its cell |
| Predictions.PistonPredictionCovers | src/simul/piston.cpp:183-210 | A piston tests every known particle of the rows around its two rows, every other known piston there, and leaving its rows |
| Predictions.PistonPredictionHasNoObstacle | src/simul/piston.cpp:183-210 | A piston's tests are pair tests and leaving its rows, and nothing else |
| Charts.PushSample | src/graphic/courbe.cpp:36-42 | A number is appended; not-a-number is dropped |
| Charts.MaxTime | src/graphic/courbe.cpp:45-55 | 0 for an empty curve; otherwise the latest instant, attained by a sample. `Profil::maxTime` (`src/graphic/profil.cpp:45-55`) is the same scan over slices |
| Charts.CurveMax | src/graphic/courbe.cpp:57-67 | 0 for an empty curve; otherwise the largest value, attained by a sample |
| Charts.CurveMin | src/graphic/courbe.cpp:69-79 | 0 for an empty curve; otherwise the smallest value, attained by a sample |
| Charts.PushThenMaxTime | src/graphic/courbe.cpp:36-55 | Pushing a sample moves the latest instant to the later of the two |
| Charts.PushSlice | src/graphic/profil.cpp:39-42 | The slice is appended |
| Charts.MinTime | src/graphic/profil.cpp:57-67 | 0 for an empty profile; otherwise the earliest instant, attained by a slice |
| Charts.ProfileTimesOrdered | src/graphic/profil.cpp:45-67 | The earliest instant is no later than the latest |
| Charts.HeldByMeans | src/graphic/profil.cpp:70-82 | A value is held exactly when one of the slices holds it |
| Charts.ProfileMax | src/graphic/profil.cpp:70-82 | 0 for an empty profile; not-a-number when every slice is empty; otherwise the largest value held |
| Charts.SliceMax | src/graphic/profil.cpp:77-79 | Folding one slice into the running maximum gives the larger of the two |
| Charts.MeanSlice | src/graphic/profil.cpp:24-36 | Each bin holds its sum divided by its count |
| Colors.StrFromColor | src/edit/color_delegate.cpp:39-46 | Six upper-case hexadecimal digits |
| Colors.PaddedDigits | src/edit/color_delegate.cpp:43-44 | Left padding with zeros gives exactly six hexadecimal digits, none in lower case |
| Colors.Packed | src/edit/color_delegate.cpp:41 | The packed value fits in 24 bits |
| Colors.TextValueIsPacked | src/edit/color_delegate.cpp:39-46 | The text's value is the packed colour |
| Colors.ParseHex | src/edit/color_delegate.cpp:35 | The parsed value fits in a `long` |
| Colors.StrToColor | src/edit/color_delegate.cpp:33-37 | Red, green and blue are bits 16-23, 8-15 and 0-7 of the parsed value |
| Colors.RoundTrip | src/edit/color_delegate.cpp:33-46 | Parsing the text of a colour gives the colour back |
| Colors.ValidTextRoundTrip | src/edit/color_delegate.cpp:26 | A text the validator accepts comes back upper-cased after parsing and printing |
| Colors.CanonicalText | src/edit/color_delegate.cpp:33-46 | Zero-padding the upper-case hex of a text's value gives the upper-cased text |
| Colors.BlackText | src/edit/color_delegate.cpp:39-46 | Black prints as "000000" |
| Colors.ToUpper | src/edit/color_delegate.cpp:43-44 | Upper-casing works character by character and keeps the length |
| Colors.ToHex | src/edit/color_delegate.cpp:43-44 | The digits are hexadecimal, at least one, and their value is the number |
| Editors.DrawList | src/edit/edit_withpolygone.cpp:52-58 | Every polygon but the selected one, in order; all of them when none is selected |
| Editors.SetPolygon | src/edit/edit_withpolygone.cpp:61-68 | The polygon handed to the editor is the selected one, or an empty one, with the list drawn around it |
| Editors.Modified | src/edit/edit_withpolygone.cpp:71-75 | The edited polygon replaces the selected one; nothing changes when none is selected |
| Editors.AddPolygon | src/edit/edit_withpolygone.cpp:78-82 | An empty polygon is appended and selected |
| Editors.RemovePolygon | src/edit/edit_withpolygone.cpp:85-91 | The selected polygon goes; the index steps back only from the last position |
| Editors.RemoveUndoesAdd | src/edit/edit_withpolygone.cpp:78-91 | Adding and then removing restores the list |
| Editors.ModifiedIsHidden | src/edit/edit_withpolygone.cpp:52-75 | Editing the selected polygon never changes the list drawn around it |
| Editors.RemoveAtIsPermutation | src/edit/edit_withpolygone.cpp:56 | Removing a position keeps all the other polygons, with their multiplicities |

## Left out

- Random placement of particles at population creation is left out, so `Driver.Restart` builds pistons and obstacles but no balls.
- The cubic and quartic solvers (the part of `src/math/solveur.cpp` after line 63) are left out. So are the curved-motion exit predictions under gravity. Their results enter as the parameters `quartic`, `curvedX`, `curvedY` and `curved`.
- The square root is a parameter. Properties that need it are stated for an exact root.
- Floating-point rounding is not modelled: doubles are reals. Not-a-number appears only in curve samples and `Profil::max`.
- Division by zero in the time predictions gives `never` in the model.
- Random draws (reaction probabilities, mutation delays) are parameters.
- `Handlers.Dispatch` is a ghost function. Its guard reads the graph invariant, which is ghost. So it instantiates the driver's contracts in proofs and is not passed to the driver's compiled methods.
- Handlers.Fire: a state the source never fires in (an unknown mobile, a non-positive grid step, rules naming missing populations, or a zero total mass) is left unchanged. The source would have undefined behaviour there.
- Predictions.ToTests: skips a pair candidate whose other mobile is not in the prediction graph. The source's grid lists only registered mobiles, so nothing is skipped when the grid and the graph agree.
- The multimap's insertion order for equal instants is modelled by increasing event handles (`nextEvent`).
- The dirty set and pending sets are visited in handle or id order, not pointer order.
- Colors.ParseHex: reads hex digits only. The source's base-16 conversion (`src/edit/color_delegate.cpp:35`) also accepts a sign or a `0x` prefix, but its only input has passed the six-hex-digit validator (`src/edit/color_delegate.cpp:26`), so those forms never reach it.
- `Driver.FireDue` visits the entries due when the sweep starts. The source's loop (`src/simul/simulateur.cpp:145`) would also visit an entry queued at the current instant during the sweep. No modelled handler queues one: `Handlers.Fire` is proved to queue only mutation timers, strictly after a finite now. An arbitrary `fire` parameter could queue one, and the model would then wait for the next `playNext`.
- A ball's self-erasing event is one atomic step.
- Driver.PlayToNextDraw: loops with a fuel bound rather than without limit.
- Driver.Restart: requires fewer than 2^32 mobile ids and a positive radius whenever there are populations.
- Links.Record: requires a non-default collision. The source also records the default collision for the first mobile at `src/simul/collision.cpp:156`, which no caller reaches.
- The curve and profile value computations, `Profil::minSlice`/`maxSlice` (`src/graphic/profil.cpp:85-114`), and the chart targets are left out.
- Speed, value and curve statistics that use `pow` are left out.
- The GUI, Qt painting, frame statistics, status text and stream output are left out.
- The unused area-rehash and consistency-check code at `src/simul/simulateur.cpp:412-493` is left out.
- Areas.AddObstacle: registers each edge with the corrected projection `Areas.AddSegment`, onto grid line (i+1)·size. The source projects onto i·size (`src/simul/state.cpp:106-117`; see Findings). The as-written cell list is `Areas.AddSegmentAsWritten`.
- Areas.ObstacleEdgesMeetTheirCells: holds for the corrected projection only. The source's projection registers stray cells (`Areas.AsWrittenRegistersStrayCell`).
- Areas.AddPolygons: built on `Areas.AddObstacle`, so its edges use the corrected projection, not the source's.
- Areas.AddObstacles: built on `Areas.AddObstacle`, so its edges use the corrected projection, not the source's.
- Driver.Ground: lays the walls with the corrected projection. The source's `src/simul/simulateur.cpp:314-349` projects onto i·size.
- Driver.Prepare: grounds through `Driver.Ground`, so the walls use the corrected projection.
- Driver.Restart: prepares through `Driver.Prepare`, so the walls use the corrected projection.
- Pistons.ChangeArea and the link handles (`Links.Detach`) are the corrected versions listed under Findings. So are the piston-piston contact time (`Physics.PistonPistonTouch`) and the handlers built on them.
- Handlers.PistonArea: re-registers the piston under its new rows through the corrected `Pistons.ChangeArea`. The source re-inserts it into the lists of its old rows (`src/simul/piston.cpp:154-179`; as written: `Pistons.ChangeAreaAsWritten`). `Handlers.Contact`, `Handlers.Fire` and `Handlers.Dispatch` inherit this.
- Predictions.PairTime: for two pistons it uses the corrected `Physics.PistonPistonTime`. The source's `Piston::collision(const Piston*)` computes the reversed quotient of `Physics.PistonPistonTimeAsWritten` (`src/simul/piston.cpp:52-66`). `Predictions.RelativeTime`, `Predictions.ToTests` and `Predictions.Predict` inherit this.
- Handlers.Mutate: uses the corrected `Populations.Remutate`, so a rule back into the particle's own population retires the fired timer and arms the next one. As written, the timer stays queued at the instant it fired (`Populations.SelfMutationKeepsTimer`; see Findings).

## Findings

| source | as written | input that shows it | evidently intended | confidence | as-written member | corrected member |
|---|---|---|---|---|---|---|
| src/simul/mobile.cpp:221-226 | `events.erase(*it)` runs before `copy->detach(this)`, so the partner's scan (`src/simul/mobile.cpp:149-159`, through `src/simul/collision.cpp:87-96`) compares against an erased entry | a pair collision pending for both mobiles, where the erased handle is the partner's first equal one | the partner drops the handle before the entry is erased | not executed | Links.EraseThenScanReadsErased | Links.Detach |
| src/simul/piston.cpp:52-66 | the closing speed is computed with its sign reversed, so approaching pistons get `never` | self at rest at y=2; other, 1 thick, rising from y=0 at speed 1: `never` is predicted, but contact comes at t=1 | the time at which the facing sides meet | not executed | Physics.PistonPistonAsWrittenMissesContact | Physics.PistonPistonTouch |
| src/simul/state.cpp:106-117 | each crossing is projected onto the grid line i·size instead of (i+1)·size; the same code is at `src/simul/simulateur.cpp:336-348` | segment (0.2,0.1)→(1.8,1.5), cell size 1: cell (0,−1) is registered, although the segment never meets it | register the cells on both sides of each grid line the segment crosses | not executed | Areas.AsWrittenRegistersStrayCell | Areas.CorrectedCellsMeetSegment |
| src/simul/piston.cpp:154-179 | after updating its rows, the piston is re-inserted under the old rows | a piston 0.5 thick at y=1 moving up from rows 0,1 takes rows 1,2, but stays listed in row 0 and is missing from row 2 | register the piston under its new rows | not executed | Pistons.AsWrittenMissesNewRow | Pistons.ChangeAreaKeepsRegistration |
| src/simul/boule.cpp:489-492 | `swap` returns at once when the destination is the particle's own population, before it erases the fired timer; `performBouleEvent` (`src/simul/simulateur.cpp:251-255`) returns false, so `refreshDrawings` does not erase the entry either | a mutation rule from population 0 to population 0 with delay 1: at t=1 the timer fires, stays queued at t=1, and the next `playNext` fires it again at t=1, without end | the fired timer leaves the queue (and the next one is armed) | not executed | Populations.SelfMutationKeepsTimer | Populations.RemutateRetiresTimer |

=== FILE: charts.dfy ===
/**
 The sample buffers behind the charts: a curve keeps one value per
 sampling instant, a profile keeps one slice (a map from a height bin to
 a value) per sampling instant. Both report the extent of what they hold
 so that the plots can be scaled.
 */
module Charts {
  import opened Times

  /** A double as the sampling code sees it: a number, or not-a-number. */
  datatype Double = Num(v: real) | NaN

  /** The samples of a curve, in the order they were pushed. */
  type Curve = seq<(Time, real)>

  /** The value of each height bin at one instant. */
  type Slice = map<int, real>

  /** The slices of a profile, in the order they were pushed. */
  type Profile = seq<(Time, Slice)>

  // ---------------------------------------------------------------------
  // Extremes of a sequence of instants

  /** Some instant of `ts` is `t`. */
  predicate Attained(ts: seq<Time>, t: Time)
  {
    exists i :: 0 <= i < |ts| && ts[i] == t
  }

  /**
   The latest of the instants, scanning from the first and keeping the
   current one unless a later one shows up.
   */
  function Latest(ts: seq<Time>): (r: Time)
    requires |ts| > 0
    ensures forall i :: 0 <= i < |ts| ==> LessEq(ts[i], r)
    ensures Attained(ts, r)
    decreases |ts|
  {
    if |ts| == 1 then ts[0]
    else
      var m := Latest(ts[..|ts| - 1]);
      assert forall i :: 0 <= i < |ts| - 1 ==> ts[..|ts| - 1][i] == ts[i];
      var last := ts[|ts| - 1];
      if Less(m, last) then last
      else
        LessEqIsLessOrEq(last, m);
        m
  }

  /** The earliest of the instants, scanning the same way. */
  function Soonest(ts: seq<Time>): (r: Time)
    requires |ts| > 0
    ensures forall i :: 0 <= i < |ts| ==> LessEq(r, ts[i])
    ensures Attained(ts, r)
    decreases |ts|
  {
    if |ts| == 1 then ts[0]
    else
      var m := Soonest(ts[..|ts| - 1]);
      assert forall i :: 0 <= i < |ts| - 1 ==> ts[..|ts| - 1][i] == ts[i];
      var last := ts[|ts| - 1];
      if Less(last, m) then last
      else
        LessEqIsLessOrEq(m, last);
        m
  }

  // ---------------------------------------------------------------------
  // Curves

  /** The instants of a curve or of a profile, in push order. */
  function Instants<T>(c: seq<(Time, T)>): (ts: seq<Time>)
    ensures |ts| == |c| && forall i :: 0 <= i < |c| ==> ts[i] == c[i].0
  {
    seq(|c|, i requires 0 <= i < |c| => c[i].0)
  }

  /** The values of a curve. */
  function CurveValues(c: Curve): (vs: seq<real>)
    ensures |vs| == |c| && forall i :: 0 <= i < |c| ==> vs[i] == c[i].1
  {
    seq(|c|, i requires 0 <= i < |c| => c[i].1)
  }

  /** `Courbe::push`: a number joins the end of the curve, not-a-number is dropped. */
  function PushSample(c: Curve, t: Time, x: Double): (r: Curve)
    ensures x.NaN? ==> r == c
    ensures x.Num? ==> |r| == |c| + 1 && r[|c|] == (t, x.v)
    ensures r[..|c|] == c
  {
    if x.NaN? then c else c + [(t, x.v)]
  }

  /**
   `Courbe::maxTime` and `Profil::maxTime`: 0 for an empty curve or
   profile, else its latest instant.
   */
  function MaxTime<T>(c: seq<(Time, T)>): (r: Time)
    ensures |c| == 0 ==> r == At(0.0)
    ensures |c| > 0 ==> (forall i :: 0 <= i < |c| ==> LessEq(c[i].0, r)) && exists i :: 0 <= i < |c| && c[i].0 == r
  {
    if |c| == 0 then At(0.0) else Latest(Instants(c))
  }

  /** `Profil::minTime`: 0 for an empty profile, else its earliest instant. */
  function MinTime<T>(c: seq<(Time, T)>): (r: Time)
    ensures |c| == 0 ==> r == At(0.0)
    ensures |c| > 0 ==> (forall i :: 0 <= i < |c| ==> LessEq(r, c[i].0)) && exists i :: 0 <= i < |c| && c[i].0 == r
  {
    if |c| == 0 then At(0.0) else Soonest(Instants(c))
  }

  /**
   `Courbe::max`: 0 for an empty curve, else its largest value, found by
   the same left-to-right scan as the source.
   */
  method CurveMax(c: Curve) returns (m: real)
    ensures |c| == 0 ==> m == 0.0
    ensures |c| > 0 ==> (forall i :: 0 <= i < |c| ==> c[i].1 <= m) && exists i :: 0 <= i < |c| && c[i].1 == m
  {
    if |c| == 0 {
      return 0.0;
    }
    m := c[0].1;
    ghost var at := 0;
    var i := 1;
    while i < |c|
      invariant 1 <= i <= |c|
      invariant forall k :: 0 <= k < i ==> c[k].1 <= m
      invariant 0 <= at < i && c[at].1 == m
    {
      if c[i].1 > m {
        m := c[i].1;
        at := i;
      }
      i := i + 1;
    }
  }

  /** `Courbe::min`: 0 for an empty curve, else its smallest value. */
  method CurveMin(c: Curve) returns (m: real)
    ensures |c| == 0 ==> m == 0.0
    ensures |c| > 0 ==> (forall i :: 0 <= i < |c| ==> m <= c[i].1) && exists i :: 0 <= i < |c| && c[i].1 == m
  {
    if |c| == 0 {
      return 0.0;
    }
    m := c[0].1;
    ghost var at := 0;
    var i := 1;
    while i < |c|
      invariant 1 <= i <= |c|
      invariant forall k :: 0 <= k < i ==> m <= c[k].1
      invariant 0 <= at < i && c[at].1 == m
    {
      if c[i].1 < m {
        m := c[i].1;
        at := i;
      }
      i := i + 1;
    }
  }

  /**
   Pushing a sample moves the latest instant of a non-empty curve to the
   later of the two, and leaves it alone when the sample is dropped.
   */
  lemma {:induction false} PushThenMaxTime(c: Curve, t: Time, x: Double)
    requires |c| > 0
    ensures x.NaN? ==> MaxTime(PushSample(c, t, x)) == MaxTime(c)
    ensures x.Num? ==> MaxTime(PushSample(c, t, x)) == if Less(MaxTime(c), t) then t else MaxTime(c)
  {
    if x.Num? {
      var r := PushSample(c, t, x);
      assert Instants(r)[..|c|] == Instants(c);
      assert Instants(r)[|c|] == t;
    }
  }

  // ---------------------------------------------------------------------
  // Profiles

  /** `Profil::push`: the slice joins the end of the profile. */
  function PushSlice(p: Profile, t: Time, s: Slice): (r: Profile)
    ensures |r| == |p| + 1 && r[..|p|] == p && r[|p|] == (t, s)
  {
    p + [(t, s)]
  }

  /** The earliest instant of a non-empty profile is never after its latest. */
  lemma ProfileTimesOrdered(p: Profile)
    requires |p| > 0
    ensures LessEq(MinTime(p), MaxTime(p))
  {
    var lo := MinTime(p);
    var i :| 0 <= i < |p| && p[i].0 == lo;
    assert LessEq(p[i].0, MaxTime(p));
  }

  /** Every value held by the first `n` slices. */
  function HeldBy(p: Profile, n: nat): set<real>
    requires n <= |p|
  {
    if n == 0 then {} else HeldBy(p, n - 1) + p[n - 1].1.Values
  }

  /** A value is held by the first `n` slices exactly when one of them holds it. */
  lemma {:induction false} HeldByMeans(p: Profile, n: nat, x: real)
    requires n <= |p|
    ensures x in HeldBy(p, n) <==> exists i :: 0 <= i < n && x in p[i].1.Values
  {
    if n > 0 {
      HeldByMeans(p, n - 1, x);
      if x in p[n - 1].1.Values {
        assert 0 <= n - 1 < n;
      }
    }
  }

  /**
   `Profil::max`: 0 for an empty profile; otherwise the scan starts from
   not-a-number and takes the first value it meets, then every larger
   one, so it ends with the largest value held, or with not-a-number
   when every slice is empty.
   */
  method ProfileMax(p: Profile) returns (m: Double)
    ensures |p| == 0 ==> m == Num(0.0)
    ensures |p| > 0 && HeldBy(p, |p|) == {} ==> m == NaN
    ensures HeldBy(p, |p|) != {} ==> m.Num? && m.v in HeldBy(p, |p|) && forall x :: x in HeldBy(p, |p|) ==> x <= m.v
  {
    if |p| == 0 {
      return Num(0.0);
    }
    m := NaN;
    var i := 0;
    while i < |p|
      invariant 0 <= i <= |p|
      invariant m.NaN? <==> HeldBy(p, i) == {}
      invariant m.Num? ==> m.v in HeldBy(p, i) && forall x :: x in HeldBy(p, i) ==> x <= m.v
    {
      m := SliceMax(p[i].1, m);
      assert HeldBy(p, i + 1) == HeldBy(p, i) + p[i].1.Values;
      i := i + 1;
    }
  }

  /** The inner loop of `Profil::max`: one slice folded into the running maximum. */
  method SliceMax(s: Slice, m0: Double) returns (m: Double)
    ensures m.NaN? <==> m0.NaN? && s.Values == {}
    ensures m.Num? ==> (m.v in s.Values || (m0.Num? && m.v == m0.v))
    ensures m.Num? ==> (forall x :: x in s.Values ==> x <= m.v) && (m0.Num? ==> m0.v <= m.v)
  {
    m := m0;
    var todo := s.Values;
    var done: set<real> := {};
    while todo != {}
      invariant done + todo == s.Values && done !! todo
      invariant m.NaN? <==> m0.NaN? && done == {}
      invariant m.Num? ==> (m.v in done || (m0.Num? && m.v == m0.v))
      invariant m.Num? ==> (forall x :: x in done ==> x <= m.v) && (m0.Num? ==> m0.v <= m.v)
      decreases |todo|
    {
      if forall v :: v !in todo {
        assert false;
      }
      var y :| y in todo;
      if m.NaN? || y > m.v {
        m := Num(y);
      }
      todo := todo - {y};
      done := done + {y};
    }
  }

  /**
   The mean mode of `Profil::push`: each bin's sum divided by the number
   of values that went into it. Every bin that has a sum has a count of
   at least one, since a bin's sum and its count are created together.
   */
  function MeanSlice(sums: Slice, counts: map<int, nat>): (r: Slice)
    requires forall k :: k in sums ==> k in counts && counts[k] >= 1
    ensures r.Keys == sums.Keys
    ensures forall k :: k in r ==> r[k] * counts[k] as real == sums[k]
  {
    map k | k in sums :: sums[k] / counts[k] as real
  }
}

=== FILE: colors.dfy ===
/**
 Colours as three 8-bit channels and the editor's textual form: six
 hexadecimal digits RRGGBB, printed in upper case and left-padded with
 '0', and parsed back by reading the string as a base-16 number and
 masking out the three bytes.
 */
module Colors {

  type Channel = n: int | 0 <= n < 256

  datatype Color = Color(red: Channel, green: Channel, blue: Channel)

  function Black(): Color { Color(0, 0, 0) }

  function White(): Color { Color(255, 255, 255) }

  /** Number of digits the editor's text field accepts. */
  const Width: nat := 6

  /** Largest value a signed 64-bit `long` holds: larger numbers make the conversion fail. */
  const LongMax: int := 0x7FFF_FFFF_FFFF_FFFF

  predicate IsHexDigit(c: char)
  {
    ('0' <= c <= '9') || ('a' <= c <= 'f') || ('A' <= c <= 'F')
  }

  /** The editor's validator: exactly six characters out of 0-9, a-f, A-F. */
  predicate Valid(s: string)
  {
    |s| == Width && forall i :: 0 <= i < |s| ==> IsHexDigit(s[i])
  }

  function DigitValue(c: char): (d: nat)
    requires IsHexDigit(c)
    ensures d < 16
  {
    if '0' <= c <= '9' then c as nat - '0' as nat
    else if 'a' <= c <= 'f' then c as nat - 'a' as nat + 10
    else c as nat - 'A' as nat + 10
  }

  /** Lower-case digit for 0..15, as the base-16 number printer writes it. */
  function LowerDigit(d: nat): (c: char)
    requires d < 16
    ensures IsHexDigit(c) && DigitValue(c) == d
  {
    if d < 10 then ('0' as nat + d) as char else ('a' as nat + d - 10) as char
  }

  /** Upper-casing of one character: only a-z change. */
  function ToUpperChar(c: char): (u: char)
    ensures IsHexDigit(c) ==> IsHexDigit(u) && DigitValue(u) == DigitValue(c)
    ensures !('a' <= u <= 'z')
    ensures !('a' <= c <= 'z') ==> u == c
  {
    if 'a' <= c <= 'z' then (c as int - 32) as char else c
  }

  function ToUpper(s: string): (u: string)
    ensures |u| == |s|
    ensures forall i :: 0 <= i < |s| ==> u[i] == ToUpperChar(s[i])
  {
    if |s| == 0 then [] else ToUpper(s[..|s| - 1]) + [ToUpperChar(s[|s| - 1])]
  }

  /** Value of a string of hex digits, most significant first. */
  function DigitsValue(s: string): nat
    requires forall i :: 0 <= i < |s| ==> IsHexDigit(s[i])
  {
    if |s| == 0 then 0 else DigitsValue(s[..|s| - 1]) * 16 + DigitValue(s[|s| - 1])
  }

  /** Base-16 text of n without leading zeros ("0" for zero), lower case. */
  function ToHex(n: nat): (s: string)
    ensures 1 <= |s|
    ensures forall i :: 0 <= i < |s| ==> IsHexDigit(s[i])
    ensures DigitsValue(s) == n
  {
    if n < 16 then [LowerDigit(n)]
    else
      var s := ToHex(n / 16) + [LowerDigit(n % 16)];
      assert s[..|s| - 1] == ToHex(n / 16);
      s
  }

  /** k copies of '0'. */
  function Zeros(k: nat): (z: string)
    ensures |z| == k
    ensures forall i :: 0 <= i < k ==> z[i] == '0'
  {
    seq(k, _ => '0')
  }

  /** Prepends '0' until the text is six characters long. */
  function PadLeft(s: string): (r: string)
    ensures |s| < Width ==> r == Zeros(Width - |s|) + s
    ensures |s| >= Width ==> r == s
    decreases Width - |s|
  {
    if |s| < Width then
      var r := PadLeft(['0'] + s);
      assert Zeros(Width - |s| - 1) + (['0'] + s) == Zeros(Width - |s|) + s;
      r
    else s
  }

  /** The packed 24-bit value red * 2^16 + green * 2^8 + blue. */
  function Packed(c: Color): (v: nat)
    ensures v < 0x100_0000
  {
    c.red * 0x1_0000 + c.green * 0x100 + c.blue
  }

  /** The text shown for a colour: the packed value in hex, upper case, padded to six digits. */
  function StrFromColor(c: Color): (s: string)
    ensures Valid(s)
    ensures forall i :: 0 <= i < |s| ==> !('a' <= s[i] <= 'z')
  {
    var u := ToUpper(ToHex(Packed(c)));
    HexLength(Packed(c));
    PaddedDigits(u);
    PadLeft(u)
  }

  /** Padding a short upper-case digit string gives six upper-case digits. */
  lemma PaddedDigits(u: string)
    requires |u| <= Width
    requires forall i :: 0 <= i < |u| ==> IsHexDigit(u[i]) && !('a' <= u[i] <= 'z')
    ensures Valid(PadLeft(u))
    ensures forall i :: 0 <= i < Width ==> !('a' <= PadLeft(u)[i] <= 'z')
  {
    var r := PadLeft(u);
    if |u| < Width {
      var z := Zeros(Width - |u|);
      assert r == z + u;
      forall i | 0 <= i < Width
        ensures IsHexDigit(r[i]) && !('a' <= r[i] <= 'z')
      {
        if i < |z| {
          assert r[i] == z[i];
        } else {
          assert r[i] == u[i - |z|];
        }
      }
    }
  }

  /**
   The string read as a base-16 number of hex digits only: 0 when it is
   empty, holds a non-digit, or does not fit a signed 64-bit long (the
   conversion's failure value). The conversion itself would also accept
   a sign or a `0x` prefix; the only caller's text has already passed the
   six-hex-digit validator of the colour editor, so those forms never
   reach it and are not modelled.
   */
  function ParseHex(s: string): (n: nat)
    ensures n <= LongMax
  {
    if |s| > 0 && (forall i :: 0 <= i < |s| ==> IsHexDigit(s[i])) && DigitsValue(s) <= LongMax
    then DigitsValue(s) else 0
  }

  /** The colour for a text: red from bits 16-23, green from bits 8-15, blue from bits 0-7. */
  function StrToColor(s: string): (c: Color)
    ensures c.red == ParseHex(s) / 0x1_0000 % 0x100
    ensures c.green == ParseHex(s) / 0x100 % 0x100
    ensures c.blue == ParseHex(s) % 0x100
  {
    var n := ParseHex(s) % 0x1_0000_0000;
    ShiftMask(ParseHex(s));
    Color(n / 0x1_0000 % 0x100, n / 0x100 % 0x100, n % 0x100)
  }

  /** Truncating to 32 bits does not change the three low bytes. */
  lemma ShiftMask(v: nat)
    ensures v % 0x1_0000_0000 / 0x1_0000 % 0x100 == v / 0x1_0000 % 0x100
    ensures v % 0x1_0000_0000 / 0x100 % 0x100 == v / 0x100 % 0x100
    ensures v % 0x1_0000_0000 % 0x100 == v % 0x100
  {
    ShiftMaskHigh(v);
    ShiftMaskMiddle(v);
  }

  lemma ShiftMaskHigh(v: nat)
    ensures v % 0x1_0000_0000 / 0x1_0000 % 0x100 == v / 0x1_0000 % 0x100
  {
    var q := v / 0x1_0000_0000;
    var w := v % 0x1_0000_0000;
    var a := w / 0x1_0000;
    DivUnique(v, 0x1_0000, q * 0x1_0000 + a, w % 0x1_0000);
    DivUnique(q * 0x1_0000 + a, 0x100, q * 0x100 + a / 0x100, a % 0x100);
  }

  lemma ShiftMaskMiddle(v: nat)
    ensures v % 0x1_0000_0000 / 0x100 % 0x100 == v / 0x100 % 0x100
  {
    var q := v / 0x1_0000_0000;
    var w := v % 0x1_0000_0000;
    var a := w / 0x100;
    DivUnique(v, 0x100, q * 0x100_0000 + a, w % 0x100);
    DivUnique(q * 0x100_0000 + a, 0x100, q * 0x1_0000 + a / 0x100, a % 0x100);
  }

  /** Division is determined by a quotient and an in-range remainder. */
  lemma DivUnique(v: int, d: int, q: int, r: int)
    requires d > 0 && 0 <= r < d && v == q * d + r
    ensures v / d == q && v % d == r
  {
    var q', r' := v / d, v % d;
    assert (q - q') * d == r' - r;
    if q > q' {
      MulAtLeast(q - q', d);
    } else if q < q' {
      MulAtLeast(q' - q, d);
    }
  }

  lemma MulAtLeast(x: int, d: int)
    requires x >= 1 && d > 0
    ensures x * d >= d
  {
  }

  /** Hex text of a number below 16^6 has at most six digits. */
  lemma HexLength(n: nat)
    ensures n < 0x100_0000 ==> |ToHex(n)| <= Width
  {
    if n < 0x100_0000 {
      assert Pow16(6) == 0x100_0000 by {
        assert Pow16(1) == 16;
        assert Pow16(2) == 0x100;
        assert Pow16(3) == 0x1000;
        assert Pow16(4) == 0x1_0000;
        assert Pow16(5) == 0x10_0000;
      }
      HexLengthBelow(n, Width);
    }
  }

  /** 16 to the power k. */
  function Pow16(k: nat): nat
  {
    if k == 0 then 1 else 16 * Pow16(k - 1)
  }

  /** A number below 16^k (k >= 1) prints with at most k digits. */
  lemma {:induction false} HexLengthBelow(n: nat, k: nat)
    requires 1 <= k && n < Pow16(k)
    ensures |ToHex(n)| <= k
  {
    if n >= 16 {
      assert k >= 2;
      HexLengthBelow(n / 16, k - 1);
    }
  }

  /** Leading zeros do not change a digit string's value. */
  lemma {:induction false} LeadingZeros(s: string, k: nat)
    requires k <= |s|
    requires forall i :: 0 <= i < |s| ==> IsHexDigit(s[i])
    requires forall i :: 0 <= i < k ==> s[i] == '0'
    ensures DigitsValue(s) == DigitsValue(s[k..])
  {
    if k < |s| {
      var p := s[..|s| - 1];
      LeadingZeros(p, k);
      assert p[k..] == s[k..][..|s[k..]| - 1];
    } else {
      AllZeros(s);
    }
  }

  lemma {:induction false} AllZeros(s: string)
    requires forall i :: 0 <= i < |s| ==> s[i] == '0'
    ensures forall i :: 0 <= i < |s| ==> IsHexDigit(s[i])
    ensures DigitsValue(s) == 0
  {
    if |s| > 0 {
      AllZeros(s[..|s| - 1]);
    }
  }

  /** Upper-casing keeps a digit string's value. */
  lemma {:induction false} UpperKeepsValue(s: string)
    requires forall i :: 0 <= i < |s| ==> IsHexDigit(s[i])
    ensures forall i :: 0 <= i < |s| ==> IsHexDigit(ToUpper(s)[i])
    ensures DigitsValue(ToUpper(s)) == DigitsValue(s)
  {
    if |s| > 0 {
      UpperKeepsValue(s[..|s| - 1]);
      assert ToUpper(s)[..|s| - 1] == ToUpper(s[..|s| - 1]);
    }
  }

  /** The printed text of a colour reads back as its packed value. */
  lemma TextValueIsPacked(c: Color)
    ensures forall i :: 0 <= i < |StrFromColor(c)| ==> IsHexDigit(StrFromColor(c)[i])
    ensures DigitsValue(StrFromColor(c)) == Packed(c)
  {
    var hex := ToHex(Packed(c));
    HexLength(Packed(c));
    UpperKeepsValue(hex);
    var u := ToUpper(hex);
    var s := StrFromColor(c);
    assert s == PadLeft(u);
    var k := Width - |u|;
    assert s[k..] == u;
    LeadingZeros(s, k);
  }

  /** Packing is undone by the shifts and masks. */
  lemma UnpackPacked(c: Color)
    ensures Packed(c) / 0x1_0000 % 0x100 == c.red
    ensures Packed(c) / 0x100 % 0x100 == c.green
    ensures Packed(c) % 0x100 == c.blue
  {
    var v := Packed(c);
    assert v == c.red * 0x1_0000 + (c.green * 0x100 + c.blue);
    assert c.green * 0x100 + c.blue < 0x1_0000;
    assert v / 0x1_0000 == c.red;
    assert v == (c.red * 0x100 + c.green) * 0x100 + c.blue;
    assert v / 0x100 == c.red * 0x100 + c.green;
  }

  /** Parsing the printed text gives back the colour, for every colour. */
  lemma RoundTrip(c: Color)
    ensures StrToColor(StrFromColor(c)) == c
  {
    TextValueIsPacked(c);
    UnpackPacked(c);
    assert ParseHex(StrFromColor(c)) == Packed(c);
  }

  /** Five pad characters before a lone "0" give six zeros. */
  lemma PaddedZero(u: string)
    requires u == "0"
    ensures Zeros(5) + u == "000000"
  {
    var s := Zeros(5) + u;
    assert s[0] == '0' && s[5] == '0';
  }

  /** Black prints as six zeros. */
  lemma BlackText()
    ensures StrFromColor(Black()) == "000000"
  {
    BlackTextOfZero(Black());
  }

  lemma BlackTextOfZero(c: Color)
    requires Packed(c) == 0
    ensures StrFromColor(c) == "000000"
  {
    ZeroText();
  }

  /** The text of the packed value 0. */
  lemma ZeroText()
    ensures PadLeft(ToUpper(ToHex(0))) == "000000"
  {
    var u := ToUpper(ToHex(0));
    assert u == "0";
    PaddedZero(u);
  }

  /** Two digit characters of equal value upper-case to the same character. */
  lemma SameDigitUpper(a: char, b: char)
    requires IsHexDigit(a) && IsHexDigit(b) && DigitValue(a) == DigitValue(b)
    ensures ToUpperChar(a) == ToUpperChar(b)
  {
  }

  /** A digit string of value 0 is all zeros. */
  lemma {:induction false} ZeroValueIsZeros(t: string)
    requires forall i :: 0 <= i < |t| ==> IsHexDigit(t[i])
    requires DigitsValue(t) == 0
    ensures forall i :: 0 <= i < |t| ==> t[i] == '0'
  {
    if |t| > 0 {
      ZeroValueIsZeros(t[..|t| - 1]);
      assert forall i :: 0 <= i < |t| - 1 ==> t[i] == t[..|t| - 1][i];
    }
  }

  /**
   The canonical text of a digit string's value, padded back to the
   string's length, is the string itself in upper case.
   */
  lemma {:induction false} CanonicalText(t: string)
    requires 1 <= |t|
    requires forall i :: 0 <= i < |t| ==> IsHexDigit(t[i])
    ensures |ToHex(DigitsValue(t))| <= |t|
    ensures Zeros(|t| - |ToHex(DigitsValue(t))|) + ToUpper(ToHex(DigitsValue(t))) == ToUpper(t)
  {
    if DigitsValue(t) < 16 {
      CanonicalSingleDigit(t);
    } else {
      CanonicalText(t[..|t| - 1]);
      CanonicalStep(t);
    }
  }

  /** `CanonicalText` for a string of value below 16: leading zeros and one digit. */
  lemma CanonicalSingleDigit(t: string)
    requires 1 <= |t|
    requires forall i :: 0 <= i < |t| ==> IsHexDigit(t[i])
    requires DigitsValue(t) < 16
    ensures |ToHex(DigitsValue(t))| <= |t|
    ensures Zeros(|t| - |ToHex(DigitsValue(t))|) + ToUpper(ToHex(DigitsValue(t))) == ToUpper(t)
  {
    var p := t[..|t| - 1];
    var d := t[|t| - 1];
    var v := DigitsValue(t);
    assert ToUpper(t) == ToUpper(p) + [ToUpperChar(d)];
    assert DigitsValue(p) == 0;
    ZeroValueIsZeros(p);
    assert ToHex(v) == [LowerDigit(v)];
    SameDigitUpper(LowerDigit(v), d);
    assert ToUpper(p) == Zeros(|p|);
  }

  /** `CanonicalText` for a string of value at least 16, from the property for its prefix. */
  lemma CanonicalStep(t: string)
    requires 2 <= |t|
    requires forall i :: 0 <= i < |t| ==> IsHexDigit(t[i])
    requires DigitsValue(t) >= 16
    requires var p := t[..|t| - 1];
      |ToHex(DigitsValue(p))| <= |p|
      && Zeros(|p| - |ToHex(DigitsValue(p))|) + ToUpper(ToHex(DigitsValue(p))) == ToUpper(p)
    ensures |ToHex(DigitsValue(t))| <= |t|
    ensures Zeros(|t| - |ToHex(DigitsValue(t))|) + ToUpper(ToHex(DigitsValue(t))) == ToUpper(t)
  {
    var p := t[..|t| - 1];
    var d := t[|t| - 1];
    HexOfLastDigit(t);
    SameDigitUpper(LowerDigit(DigitValue(d)), d);
    SplitLast(t);
    PaddedSnoc(t, p, d, ToHex(DigitsValue(t)), ToHex(DigitsValue(p)), LowerDigit(DigitValue(d)));
  }

  /** The hex text of a digit string's value ends with the string's last digit, in lower case. */
  lemma HexOfLastDigit(t: string)
    requires 2 <= |t|
    requires forall i :: 0 <= i < |t| ==> IsHexDigit(t[i])
    requires DigitsValue(t) >= 16
    ensures ToHex(DigitsValue(t)) == ToHex(DigitsValue(t[..|t| - 1])) + [LowerDigit(DigitValue(t[|t| - 1]))]
  {
    DigitsValueLast(t);
    DigitSplit(DigitsValue(t[..|t| - 1]), DigitValue(t[|t| - 1]));
    ToHexStep(DigitsValue(t));
  }

  /** Zero padding of h to the length of p, extended by one matching character on both sides. */
  lemma PaddedSnoc(t: string, p: string, d: char, hv: string, h: string, l: char)
    requires t == p + [d] && hv == h + [l]
    requires ToUpperChar(l) == ToUpperChar(d)
    requires |h| <= |p|
    requires Zeros(|p| - |h|) + ToUpper(h) == ToUpper(p)
    ensures |hv| <= |t|
    ensures Zeros(|t| - |hv|) + ToUpper(hv) == ToUpper(t)
  {
    UpperSnoc(h, l);
    UpperSnoc(p, d);
    AppendBoth(Zeros(|t| - |hv|), ToUpper(hv), ToUpper(t), Zeros(|p| - |h|), ToUpper(h), ToUpper(p), ToUpperChar(d));
  }

  /** Upper-casing distributes over appending one character. */
  lemma UpperSnoc(h: string, x: char)
    ensures ToUpper(h + [x]) == ToUpper(h) + [ToUpperChar(x)]
  {
    assert (h + [x])[..|h|] == h;
  }

  lemma SplitLast(t: string)
    requires 1 <= |t|
    ensures t[..|t| - 1] + [t[|t| - 1]] == t
  {
  }

  /** If z + a == b then appending c to a and to b keeps them matched. */
  lemma AppendBoth(zt: string, at: string, bt: string, z: string, a: string, b: string, c: char)
    requires z + a == b
    requires zt == z && at == a + [c] && bt == b + [c]
    ensures zt + at == bt
  {
  }

  lemma DigitsValueLast(t: string)
    requires 1 <= |t|
    requires forall i :: 0 <= i < |t| ==> IsHexDigit(t[i])
    ensures DigitsValue(t) == DigitsValue(t[..|t| - 1]) * 16 + DigitValue(t[|t| - 1])
  {
  }

  lemma ToHexStep(v: nat)
    requires v >= 16
    ensures ToHex(v) == ToHex(v / 16) + [LowerDigit(v % 16)]
  {
  }

  lemma DigitSplit(w: nat, d: nat)
    requires d < 16
    ensures (w * 16 + d) / 16 == w && (w * 16 + d) % 16 == d
  {
  }

  /** Six digits are worth less than 2^24. */
  lemma {:induction false} SixDigitsBound(t: string)
    requires forall i :: 0 <= i < |t| ==> IsHexDigit(t[i])
    ensures DigitsValue(t) < Pow16(|t|)
  {
    if |t| > 0 {
      SixDigitsBound(t[..|t| - 1]);
    }
  }

  /** Splitting a 24-bit value into bytes and packing them back gives the value. */
  lemma RepackBytes(v: nat)
    requires v < 0x100_0000
    ensures v / 0x1_0000 % 0x100 * 0x1_0000 + v / 0x100 % 0x100 * 0x100 + v % 0x100 == v
  {
    assert v / 0x1_0000 < 0x100;
    assert v / 0x100 == v / 0x1_0000 * 0x100 + v / 0x100 % 0x100;
  }

  /**
   Printing the colour parsed from a valid text gives the text back in
   upper case: on the editor's six-digit strings the two conversions are
   mutually inverse up to letter case.
   */
  lemma ValidTextRoundTrip(s: string)
    requires Valid(s)
    ensures StrFromColor(StrToColor(s)) == ToUpper(s)
  {
    var v := DigitsValue(s);
    SixDigitsBound(s);
    assert Pow16(6) == 0x100_0000 by {
      assert Pow16(1) == 16;
      assert Pow16(2) == 0x100;
      assert Pow16(3) == 0x1000;
      assert Pow16(4) == 0x1_0000;
      assert Pow16(5) == 0x10_0000;
    }
    assert ParseHex(s) == v;
    var c := StrToColor(s);
    RepackBytes(v);
    assert Packed(c) == v;
    CanonicalText(s);
    var u := ToUpper(ToHex(v));
    if |u| < Width {
      assert StrFromColor(c) == Zeros(Width - |u|) + u;
    } else {
      assert Zeros(0) + u == u;
    }
  }
}

=== FILE: config.dfy ===
/**
 The simulation's configuration: particle populations, pistons,
 obstacles and the enclosing contour, chart settings, reaction and
 mutation rules, and gravity; with the values derived from it (whether a
 simulation can start, the broad-phase grid step) and the reset to an
 empty configuration.
 */
module Configs {
  import opened Geometry
  import opened Polygons
  import opened Colors

  /** 2^32: the population sizes are 32-bit unsigned integers. */
  const TwoTo32: nat := 0x1_0000_0000

  type U32 = n: int | 0 <= n < 0x1_0000_0000

  /** A population of `size` particles of one radius and mass, placed in `area`. */
  datatype PopulationConfig = PopulationConfig(
    size: U32, radius: real, mass: real, color: Color, area: Polygon, speed: real)

  /** A horizontal piston: its y position and y velocity, mass and thickness. */
  datatype PistonConfig = PistonConfig(
    position: real, speed: real, color: Color, mass: real, thickness: real)

  /** How a reaction decides to fire: always, by a probability draw, or by an energy threshold. */
  datatype ReactionKind = Always | Probability | Energy

  /**
   When particles of populations pop1 and pop2 collide they become
   dest1 and dest2 (dest1 for the one that was in pop1).
   */
  datatype ReactionConfig = ReactionConfig(
    pop1: nat, pop2: nat, kind: ReactionKind, threshold: real, dest1: nat, dest2: nat)

  /** A fixed delay, or an exponentially distributed one of mean `tau`. */
  datatype MutationKind = Delay | Random

  /** A particle of population pop1 spontaneously becomes pop2 after a delay set by `tau`. */
  datatype MutationConfig = MutationConfig(pop1: nat, pop2: nat, kind: MutationKind, tau: real)

  /** A polygonal obstacle and its colour. */
  datatype Obstacle = Obstacle(vertices: Polygon, color: Color)

  /** Settings of one chart or profile; carried along, not interpreted by the engine. */
  datatype ChartConfig = ChartConfig(settings: string)

  datatype Configuration = Configuration(
    populations: seq<PopulationConfig>,
    pistons: seq<PistonConfig>,
    obstacles: seq<Obstacle>,
    contour: Obstacle,
    curves: seq<ChartConfig>,
    profiles: seq<ChartConfig>,
    reactions: seq<ReactionConfig>,
    mutations: seq<MutationConfig>,
    gravity: Vec)

  /** An obstacle with no vertices, white: what a reset obstacle becomes. */
  function EmptyObstacle(): (o: Obstacle)
    ensures Size(o.vertices) == 0
  {
    Obstacle(Polygon([]), White())
  }

  /** Clears an obstacle: no vertices, white. */
  function ResetObstacle(o: Obstacle): (r: Obstacle)
    ensures r == EmptyObstacle()
    ensures r.vertices == Clear(o.vertices)
  {
    Obstacle(Clear(o.vertices), White())
  }

  /** Exact (unbounded) total number of particles. */
  function TotalSize(pops: seq<PopulationConfig>): nat
  {
    if |pops| == 0 then 0 else TotalSize(pops[..|pops| - 1]) + pops[|pops| - 1].size
  }

  /**
   Whether a simulation can start: the 32-bit sum of the population
   sizes is non-zero. The sum wraps modulo 2^32 as the source's unsigned
   counter does.
   */
  method Check(c: Configuration) returns (ok: bool)
    ensures ok <==> TotalSize(c.populations) % TwoTo32 != 0
  {
    var count: U32 := 0;
    var i := 0;
    while i < |c.populations|
      invariant 0 <= i <= |c.populations|
      invariant count == TotalSize(c.populations[..i]) % TwoTo32
    {
      assert c.populations[..i + 1][..i] == c.populations[..i];
      count := (count + c.populations[i].size) % TwoTo32;
      i := i + 1;
    }
    assert c.populations[..i] == c.populations;
    ok := count != 0;
  }

  /** Without wrap-around, the check holds exactly when some population is non-empty. */
  lemma {:induction false} CheckMeansSomeParticle(pops: seq<PopulationConfig>)
    requires TotalSize(pops) < TwoTo32
    ensures TotalSize(pops) % TwoTo32 != 0 <==> exists i :: 0 <= i < |pops| && pops[i].size > 0
  {
    if |pops| > 0 {
      var init := pops[..|pops| - 1];
      CheckMeansSomeParticle(init);
      if TotalSize(init) == 0 && pops[|pops| - 1].size == 0 {
        forall i | 0 <= i < |pops|
          ensures pops[i].size == 0
        {
          if i < |pops| - 1 { assert pops[i] == init[i]; }
        }
      }
      if TotalSize(init) > 0 {
        var j :| 0 <= j < |init| && init[j].size > 0;
        assert pops[j] == init[j];
      }
    }
  }

  /**
   The wrap-around is observable: 2^32 - 1 particles plus one more sum
   to 0 modulo 2^32, and the configuration is refused.
   */
  lemma WrapAroundRefuses(a: PopulationConfig, b: PopulationConfig)
    requires a.size == TwoTo32 - 1 && b.size == 1
    ensures TotalSize([a, b]) % TwoTo32 == 0
  {
    assert [a, b][..1] == [a];
    assert [a][..0] == [];
    assert TotalSize([a]) == a.size;
    assert TotalSize([a, b]) == TwoTo32;
  }

  /**
   Step of the broad-phase grid: 1 without populations, otherwise 2.5
   times the largest radius (radii below 0 count as 0), so a cell is wider
   than any particle's diameter.
   */
  method SizeArea(c: Configuration) returns (size: real)
    ensures |c.populations| == 0 ==> size == 1.0
    ensures |c.populations| > 0 ==> size >= 0.0
    ensures |c.populations| > 0 ==> forall i :: 0 <= i < |c.populations| ==> size >= 2.5 * c.populations[i].radius
    ensures |c.populations| > 0 && size > 0.0 ==> exists i :: 0 <= i < |c.populations| && size == 2.5 * c.populations[i].radius
  {
    if |c.populations| == 0 {
      return 1.0;
    }
    var largest := 0.0;
    var i := 0;
    while i < |c.populations|
      invariant 0 <= i <= |c.populations|
      invariant largest >= 0.0
      invariant forall k :: 0 <= k < i ==> largest >= c.populations[k].radius
      invariant largest > 0.0 ==> exists k :: 0 <= k < i && largest == c.populations[k].radius
    {
      if c.populations[i].radius > largest {
        largest := c.populations[i].radius;
      }
      i := i + 1;
    }
    size := largest * 2.5;
  }

  /**
   Empties every list and the contour; gravity is the one setting that
   survives a reset.
   */
  function Reset(c: Configuration): (r: Configuration)
    ensures r.populations == [] && r.pistons == [] && r.obstacles == []
    ensures r.curves == [] && r.profiles == [] && r.reactions == [] && r.mutations == []
    ensures Size(r.contour.vertices) == 0
    ensures r.gravity == c.gravity
  {
    c.(populations := [], pistons := [], obstacles := [], contour := ResetObstacle(c.contour),
       curves := [], profiles := [], reactions := [], mutations := [])
  }

  /**
   A reset configuration is refused by the check, resetting twice is
   resetting once, and the result depends on the old configuration only
   through gravity.
   */
  lemma ResetIsCanonical(c: Configuration, d: Configuration)
    ensures TotalSize(Reset(c).populations) % TwoTo32 == 0
    ensures Reset(Reset(c)) == Reset(c)
    ensures c.gravity == d.gravity ==> Reset(c) == Reset(d)
  {
  }
}

=== FILE: driver.dfy ===
/**
 The tick driver of the simulator: the simulation state, the free flight
 of every mobile up to the next instant, the sweep over the entries due
 at that instant, the periodic drawing, sampling and plotting entries,
 and the recomputation of stale predictions. What a collision or a
 mutation timer does to the state is the `fire` parameter, and which
 tests a mobile runs when it is recomputed is the `predict` parameter.
 */
module Driver {
  import opened Times
  import opened Geometry
  import opened Events
  import opened Links
  import opened Configs
  import Areas
  import Particles
  import Pistons
  import Populations
  import Physics
  import opened Polygons

  /** A period of a recurring entry; the source's periods are powers of ten, hence positive. */
  type Period = r: real | r > 0.0 witness 1.0

  /** The periods of the drawing, sampling and plotting entries. */
  datatype Steps = Steps(draw: Period, sample: Period, plot: Period)

  /**
   The simulation: the clock, the prediction graph (which holds the
   queue), the mobiles, the populations, the grid and its step, the
   mobiles awaiting a new prediction, the collision and study counters,
   and how many mobiles were ever constructed (the shared id counter).
   */
  datatype Sim = Sim(
    now: Time,
    graph: Graph,
    balls: map<MobileId, Particles.Particle>,
    pistons: map<MobileId, Pistons.Piston>,
    pops: seq<Populations.Population>,
    grid: Areas.Grid,
    size: real,
    dirty: set<MobileId>,
    chocs: U32,
    studies: Studies,
    total: U32,
    built: nat)

  /** A known particle. */
  predicate IsBall(s: Sim, a: MobileId)
  {
    a in s.graph.nodes && a in s.balls && a !in s.pistons
  }

  /** A known piston. */
  predicate IsPiston(s: Sim, a: MobileId)
  {
    a in s.graph.nodes && a in s.pistons && a !in s.balls
  }

  /** What a collision or a mutation timer does when it fires. */
  type Handler = (Sim, Event) -> Sim

  /** The candidate tests of a mobile whose prediction is recomputed. */
  type Predictor = (Sim, MobileId) -> seq<Test>

  /** The entries that `addEvent` puts back: drawing, sampling, plotting. */
  predicate Periodic(e: Event)
  {
    e.Draw? || e.Sample? || e.Plot?
  }

  /** The period of a recurring entry. */
  function PeriodOf(steps: Steps, e: Event): (p: Period)
    requires Periodic(e)
    ensures e.Draw? ==> p == steps.draw
    ensures e.Sample? ==> p == steps.sample
    ensures e.Plot? ==> p == steps.plot
  {
    if e.Draw? then steps.draw else if e.Sample? then steps.sample else steps.plot
  }

  /** The graph is consistent and only known mobiles await a new prediction. */
  ghost predicate Inv(s: Sim)
  {
    Valid(s.graph) && s.dirty <= s.graph.nodes.Keys
  }

  /** No queued entry lies in the past. */
  ghost predicate Causal(s: Sim)
  {
    forall h :: h in s.graph.queue ==> LessEq(s.now, s.graph.queue[h].time)
  }

  /** Some drawing entry is queued. */
  ghost predicate HasDraw(s: Sim)
  {
    exists h :: h in s.graph.queue && s.graph.queue[h].event == Draw
  }

  /** An entry due at the current instant. */
  predicate Due(s: Sim, h: EventId)
  {
    h in s.graph.queue && s.graph.queue[h].time == s.now
  }

  /** The handles of the entries due at the current instant. */
  function DueIds(s: Sim): (r: set<EventId>)
    ensures forall h :: h in r <==> Due(s, h)
  {
    set h | h in s.graph.queue && s.graph.queue[h].time == s.now
  }

  /** Recurring entries are the same in both queues. */
  ghost predicate PeriodicKept(q: map<EventId, Entry>, r: map<EventId, Entry>)
  {
    && (forall h :: h in q && Periodic(q[h].event) ==> h in r && r[h] == q[h])
    && (forall h :: h in r && Periodic(r[h].event) ==> h in q && q[h] == r[h])
  }

  /**
   What firing a collision or a timer may do: the clock stays, the
   invariants are kept, no mobile appears or disappears, fresh ids stay
   fresh and the recurring entries are left alone.
   */
  ghost predicate Keeps(s: Sim, r: Sim)
  {
    && r.now == s.now
    && (Inv(s) ==> Inv(r))
    && (Causal(s) ==> Causal(r))
    && r.graph.nodes.Keys == s.graph.nodes.Keys
    && s.graph.nextEvent <= r.graph.nextEvent
    && PeriodicKept(s.graph.queue, r.graph.queue)
  }

  /** A handler keeps the state as above and leaves the collision counter to the driver. */
  ghost predicate IsHandler(fire: Handler)
  {
    forall s, e :: Keeps(s, fire(s, e)) && fire(s, e).chocs == s.chocs
  }

  /** Every mobile's candidate tests are well formed. */
  ghost predicate Predicts(predict: Predictor)
  {
    forall s: Sim, a: MobileId {:trigger predict(s, a)} :: a in s.graph.nodes ==> TestsOk(s.graph, a, predict(s, a))
  }

  lemma KeepsCompose(s: Sim, m: Sim, r: Sim)
    requires Keeps(s, m) && Keeps(m, r)
    ensures Keeps(s, r)
  {
  }

  // ---------------------------------------------------------------------
  // Free flight

  /**
   `avance`: every particle and every piston flies for `t - now` under
   gravity, then the clock reads `t`. Nothing else changes.
   */
  /** Every particle flies for `dt`. */
  function FlyBalls(balls: map<MobileId, Particles.Particle>, dt: Time, gravity: Vec): (r: map<MobileId, Particles.Particle>)
    ensures r.Keys == balls.Keys
  {
    map a | a in balls :: Particles.Advance(balls[a], dt, gravity)
  }

  /** Every piston flies for `dt`. */
  function FlyPistons(pistons: map<MobileId, Pistons.Piston>, dt: Time, gravity: Vec): (r: map<MobileId, Pistons.Piston>)
    ensures r.Keys == pistons.Keys
  {
    map a | a in pistons :: Pistons.Advance(pistons[a], dt, gravity)
  }

  /**
   `avance`: every particle and every piston flies for `t - now` under
   gravity, then the clock reads `t`. Nothing else changes.
   */
  function Avance(s: Sim, t: Time, gravity: Vec): (r: Sim)
    ensures r.now == t
    ensures r == s.(now := t, balls := r.balls, pistons := r.pistons)
    ensures r.balls.Keys == s.balls.Keys && r.pistons.Keys == s.pistons.Keys
  {
    var dt := Sub(t, s.now);
    s.(now := t, balls := FlyBalls(s.balls, dt, gravity), pistons := FlyPistons(s.pistons, dt, gravity))
  }

  /** Each mobile moves by its own free flight over `t - now`. */
  lemma AvanceMovesEach(s: Sim, t: Time, gravity: Vec)
    ensures forall a :: a in s.balls ==> Avance(s, t, gravity).balls[a] == Particles.Advance(s.balls[a], Sub(t, s.now), gravity)
    ensures forall a :: a in s.pistons ==> Avance(s, t, gravity).pistons[a] == Pistons.Advance(s.pistons[a], Sub(t, s.now), gravity)
  {
  }

  /** A never duration moves nothing. */
  lemma FlyNeverMovesNothing(s: Sim, gravity: Vec)
    ensures FlyBalls(s.balls, Never, gravity) == s.balls
    ensures FlyPistons(s.pistons, Never, gravity) == s.pistons
  {
    assert forall a :: a in s.balls ==> FlyBalls(s.balls, Never, gravity)[a] == s.balls[a];
    assert forall a :: a in s.pistons ==> FlyPistons(s.pistons, Never, gravity)[a] == s.pistons[a];
  }

  /**
   Asked to go back in time, `avance` moves nothing (the saturated
   difference is never, of value 0) but still sets the clock back.
   */
  lemma AvanceBackwardsOnlyRewinds(s: Sim, t: Time, gravity: Vec)
    requires Less(t, s.now)
    ensures Avance(s, t, gravity) == s.(now := t)
  {
    FlyNeverMovesNothing(s, gravity);
  }

  lemma FlyBallsComposes(balls: map<MobileId, Particles.Particle>, d1: Time, d2: Time, gravity: Vec)
    requires !IsNever(d1) && !IsNever(d2)
    ensures FlyBalls(FlyBalls(balls, d1, gravity), d2, gravity) == FlyBalls(balls, Add(d1, d2), gravity)
  {
    forall m | m in balls
      ensures FlyBalls(FlyBalls(balls, d1, gravity), d2, gravity)[m] == FlyBalls(balls, Add(d1, d2), gravity)[m]
    {
      Particles.AdvanceComposes(balls[m], d1, d2, gravity);
    }
  }

  lemma FlyPistonsComposes(pistons: map<MobileId, Pistons.Piston>, d1: Time, d2: Time, gravity: Vec)
    requires !IsNever(d1) && !IsNever(d2)
    ensures FlyPistons(FlyPistons(pistons, d1, gravity), d2, gravity) == FlyPistons(pistons, Add(d1, d2), gravity)
  {
    forall m | m in pistons
      ensures FlyPistons(FlyPistons(pistons, d1, gravity), d2, gravity)[m] == FlyPistons(pistons, Add(d1, d2), gravity)[m]
    {
      Physics.FlightsCompose(pistons[m].motion, gravity, Value(d1), Value(d2));
    }
  }

  /** Two flights in a row, forward in time, are one flight to the final instant. */
  lemma AvanceComposes(s: Sim, t1: Time, t2: Time, gravity: Vec)
    requires !IsNever(s.now) && !IsNever(t2) && LessEq(s.now, t1) && LessEq(t1, t2)
    ensures Avance(Avance(s, t1, gravity), t2, gravity) == Avance(s, t2, gravity)
  {
    var d1 := Sub(t1, s.now);
    var d2 := Sub(t2, t1);
    assert Add(d1, d2) == Sub(t2, s.now);
    FlyBallsComposes(s.balls, d1, d2, gravity);
    FlyPistonsComposes(s.pistons, d1, d2, gravity);
  }

  // ---------------------------------------------------------------------
  // Performing one entry

  /**
   `performCollision`: the collision is carried out by `fire`, and the
   collision counter (32 bits) goes up by one exactly when the collision
   is not an area change.
   */
  function PerformCollision(s: Sim, c: Collision, fire: Handler): (r: Sim)
    requires IsHandler(fire)
    ensures Keeps(s, r)
    ensures r == fire(s, Hit(c)).(chocs := r.chocs)
    ensures r.chocs == if IsReal(c) then (s.chocs + 1) % TwoTo32 else s.chocs
  {
    var t := fire(s, Hit(c));
    if IsReal(c) then t.(chocs := (t.chocs + 1) % TwoTo32) else t
  }

  /**
   `perform` of an entry's event, with the drawing flag threaded through:
   the state after it, whether the entry is to be put back, and the flag.
   A drawing raises the flag; drawing, sampling and plotting ask to be
   put back and leave the state alone; a mutation timer is fired and a
   collision performed, and neither is put back.
   */
  function Perform(s: Sim, e: Event, isDraw: bool, fire: Handler): (r: (Sim, bool, bool))
    requires IsHandler(fire)
    ensures Keeps(s, r.0)
    ensures r.1 <==> Periodic(e)
    ensures r.2 <==> isDraw || e.Draw?
    ensures Periodic(e) ==> r.0 == s
    ensures e.Mutation? ==> r.0 == fire(s, e)
    ensures e.Hit? ==> r.0 == PerformCollision(s, e.collision, fire)
  {
    match e
    case Draw => (s, true, true)
    case Sample => (s, true, isDraw)
    case Plot => (s, true, isDraw)
    case Mutation(_) => (fire(s, e), false, isDraw)
    case Hit(c) => (PerformCollision(s, c, fire), false, isDraw)
  }

  /**
   `addEvent`: a drawing, sampling or plotting entry puts an entry of the
   same kind one period after now; any other entry puts back nothing.
   */
  function AddEvent(s: Sim, e: Event, steps: Steps): (r: Sim)
    requires Valid(s.graph)
    ensures Valid(r.graph) && r == s.(graph := r.graph)
    ensures r.graph.nodes == s.graph.nodes && r.graph.target == s.graph.target && r.graph.history == s.graph.history
    ensures !Periodic(e) ==> r == s
    ensures Periodic(e) ==> s.graph.nextEvent !in s.graph.queue && r.graph.nextEvent == s.graph.nextEvent + 1
    ensures Periodic(e) ==> r.graph.queue == s.graph.queue[s.graph.nextEvent := Entry(Add(s.now, At(PeriodOf(steps, e))), e)]
  {
    if Periodic(e) then s.(graph := Schedule(s.graph, Entry(Add(s.now, At(PeriodOf(steps, e))), e))) else s
  }

  /** A put-back entry is of the same kind and lies strictly after a finite now. */
  lemma AddEventIsLater(s: Sim, e: Event, steps: Steps)
    requires Valid(s.graph) && Periodic(e) && !IsNever(s.now)
    ensures var r := AddEvent(s, e, steps);
      var h := s.graph.nextEvent;
      h in r.graph.queue && r.graph.queue[h].event == e && Less(s.now, r.graph.queue[h].time)
    ensures forall h :: h in AddEvent(s, e, steps).graph.queue && h != s.graph.nextEvent ==>
      h in s.graph.queue && AddEvent(s, e, steps).graph.queue[h] == s.graph.queue[h]
  {
  }

  // ---------------------------------------------------------------------
  // The sweep over the due entries

  /**
   One turn of the loop over the due entries: an entry still due is
   performed, and it is collected for putting back when it recurs; an
   entry that is no longer due is skipped.
   */
  function FireOne(s: Sim, h: EventId, isDraw: bool, fire: Handler): (r: (Sim, seq<EventId>, bool))
    requires IsHandler(fire)
    ensures Keeps(s, r.0)
    ensures !Due(s, h) ==> r == (s, [], isDraw)
    ensures Due(s, h) ==> r.0 == Perform(s, s.graph.queue[h].event, isDraw, fire).0
    ensures r.1 == (if Due(s, h) && Periodic(s.graph.queue[h].event) then [h] else [])
    ensures r.2 <==> isDraw || (Due(s, h) && s.graph.queue[h].event == Draw)
  {
    if Due(s, h) then
      var step := Perform(s, s.graph.queue[h].event, isDraw, fire);
      (step.0, if step.1 then [h] else [], step.2)
    else (s, [], isDraw)
  }

  /**
   The entries `hs` performed one after the other by `FireOne`, each on
   the state the previous one left. It gives the final state, the entries
   to put back, in order, and the drawing flag.
   */
  ghost function FireAll(s: Sim, hs: seq<EventId>, isDraw: bool, fire: Handler): (r: (Sim, seq<EventId>, bool))
    requires IsHandler(fire)
    decreases |hs|
  {
    if |hs| == 0 then (s, [], isDraw)
    else
      var one := FireOne(s, hs[0], isDraw, fire);
      var rest := FireAll(one.0, hs[1..], one.2, fire);
      (rest.0, one.1 + rest.1, rest.2)
  }

  /**
   The loop of `playNext` over the entries due now, in queue order (ids
   increase with insertion, as equal keys do in the source's multimap).
   An entry erased by an earlier one is skipped. It returns the entries
   to put back, in order, and whether a drawing fired.
   */
  method FireDue(s: Sim, fire: Handler) returns (r: Sim, redraw: seq<EventId>, isDraw: bool)
    requires IsHandler(fire)
    ensures Keeps(s, r)
    ensures forall h :: h in redraw <==> Due(s, h) && Periodic(s.graph.queue[h].event)
    ensures forall i, j :: 0 <= i < j < |redraw| ==> redraw[i] != redraw[j]
    ensures isDraw <==> exists h :: Due(s, h) && s.graph.queue[h].event == Draw
    ensures (r, redraw, isDraw) == FireAll(s, Ascending(DueIds(s)), false, fire)
  {
    r := s;
    redraw := [];
    isDraw := false;
    var todo := DueIds(s);
    ghost var due := todo;
    FiredAtStart(s, due, fire);
    while todo != {}
      invariant todo <= due
      invariant forall h :: h in due <==> Due(s, h)
      invariant FiredSoFar(s, due, r, todo, redraw, isDraw, fire)
      invariant Keeps(s, r)
      invariant Collected(s, due, todo, redraw, isDraw)
      decreases |todo|
    {
      var h := MinOf(todo);
      var one := FireOne(r, h, isDraw, fire);
      CollectedStep(s, due, r, todo, redraw, isDraw, fire, one);
      FiredStep(s, due, r, todo, redraw, isDraw, fire, one);
      KeepsCompose(s, r, one.0);
      todo := todo - {h};
      r, redraw, isDraw := one.0, redraw + one.1, one.2;
    }
    FiredAtEnd(s, due, r, redraw, isDraw, fire);
  }

  /** What the loop of `FireDue` has collected after the entries `due - todo`. */
  ghost predicate Collected(s: Sim, due: set<EventId>, todo: set<EventId>, redraw: seq<EventId>, isDraw: bool)
  {
    && (forall h :: h in redraw <==> h in due - todo && h in s.graph.queue && Periodic(s.graph.queue[h].event))
    && (forall i, j :: 0 <= i < j < |redraw| ==> redraw[i] != redraw[j])
    && (isDraw <==> exists h :: h in due - todo && h in s.graph.queue && s.graph.queue[h].event == Draw)
  }

  /** One round of the loop of `FireDue` keeps `Collected`. */
  lemma CollectedStep(s: Sim, due: set<EventId>, r: Sim, todo: set<EventId>, redraw: seq<EventId>, isDraw: bool, fire: Handler,
                      one: (Sim, seq<EventId>, bool))
    requires IsHandler(fire) && todo != {} && todo <= due
    requires forall h :: h in due <==> Due(s, h)
    requires Keeps(s, r) && Collected(s, due, todo, redraw, isDraw)
    requires one == FireOne(r, MinOf(todo), isDraw, fire)
    ensures Collected(s, due, todo - {MinOf(todo)}, redraw + one.1, one.2)
  {
    var h := MinOf(todo);
    assert h !in redraw;
    if Due(r, h) && r.graph.queue[h].event == Draw {
      assert h in due - (todo - {h}) && s.graph.queue[h].event == Draw;
    }
  }

  lemma FiredAtStart(s: Sim, due: set<EventId>, fire: Handler)
    requires IsHandler(fire)
    ensures FiredSoFar(s, due, s, due, [], false, fire)
  {
    var rest := FireAll(s, Ascending(due), false, fire);
    assert [] + rest.1 == rest.1;
  }

  lemma FiredAtEnd(s: Sim, due: set<EventId>, r: Sim, redraw: seq<EventId>, isDraw: bool, fire: Handler)
    requires IsHandler(fire)
    requires FiredSoFar(s, due, r, {}, redraw, isDraw, fire)
    ensures (r, redraw, isDraw) == FireAll(s, Ascending(due), false, fire)
  {
    assert Ascending({}) == [];
    assert redraw + [] == redraw;
  }

  /** After the entries `due - todo`, the fold over `due` is what is done followed by the fold over `todo`. */
  ghost predicate FiredSoFar(s: Sim, due: set<EventId>, r: Sim, todo: set<EventId>, redraw: seq<EventId>, isDraw: bool, fire: Handler)
    requires IsHandler(fire)
  {
    var rest := FireAll(r, Ascending(todo), isDraw, fire);
    FireAll(s, Ascending(due), false, fire) == (rest.0, redraw + rest.1, rest.2)
  }

  /** One round of the loop of `FireDue` keeps `FiredSoFar`. */
  lemma FiredStep(s: Sim, due: set<EventId>, r: Sim, todo: set<EventId>, redraw: seq<EventId>, isDraw: bool, fire: Handler,
                  one: (Sim, seq<EventId>, bool))
    requires IsHandler(fire) && todo != {}
    requires FiredSoFar(s, due, r, todo, redraw, isDraw, fire)
    requires one == FireOne(r, MinOf(todo), isDraw, fire)
    ensures FiredSoFar(s, due, one.0, todo - {MinOf(todo)}, redraw + one.1, one.2, fire)
  {
    var h := MinOf(todo);
    var hs := Ascending(todo);
    assert hs[0] == h && hs[1..] == Ascending(todo - {h});
    var rest := FireAll(one.0, Ascending(todo - {h}), one.2, fire);
    assert FireAll(r, hs, isDraw, fire) == (rest.0, one.1 + rest.1, rest.2);
    ConcatAssociates(redraw, one.1, rest.1);
  }

  // ---------------------------------------------------------------------
  // Recomputing predictions

  /** A pending handle of `a` that is still queued later is still pending for `a`. */
  lemma StaleIsTracked(g: Graph, r: Graph, a: MobileId, h: EventId)
    requires Valid(g) && Valid(r) && a in g.nodes && h in g.nodes[a].pending
    requires Extends(g, r) && h in r.queue
    ensures a in r.nodes && h in r.nodes[a].pending
  {
    assert HandleOk(g, a, h);
    assert r.queue[h] == g.queue[h];
    assert Involves(r.queue[h].event.collision, a);
  }

  /**
   `refreshCollisions`: every dirty mobile, in id order, gets a new
   prediction from its candidate tests; then nothing is dirty. Every
   event that a dirty mobile had pending is gone, the recurring entries
   and timers are kept, and what is queued anew is a collision not in
   the past.
   */
  method RefreshCollisions(s: Sim, predict: Predictor) returns (r: Sim, ghost trace: seq<Sim>)
    requires Inv(s) && Predicts(predict)
    ensures Inv(r) && r.dirty == {}
    ensures r == s.(graph := r.graph, studies := r.studies, dirty := {})
    ensures r.graph.nodes.Keys == s.graph.nodes.Keys && r.graph.history == s.graph.history
    ensures s.graph.nextEvent <= r.graph.nextEvent
    ensures Extends(s.graph, r.graph) && Adds(s.graph, r.graph, s.now) && KeepsOthers(s.graph, r.graph)
    ensures forall a, h :: a in s.dirty && h in s.graph.nodes[a].pending ==> h !in r.graph.queue
    ensures RefreshTrace(s, trace, predict) && r == trace[|trace| - 1].(dirty := {})
  {
    var order := Ascending(s.dirty);
    r, trace := RefreshAll(s, order, predict);
    RefreshLoopDone(s, order, r, trace, predict);
    r := r.(dirty := {});
  }

  /** The loop of `refreshCollisions` over the dirty mobiles in increasing id order. */
  method RefreshAll(s: Sim, order: seq<MobileId>, predict: Predictor) returns (r: Sim, ghost trace: seq<Sim>)
    requires Inv(s) && Predicts(predict) && order == Ascending(s.dirty)
    ensures RefreshLoop(s, order, |order|, r, trace, predict)
  {
    r := s;
    trace := [s];
    for k := 0 to |order|
      invariant RefreshLoop(s, order, k, r, trace, predict)
    {
      r, trace := RefreshNext(s, order, k, r, trace, predict);
    }
  }

  /** The invariant of the loop of `refreshCollisions` after the first `k` mobiles of `order`. */
  ghost predicate RefreshLoop(s: Sim, order: seq<MobileId>, k: nat, r: Sim, trace: seq<Sim>, predict: Predictor)
  {
    && Refreshing(s, r)
    && k <= |order|
    && (forall a, h :: a in order[..k] && a in s.graph.nodes && h in s.graph.nodes[a].pending ==> h !in r.graph.queue)
    && TraceSoFar(s, order, k, trace, predict) && trace[k] == r
  }

  /** One round of the loop of `refreshCollisions`: the `k`-th mobile of `order` is refreshed. */
  method RefreshNext(s: Sim, order: seq<MobileId>, k: nat, r: Sim, ghost trace: seq<Sim>, predict: Predictor) returns (r': Sim, ghost trace': seq<Sim>)
    requires Inv(s) && Predicts(predict) && order == Ascending(s.dirty) && k < |order|
    requires RefreshLoop(s, order, k, r, trace, predict)
    ensures RefreshLoop(s, order, k + 1, r', trace', predict)
    ensures r' == s.(graph := r'.graph, studies := r'.studies)
  {
    var a := order[k];
    assert a in s.dirty;
    r' := RefreshOne(s, r, a, predict);
    trace' := trace + [r'];
    RefreshLoopGrows(s, order, k, r, trace, r', predict);
  }

  lemma RefreshLoopGrows(s: Sim, order: seq<MobileId>, k: nat, r: Sim, trace: seq<Sim>, r': Sim, predict: Predictor)
    requires Valid(s.graph) && k < |order| && RefreshLoop(s, order, k, r, trace, predict)
    requires Refreshing(s, r') && Extends(r.graph, r'.graph) && RefreshedOnce(r, r', order[k], predict)
    requires forall h :: order[k] in s.graph.nodes && h in s.graph.nodes[order[k]].pending ==> h !in r'.graph.queue
    ensures RefreshLoop(s, order, k + 1, r', trace + [r'], predict)
  {
    TraceGrows(s, order, k, trace, r', predict);
    GoneStaysGone(s, r, r', order[..k]);
    PrefixGrows(order, k);
  }

  /** Handles of already refreshed mobiles that are gone stay gone: a refresh only queues under fresh ids. */
  lemma GoneStaysGone(s: Sim, r: Sim, r': Sim, done: seq<MobileId>)
    requires Valid(s.graph) && Refreshing(s, r) && Extends(r.graph, r'.graph)
    requires forall a, h :: a in done && a in s.graph.nodes && h in s.graph.nodes[a].pending ==> h !in r.graph.queue
    ensures forall a, h :: a in done && a in s.graph.nodes && h in s.graph.nodes[a].pending ==> h !in r'.graph.queue
  {
    forall a, h | a in done && a in s.graph.nodes && h in s.graph.nodes[a].pending
      ensures h !in r'.graph.queue
    {
      assert HandleOk(s.graph, a, h);
    }
  }

  lemma RefreshLoopDone(s: Sim, order: seq<MobileId>, r: Sim, trace: seq<Sim>, predict: Predictor)
    requires Inv(s) && order == Ascending(s.dirty)
    requires RefreshLoop(s, order, |order|, r, trace, predict)
    ensures Inv(r.(dirty := {}))
    ensures r == s.(graph := r.graph, studies := r.studies)
    ensures forall a, h :: a in s.dirty && h in s.graph.nodes[a].pending ==> h !in r.graph.queue
    ensures RefreshTrace(s, trace, predict) && r == trace[|trace| - 1]
  {
    PrefixGrows(order, |order|);
  }

  /** The state during `refreshCollisions`: only the graph and the study counters have moved, as a refresh may move them. */
  ghost predicate Refreshing(s: Sim, r: Sim)
  {
    && Valid(r.graph) && r == s.(graph := r.graph, studies := r.studies)
    && r.graph.nodes.Keys == s.graph.nodes.Keys && r.graph.history == s.graph.history
    && s.graph.nextEvent <= r.graph.nextEvent
    && Extends(s.graph, r.graph) && Adds(s.graph, r.graph, s.now) && KeepsOthers(s.graph, r.graph)
  }

  /** The first `k` dirty mobiles of `order` have been refreshed, one after the other. */
  ghost predicate TraceSoFar(s: Sim, order: seq<MobileId>, k: nat, trace: seq<Sim>, predict: Predictor)
  {
    && k <= |order| && |trace| == k + 1 && trace[0] == s
    && forall i :: 0 <= i < k ==> RefreshedOnce(trace[i], trace[i + 1], order[i], predict)
  }

  lemma TraceGrows(s: Sim, order: seq<MobileId>, k: nat, trace: seq<Sim>, r': Sim, predict: Predictor)
    requires TraceSoFar(s, order, k, trace, predict) && k < |order|
    requires RefreshedOnce(trace[k], r', order[k], predict)
    ensures TraceSoFar(s, order, k + 1, trace + [r'], predict)
  {
    var t := trace + [r'];
    forall i | 0 <= i < k + 1
      ensures RefreshedOnce(t[i], t[i + 1], order[i], predict)
    {
      if i < k {
        assert t[i] == trace[i] && t[i + 1] == trace[i + 1];
      }
    }
  }

  /**
   `after` is `before` once mobile `a` has been through `updateCollisions`
   with the tests `predict` gives it on `before`, as that call promises.
   */
  ghost predicate RefreshedOnce(before: Sim, after: Sim, a: MobileId, predict: Predictor)
  {
    var tests := predict(before, a);
    && Valid(before.graph) && a in before.graph.nodes && TestsOk(before.graph, a, tests)
    && after == before.(graph := after.graph, studies := after.studies)
    && Valid(after.graph) && after.graph.nodes.Keys == before.graph.nodes.Keys && a in after.graph.target
    && after.graph.target[a] == Earliest(before.graph, a, tests, before.now)
    && after.studies == Studies((before.studies.tests + |tests|) % TwoTo32, (before.studies.pairs + PairCount(tests)) % TwoTo32)
    && (forall h :: h in before.graph.nodes[a].pending ==> h !in after.graph.queue)
    && Extends(before.graph, after.graph) && Adds(before.graph, after.graph, before.now)
  }

  /** The states of `refreshCollisions`: each dirty mobile, in increasing id order, refreshed from the state the previous one left. */
  ghost predicate RefreshTrace(s: Sim, trace: seq<Sim>, predict: Predictor)
  {
    TraceSoFar(s, Ascending(s.dirty), |s.dirty|, trace, predict)
  }

  /** One round of `refreshCollisions`: `a` gets a new prediction and its stale events are gone. */
  method RefreshOne(s: Sim, r: Sim, a: MobileId, predict: Predictor) returns (r': Sim)
    requires Inv(s) && Predicts(predict) && a in s.graph.nodes
    requires Refreshing(s, r)
    ensures Refreshing(s, r')
    ensures r.graph.nextEvent <= r'.graph.nextEvent
    ensures Extends(r.graph, r'.graph)
    ensures forall h :: h in s.graph.nodes[a].pending ==> h !in r'.graph.queue
    ensures RefreshedOnce(r, r', a, predict)
  {
    var g, st := UpdateCollisions(r.graph, r.studies, a, predict(r, a), r.now);
    forall h | h in s.graph.nodes[a].pending
      ensures h !in g.queue
    {
      if h in r.graph.queue {
        StaleIsTracked(s.graph, r.graph, a, h);
      }
    }
    ExtendsCompose(s.graph, r.graph, g);
    AddsCompose(s.graph, r.graph, g, s.now);
    r' := r.(graph := g, studies := st);
  }

  /** A refresh keeps the recurring entries: it only drops and queues collisions. */
  lemma RefreshKeepsPeriodic(g: Graph, r: Graph, now: Time)
    requires Valid(g) && Extends(g, r) && Adds(g, r, now) && KeepsOthers(g, r)
    ensures PeriodicKept(g.queue, r.queue)
  {
  }

  /** A refresh queues nothing in the past. */
  lemma RefreshIsCausal(s: Sim, r: Sim)
    requires Causal(s) && r.now == s.now && Adds(s.graph, r.graph, s.now) && KeepsOthers(s.graph, r.graph)
    requires Extends(s.graph, r.graph) && Valid(s.graph)
    ensures Causal(r)
  {
  }

  // ---------------------------------------------------------------------
  // Putting the recurring entries back

  /** The entry that puts back the recurring entry `h` of `q`: same kind, one period after `now`. */
  function Reput(q: map<EventId, Entry>, now: Time, h: EventId, steps: Steps): (e: Entry)
    requires h in q && Periodic(q[h].event)
    ensures e.event == q[h].event
    ensures !IsNever(now) ==> Less(now, e.time)
    ensures LessEq(now, e.time)
  {
    var kind := q[h].event;
    Entry(Add(now, At(PeriodOf(steps, kind))), kind)
  }

  /**
   The loop of `refreshDrawings` on the queue: each entry of `redraw` in
   turn is put back under the next fresh id (the ids are returned in
   `ids`), then erased.
   */
  method PutBack(q0: map<EventId, Entry>, now: Time, redraw: seq<EventId>, next0: EventId, steps: Steps)
    returns (q: map<EventId, Entry>, ids: seq<EventId>)
    requires forall i :: 0 <= i < |redraw| ==> redraw[i] in q0 && Periodic(q0[redraw[i]].event)
    requires forall i, j :: 0 <= i < j < |redraw| ==> redraw[i] != redraw[j]
    requires forall h :: h in q0 ==> h < next0
    ensures |ids| == |redraw|
    ensures forall i :: 0 <= i < |ids| ==> ids[i] == next0 + i
    ensures forall i :: 0 <= i < |redraw| ==> redraw[i] !in q
    ensures forall i :: 0 <= i < |redraw| ==> ids[i] in q && q[ids[i]] == Reput(q0, now, redraw[i], steps)
    ensures forall h :: h in q0 && h !in redraw ==> h in q && q[h] == q0[h]
    ensures forall k :: k in q ==>
      (k in q0 && k !in redraw && q[k] == q0[k]) || (next0 <= k < next0 + |redraw| && Periodic(q[k].event))
  {
    q := q0;
    ids := [];
    var i := 0;
    while i < |redraw|
      invariant 0 <= i <= |redraw| && |ids| == i
      invariant forall k :: 0 <= k < i ==> ids[k] == next0 + k
      invariant forall k :: 0 <= k < i ==> redraw[k] !in q
      invariant forall k :: 0 <= k < i ==> ids[k] in q && q[ids[k]] == Reput(q0, now, redraw[k], steps)
      invariant forall h :: h in q0 && h !in redraw[..i] ==> h in q && q[h] == q0[h]
      invariant forall k :: k in q ==>
        (k in q0 && k !in redraw[..i] && q[k] == q0[k]) || (next0 <= k < next0 + i && Periodic(q[k].event))
    {
      q, ids := PutOne(q0, now, redraw, next0, steps, q, ids);
      i := i + 1;
    }
    assert redraw[..i] == redraw;
  }

  /** One step of `PutBack`: the next fired entry moves to the next fresh id. */
  method PutOne(q0: map<EventId, Entry>, now: Time, redraw: seq<EventId>, next0: EventId, steps: Steps,
                q: map<EventId, Entry>, ids: seq<EventId>) returns (q': map<EventId, Entry>, ids': seq<EventId>)
    requires |ids| < |redraw|
    requires forall k :: 0 <= k < |redraw| ==> redraw[k] in q0 && Periodic(q0[redraw[k]].event)
    requires forall k, j :: 0 <= k < j < |redraw| ==> redraw[k] != redraw[j]
    requires forall h :: h in q0 ==> h < next0
    requires forall k :: 0 <= k < |ids| ==> ids[k] == next0 + k
    requires forall k :: 0 <= k < |ids| ==> redraw[k] !in q
    requires forall k :: 0 <= k < |ids| ==> ids[k] in q && q[ids[k]] == Reput(q0, now, redraw[k], steps)
    requires forall h :: h in q0 && h !in redraw[..|ids|] ==> h in q && q[h] == q0[h]
    requires forall k :: k in q ==>
      (k in q0 && k !in redraw[..|ids|] && q[k] == q0[k]) || (next0 <= k < next0 + |ids| && Periodic(q[k].event))
    ensures |ids'| == |ids| + 1
    ensures forall k :: 0 <= k < |ids'| ==> ids'[k] == next0 + k
    ensures forall k :: 0 <= k < |ids'| ==> redraw[k] !in q'
    ensures forall k :: 0 <= k < |ids'| ==> ids'[k] in q' && q'[ids'[k]] == Reput(q0, now, redraw[k], steps)
    ensures forall h :: h in q0 && h !in redraw[..|ids'|] ==> h in q' && q'[h] == q0[h]
    ensures forall k :: k in q' ==>
      (k in q0 && k !in redraw[..|ids'|] && q'[k] == q0[k]) || (next0 <= k < next0 + |ids'| && Periodic(q'[k].event))
  {
    var i := |ids|;
    var h := redraw[i];
    assert h !in redraw[..i];
    assert h in q0 && h < next0;
    q' := q[next0 + i := Reput(q0, now, h, steps)];
    q' := q' - {h};
    ids' := ids + [next0 + i];
    assert redraw[..i + 1] == redraw[..i] + [h];
    forall k | 0 <= k < |ids'|
      ensures redraw[k] !in q'
      ensures ids'[k] in q' && q'[ids'[k]] == Reput(q0, now, redraw[k], steps)
    {
      if k < i {
        assert ids'[k] == ids[k] && ids[k] != h;
      }
    }
  }

  /**
   `refreshDrawings`: each fired drawing, sampling or plotting entry is
   put back one period after now, under the next fresh id (returned in
   `ids`), and the fired entry is erased. Everything else stays.
   */
  method RefreshDrawings(s: Sim, redraw: seq<EventId>, steps: Steps) returns (r: Sim, ids: seq<EventId>)
    requires Inv(s)
    requires forall i :: 0 <= i < |redraw| ==> redraw[i] in s.graph.queue && Periodic(s.graph.queue[redraw[i]].event)
    requires forall i, j :: 0 <= i < j < |redraw| ==> redraw[i] != redraw[j]
    ensures Inv(r) && r == s.(graph := r.graph)
    ensures r.graph == s.graph.(queue := r.graph.queue, nextEvent := r.graph.nextEvent)
    ensures r.graph.nextEvent == s.graph.nextEvent + |redraw| && |ids| == |redraw|
    ensures forall i :: 0 <= i < |ids| ==> ids[i] == s.graph.nextEvent + i
    ensures forall i :: 0 <= i < |redraw| ==> redraw[i] !in r.graph.queue
    ensures forall i :: 0 <= i < |redraw| ==> ids[i] in r.graph.queue && r.graph.queue[ids[i]] == Reput(s.graph.queue, s.now, redraw[i], steps)
    ensures forall h :: h in s.graph.queue && h !in redraw ==> h in r.graph.queue && r.graph.queue[h] == s.graph.queue[h]
    ensures forall k :: k in r.graph.queue ==>
      (k in s.graph.queue && k !in redraw && r.graph.queue[k] == s.graph.queue[k]) ||
      s.graph.nextEvent <= k < s.graph.nextEvent + |redraw|
  {
    assert Fresh(s.graph);
    var q;
    q, ids := PutBack(s.graph.queue, s.now, redraw, s.graph.nextEvent, steps);
    forall h | h in s.graph.queue && s.graph.queue[h].event.Hit?
      ensures h in q && q[h] == s.graph.queue[h]
    {
      assert h !in redraw;
    }
    RecurringChangeIsValid(s.graph, q, s.graph.nextEvent + |redraw|);
    r := s.(graph := s.graph.(queue := q, nextEvent := s.graph.nextEvent + |redraw|));
  }

  /**
   Erasing and queueing entries that are not collisions, under ids below
   the new next free id, keeps the graph valid: no pending set refers to
   them.
   */
  lemma RecurringChangeIsValid(g: Graph, q: map<EventId, Entry>, next: EventId)
    requires Valid(g) && g.nextEvent <= next
    requires forall h :: h in q ==> h < next
    requires forall h :: h in q && q[h].event.Hit? ==> h in g.queue && g.queue[h] == q[h]
    requires forall h :: h in g.queue && g.queue[h].event.Hit? ==> h in q && q[h] == g.queue[h]
    ensures Valid(g.(queue := q, nextEvent := next))
  {
    var r := g.(queue := q, nextEvent := next);
    forall a, h | a in r.nodes && h in r.nodes[a].pending
      ensures HandleOk(r, a, h)
    {
      assert HandleOk(g, a, h);
    }
  }

  // ---------------------------------------------------------------------
  // One tick

  /** Among the entries `ks` of `q`, the earliest one, and among those the first inserted. */
  function FirstIn(q: map<EventId, Entry>, ks: set<EventId>): (h: EventId)
    requires ks != {} && ks <= q.Keys
    ensures h in ks
    ensures forall k :: k in ks ==> LessEq(q[h].time, q[k].time)
    ensures forall k :: k in ks && q[k].time == q[h].time ==> h <= k
    decreases ks
  {
    var k := MinOf(ks);
    if ks == {k} then k
    else
      var h := FirstIn(q, ks - {k});
      LessIsStrictTotalOrder(q[h].time, q[k].time, q[k].time);
      EqIsIdentity(q[h].time, q[k].time);
      if Less(q[h].time, q[k].time) then h else k
  }

  /**
   `mEvents.begin()`: the entry with the earliest instant, and among
   those the first inserted.
   */
  function Begin(q: map<EventId, Entry>): (h: EventId)
    requires q != map[]
    ensures h in q
    ensures forall k :: k in q ==> LessEq(q[h].time, q[k].time)
    ensures forall k :: k in q && q[k].time == q[h].time ==> h <= k
  {
    FirstIn(q, q.Keys)
  }

  /** Only the fired entry matters to where it is put back. */
  lemma ReputSameEntry(q: map<EventId, Entry>, q': map<EventId, Entry>, now: Time, h: EventId, steps: Steps)
    requires h in q && h in q' && q[h] == q'[h] && Periodic(q[h].event)
    ensures Reput(q, now, h, steps) == Reput(q', now, h, steps)
  {
  }

  /** After the clock is moved to the head of the queue, nothing queued lies in the past. */
  lemma HeadIsCausal(s: Sim, gravity: Vec)
    requires s.graph.queue != map[]
    ensures Causal(Avance(s, s.graph.queue[Begin(s.graph.queue)].time, gravity))
  {
  }

  /**
   The first half of `playNext`: the clock moves to the head of the queue,
   the entries due then fire and the stale predictions are recomputed.
   It returns the recurring entries that fired, which are still queued.
   */
  method Sweep(s: Sim, gravity: Vec, fire: Handler, predict: Predictor)
    returns (c: Sim, redraw: seq<EventId>, isDraw: bool, ghost fired: Sim, ghost trace: seq<Sim>)
    requires Inv(s) && IsHandler(fire) && Predicts(predict)
    requires s.graph.queue != map[]
    ensures Inv(c) && c.dirty == {} && Causal(c)
    ensures c.now == s.graph.queue[Begin(s.graph.queue)].time
    ensures isDraw <==> exists h :: h in s.graph.queue && s.graph.queue[h] == Entry(c.now, Draw)
    ensures s.graph.nextEvent <= c.graph.nextEvent
    ensures c.graph.nodes.Keys == s.graph.nodes.Keys
    ensures PeriodicKept(s.graph.queue, c.graph.queue)
    ensures forall h :: h in redraw <==>
      h in s.graph.queue && s.graph.queue[h].time == c.now && Periodic(s.graph.queue[h].event)
    ensures forall i :: 0 <= i < |redraw| ==> redraw[i] in c.graph.queue && Periodic(c.graph.queue[redraw[i]].event)
    ensures forall i, j :: 0 <= i < j < |redraw| ==> redraw[i] != redraw[j]
    ensures var a := Avance(s, c.now, gravity); (fired, redraw, isDraw) == FireAll(a, Ascending(DueIds(a)), false, fire)
    ensures RefreshTrace(fired, trace, predict) && c == trace[|trace| - 1].(dirty := {})
  {
    var head := Begin(s.graph.queue);
    var a := Avance(s, s.graph.queue[head].time, gravity);
    HeadIsCausal(s, gravity);
    var f;
    f, redraw, isDraw := FireDue(a, fire);
    c, trace := RefreshCollisions(f, predict);
    fired := f;
    SweepComposes(s, a, f, c, redraw, isDraw, gravity);
  }

  /** The facts of `FireDue` and `RefreshCollisions`, one after the other, give those of `Sweep`. */
  lemma SweepComposes(s: Sim, a: Sim, f: Sim, c: Sim, redraw: seq<EventId>, isDraw: bool, gravity: Vec)
    requires Inv(s) && s.graph.queue != map[]
    requires a == Avance(s, s.graph.queue[Begin(s.graph.queue)].time, gravity)
    requires Keeps(a, f)
    requires forall h :: h in redraw <==> Due(a, h) && Periodic(a.graph.queue[h].event)
    requires forall i, j :: 0 <= i < j < |redraw| ==> redraw[i] != redraw[j]
    requires isDraw <==> exists h :: Due(a, h) && a.graph.queue[h].event == Draw
    requires Inv(c) && c.dirty == {}
    requires c == f.(graph := c.graph, studies := c.studies, dirty := {})
    requires c.graph.nodes.Keys == f.graph.nodes.Keys
    requires f.graph.nextEvent <= c.graph.nextEvent
    requires Extends(f.graph, c.graph) && Adds(f.graph, c.graph, f.now) && KeepsOthers(f.graph, c.graph)
    ensures Causal(c)
    ensures c.now == s.graph.queue[Begin(s.graph.queue)].time
    ensures isDraw <==> exists h :: h in s.graph.queue && s.graph.queue[h] == Entry(c.now, Draw)
    ensures s.graph.nextEvent <= c.graph.nextEvent
    ensures c.graph.nodes.Keys == s.graph.nodes.Keys
    ensures PeriodicKept(s.graph.queue, c.graph.queue)
    ensures forall h :: h in redraw <==>
      h in s.graph.queue && s.graph.queue[h].time == c.now && Periodic(s.graph.queue[h].event)
    ensures forall i :: 0 <= i < |redraw| ==> redraw[i] in c.graph.queue && Periodic(c.graph.queue[redraw[i]].event)
  {
    HeadIsCausal(s, gravity);
    RefreshKeepsPeriodic(f.graph, c.graph, f.now);
    RefreshIsCausal(f, c);
    PeriodicKeptCompose(a.graph.queue, f.graph.queue, c.graph.queue);
    forall i | 0 <= i < |redraw|
      ensures redraw[i] in c.graph.queue && Periodic(c.graph.queue[redraw[i]].event)
    {
      assert redraw[i] in redraw;
    }
  }

  /**
   `playNext`: the clock moves to the earliest queued instant, every
   mobile flies there, the entries due then fire, the stale predictions
   are recomputed and the fired recurring entries are put back one period
   later under fresh ids. It answers whether a drawing entry fired.
   */
  method PlayNext(s: Sim, steps: Steps, gravity: Vec, fire: Handler, predict: Predictor)
    returns (r: Sim, isDraw: bool, ghost fired: Sim, ghost trace: seq<Sim>)
    requires Inv(s) && IsHandler(fire) && Predicts(predict)
    requires s.graph.queue != map[]
    ensures Inv(r) && r.dirty == {} && Causal(r)
    ensures var a := Avance(s, r.now, gravity); (fired, isDraw) == (FireAll(a, Ascending(DueIds(a)), false, fire).0, FireAll(a, Ascending(DueIds(a)), false, fire).2)
    ensures RefreshTrace(fired, trace, predict) && r == trace[|trace| - 1].(dirty := {}, graph := r.graph)
    ensures r.graph == trace[|trace| - 1].graph.(queue := r.graph.queue, nextEvent := r.graph.nextEvent)
    ensures HasDraw(s) ==> HasDraw(r)
    ensures exists h :: h in s.graph.queue && s.graph.queue[h].time == r.now
    ensures forall h :: h in s.graph.queue ==> LessEq(r.now, s.graph.queue[h].time)
    ensures Causal(s) ==> LessEq(s.now, r.now)
    ensures isDraw <==> exists h :: h in s.graph.queue && s.graph.queue[h] == Entry(r.now, Draw)
    ensures s.graph.nextEvent <= r.graph.nextEvent
    ensures r.graph.nodes.Keys == s.graph.nodes.Keys
    ensures forall h :: h in s.graph.queue && Periodic(s.graph.queue[h].event) && s.graph.queue[h].time != r.now ==>
      h in r.graph.queue && r.graph.queue[h] == s.graph.queue[h]
    ensures forall h :: h in s.graph.queue && Periodic(s.graph.queue[h].event) && s.graph.queue[h].time == r.now ==>
      h !in r.graph.queue &&
      exists k :: s.graph.nextEvent <= k && k in r.graph.queue && r.graph.queue[k] == Reput(s.graph.queue, r.now, h, steps)
    ensures forall k :: k in r.graph.queue && Periodic(r.graph.queue[k].event) ==>
      (k in s.graph.queue && r.graph.queue[k] == s.graph.queue[k] && r.graph.queue[k].time != r.now) ||
      (s.graph.nextEvent <= k && LessEq(r.now, r.graph.queue[k].time))
  {
    var c, redraw;
    c, redraw, isDraw, fired, trace := Sweep(s, gravity, fire, predict);
    var ids;
    r, ids := RefreshDrawings(c, redraw, steps);
    PlayNextQueue(s.graph.queue, c.graph.queue, r.graph.queue, r.now, s.graph.nextEvent, c.graph.nextEvent, redraw, ids, steps);
  }

  /** Recurring entries kept across two steps are kept across both. */
  lemma PeriodicKeptCompose(q: map<EventId, Entry>, m: map<EventId, Entry>, r: map<EventId, Entry>)
    requires PeriodicKept(q, m) && PeriodicKept(m, r)
    ensures PeriodicKept(q, r)
  {
  }

  /**
   The fate of the recurring entries over one tick: those due now are
   replaced by their put-back copies under fresh ids, the others stay,
   and no other recurring entry appears.
   */
  lemma PlayNextQueue(q0: map<EventId, Entry>, qc: map<EventId, Entry>, qr: map<EventId, Entry>, now: Time,
                      next0: EventId, nextc: EventId, redraw: seq<EventId>, ids: seq<EventId>, steps: Steps)
    requires PeriodicKept(q0, qc) && next0 <= nextc
    requires forall h :: h in redraw <==> h in q0 && q0[h].time == now && Periodic(q0[h].event)
    requires forall i :: 0 <= i < |redraw| ==> redraw[i] in qc && Periodic(qc[redraw[i]].event)
    requires forall k :: k in qc ==> LessEq(now, qc[k].time)
    requires |ids| == |redraw| && forall i :: 0 <= i < |ids| ==> ids[i] == nextc + i
    requires forall i :: 0 <= i < |redraw| ==> redraw[i] !in qr
    requires forall i :: 0 <= i < |redraw| ==> ids[i] in qr && qr[ids[i]] == Reput(qc, now, redraw[i], steps)
    requires forall h :: h in qc && h !in redraw ==> h in qr && qr[h] == qc[h]
    requires forall k :: k in qr ==> (k in qc && k !in redraw && qr[k] == qc[k]) || nextc <= k < nextc + |redraw|
    ensures forall h :: h in q0 && Periodic(q0[h].event) && q0[h].time != now ==> h in qr && qr[h] == q0[h]
    ensures forall h :: h in q0 && Periodic(q0[h].event) && q0[h].time == now ==>
      h !in qr && exists k :: next0 <= k && k in qr && qr[k] == Reput(q0, now, h, steps)
    ensures forall k :: k in qr && Periodic(qr[k].event) ==>
      (k in q0 && qr[k] == q0[k] && qr[k].time != now) || (next0 <= k && LessEq(now, qr[k].time))
    ensures (exists h :: h in q0 && q0[h].event == Draw) ==> exists h :: h in qr && qr[h].event == Draw
    ensures forall k :: k in qr ==> LessEq(now, qr[k].time)
  {
    forall h | h in q0 && Periodic(q0[h].event) && q0[h].time == now
      ensures h !in qr && exists k :: next0 <= k && k in qr && qr[k] == Reput(q0, now, h, steps)
    {
      assert h in redraw;
      var i :| 0 <= i < |redraw| && redraw[i] == h;
      ReputSameEntry(q0, qc, now, h, steps);
      assert qr[ids[i]] == Reput(q0, now, h, steps);
    }
    forall k | k in qr && Periodic(qr[k].event)
      ensures (k in q0 && qr[k] == q0[k] && qr[k].time != now) || (next0 <= k && LessEq(now, qr[k].time))
    {
      if k in qc && k !in redraw && qr[k] == qc[k] {
        assert k in q0 && q0[k] == qc[k];
      } else {
        var i := k - nextc;
        assert ids[i] == k;
      }
    }
    forall k | k in qr
      ensures LessEq(now, qr[k].time)
    {
      if !(k in qc && qr[k] == qc[k]) {
        var i := k - nextc;
        assert ids[i] == k;
      }
    }
    if h :| h in q0 && q0[h].event == Draw {
      if q0[h].time == now {
        var i :| 0 <= i < |redraw| && redraw[i] == h;
        assert qr[ids[i]].event == Draw;
      } else {
        assert h in qr && qr[h].event == Draw;
      }
    }
  }

  /**
   `playToNextDraw`: ticks until one of them fires a drawing entry. The
   source loops without bound; here at most `fuel` ticks are played, and
   `drawn` tells whether a drawing fired. A drawing entry stays queued
   throughout, so every tick has a head to move to.
   */
  method PlayToNextDraw(s: Sim, steps: Steps, gravity: Vec, fire: Handler, predict: Predictor, fuel: nat)
    returns (r: Sim, drawn: bool)
    requires Inv(s) && HasDraw(s) && IsHandler(fire) && Predicts(predict)
    ensures Inv(r) && HasDraw(r)
    ensures Causal(s) ==> Causal(r) && LessEq(s.now, r.now)
    ensures drawn ==> r.dirty == {} && Causal(r)
    ensures drawn ==> exists h :: h in r.graph.queue && r.graph.queue[h] == Entry(Add(r.now, At(steps.draw)), Draw)
  {
    r := s;
    drawn := false;
    var n := 0;
    while !drawn && n < fuel
      invariant Inv(r) && HasDraw(r)
      invariant Causal(s) ==> Causal(r) && LessEq(s.now, r.now)
      invariant drawn ==> r.dirty == {} && Causal(r)
      invariant drawn ==> exists h :: h in r.graph.queue && r.graph.queue[h] == Entry(Add(r.now, At(steps.draw)), Draw)
      decreases fuel - n
    {
      ghost var d :| d in r.graph.queue && r.graph.queue[d].event == Draw;
      var before := r;
      ghost var fired, trace;
      r, drawn, fired, trace := PlayNext(r, steps, gravity, fire, predict);
      if Causal(s) {
        LessIsStrictTotalOrder(r.now, before.now, s.now);
      }
      if drawn {
        var h :| h in before.graph.queue && before.graph.queue[h] == Entry(r.now, Draw);
        var k :| before.graph.nextEvent <= k && k in r.graph.queue && r.graph.queue[k] == Reput(before.graph.queue, r.now, h, steps);
        assert r.graph.queue[k] == Entry(Add(r.now, At(steps.draw)), Draw);
      }
      n := n + 1;
    }
  }

  // ---------------------------------------------------------------------
  // Restarting

  /**
   The first lines of `doRestart`: the queue, the mobiles, the pending
   refreshes and the counters are emptied and the clock is back at zero.
   The shared construction counter is not reset.
   */
  function Clear(s: Sim): (r: Sim)
    ensures Inv(r) && Causal(r) && !HasDraw(r) && r.dirty == {}
    ensures r.now == At(0.0) && r.graph.nodes == map[] && r.graph.queue == map[]
    ensures r.balls == map[] && r.pistons == map[] && r.pops == []
    ensures r.chocs == 0 && r.studies == Studies(0, 0) && r.total == 0
    ensures r.built == s.built
  {
    Sim(At(0.0), EmptyGraph(), map[], map[], [], Areas.Empty(), s.size, {}, 0, Studies(0, 0), 0, s.built)
  }

  /**
   A piston built by `doRestart`: it takes the next id from the shared
   counter, is listed in the rows of its two faces, joins the graph and
   gets its first prediction at the current instant.
   */
  method AddPiston(s: Sim, config: PistonConfig, predict: Predictor) returns (r: Sim, a: MobileId)
    requires Inv(s) && Predicts(predict) && s.size > 0.0
    requires s.built < TwoTo32
    requires forall m :: m in s.graph.nodes ==> m < s.built
    requires forall j :: multiset(Areas.PistonsAt(s.grid, j))[s.built] == 0
    ensures a == s.built && r.built == s.built + 1
    ensures Inv(r) && r == s.(graph := r.graph, pistons := r.pistons, grid := r.grid, studies := r.studies, built := r.built)
    ensures r.graph.nodes.Keys == s.graph.nodes.Keys + {a}
    ensures r.pistons == s.pistons[a := Pistons.Create(config, s.size)]
    ensures Areas.PistonRegistered(r.grid, a, r.pistons[a].area1, r.pistons[a].area2)
    ensures ListsOthersAlike(s.grid, r.grid, a)
    ensures r.grid == Areas.RegisterPiston(s.grid, a, r.pistons[a].area1, r.pistons[a].area2)
    ensures r.grid.balls == s.grid.balls && r.grid.vertices == s.grid.vertices && r.grid.segments == s.grid.segments
    ensures forall h :: h in r.graph.queue ==>
      (h in s.graph.queue && r.graph.queue[h] == s.graph.queue[h]) || r.graph.queue[h].event.Hit?
    ensures Causal(s) ==> Causal(r)
  {
    IndexIsRank(s.built + 1);
    a := IndexAfter(s.built + 1);
    var placed := Pistons.Place(s.grid, a, config, s.size);
    Areas.RegisterPistonCounts(s.grid, a, placed.0.area1, placed.0.area2);
    var m := s.(graph := AddMobile(s.graph, a), pistons := s.pistons[a := placed.0], grid := placed.1, built := s.built + 1);
    var g, st := UpdateCollisions(m.graph, m.studies, a, predict(m, a), m.now);
    r := m.(graph := g, studies := st);
    assert Fresh(m.graph);
    if Causal(s) {
      RefreshIsCausal(m, r);
    }
  }

  /** The polygons of the obstacles, in order. */
  function Shapes(obstacles: seq<Obstacle>): (r: seq<Polygon>)
    ensures |r| == |obstacles| && forall i :: 0 <= i < |r| ==> r[i] == obstacles[i].vertices
  {
    seq(|obstacles|, i requires 0 <= i < |obstacles| => obstacles[i].vertices)
  }

  /** Only collisions are queued. */
  ghost predicate OnlyHits(s: Sim)
  {
    forall h :: h in s.graph.queue ==> s.graph.queue[h].event.Hit?
  }

  /**
   The last lines of `doRestart`: one drawing, one sampling and one
   plotting entry, each one period after now, join a queue of collisions.
   */
  function AddRecurring(s: Sim, steps: Steps): (r: Sim)
    requires Inv(s) && OnlyHits(s)
    ensures Inv(r) && r == s.(graph := r.graph)
    ensures r.graph.nodes == s.graph.nodes && r.graph.target == s.graph.target
    ensures HasDraw(r)
    ensures exists h :: h in r.graph.queue && r.graph.queue[h] == Entry(Add(s.now, At(steps.draw)), Draw)
    ensures exists h :: h in r.graph.queue && r.graph.queue[h] == Entry(Add(s.now, At(steps.sample)), Sample)
    ensures exists h :: h in r.graph.queue && r.graph.queue[h] == Entry(Add(s.now, At(steps.plot)), Plot)
    ensures forall h :: h in r.graph.queue && Periodic(r.graph.queue[h].event) ==>
      r.graph.queue[h] == Entry(Add(s.now, At(PeriodOf(steps, r.graph.queue[h].event))), r.graph.queue[h].event)
    ensures forall h :: h in r.graph.queue && !Periodic(r.graph.queue[h].event) ==>
      h in s.graph.queue && r.graph.queue[h] == s.graph.queue[h]
    ensures Causal(s) ==> Causal(r)
  {
    var d := AddEvent(s, Draw, steps);
    var v := AddEvent(d, Sample, steps);
    var c := AddEvent(v, Plot, steps);
    assert c.graph.queue[s.graph.nextEvent] == Entry(Add(s.now, At(steps.draw)), Draw);
    assert c.graph.queue[s.graph.nextEvent + 1] == Entry(Add(s.now, At(steps.sample)), Sample);
    assert c.graph.queue[s.graph.nextEvent + 2] == Entry(Add(s.now, At(steps.plot)), Plot);
    c
  }

  /**
   `doRestart`: everything is cleared, the cell size is computed, the
   obstacles and the contour are put in the grid, each piston is built in
   turn with the next ids and its first prediction, and the three
   recurring entries are queued. The random placement of the particles
   is not part of this model, so no particle is built.
   */
  method Restart(s: Sim, config: Configuration, steps: Steps, predict: Predictor) returns (r: Sim)
    requires Predicts(predict)
    requires s.built + |config.pistons| <= TwoTo32
    requires |config.populations| == 0 || exists i :: 0 <= i < |config.populations| && config.populations[i].radius > 0.0
    ensures Inv(r) && Causal(r) && HasDraw(r) && r.dirty == {}
    ensures Cleared(r)
    ensures Laid(s.built, config, r.size, r.built, r.graph.nodes.Keys, r.pistons, r.grid)
    ensures exists h :: h in r.graph.queue && r.graph.queue[h] == Entry(At(steps.draw), Draw)
    ensures exists h :: h in r.graph.queue && r.graph.queue[h] == Entry(At(steps.sample), Sample)
    ensures exists h :: h in r.graph.queue && r.graph.queue[h] == Entry(At(steps.plot), Plot)
    ensures forall h :: h in r.graph.queue && Periodic(r.graph.queue[h].event) ==>
      r.graph.queue[h] == Entry(At(PeriodOf(steps, r.graph.queue[h].event)), r.graph.queue[h].event)
  {
    var b := Prepare(s, config, predict);
    r := AddRecurring(b, steps);
  }

  /** `doRestart` up to its recurring entries: the grid and the pistons. */
  method Prepare(s: Sim, config: Configuration, predict: Predictor) returns (r: Sim)
    requires Predicts(predict)
    requires s.built + |config.pistons| <= TwoTo32
    requires |config.populations| == 0 || exists i :: 0 <= i < |config.populations| && config.populations[i].radius > 0.0
    ensures Inv(r) && Causal(r) && OnlyHits(r) && r.dirty == {} && Cleared(r)
    ensures Laid(s.built, config, r.size, r.built, r.graph.nodes.Keys, r.pistons, r.grid)
  {
    var size, grid := Ground(config);
    r := BuildPistons(s, size, grid, config, predict);
    LedgerDone(s.built, grid, config, r.size, r.built, r.graph.nodes.Keys, r.pistons, r.grid);
  }

  /** Nothing has happened yet: time zero, no collision, no particle. */
  ghost predicate Cleared(r: Sim)
  {
    r.now == At(0.0) && r.chocs == 0 && r.total == 0 && r.balls == map[] && r.pops == []
  }

  /**
   The grid and the pistons `doRestart` lays out: the cell size is
   positive (1 with no population), the ids from `first` to `built` are
   the configured pistons in order, each built with that cell size and
   listed in its two rows, and the grid holds the vertices and edges of
   the obstacles and of the contour.
   */
  ghost predicate Laid(first: MobileId, config: Configuration, size: real, built: nat,
                       ids: set<MobileId>, pistons: map<MobileId, Pistons.Piston>, grid: Areas.Grid)
  {
    && size > 0.0 && (|config.populations| == 0 ==> size == 1.0)
    && IdsLaid(first, config, built, ids, pistons)
    && PistonsLaid(first, config, size, pistons, grid)
    && WallsLaid(config, size, grid)
  }

  /** The ids from `first` to `built` are those of the configured pistons, and the pistons are keyed by them. */
  ghost predicate IdsLaid(first: MobileId, config: Configuration, built: nat, ids: set<MobileId>,
                          pistons: map<MobileId, Pistons.Piston>)
  {
    && built == first + |config.pistons|
    && (forall m :: m in ids <==> first <= m < built)
    && pistons.Keys == ids
  }

  /** Piston `i` of the configuration, built with cell size `size`, sits under id `first + i`, listed in its two rows. */
  ghost predicate PistonsLaid(first: MobileId, config: Configuration, size: real,
                              pistons: map<MobileId, Pistons.Piston>, grid: Areas.Grid)
    requires size > 0.0
  {
    forall i :: 0 <= i < |config.pistons| ==>
      first + i in pistons && pistons[first + i] == Pistons.Create(config.pistons[i], size) &&
      Areas.PistonRegistered(grid, first + i, Pistons.Create(config.pistons[i], size).area1, Pistons.Create(config.pistons[i], size).area2)
  }

  /** The grid holds the vertices and the edges of the obstacles and of the contour. */
  ghost predicate WallsLaid(config: Configuration, size: real, grid: Areas.Grid)
    requires size > 0.0
  {
    && (forall d :: Areas.VerticesAt(grid, d) == Areas.VerticesIn(Areas.AllVertices(Shapes(config.obstacles) + [config.contour.vertices]), size, d))
    && (forall d :: Areas.SegmentsAt(grid, d) == Areas.AllEdgesThrough(Shapes(config.obstacles) + [config.contour.vertices], size, d))
  }

  /**
   The first lines of `doRestart` after the clearing: the cell size, and
   an empty grid holding the obstacles and the contour.
   */
  method Ground(config: Configuration) returns (size: real, grid: Areas.Grid)
    requires |config.populations| == 0 || exists i :: 0 <= i < |config.populations| && config.populations[i].radius > 0.0
    ensures size > 0.0 && (|config.populations| == 0 ==> size == 1.0)
    ensures forall m, j :: multiset(Areas.PistonsAt(grid, j))[m] == 0
    ensures forall d :: Areas.VerticesAt(grid, d) == Areas.VerticesIn(Areas.AllVertices(Shapes(config.obstacles) + [config.contour.vertices]), size, d)
    ensures forall d :: Areas.SegmentsAt(grid, d) == Areas.AllEdgesThrough(Shapes(config.obstacles) + [config.contour.vertices], size, d)
  {
    size := SizeArea(config);
    if |config.populations| > 0 {
      var i :| 0 <= i < |config.populations| && config.populations[i].radius > 0.0;
      assert size >= 2.5 * config.populations[i].radius;
    }
    grid := Areas.AddObstacles(Areas.Empty(), Shapes(config.obstacles), config.contour.vertices, size);
    BareWalls(Areas.Empty(), grid, Shapes(config.obstacles), config.contour.vertices, size);
  }

  /** Walls added to an empty grid are all it holds: no piston, and only their own vertices and segments. */
  lemma BareWalls(g: Areas.Grid, grid: Areas.Grid, obstacles: seq<Polygon>, contour: Polygon, size: real)
    requires size > 0.0 && g == Areas.Empty() && grid == Areas.AddObstacles(g, obstacles, contour, size)
    ensures forall m, j :: multiset(Areas.PistonsAt(grid, j))[m] == 0
    ensures forall d :: Areas.VerticesAt(grid, d) == Areas.VerticesIn(Areas.AllVertices(obstacles + [contour]), size, d)
    ensures forall d :: Areas.SegmentsAt(grid, d) == Areas.AllEdgesThrough(obstacles + [contour], size, d)
  {
    forall d
      ensures Areas.VerticesAt(grid, d) == Areas.VerticesIn(Areas.AllVertices(obstacles + [contour]), size, d)
    {
      assert Areas.VerticesAt(g, d) == [];
    }
    assert forall j :: Areas.PistonsAt(grid, j) == Areas.PistonsAt(g, j) == [];
  }

  /** The loop of `doRestart` over the configured pistons. */
  method BuildPistons(s: Sim, size: real, base: Areas.Grid, config: Configuration, predict: Predictor)
    returns (r: Sim)
    requires Predicts(predict) && size > 0.0
    requires s.built + |config.pistons| <= TwoTo32
    requires forall m, j :: s.built <= m ==> multiset(Areas.PistonsAt(base, j))[m] == 0
    ensures Building(s.built, base, r, config, |config.pistons|) && r.size == size
  {
    r := Start(s, size, base, config);
    var i := 0;
    while i < |config.pistons|
      invariant 0 <= i <= |config.pistons|
      invariant Building(s.built, base, r, config, i) && r.size == size
    {
      r := AddPistonStep(s.built, base, r, config, i, predict);
      i := i + 1;
    }
  }

  /** The state `doRestart` starts its loop from: cleared, with the new cell size and grid. */
  function Start(s: Sim, size: real, base: Areas.Grid, config: Configuration): (r: Sim)
    requires size > 0.0
    ensures Building(s.built, base, r, config, 0) && r.size == size
  {
    Clear(s).(size := size, grid := base)
  }

  /** What the loop of `doRestart` leaves once every piston is built. */
  lemma LedgerDone(first: MobileId, base: Areas.Grid, config: Configuration, size: real, built: nat,
                   ids: set<MobileId>, pistons: map<MobileId, Pistons.Piston>, grid: Areas.Grid)
    requires Ledger(first, base, config, |config.pistons|, size, built, ids, pistons, grid)
    requires |config.populations| == 0 ==> size == 1.0
    requires forall m, j :: first <= m ==> multiset(Areas.PistonsAt(base, j))[m] == 0
    requires forall d :: Areas.VerticesAt(base, d) == Areas.VerticesIn(Areas.AllVertices(Shapes(config.obstacles) + [config.contour.vertices]), size, d)
    requires forall d :: Areas.SegmentsAt(base, d) == Areas.AllEdgesThrough(Shapes(config.obstacles) + [config.contour.vertices], size, d)
    ensures Laid(first, config, size, built, ids, pistons, grid)
  {
    assert IdsLaid(first, config, built, ids, pistons);
    var ps := Built(config, |config.pistons|, size);
    RegisterAllRegisters(base, first, ps);
    LaidPistons(first, config, size, pistons, grid, ps);
    var shapes := Shapes(config.obstacles) + [config.contour.vertices];
    SameWalls(base, grid, shapes, Areas.AllVertices(shapes), size);
    assert WallsLaid(config, size, grid);
  }

  /** Registering pistons leaves the vertices and the segments of every cell alone. */
  lemma SameWalls(base: Areas.Grid, grid: Areas.Grid, shapes: seq<Polygon>, vs: seq<Vec>, size: real)
    requires grid == base.(pistons := grid.pistons) && size > 0.0
    requires forall d :: Areas.VerticesAt(base, d) == Areas.VerticesIn(vs, size, d)
    requires forall d :: Areas.SegmentsAt(base, d) == Areas.AllEdgesThrough(shapes, size, d)
    ensures forall d :: Areas.VerticesAt(grid, d) == Areas.VerticesIn(vs, size, d)
    ensures forall d :: Areas.SegmentsAt(grid, d) == Areas.AllEdgesThrough(shapes, size, d)
  {
    forall d
      ensures Areas.VerticesAt(grid, d) == Areas.VerticesAt(base, d) && Areas.SegmentsAt(grid, d) == Areas.SegmentsAt(base, d)
    {
    }
  }

  /** Piston `i` of the configuration sits under id `first + i`, registered in its two rows. */
  lemma LaidPistons(first: MobileId, config: Configuration, size: real, pistons: map<MobileId, Pistons.Piston>,
                    grid: Areas.Grid, ps: seq<Pistons.Piston>)
    requires |ps| == |config.pistons| && size > 0.0
    requires forall k :: 0 <= k < |ps| ==> ps[k] == Pistons.Create(config.pistons[k], size)
    requires forall m :: first <= m < first + |ps| ==> m in pistons && pistons[m] == Pistons.Create(config.pistons[m - first], size)
    requires forall k :: 0 <= k < |ps| ==> Areas.PistonRegistered(grid, first + k, ps[k].area1, ps[k].area2)
    ensures PistonsLaid(first, config, size, pistons, grid)
  {
    forall i | 0 <= i < |config.pistons|
      ensures first + i in pistons && pistons[first + i] == Pistons.Create(config.pistons[i], size)
      ensures Areas.PistonRegistered(grid, first + i, Pistons.Create(config.pistons[i], size).area1, Pistons.Create(config.pistons[i], size).area2)
    {
      var m := first + i;
      assert m - first == i;
      assert m in pistons;
      assert Areas.PistonRegistered(grid, first + i, ps[i].area1, ps[i].area2);
    }
  }

  /** The ids from `lo` up to, and without, `hi`. */
  function IdRange(lo: nat, hi: nat): (r: set<MobileId>)
    ensures forall m :: m in r <==> lo <= m < hi
    decreases hi - lo
  {
    if hi <= lo then {} else IdRange(lo, hi - 1) + {hi - 1}
  }

  /** The first `i` pistons of the configuration, as built with cell size `size`. */
  function Built(config: Configuration, i: nat, size: real): (ps: seq<Pistons.Piston>)
    requires i <= |config.pistons| && size > 0.0
    ensures |ps| == i && forall k :: 0 <= k < i ==> ps[k] == Pistons.Create(config.pistons[k], size)
  {
    seq(i, k requires 0 <= k < i => Pistons.Create(config.pistons[k], size))
  }

  /** The grid `g` after pistons `ps` were registered in turn under ids `first` onwards. */
  function RegisterAll(g: Areas.Grid, first: MobileId, ps: seq<Pistons.Piston>): (r: Areas.Grid)
    ensures r == g.(pistons := r.pistons)
    decreases |ps|
  {
    if ps == [] then g
    else
      var last := ps[|ps| - 1];
      Areas.RegisterPiston(RegisterAll(g, first, ps[..|ps| - 1]), first + |ps| - 1, last.area1, last.area2)
  }

  /**
   Registering pistons under fresh ids one after another leaves each of
   them listed exactly in its two rows, and no later id anywhere.
   */
  lemma {:induction false} RegisterAllRegisters(g: Areas.Grid, first: MobileId, ps: seq<Pistons.Piston>)
    requires forall m, j :: first <= m ==> multiset(Areas.PistonsAt(g, j))[m] == 0
    ensures forall k :: 0 <= k < |ps| ==>
      Areas.PistonRegistered(RegisterAll(g, first, ps), first + k, ps[k].area1, ps[k].area2)
    ensures forall m, j :: first + |ps| <= m ==> multiset(Areas.PistonsAt(RegisterAll(g, first, ps), j))[m] == 0
    decreases |ps|
  {
    if ps != [] {
      var init := ps[..|ps| - 1];
      var last := ps[|ps| - 1];
      var a := first + |ps| - 1;
      RegisterAllRegisters(g, first, init);
      var mid := RegisterAll(g, first, init);
      Areas.RegisterPistonCounts(mid, a, last.area1, last.area2);
      forall k | 0 <= k < |ps|
        ensures Areas.PistonRegistered(RegisterAll(g, first, ps), first + k, ps[k].area1, ps[k].area2)
      {
        if k < |ps| - 1 {
          assert ps[k] == init[k];
          assert Areas.PistonRegistered(mid, first + k, init[k].area1, init[k].area2);
        }
      }
    }
  }

  /**
   The bookkeeping of `doRestart` after its first `i` pistons: ids
   `first` onwards are theirs, in order, and the grid is `base` with
   their rows registered in turn.
   */
  ghost predicate Books(first: MobileId, base: Areas.Grid, r: Sim, config: Configuration, i: nat)
  {
    Ledger(first, base, config, i, r.size, r.built, r.graph.nodes.Keys, r.pistons, r.grid)
  }

  /** `Books`, on the parts of the state it is about. */
  ghost predicate Ledger(first: MobileId, base: Areas.Grid, config: Configuration, i: nat, size: real, built: nat,
                         ids: set<MobileId>, pistons: map<MobileId, Pistons.Piston>, grid: Areas.Grid)
  {
    && i <= |config.pistons| && size > 0.0
    && built == first + i
    && ids == IdRange(first, built)
    && pistons.Keys == ids
    && (forall m :: first <= m < built ==> m in pistons && pistons[m] == Pistons.Create(config.pistons[m - first], size))
    && grid == RegisterAll(base, first, Built(config, i, size))
  }

  /** The state of `doRestart` after its first `i` pistons. */
  ghost predicate Building(first: MobileId, base: Areas.Grid, r: Sim, config: Configuration, i: nat)
  {
    Books(first, base, r, config, i) && Inv(r) && Causal(r) && OnlyHits(r) && r.dirty == {} && Cleared(r)
  }

  /** One piston of the loop of `doRestart`. */
  method AddPistonStep(first: MobileId, base: Areas.Grid, r: Sim, config: Configuration, i: nat, predict: Predictor)
    returns (r': Sim)
    requires Predicts(predict)
    requires i < |config.pistons| && first + |config.pistons| <= TwoTo32
    requires forall m, j :: first <= m ==> multiset(Areas.PistonsAt(base, j))[m] == 0
    requires Building(first, base, r, config, i)
    ensures Building(first, base, r', config, i + 1)
    ensures r' == r.(graph := r'.graph, pistons := r'.pistons, grid := r'.grid, studies := r'.studies, built := r'.built)
  {
    RegisterAllRegisters(base, first, Built(config, i, r.size));
    var a;
    r', a := AddPiston(r, config.pistons[i], predict);
    BooksStep(first, base, r, r', config, i, a);
  }

  /** The bookkeeping of one piston of `doRestart`. */
  lemma BooksStep(first: MobileId, base: Areas.Grid, r: Sim, r': Sim, config: Configuration, i: nat, a: MobileId)
    requires Books(first, base, r, config, i) && i < |config.pistons|
    requires a == r.built && r'.built == r.built + 1 && r'.size == r.size
    requires r'.graph.nodes.Keys == r.graph.nodes.Keys + {a}
    requires r'.pistons == r.pistons[a := Pistons.Create(config.pistons[i], r.size)]
    requires r'.grid == Areas.RegisterPiston(r.grid, a, r'.pistons[a].area1, r'.pistons[a].area2)
    ensures Books(first, base, r', config, i + 1)
  {
    LedgerStep(first, base, config, i, r.size, r.built, r.graph.nodes.Keys, r.pistons, r.grid,
               r'.graph.nodes.Keys, r'.pistons, r'.grid);
  }

  /** `BooksStep`, on the parts of the state it is about. */
  lemma LedgerStep(first: MobileId, base: Areas.Grid, config: Configuration, i: nat, size: real, built: nat,
                   ids: set<MobileId>, pistons: map<MobileId, Pistons.Piston>, grid: Areas.Grid,
                   ids': set<MobileId>, pistons': map<MobileId, Pistons.Piston>, grid': Areas.Grid)
    requires Ledger(first, base, config, i, size, built, ids, pistons, grid) && i < |config.pistons|
    requires ids' == ids + {built}
    requires pistons' == pistons[built := Pistons.Create(config.pistons[i], size)]
    requires grid' == Areas.RegisterPiston(grid, built, pistons'[built].area1, pistons'[built].area2)
    ensures Ledger(first, base, config, i + 1, size, built + 1, ids', pistons', grid')
  {
    IdRangeStep(first, built);
    PistonsStep(first, pistons, pistons', config, i, size);
    RegisterAllStep(base, first, config, i, size);
  }

  /** The ids of one more piston. */
  lemma IdRangeStep(lo: MobileId, hi: MobileId)
    requires lo <= hi
    ensures IdRange(lo, hi + 1) == IdRange(lo, hi) + {hi}
  {
  }

  /** The pistons after one more of them: the new id holds the new piston, the others keep theirs. */
  lemma PistonsStep(first: MobileId, pistons: map<MobileId, Pistons.Piston>, pistons': map<MobileId, Pistons.Piston>,
                    config: Configuration, i: nat, size: real)
    requires i < |config.pistons| && size > 0.0 && first + i !in pistons
    requires forall m :: first <= m < first + i ==> m in pistons && pistons[m] == Pistons.Create(config.pistons[m - first], size)
    requires pistons' == pistons[first + i := Pistons.Create(config.pistons[i], size)]
    ensures forall m :: first <= m < first + i + 1 ==> m in pistons' && pistons'[m] == Pistons.Create(config.pistons[m - first], size)
  {
    forall m | first <= m < first + i + 1
      ensures m in pistons' && pistons'[m] == Pistons.Create(config.pistons[m - first], size)
    {
      if m < first + i {
        assert m != first + i;
      }
    }
  }

  /** Registering one more piston extends the registration of the previous ones. */
  lemma RegisterAllStep(base: Areas.Grid, first: MobileId, config: Configuration, i: nat, size: real)
    requires i < |config.pistons| && size > 0.0
    ensures var p := Pistons.Create(config.pistons[i], size);
      RegisterAll(base, first, Built(config, i + 1, size)) ==
      Areas.RegisterPiston(RegisterAll(base, first, Built(config, i, size)), first + i, p.area1, p.area2)
  {
    assert Built(config, i + 1, size)[..i] == Built(config, i, size);
  }

  /** The row lists of `g'` count every mobile but `a` as those of `g` do. */
  ghost predicate ListsOthersAlike(g: Areas.Grid, g': Areas.Grid, a: MobileId)
  {
    forall b, j :: b != a ==> multiset(Areas.PistonsAt(g', j))[b] == multiset(Areas.PistonsAt(g, j))[b]
  }
}

=== FILE: editor.dfy ===
/**
 The list of polygons behind the obstacle and target editors, with the
 index of the polygon being edited (-1 when none is). The selected
 polygon is handed to the polygon editor and left out of the list that
 is drawn around it.
 */
module Editors {
  import opened Polygons

  datatype Editor = Editor(polygons: seq<Polygon>, index: int)

  /** The index a well-formed editor keeps: -1, or a valid position. */
  predicate Ok(e: Editor)
  {
    -1 <= e.index < |e.polygons|
  }

  /**
   The test the editor makes before using the index: it is not -1 and
   below the size. For an index of -1 or more it means a valid position;
   the index never drops below -1 (see `AddPolygon` and `RemovePolygon`).
   */
  predicate Selects(e: Editor)
  {
    e.index != -1 && e.index < |e.polygons|
  }

  /** Removing position `i` from a list. */
  function RemoveAt<T>(s: seq<T>, i: nat): (r: seq<T>)
    requires i < |s|
    ensures |r| == |s| - 1
    ensures forall k :: 0 <= k < i ==> r[k] == s[k]
    ensures forall k :: i <= k < |r| ==> r[k] == s[k + 1]
  {
    s[..i] + s[i + 1..]
  }

  /** Removing an element keeps the others, with their multiplicities. */
  lemma RemoveAtIsPermutation<T>(s: seq<T>, i: nat)
    requires i < |s|
    ensures multiset(RemoveAt(s, i)) + multiset{s[i]} == multiset(s)
  {
    assert s == s[..i] + [s[i]] + s[i + 1..];
  }

  /** `addPolygone`: a new, empty polygon at the end, and it is the one selected. */
  function AddPolygon(e: Editor): (r: Editor)
    ensures |r.polygons| == |e.polygons| + 1 && r.polygons[..|e.polygons|] == e.polygons
    ensures r.index == |e.polygons| && Size(r.polygons[r.index]) == 0
    ensures Ok(r) && Selects(r)
  {
    Editor(e.polygons + [Polygon([])], |e.polygons|)
  }

  /**
   `removePolygone`: the selected polygon goes; the index stays where it
   is unless it was the last position, in which case it steps back.
   Removing from a list needs a valid position.
   */
  function RemovePolygon(e: Editor): (r: Editor)
    requires 0 <= e.index < |e.polygons|
    ensures r.polygons == RemoveAt(e.polygons, e.index)
    ensures r.index == (if e.index == |e.polygons| - 1 then e.index - 1 else e.index)
    ensures Ok(r)
  {
    var rest := RemoveAt(e.polygons, e.index);
    Editor(rest, if e.index == |rest| then e.index - 1 else e.index)
  }

  /** Adding a polygon and removing it at once restores the list, with the last one selected. */
  lemma RemoveUndoesAdd(e: Editor)
    ensures RemovePolygon(AddPolygon(e)).polygons == e.polygons
    ensures RemovePolygon(AddPolygon(e)).index == |e.polygons| - 1
  {
    assert AddPolygon(e).polygons[..|e.polygons|] == e.polygons;
  }

  /**
   `drawList`: every polygon but the selected one, in order; all of them
   when none is selected.
   */
  function DrawList(e: Editor): (r: seq<Polygon>)
    requires e.index >= -1
    ensures Selects(e) ==> multiset(r) + multiset{e.polygons[e.index]} == multiset(e.polygons)
    ensures Selects(e) ==> |r| == |e.polygons| - 1
    ensures Selects(e) ==> forall k :: 0 <= k < |r| ==> r[k] == e.polygons[if k < e.index then k else k + 1]
    ensures !Selects(e) ==> r == e.polygons
  {
    if Selects(e) then
      RemoveAtIsPermutation(e.polygons, e.index);
      RemoveAt(e.polygons, e.index)
    else e.polygons
  }

  /** `modified`: the edited polygon replaces the selected one; nothing changes when none is selected. */
  function Modified(e: Editor, p: Polygon): (r: Editor)
    requires e.index >= -1
    ensures r.index == e.index && |r.polygons| == |e.polygons|
    ensures forall k :: 0 <= k < |e.polygons| ==> r.polygons[k] == if Selects(e) && k == e.index then p else e.polygons[k]
  {
    if Selects(e) then e.(polygons := e.polygons[e.index := p]) else e
  }

  /**
   `setPolygone`: the polygon handed to the polygon editor, the selected
   one or a cleared polygon, and the list drawn around it.
   */
  function SetPolygon(e: Editor): (r: (Polygon, seq<Polygon>))
    requires e.index >= -1
    ensures Selects(e) ==> r.0 == e.polygons[e.index]
    ensures !Selects(e) ==> Size(r.0) == 0
    ensures r.1 == DrawList(e)
  {
    (if Selects(e) then e.polygons[e.index] else Polygon([]), DrawList(e))
  }

  /** Editing the selected polygon never shows in the list drawn around it. */
  lemma ModifiedIsHidden(e: Editor, p: Polygon)
    requires e.index >= -1
    ensures DrawList(Modified(e, p)) == DrawList(e)
  {
    if Selects(e) {
      var a := DrawList(Modified(e, p));
      var b := DrawList(e);
      assert |a| == |b|;
      forall k | 0 <= k < |a|
        ensures a[k] == b[k]
      {
      }
    }
  }
}

=== FILE: events.dfy ===
/**
 The vocabulary of the event queue: mobile and event identifiers, the
 five kinds of collision (the default one, two mobiles, a mobile and an
 obstacle vertex, a mobile and an obstacle segment, a mobile leaving its
 grid cell), and the events the queue holds.
 */
module Events {
  import opened Geometry
  import opened Segments
  import opened Times

  /** Mobiles are named by integer ids; they play the role of the source's object pointers. */
  type MobileId = nat

  /**
   Queue entries are named by integer ids allocated in increasing order.
   Sets of handles are iterated in increasing id order, which stands for
   the address order the source's handle sets use.
   */
  type EventId = nat

  datatype Collision =
    | Default
    | Mobiles(first: MobileId, second: MobileId)
    | Vertex(first: MobileId, point: Vec)
    | Edge(first: MobileId, segment: Segment)
    | Area(first: MobileId)

  /** The source's collision equality: same kind, and the same participants (in either order for two mobiles). */
  predicate Eq(a: Collision, b: Collision)
  {
    match (a, b)
    case (Default, Default) => true
    case (Mobiles(a1, a2), Mobiles(b1, b2)) => (a2 == b2 && a1 == b1) || (a2 == b1 && a1 == b2)
    case (Vertex(a1, p), Vertex(b1, q)) => a1 == b1 && p == q
    case (Edge(a1, s), Edge(b1, t)) => a1 == b1 && Segments.Eq(s, t)
    case (Area(a1), Area(b1)) => a1 == b1
    case _ => false
  }

  /** A real collision is anything but a grid-cell change. */
  predicate IsReal(c: Collision)
  {
    !c.Area?
  }

  /** Whether mobile m takes part in the collision. */
  predicate Involves(c: Collision, m: MobileId)
  {
    !c.Default? && (c.first == m || (c.Mobiles? && c.second == m))
  }

  /** The other participant of a two-mobile collision, seen from `m`. */
  function Other(c: Collision, m: MobileId): (o: MobileId)
    requires c.Mobiles? && Involves(c, m)
    ensures Involves(c, o)
    ensures c.first != c.second ==> o != m
  {
    if c.first == m then c.second else c.first
  }

  /**
   Equality is an equivalence; collisions of different kinds are never
   equal; equal collisions are identical up to the order of two mobiles.
   */
  lemma EqIsSameOrSwapped(a: Collision, b: Collision)
    ensures Eq(a, b) <==> a == b || (a.Mobiles? && b == Mobiles(a.second, a.first))
    ensures Eq(a, b) ==> Eq(b, a)
    ensures Eq(a, a)
  {
    if a.Edge? && b.Edge? {
      Segments.EqIsIdentity(a.segment, b.segment);
    }
    if a.Edge? {
      Segments.EqIsIdentity(a.segment, a.segment);
    }
  }

  lemma EqIsTransitive(a: Collision, b: Collision, c: Collision)
    requires Eq(a, b) && Eq(b, c)
    ensures Eq(a, c)
  {
    EqIsSameOrSwapped(a, b);
    EqIsSameOrSwapped(b, c);
    EqIsSameOrSwapped(a, c);
  }

  /** Equal collisions involve the same mobiles. */
  lemma EqKeepsParticipants(a: Collision, b: Collision, m: MobileId)
    requires Eq(a, b)
    ensures Involves(a, m) <==> Involves(b, m)
    ensures IsReal(a) <==> IsReal(b)
  {
    EqIsSameOrSwapped(a, b);
  }

  /** What a queue entry does when it fires. */
  datatype Event =
    | Draw
    | Sample
    | Plot
    | Mutation(particle: MobileId)
    | Hit(collision: Collision)

  /** A queue entry: its firing time and its event. */
  datatype Entry = Entry(time: Time, event: Event)

  /** The smallest element of a non-empty set of ids. */
  function MinOf(s: set<nat>): (m: nat)
    requires s != {}
    ensures m in s
    ensures forall k :: k in s ==> m <= k
  {
    MinExists(s);
    var m :| m in s && forall k :: k in s ==> m <= k;
    m
  }

  /** The elements of a finite set of ids in increasing order: the order in which the loops over handle sets visit them. */
  function Ascending(s: set<nat>): (r: seq<nat>)
    ensures |r| == |s|
    ensures forall x :: x in r <==> x in s
    ensures forall i, j :: 0 <= i < j < |r| ==> r[i] < r[j]
    decreases |s|
  {
    if s == {} then []
    else
      var m := MinOf(s);
      var rest := Ascending(s - {m});
      assert forall i :: 0 <= i < |rest| ==> m < rest[i] by {
        forall i | 0 <= i < |rest| ensures m < rest[i] {
          assert rest[i] in s - {m};
        }
      }
      [m] + rest
  }

  lemma ConcatAssociates<T>(a: seq<T>, b: seq<T>, c: seq<T>)
    ensures a + (b + c) == (a + b) + c
  {
  }

  lemma PrefixGrows<T>(s: seq<T>, k: nat)
    requires k <= |s|
    ensures k < |s| ==> s[..k + 1] == s[..k] + [s[k]]
    ensures k == |s| ==> s[..k] == s
  {
  }

  lemma MinExists(s: set<nat>)
    requires s != {}
    ensures exists m :: m in s && forall k :: k in s ==> m <= k
  {
    var m := LeastElement(s);
  }

  lemma {:induction false} LeastElement(s: set<nat>) returns (m: nat)
    requires s != {}
    ensures m in s && forall k :: k in s ==> m <= k
    decreases |s|
  {
    var x :| x in s;
    if s == {x} {
      m := x;
    } else {
      var rest := s - {x};
      var r := LeastElement(rest);
      m := if x < r then x else r;
      forall k | k in s
        ensures m <= k
      {
        if k != x { assert k in rest; }
      }
    }
  }
}

=== FILE: geometry.dfy ===
/**
 Two-dimensional vectors over the reals (the simulator's double-valued
 coordinates) and integer grid cells, with the algebra the engine uses:
 dot product, determinant, squared length, componentwise bounds, the
 complex product and the lexicographic order.
 */
module Geometry {

  datatype Vec = Vec(x: real, y: real)

  /** An integer pair: a cell of the broad-phase grid. */
  datatype Cell = Cell(x: int, y: int)

  function Zero(): Vec { Vec(0.0, 0.0) }

  function Plus(a: Vec, b: Vec): (r: Vec)
  {
    Vec(a.x + b.x, a.y + b.y)
  }

  function Minus(a: Vec, b: Vec): (r: Vec)
    ensures Plus(r, b) == a
  {
    Vec(a.x - b.x, a.y - b.y)
  }

  function Neg(a: Vec): (r: Vec)
    ensures Plus(a, r) == Zero()
  {
    Vec(-a.x, -a.y)
  }

  function Scale(a: Vec, k: real): (r: Vec)
  {
    Vec(a.x * k, a.y * k)
  }

  /** The vector turned a quarter turn counter-clockwise: (-y, x). */
  function Perp(a: Vec): (r: Vec)
    ensures Scalar(r, a) == 0.0 && Det(a, r) == SquareLength(a)
  {
    Vec(-a.y, a.x)
  }

  /** Dot product x*x' + y*y'. */
  function Scalar(a: Vec, b: Vec): real
  {
    a.x * b.x + a.y * b.y
  }

  /** Determinant x*y' - y*x'. */
  function Det(a: Vec, b: Vec): real
  {
    a.x * b.y - a.y * b.x
  }

  /** Squared length x^2 + y^2. */
  function SquareLength(a: Vec): (r: real)
    ensures r >= 0.0
  {
    SquaresNonNeg(a.x, a.y);
    a.x * a.x + a.y * a.y
  }

  /** Only the zero vector has squared length 0. */
  lemma SquareLengthZero(a: Vec)
    ensures SquareLength(a) == 0.0 <==> a == Zero()
  {
    SquaresNonNeg(a.x, a.y);
  }

  /** A real product as a term: the arithmetic lemmas below are stated on it. */
  function Product(a: real, b: real): real
  {
    a * b
  }

  lemma ProductPos(a: real, b: real)
    requires a > 0.0 && b > 0.0
    ensures Product(a, b) > 0.0
  {
  }

  lemma ProductNegNeg(a: real, b: real)
    ensures Product(-a, -b) == Product(a, b)
  {
  }

  /** A square is non-negative, and positive away from 0. */
  lemma SquareNonNeg(u: real)
    ensures Product(u, u) >= 0.0
    ensures u != 0.0 ==> Product(u, u) > 0.0
  {
    if u > 0.0 {
      ProductPos(u, u);
    } else if u < 0.0 {
      ProductPos(-u, -u);
      ProductNegNeg(u, u);
    }
  }

  lemma SquaresNonNeg(u: real, v: real)
    ensures Product(u, u) + Product(v, v) >= 0.0
    ensures Product(u, u) + Product(v, v) == 0.0 <==> u == 0.0 && v == 0.0
  {
    SquareNonNeg(u);
    SquareNonNeg(v);
  }

  /** Multiplying by a positive factor keeps a strict order. */
  lemma ProductLess(a: real, b: real, c: real)
    requires a < b && c > 0.0
    ensures Product(a, c) < Product(b, c)
  {
    ProductPos(b - a, c);
  }

  /** Componentwise minimum. */
  function Min(a: Vec, b: Vec): (r: Vec)
    ensures r.x <= a.x && r.x <= b.x && r.y <= a.y && r.y <= b.y
    ensures (r.x == a.x || r.x == b.x) && (r.y == a.y || r.y == b.y)
  {
    Vec(if a.x <= b.x then a.x else b.x, if a.y <= b.y then a.y else b.y)
  }

  /** Componentwise maximum. */
  function Max(a: Vec, b: Vec): (r: Vec)
    ensures r.x >= a.x && r.x >= b.x && r.y >= a.y && r.y >= b.y
    ensures (r.x == a.x || r.x == b.x) && (r.y == a.y || r.y == b.y)
  {
    Vec(if a.x >= b.x then a.x else b.x, if a.y >= b.y then a.y else b.y)
  }

  /** Componentwise minimum of grid cells. */
  function CellMin(a: Cell, b: Cell): (r: Cell)
    ensures r.x <= a.x && r.x <= b.x && r.y <= a.y && r.y <= b.y
    ensures (r.x == a.x || r.x == b.x) && (r.y == a.y || r.y == b.y)
  {
    Cell(if a.x <= b.x then a.x else b.x, if a.y <= b.y then a.y else b.y)
  }

  /** Componentwise maximum of grid cells. */
  function CellMax(a: Cell, b: Cell): (r: Cell)
    ensures r.x >= a.x && r.x >= b.x && r.y >= a.y && r.y >= b.y
    ensures (r.x == a.x || r.x == b.x) && (r.y == a.y || r.y == b.y)
  {
    Cell(if a.x >= b.x then a.x else b.x, if a.y >= b.y then a.y else b.y)
  }

  /** Complex product: (x*x' - y*y', x*y' + y*x'). */
  function ComplexProduct(a: Vec, b: Vec): (r: Vec)
    ensures r.x == Scalar(a, Vec(b.x, -b.y))
    ensures r.y == Det(Vec(a.x, -a.y), b)
  {
    Vec(a.x * b.x - a.y * b.y, a.x * b.y + a.y * b.x)
  }

  /** Lexicographic order: x first, then y. */
  predicate LexLess(a: Vec, b: Vec)
  {
    if a.x == b.x then a.y < b.y else a.x < b.x
  }

  /** The grid cell containing a point, for a grid of step `size`. */
  function CellOf(p: Vec, size: real): (c: Cell)
    requires size > 0.0
    ensures c.x as real * size <= p.x < (c.x + 1) as real * size
    ensures c.y as real * size <= p.y < (c.y + 1) as real * size
  {
    FloorDivBounds(p.x, size);
    FloorDivBounds(p.y, size);
    Cell((p.x / size).Floor, (p.y / size).Floor)
  }

  /** floor(u / size) brackets u between consecutive multiples of size. */
  lemma FloorDivBounds(u: real, size: real)
    requires size > 0.0
    ensures (u / size).Floor as real * size <= u < ((u / size).Floor + 1) as real * size
  {
    var q := u / size;
    var f := q.Floor;
    assert Product(q, size) == u;
    if f as real < q {
      ProductLess(f as real, q, size);
    }
    ProductLess(q, f as real + 1.0, size);
  }

  /** The dot product is symmetric. */
  lemma ScalarSymmetric(a: Vec, b: Vec)
    ensures Scalar(a, b) == Scalar(b, a)
  {
  }

  /** The determinant is antisymmetric, so a vector's determinant with itself is 0. */
  lemma DetAntisymmetric(a: Vec, b: Vec)
    ensures Det(a, b) == -Det(b, a)
    ensures Det(a, a) == 0.0
  {
  }

  /** The squared length is the dot product of a vector with itself. */
  lemma SquareLengthIsSelfScalar(a: Vec)
    ensures SquareLength(a) == Scalar(a, a)
  {
  }

  /** Lagrange's identity: (a.b)^2 + det(a,b)^2 = |a|^2 |b|^2. */
  lemma {:induction false} ScalarDetIdentity(a: Vec, b: Vec)
    ensures Scalar(a, b) * Scalar(a, b) + Det(a, b) * Det(a, b) == SquareLength(a) * SquareLength(b)
  {
    var s := Scalar(a, b);
    var d := Det(a, b);
    calc {
      s * s + d * d;
      (a.x * b.x) * (a.x * b.x) + 2.0 * (a.x * b.x) * (a.y * b.y) + (a.y * b.y) * (a.y * b.y)
      + (a.x * b.y) * (a.x * b.y) - 2.0 * (a.x * b.y) * (a.y * b.x) + (a.y * b.x) * (a.y * b.x);
      (a.x * a.x) * (b.x * b.x) + (a.x * a.x) * (b.y * b.y) + (a.y * a.y) * (b.x * b.x) + (a.y * a.y) * (b.y * b.y);
      (a.x * a.x + a.y * a.y) * (b.x * b.x + b.y * b.y);
    }
  }

  /** The complex product multiplies squared lengths. */
  lemma ComplexProductSquareLength(a: Vec, b: Vec)
    ensures SquareLength(ComplexProduct(a, b)) == SquareLength(a) * SquareLength(b)
  {
    var r := ComplexProduct(a, b);
    assert r.x == Scalar(a, Vec(b.x, -b.y));
    assert r.y == Det(Vec(a.x, -a.y), b);
    ScalarDetIdentity(a, Vec(b.x, -b.y));
    assert Det(a, Vec(b.x, -b.y)) == -r.y;
    assert SquareLength(Vec(b.x, -b.y)) == SquareLength(b);
  }

  /** The lexicographic order is a strict total order on vectors. */
  lemma LexLessIsStrictTotalOrder(a: Vec, b: Vec, c: Vec)
    ensures !LexLess(a, a)
    ensures LexLess(a, b) && LexLess(b, c) ==> LexLess(a, c)
    ensures LexLess(a, b) || LexLess(b, a) || a == b
    ensures LexLess(a, b) ==> !LexLess(b, a)
  {
  }

  /** Decomposition on a unit vector n: v = n (v.n) + perp(n) det(n, v). */
  lemma {:induction false} UnitDecomposition(n: Vec, v: Vec)
    requires SquareLength(n) == 1.0
    ensures Plus(Scale(n, Scalar(v, n)), Scale(Perp(n), Det(n, v))) == v
  {
    var s := Scalar(v, n);
    var d := Det(n, v);
    assert n.x * s - n.y * d == v.x * (n.x * n.x + n.y * n.y);
    assert n.y * s + n.x * d == v.y * (n.x * n.x + n.y * n.y);
  }
}

=== FILE: grid.dfy ===
/**
 The spatial index of the simulation: space is cut into square cells of
 a fixed size, and each cell lists the particles, obstacle vertices and
 obstacle segments it holds, while each horizontal row lists the pistons
 crossing it. The source keeps a map from row index to a row object
 holding per-column maps; here a cell `Cell(i, j)` stands for column key
 `i` of row `j`, and a missing entry reads as empty, as the source's maps
 create empty entries on access.
 */
module Areas {
  import opened Geometry
  import opened Segments
  import opened Polygons
  import opened Events
  import opened Particles
  import opened Physics

  datatype Grid = Grid(
    balls: map<Cell, seq<MobileId>>,
    pistons: map<int, seq<MobileId>>,
    vertices: map<Cell, seq<Vec>>,
    segments: map<Cell, set<Segment>>)

  function Empty(): (g: Grid)
    ensures forall c :: BallsAt(g, c) == [] && VerticesAt(g, c) == [] && SegmentsAt(g, c) == {}
    ensures forall j :: PistonsAt(g, j) == []
  {
    Grid(map[], map[], map[], map[])
  }

  /** The particles of a cell, the most recently inserted first. */
  function BallsAt(g: Grid, c: Cell): seq<MobileId>
  {
    if c in g.balls then g.balls[c] else []
  }

  /** The particles listed in the cells `cs`, cell after cell. */
  function CellsBalls(g: Grid, cs: seq<Cell>): (r: seq<MobileId>)
    decreases |cs|
  {
    if |cs| == 0 then [] else BallsAt(g, cs[0]) + CellsBalls(g, cs[1..])
  }

  /** A particle is listed by `CellsBalls` exactly when one of the cells lists it. */
  lemma {:induction false} CellsBallsLists(g: Grid, cs: seq<Cell>, b: MobileId)
    ensures b in CellsBalls(g, cs) <==> exists k :: 0 <= k < |cs| && b in BallsAt(g, cs[k])
    decreases |cs|
  {
    if |cs| > 0 {
      CellsBallsLists(g, cs[1..], b);
      assert forall k :: 0 < k < |cs| ==> cs[k] == cs[1..][k - 1];
      if b in BallsAt(g, cs[0]) {
        assert 0 < |cs| && b in BallsAt(g, cs[0]);
      }
      if exists k :: 0 <= k < |cs| && b in BallsAt(g, cs[k]) {
        var k :| 0 <= k < |cs| && b in BallsAt(g, cs[k]);
        if k > 0 {
          assert cs[1..][k - 1] == cs[k];
        }
      }
    }
  }

  /** The cells of row `j` that hold a particle list. */
  function ParticleCells(g: Grid, j: int): set<Cell>
  {
    set c | c in g.balls && c.y == j
  }

  /**
   The particles of row `j` in the order the row's multimap of particles
   iterates them: by increasing column key, and within a column the most
   recently inserted first.
   */
  function RowBalls(g: Grid, j: int): seq<MobileId>
  {
    CellsBalls(g, LeftToRight(ParticleCells(g, j)))
  }

  /** `RowBalls` lists exactly the particles registered in some cell of row `j`. */
  lemma RowBallsLists(g: Grid, j: int)
    ensures forall b :: b in RowBalls(g, j) <==> exists i :: b in BallsAt(g, Cell(i, j))
  {
    var cs := LeftToRight(ParticleCells(g, j));
    LeftToRightLists(ParticleCells(g, j));
    forall i, b | b in BallsAt(g, Cell(i, j))
      ensures b in RowBalls(g, j)
    {
      assert Cell(i, j) in cs;
      var k :| 0 <= k < |cs| && cs[k] == Cell(i, j);
      CellsBallsLists(g, cs, b);
    }
    forall b | b in RowBalls(g, j)
      ensures exists i :: b in BallsAt(g, Cell(i, j))
    {
      CellsBallsLists(g, cs, b);
      var k :| 0 <= k < |cs| && b in BallsAt(g, cs[k]);
      assert cs[k] in ParticleCells(g, j);
      assert cs[k] == Cell(cs[k].x, j);
    }
  }

  /** `RowBalls` visits the cells of row `j` by strictly increasing column. */
  lemma RowBallsGoesRight(g: Grid, j: int)
    ensures var cs := LeftToRight(ParticleCells(g, j));
      RowBalls(g, j) == CellsBalls(g, cs) &&
      (forall c :: c in cs <==> c in g.balls && c.y == j) &&
      (forall k, l :: 0 <= k < l < |cs| ==> cs[k].x < cs[l].x)
  {
    LeftToRightLists(ParticleCells(g, j));
  }

  /** Cell `c` comes before cell `d` in column-then-row order. */
  predicate Before(c: Cell, d: Cell)
  {
    c.x < d.x || (c.x == d.x && c.y < d.y)
  }

  /** A finite set of cells listed in `Before` order. */
  function LeftToRight(cs: set<Cell>): seq<Cell>
    decreases |cs|
  {
    if cs == {} then []
    else
      var m := Leftmost(cs);
      [m] + LeftToRight(cs - {m})
  }

  /** `LeftToRight` lists each cell of `cs` once, in `Before` order. */
  lemma {:induction false} LeftToRightLists(cs: set<Cell>)
    ensures var r := LeftToRight(cs);
      (forall c :: c in r <==> c in cs) && (forall k, l :: 0 <= k < l < |r| ==> Before(r[k], r[l]))
    decreases |cs|
  {
    if cs != {} {
      var m := Leftmost(cs);
      var rest := LeftToRight(cs - {m});
      LeftToRightLists(cs - {m});
      assert LeftToRight(cs) == [m] + rest;
      forall k | 0 <= k < |rest|
        ensures Before(m, rest[k])
      {
        assert rest[k] in cs - {m};
      }
    }
  }

  /** The first cell of a non-empty set in `Before` order. */
  function Leftmost(cs: set<Cell>): (m: Cell)
    requires cs != {}
    ensures m in cs && forall c :: c in cs && c != m ==> Before(m, c)
  {
    LeftmostExists(cs);
    var m :| m in cs && forall c :: c in cs && c != m ==> Before(m, c);
    m
  }

  lemma LeftmostExists(cs: set<Cell>)
    requires cs != {}
    ensures exists m :: m in cs && forall c :: c in cs && c != m ==> Before(m, c)
  {
    var m := LeftmostOf(cs);
  }

  lemma {:induction false} LeftmostOf(cs: set<Cell>) returns (m: Cell)
    requires cs != {}
    ensures m in cs && forall c :: c in cs && c != m ==> Before(m, c)
    decreases |cs|
  {
    var x :| x in cs;
    if cs == {x} {
      m := x;
    } else {
      var rest := cs - {x};
      var r := LeftmostOf(rest);
      m := if Before(x, r) then x else r;
      forall c | c in cs && c != m
        ensures Before(m, c)
      {
        if c != x { assert c in rest; }
      }
    }
  }

  /** The pistons of a row, the most recently inserted first. */
  function PistonsAt(g: Grid, j: int): seq<MobileId>
  {
    if j in g.pistons then g.pistons[j] else []
  }

  /** The obstacle vertices of a cell, the most recently inserted first. */
  function VerticesAt(g: Grid, c: Cell): seq<Vec>
  {
    if c in g.vertices then g.vertices[c] else []
  }

  /** The obstacle segments registered in a cell. */
  function SegmentsAt(g: Grid, c: Cell): set<Segment>
  {
    if c in g.segments then g.segments[c] else {}
  }

  // ---------------------------------------------------------------------
  // Lists

  /** Erasing one element through its iterator: the first occurrence of `a` goes. */
  function RemoveFirst<T(==)>(s: seq<T>, a: T): (r: seq<T>)
    ensures a !in s ==> r == s
    ensures |s| > 0 && s[0] == a ==> r == s[1..]
  {
    if |s| == 0 then s
    else if s[0] == a then s[1..]
    else [s[0]] + RemoveFirst(s[1..], a)
  }

  /** Erasing removes one occurrence of `a`, if there is one, and nothing else. */
  lemma {:induction false} RemoveFirstCount<T>(s: seq<T>, a: T)
    ensures multiset(RemoveFirst(s, a)) == multiset(s) - multiset{a}
  {
    if |s| > 0 {
      assert s == [s[0]] + s[1..];
      if s[0] != a {
        RemoveFirstCount(s[1..], a);
      }
    }
  }

  // ---------------------------------------------------------------------
  // Particles

  /** A particle inserted into a cell goes in front of the cell's list. */
  function InsertBall(g: Grid, a: MobileId, c: Cell): (r: Grid)
    ensures BallsAt(r, c) == [a] + BallsAt(g, c)
    ensures forall d :: d != c ==> BallsAt(r, d) == BallsAt(g, d)
    ensures r == g.(balls := r.balls)
  {
    g.(balls := g.balls[c := [a] + BallsAt(g, c)])
  }

  /** A particle erased from a cell through its iterator. */
  function EraseBall(g: Grid, a: MobileId, c: Cell): (r: Grid)
    ensures BallsAt(r, c) == RemoveFirst(BallsAt(g, c), a)
    ensures forall d :: d != c ==> BallsAt(r, d) == BallsAt(g, d)
    ensures r == g.(balls := r.balls)
  {
    g.(balls := g.balls[c := RemoveFirst(BallsAt(g, c), a)])
  }

  /** Erasing what was just inserted gives back every cell's list. */
  lemma EraseUndoesInsert(g: Grid, a: MobileId, c: Cell)
    ensures forall d :: BallsAt(EraseBall(InsertBall(g, a, c), a, c), d) == BallsAt(g, d)
    ensures EraseBall(InsertBall(g, a, c), a, c).(balls := g.balls) == g
  {
    assert ([a] + BallsAt(g, c))[0] == a;
  }

  /** Particle `a` is listed exactly once, in cell `c`, and nowhere else. */
  ghost predicate BallRegistered(g: Grid, a: MobileId, c: Cell)
  {
    multiset(BallsAt(g, c))[a] == 1 && forall d :: d != c ==> a !in BallsAt(g, d)
  }

  /** The grid after a new particle is placed in the cell of its position. */
  function PlaceBall(g: Grid, a: MobileId, p: Particle): (r: Grid)
    ensures (forall d :: a !in BallsAt(g, d)) ==> BallRegistered(r, a, p.area)
    ensures forall b, d :: b != a ==> multiset(BallsAt(r, d))[b] == multiset(BallsAt(g, d))[b]
  {
    InsertBall(g, a, p.area)
  }

  /**
   A particle crossing into its next cell: it is erased from the cell it
   leaves, its cell becomes `NextArea`, and it is inserted there.
   */
  function ChangeBallArea(g: Grid, a: MobileId, p: Particle, size: real): (r: (Particle, Grid))
    requires size > 0.0
    ensures r.0 == p.(area := NextArea(p, size))
  {
    var q := p.(area := NextArea(p, size));
    (q, InsertBall(EraseBall(g, a, p.area), a, q.area))
  }

  /**
   Moving a particle keeps the index exact: if it was listed once in its
   old cell it is listed once in its new cell and nowhere else, and every
   other particle is listed where it was, as often as it was.
   */
  lemma ChangeBallAreaKeepsRegistration(g: Grid, a: MobileId, p: Particle, size: real)
    requires size > 0.0
    requires BallRegistered(g, a, p.area)
    ensures var r := ChangeBallArea(g, a, p, size);
      BallRegistered(r.1, a, r.0.area)
      && forall b, d :: b != a ==> multiset(BallsAt(r.1, d))[b] == multiset(BallsAt(g, d))[b]
  {
    var r := ChangeBallArea(g, a, p, size);
    var e := EraseBall(g, a, p.area);
    RemoveFirstCount(BallsAt(g, p.area), a);
    assert a !in BallsAt(e, p.area) by {
      assert multiset(BallsAt(e, p.area))[a] == 0;
    }
    forall d | d != r.0.area
      ensures a !in BallsAt(r.1, d)
    {
      if d != p.area {
        assert BallsAt(r.1, d) == BallsAt(g, d);
      }
    }
  }

  // ---------------------------------------------------------------------
  // Pistons

  /** A piston is put in front of the lists of its two rows, `r1` then `r2`. */
  function RegisterPiston(g: Grid, a: MobileId, r1: int, r2: int): (r: Grid)
    ensures r1 != r2 ==> PistonsAt(r, r1) == [a] + PistonsAt(g, r1) && PistonsAt(r, r2) == [a] + PistonsAt(g, r2)
    ensures r1 == r2 ==> PistonsAt(r, r1) == [a, a] + PistonsAt(g, r1)
    ensures forall j :: j != r1 && j != r2 ==> PistonsAt(r, j) == PistonsAt(g, j)
    ensures r == g.(pistons := r.pistons)
  {
    var g1 := g.(pistons := g.pistons[r1 := [a] + PistonsAt(g, r1)]);
    g1.(pistons := g1.pistons[r2 := [a] + PistonsAt(g1, r2)])
  }

  /** A piston is erased, through its two iterators, from the lists of rows `r1` and `r2`. */
  function UnregisterPiston(g: Grid, a: MobileId, r1: int, r2: int): (r: Grid)
    ensures r1 != r2 ==> PistonsAt(r, r1) == RemoveFirst(PistonsAt(g, r1), a) && PistonsAt(r, r2) == RemoveFirst(PistonsAt(g, r2), a)
    ensures r1 == r2 ==> PistonsAt(r, r1) == RemoveFirst(RemoveFirst(PistonsAt(g, r1), a), a)
    ensures forall j :: j != r1 && j != r2 ==> PistonsAt(r, j) == PistonsAt(g, j)
    ensures r == g.(pistons := r.pistons)
  {
    var g1 := g.(pistons := g.pistons[r1 := RemoveFirst(PistonsAt(g, r1), a)]);
    g1.(pistons := g1.pistons[r2 := RemoveFirst(PistonsAt(g1, r2), a)])
  }

  /**
   Piston `a` is listed once in each of its rows, twice in a row that is
   both, and in no other row.
   */
  ghost predicate PistonRegistered(g: Grid, a: MobileId, r1: int, r2: int)
  {
    forall j :: multiset(PistonsAt(g, j))[a] == (if j == r1 then 1 else 0) + (if j == r2 then 1 else 0)
  }

  /** Registering a piston adds exactly its two row entries and leaves other mobiles alone. */
  lemma RegisterPistonCounts(g: Grid, a: MobileId, r1: int, r2: int)
    ensures var r := RegisterPiston(g, a, r1, r2);
      forall j :: multiset(PistonsAt(r, j))[a] == multiset(PistonsAt(g, j))[a] + (if j == r1 then 1 else 0) + (if j == r2 then 1 else 0)
    ensures var r := RegisterPiston(g, a, r1, r2);
      forall b, j :: b != a ==> multiset(PistonsAt(r, j))[b] == multiset(PistonsAt(g, j))[b]
  {
  }

  /** Erasing a piston from a row list that holds it `n` times, `n` times over, removes it and nothing else. */
  lemma RemoveCopies(l: seq<MobileId>, a: MobileId, n: nat, r: seq<MobileId>)
    requires n <= 2 && multiset(l)[a] == n
    requires r == if n == 0 then l else if n == 1 then RemoveFirst(l, a) else RemoveFirst(RemoveFirst(l, a), a)
    ensures a !in r
    ensures forall b :: b != a ==> multiset(r)[b] == multiset(l)[b]
  {
    if n == 1 {
      RemoveFirstCount(l, a);
      assert multiset(r) == multiset(l) - multiset{a};
    } else if n == 2 {
      var once := RemoveFirst(l, a);
      RemoveFirstCount(l, a);
      RemoveFirstCount(once, a);
      assert multiset(r) == multiset(l) - multiset{a} - multiset{a};
    }
    assert multiset(r)[a] == 0;
  }

  /** Unregistering a registered piston removes exactly its two row entries. */
  lemma UnregisterPistonCounts(g: Grid, a: MobileId, r1: int, r2: int)
    requires PistonRegistered(g, a, r1, r2)
    ensures var r := UnregisterPiston(g, a, r1, r2);
      forall j :: a !in PistonsAt(r, j)
    ensures var r := UnregisterPiston(g, a, r1, r2);
      forall b, j :: b != a ==> multiset(PistonsAt(r, j))[b] == multiset(PistonsAt(g, j))[b]
  {
    var r := UnregisterPiston(g, a, r1, r2);
    forall j: int
      ensures a !in PistonsAt(r, j)
      ensures forall b :: b != a ==> multiset(PistonsAt(r, j))[b] == multiset(PistonsAt(g, j))[b]
    {
      RemoveCopies(PistonsAt(g, j), a, (if j == r1 then 1 else 0) + (if j == r2 then 1 else 0), PistonsAt(r, j));
    }
  }

  /** A piston registered in two rows, then unregistered from the same rows, leaves every row as it was. */
  lemma UnregisterUndoesRegister(g: Grid, a: MobileId, r1: int, r2: int)
    ensures var r := UnregisterPiston(RegisterPiston(g, a, r1, r2), a, r1, r2);
      forall j :: PistonsAt(r, j) == PistonsAt(g, j)
  {
    var l1 := PistonsAt(g, r1);
    assert ([a] + l1)[1..] == l1;
    if r1 == r2 {
      assert ([a, a] + l1)[1..] == [a] + l1;
    } else {
      var l2 := PistonsAt(g, r2);
      assert ([a] + l2)[1..] == l2;
    }
  }

  // ---------------------------------------------------------------------
  // Obstacles

  /**
   The vertices of `vs` lying in cell `c`, the last one first: the order in
   which the cell lists them after they are inserted one after another.
   */
  function VerticesIn(vs: seq<Vec>, size: real, c: Cell): (r: seq<Vec>)
    requires size > 0.0
    ensures forall q :: q in r <==> q in vs && CellOf(q, size) == c
    decreases |vs|
  {
    if |vs| == 0 then []
    else
      var last := vs[|vs| - 1];
      (if CellOf(last, size) == c then [last] else []) + VerticesIn(vs[..|vs| - 1], size, c)
  }

  /** A vertex goes in front of the list of the cell that holds it. */
  function AddVertex(g: Grid, q: Vec, size: real): (r: Grid)
    requires size > 0.0
    ensures VerticesAt(r, CellOf(q, size)) == [q] + VerticesAt(g, CellOf(q, size))
    ensures forall d :: d != CellOf(q, size) ==> VerticesAt(r, d) == VerticesAt(g, d)
    ensures r == g.(vertices := r.vertices)
  {
    var c := CellOf(q, size);
    g.(vertices := g.vertices[c := [q] + VerticesAt(g, c)])
  }

  /**
   The cell on side `k` (0 for the left, 1 for the right) of step `i` of
   the column walk: the walk projects the vertical line at abscissa
   `(i + shift) * size` on the segment's line and takes the row of the
   projected point. A segment that crosses a vertical grid line is not
   vertical, so the projection exists whenever the walk takes a step.
   */
  function ColumnCell(s: Segment, size: real, shift: int, i: int, k: int): Cell
    requires size > 0.0
  {
    Cell(i + k, if s.vect.x == 0.0 then 0 else (YAtX(s, (i + shift) as real * size) / size).Floor)
  }

  /** The cell on side `k` (0 below, 1 above) of step `j` of the row walk. */
  function RowCell(s: Segment, size: real, shift: int, j: int, k: int): Cell
    requires size > 0.0
  {
    Cell(if s.vect.y == 0.0 then 0 else (XAtY(s, (j + shift) as real * size) / size).Floor, j + k)
  }

  /** The cells registered by the steps `lo` to `i - 1` of the column walk. */
  function ColumnCells(s: Segment, size: real, shift: int, lo: int, i: int): set<Cell>
    requires size > 0.0
    decreases i - lo
  {
    if i <= lo then {}
    else ColumnCells(s, size, shift, lo, i - 1) + {ColumnCell(s, size, shift, i - 1, 0), ColumnCell(s, size, shift, i - 1, 1)}
  }

  /** The cells registered by the steps `lo` to `j - 1` of the row walk. */
  function RowCells(s: Segment, size: real, shift: int, lo: int, j: int): set<Cell>
    requires size > 0.0
    decreases j - lo
  {
    if j <= lo then {}
    else RowCells(s, size, shift, lo, j - 1) + {RowCell(s, size, shift, j - 1, 0), RowCell(s, size, shift, j - 1, 1)}
  }

  /**
   The cells a segment is registered in: the column walk runs over the
   columns from the lower to the higher of its end points' columns,
   excluded, and the row walk likewise over the rows. With `shift` 0 each
   step projects onto the grid line `addSegment` computes; with `shift` 1
   onto the grid line that actually separates the two cells registered.
   */
  function Crossings(s: Segment, size: real, shift: int): set<Cell>
    requires size > 0.0
  {
    var lo := CellMin(Cell1(s, size), Cell2(s, size));
    var hi := CellMax(Cell1(s, size), Cell2(s, size));
    ColumnCells(s, size, shift, lo.x, hi.x) + RowCells(s, size, shift, lo.y, hi.y)
  }

  /** A segment whose two end points lie in one cell is registered nowhere. */
  lemma SameCellRegistersNowhere(s: Segment, size: real, shift: int)
    requires size > 0.0
    requires Cell1(s, size) == Cell2(s, size)
    ensures Crossings(s, size, shift) == {}
  {
  }

  /** The segment added to the set of one cell. */
  function AddToCell(g: Grid, c: Cell, s: Segment): (r: Grid)
    ensures SegmentsAt(r, c) == SegmentsAt(g, c) + {s}
    ensures forall d :: d != c ==> SegmentsAt(r, d) == SegmentsAt(g, d)
    ensures r.balls == g.balls && r.pistons == g.pistons && r.vertices == g.vertices
  {
    g.(segments := g.segments[c := SegmentsAt(g, c) + {s}])
  }

  /** One step of a walk: adding the segment to two more cells extends the set of cells holding it. */
  lemma StepRegisters(g: Grid, r: Grid, s: Segment, cells: set<Cell>, c1: Cell, c2: Cell, r': Grid, cells': set<Cell>)
    requires forall d :: SegmentsAt(r, d) == SegmentsAt(g, d) + (if d in cells then {s} else {})
    requires r' == AddToCell(AddToCell(r, c1, s), c2, s)
    requires cells' == cells + {c1, c2}
    ensures forall d :: SegmentsAt(r', d) == SegmentsAt(g, d) + (if d in cells' then {s} else {})
  {
  }

  /** Steps `lo` to `i - 1` of the column walk. */
  function ColumnWalk(g: Grid, s: Segment, size: real, shift: int, lo: int, i: int): (r: Grid)
    requires size > 0.0
    ensures forall d :: SegmentsAt(r, d) == SegmentsAt(g, d) + (if d in ColumnCells(s, size, shift, lo, i) then {s} else {})
    ensures r.balls == g.balls && r.pistons == g.pistons && r.vertices == g.vertices
    decreases i - lo
  {
    if i <= lo then g
    else
      var prev := ColumnWalk(g, s, size, shift, lo, i - 1);
      var left, right := ColumnCell(s, size, shift, i - 1, 0), ColumnCell(s, size, shift, i - 1, 1);
      var r := AddToCell(AddToCell(prev, left, s), right, s);
      StepRegisters(g, prev, s, ColumnCells(s, size, shift, lo, i - 1), left, right, r, ColumnCells(s, size, shift, lo, i));
      r
  }

  /** Steps `lo` to `j - 1` of the row walk. */
  function RowWalk(g: Grid, s: Segment, size: real, shift: int, lo: int, j: int): (r: Grid)
    requires size > 0.0
    ensures forall d :: SegmentsAt(r, d) == SegmentsAt(g, d) + (if d in RowCells(s, size, shift, lo, j) then {s} else {})
    ensures r.balls == g.balls && r.pistons == g.pistons && r.vertices == g.vertices
    decreases j - lo
  {
    if j <= lo then g
    else
      var prev := RowWalk(g, s, size, shift, lo, j - 1);
      var below, above := RowCell(s, size, shift, j - 1, 0), RowCell(s, size, shift, j - 1, 1);
      var r := AddToCell(AddToCell(prev, below, s), above, s);
      StepRegisters(g, prev, s, RowCells(s, size, shift, lo, j - 1), below, above, r, RowCells(s, size, shift, lo, j));
      r
  }

  /**
   Registers a segment in every cell of `Crossings(s, size, shift)`,
   walking the columns and then the rows as `addSegment` does. A cell's
   segments form a set, so registering a segment again changes nothing.
   */
  function RegisterSegment(g: Grid, s: Segment, size: real, shift: int): (r: Grid)
    requires size > 0.0
    ensures forall d :: SegmentsAt(r, d) == SegmentsAt(g, d) + (if d in Crossings(s, size, shift) then {s} else {})
    ensures r.balls == g.balls && r.pistons == g.pistons && r.vertices == g.vertices
  {
    var lo := CellMin(Cell1(s, size), Cell2(s, size));
    var hi := CellMax(Cell1(s, size), Cell2(s, size));
    RowWalk(ColumnWalk(g, s, size, shift, lo.x, hi.x), s, size, shift, lo.y, hi.y)
  }

  /** The point of the segment at parameter `t`: its start for 0, its end for 1. */
  function PointAt(s: Segment, t: real): (q: Vec)
    ensures t == 0.0 ==> q == s.start
    ensures t == 1.0 ==> q == End(s)
  {
    Plus(s.start, Scale(s.vect, t))
  }

  /** Some point of the segment lies in the closed cell `c`. */
  ghost predicate Meets(s: Segment, c: Cell, size: real)
  {
    exists t :: 0.0 <= t <= 1.0 && InClosedCell(PointAt(s, t), c, size)
  }

  /**
   The registration `addSegment` computes. Its column walk projects onto
   the grid line at `i * size` while registering the cells of columns `i`
   and `i + 1`, which that line does not separate; the rows likewise.
   */
  function AddSegmentAsWritten(g: Grid, s: Segment, size: real): (r: Grid)
    requires size > 0.0
    ensures forall d :: SegmentsAt(r, d) == SegmentsAt(g, d) + (if d in Crossings(s, size, 0) then {s} else {})
    ensures r.balls == g.balls && r.pistons == g.pistons && r.vertices == g.vertices
  {
    RegisterSegment(g, s, size, 0)
  }

  /**
   The segment from (0.2, 0.1) to (1.8, 1.5) on a grid of step 1 lies in
   the half plane y >= 0.1, yet the as-written walk registers it in cell
   (0, -1), whose points all have y <= 0; and the cell (1, 1) holding its
   end point is not registered at all.
   */
  lemma AsWrittenRegistersStrayCell()
    ensures var s := Make(Vec(0.2, 0.1), Vec(1.8, 1.5));
      Cell(0, -1) in Crossings(s, 1.0, 0) && !Meets(s, Cell(0, -1), 1.0)
      && Cell(1, 1) == Cell2(s, 1.0) && Cell(1, 1) !in Crossings(s, 1.0, 0)
  {
    var s := Make(Vec(0.2, 0.1), Vec(1.8, 1.5));
    assert s.vect == Vec(1.6, 1.4);
    assert Cell1(s, 1.0) == Cell(0, 0);
    assert Cell2(s, 1.0) == Cell(1, 1);
    assert YAtX(s, 0.0) == -0.075;
    assert XAtY(s, 0.0) == 0.6 / 7.0;
    assert ColumnCells(s, 1.0, 0, 0, 1) == {Cell(0, -1), Cell(1, -1)};
    assert RowCells(s, 1.0, 0, 0, 1) == {Cell(0, 0), Cell(0, 1)};
    StrayCellIsNotMet();
  }

  /** No point of the stray-cell segment lies in cell (0, -1). */
  lemma StrayCellIsNotMet()
    ensures !Meets(Make(Vec(0.2, 0.1), Vec(1.8, 1.5)), Cell(0, -1), 1.0)
  {
    var s := Make(Vec(0.2, 0.1), Vec(1.8, 1.5));
    assert s.start == Vec(0.2, 0.1) && s.vect == Vec(1.6, 1.4);
    forall t | 0.0 <= t <= 1.0
      ensures !InClosedCell(PointAt(s, t), Cell(0, -1), 1.0)
    {
      assert PointAt(s, t).y == 0.1 + 1.4 * t;
    }
  }

  /**
   The registration with each projection taken on the grid line between
   the two cells it registers: the line at `(i + 1) * size` for columns
   `i` and `i + 1`, and likewise for rows.
   */
  function AddSegment(g: Grid, s: Segment, size: real): (r: Grid)
    requires size > 0.0
    ensures forall d :: SegmentsAt(r, d) == SegmentsAt(g, d) + (if d in Crossings(s, size, 1) then {s} else {})
    ensures r.balls == g.balls && r.pistons == g.pistons && r.vertices == g.vertices
  {
    RegisterSegment(g, s, size, 1)
  }

  /** Every cell of the column walk comes from one of its steps. */
  lemma {:induction false} ColumnCellsFromSteps(s: Segment, size: real, shift: int, lo: int, i: int, d: Cell)
    requires size > 0.0
    requires d in ColumnCells(s, size, shift, lo, i)
    ensures exists i', k :: lo <= i' < i && 0 <= k <= 1 && d == ColumnCell(s, size, shift, i', k)
    decreases i - lo
  {
    if d !in ColumnCells(s, size, shift, lo, i - 1) {
      assert d == ColumnCell(s, size, shift, i - 1, 0) || d == ColumnCell(s, size, shift, i - 1, 1);
    } else {
      ColumnCellsFromSteps(s, size, shift, lo, i - 1, d);
    }
  }

  /** Every cell of the row walk comes from one of its steps. */
  lemma {:induction false} RowCellsFromSteps(s: Segment, size: real, shift: int, lo: int, j: int, d: Cell)
    requires size > 0.0
    requires d in RowCells(s, size, shift, lo, j)
    ensures exists j', k :: lo <= j' < j && 0 <= k <= 1 && d == RowCell(s, size, shift, j', k)
    decreases j - lo
  {
    if d !in RowCells(s, size, shift, lo, j - 1) {
      assert d == RowCell(s, size, shift, j - 1, 0) || d == RowCell(s, size, shift, j - 1, 1);
    } else {
      RowCellsFromSteps(s, size, shift, lo, j - 1, d);
    }
  }

  /**
   On one axis: a grid line strictly after the cell of one end point and
   no later than the cell of the other lies between the two end points
   `a` and `a + v`, at a parameter `t` in [0, 1].
   */
  lemma LineBetween(a: real, v: real, size: real, i: int) returns (t: real)
    requires size > 0.0
    requires var ca, cb := (a / size).Floor, ((a + v) / size).Floor;
      (ca <= i < cb) || (cb <= i < ca)
    ensures v != 0.0 && 0.0 <= t <= 1.0 && a + t * v == (i + 1) as real * size
  {
    var x := (i + 1) as real * size;
    LineOrder(a, a + v, size, i);
    t := (x - a) / v;
    Fraction(x - a, v);
  }

  /** The grid line `(i + 1) * size` lies after `a` and no later than `b`, or the reverse. */
  lemma LineOrder(a: real, b: real, size: real, i: int)
    requires size > 0.0
    requires var ca, cb := (a / size).Floor, (b / size).Floor;
      (ca <= i < cb) || (cb <= i < ca)
    ensures var x := (i + 1) as real * size;
      (a < x <= b) || (b < x <= a)
  {
    var u, w, n := a / size, b / size, (i + 1) as real;
    Scaled(a, size);
    Scaled(b, size);
    if u.Floor <= i < w.Floor {
      assert u < n <= w;
      MulMonotone(n, w, size);
      MulStrict(u, n, size);
      assert u * size == a && w * size == b;
      assert a < n * size;
      assert n * size <= b;
    } else {
      assert w < n <= u;
      MulMonotone(n, u, size);
      MulStrict(w, n, size);
      assert u * size == a && w * size == b;
      assert b < n * size;
      assert n * size <= a;
    }
  }

  /** Dividing by the step and multiplying back gives the coordinate again. */
  lemma Scaled(a: real, size: real)
    requires size > 0.0
    ensures a / size * size == a
  {
  }

  /** Multiplying by a positive step keeps the strict order. */
  lemma MulStrict(u: real, v: real, size: real)
    requires size > 0.0 && u < v
    ensures u * size < v * size
  {
  }

  /** A quotient of a numerator no larger than its denominator, of the same sign, is in [0, 1]. */
  lemma Fraction(n: real, d: real)
    requires (0.0 <= n <= d && d > 0.0) || (d <= n <= 0.0 && d < 0.0)
    ensures 0.0 <= n / d <= 1.0 && n / d * d == n
  {
  }

  /** Multiplying by a positive step keeps the order. */
  lemma MulMonotone(u: real, v: real, size: real)
    requires size > 0.0 && u <= v
    ensures u * size <= v * size
  {
  }

  /**
   With the corrected projections every registered cell is met by the
   segment: the projected point lies on the segment, on the grid line the
   two registered cells share.
   */
  lemma CorrectedCellsMeetSegment(s: Segment, size: real)
    requires size > 0.0
    ensures forall d :: d in Crossings(s, size, 1) ==> Meets(s, d, size)
  {
    var lo := CellMin(Cell1(s, size), Cell2(s, size));
    var hi := CellMax(Cell1(s, size), Cell2(s, size));
    forall d | d in Crossings(s, size, 1)
      ensures Meets(s, d, size)
    {
      if d in ColumnCells(s, size, 1, lo.x, hi.x) {
        ColumnCellsFromSteps(s, size, 1, lo.x, hi.x, d);
        var i, k :| lo.x <= i < hi.x && 0 <= k <= 1 && d == ColumnCell(s, size, 1, i, k);
        ColumnCellMeets(s, size, i, k);
      } else {
        RowCellsFromSteps(s, size, 1, lo.y, hi.y, d);
        var j, k :| lo.y <= j < hi.y && 0 <= k <= 1 && d == RowCell(s, size, 1, j, k);
        RowCellMeets(s, size, j, k);
      }
    }
  }

  /** The point at parameter `t` is the point of the line at the abscissa it reaches. */
  lemma PointOnColumn(s: Segment, t: real, x: real)
    requires s.vect.x != 0.0
    requires s.start.x + t * s.vect.x == x
    ensures PointAt(s, t) == Vec(x, YAtX(s, x))
  {
    var m := s.vect.y / s.vect.x;
    assert m * s.vect.x == s.vect.y;
    calc {
      (x - s.start.x) * m;
      (t * s.vect.x) * m;
      t * (m * s.vect.x);
      t * s.vect.y;
    }
  }

  /** The point at parameter `t` is the point of the line at the ordinate it reaches. */
  lemma PointOnRow(s: Segment, t: real, y: real)
    requires s.vect.y != 0.0
    requires s.start.y + t * s.vect.y == y
    ensures PointAt(s, t) == Vec(XAtY(s, y), y)
  {
    var m := s.vect.x / s.vect.y;
    assert m * s.vect.y == s.vect.x;
    calc {
      (y - s.start.y) * m;
      (t * s.vect.y) * m;
      t * (m * s.vect.y);
      t * s.vect.x;
    }
  }

  /** The grid line at `(i + 1) * size` bounds both cells `i` and `i + 1`. */
  lemma SharedLine(i: int, k: int, size: real)
    requires size > 0.0 && 0 <= k <= 1
    ensures Bound(i + k, size) <= (i + 1) as real * size <= Bound(i + k + 1, size)
  {
    MulMonotone((i + k) as real, (i + 1) as real, size);
    MulMonotone((i + 1) as real, (i + k + 1) as real, size);
  }

  /** A point between the vertical lines of column `cx` lies in the closed cell of that column and of its own row. */
  lemma InColumnCell(q: Vec, cx: int, size: real)
    requires size > 0.0
    requires Bound(cx, size) <= q.x <= Bound(cx + 1, size)
    ensures InClosedCell(q, Cell(cx, (q.y / size).Floor), size)
  {
    FloorDivBounds(q.y, size);
  }

  /** A point between the horizontal lines of row `cy` lies in the closed cell of that row and of its own column. */
  lemma InRowCell(q: Vec, cy: int, size: real)
    requires size > 0.0
    requires Bound(cy, size) <= q.y <= Bound(cy + 1, size)
    ensures InClosedCell(q, Cell((q.x / size).Floor, cy), size)
  {
    FloorDivBounds(q.x, size);
  }

  /** A witness parameter shows the segment meets the cell. */
  lemma MeetsAt(s: Segment, c: Cell, size: real, t: real)
    requires 0.0 <= t <= 1.0 && InClosedCell(PointAt(s, t), c, size)
    ensures Meets(s, c, size)
  {
  }

  /** A step of the corrected column walk on a non-vertical segment projects onto the line `(i + 1) * size`. */
  lemma ColumnCellIs(s: Segment, size: real, i: int, k: int)
    requires size > 0.0 && s.vect.x != 0.0
    ensures ColumnCell(s, size, 1, i, k) == Cell(i + k, (YAtX(s, (i + 1) as real * size) / size).Floor)
  {
  }

  /** A step of the corrected row walk on a non-horizontal segment projects onto the line `(j + 1) * size`. */
  lemma RowCellIs(s: Segment, size: real, j: int, k: int)
    requires size > 0.0 && s.vect.y != 0.0
    ensures RowCell(s, size, 1, j, k) == Cell((XAtY(s, (j + 1) as real * size) / size).Floor, j + k)
  {
  }

  /** A step of the corrected column walk registers cells the segment meets. */
  lemma ColumnCellMeets(s: Segment, size: real, i: int, k: int)
    requires size > 0.0 && 0 <= k <= 1
    requires var lo, hi := CellMin(Cell1(s, size), Cell2(s, size)), CellMax(Cell1(s, size), Cell2(s, size));
      lo.x <= i < hi.x
    ensures Meets(s, ColumnCell(s, size, 1, i, k), size)
  {
    var t := LineBetween(s.start.x, s.vect.x, size, i);
    var x := (i + 1) as real * size;
    PointOnColumn(s, t, x);
    var q := PointAt(s, t);
    ColumnCellIs(s, size, i, k);
    assert q.y == YAtX(s, x);
    SharedLine(i, k, size);
    InColumnCell(q, i + k, size);
    MeetsAt(s, ColumnCell(s, size, 1, i, k), size, t);
  }

  /** A step of the corrected row walk registers cells the segment meets. */
  lemma RowCellMeets(s: Segment, size: real, j: int, k: int)
    requires size > 0.0 && 0 <= k <= 1
    requires var lo, hi := CellMin(Cell1(s, size), Cell2(s, size)), CellMax(Cell1(s, size), Cell2(s, size));
      lo.y <= j < hi.y
    ensures Meets(s, RowCell(s, size, 1, j, k), size)
  {
    var t := LineBetween(s.start.y, s.vect.y, size, j);
    var y := (j + 1) as real * size;
    PointOnRow(s, t, y);
    var q := PointAt(s, t);
    RowCellIs(s, size, j, k);
    assert q.x == XAtY(s, y);
    SharedLine(j, k, size);
    InRowCell(q, j + k, size);
    MeetsAt(s, RowCell(s, size, 1, j, k), size, t);
  }

  // ---------------------------------------------------------------------
  // Obstacles

  /** The edges among the first `n` of a polygon whose registration reaches cell `d`. */
  function EdgesThrough(poly: Polygon, size: real, n: nat, d: Cell): (r: set<Segment>)
    requires size > 0.0 && n <= Size(poly)
  {
    set j | 0 <= j < n && d in Crossings(Polygons.Edge(poly, j), size, 1) :: Polygons.Edge(poly, j)
  }

  /** One more edge adds itself to the cells it reaches. */
  lemma EdgesThroughStep(poly: Polygon, size: real, n: nat, d: Cell)
    requires size > 0.0 && 0 < n <= Size(poly)
    ensures EdgesThrough(poly, size, n, d) == EdgesThrough(poly, size, n - 1, d)
      + (if d in Crossings(Polygons.Edge(poly, n - 1), size, 1) then {Polygons.Edge(poly, n - 1)} else {})
  {
  }

  /** Listing the first `n` vertices: the `n`-th comes first if it lies in the cell. */
  lemma VerticesInPrefix(vs: seq<Vec>, n: nat, size: real, c: Cell)
    requires size > 0.0 && 0 < n <= |vs|
    ensures VerticesIn(vs[..n], size, c)
      == (if CellOf(vs[n - 1], size) == c then [vs[n - 1]] else []) + VerticesIn(vs[..n - 1], size, c)
  {
    assert vs[..n][..n - 1] == vs[..n - 1];
  }

  /** A vertex, then a segment: what each cell gains. */
  lemma VertexThenSegment(prev: Grid, q: Vec, e: Segment, size: real, d: Cell)
    requires size > 0.0
    ensures var r := AddSegment(AddVertex(prev, q, size), e, size);
      && VerticesAt(r, d) == (if CellOf(q, size) == d then [q] else []) + VerticesAt(prev, d)
      && SegmentsAt(r, d) == SegmentsAt(prev, d) + (if d in Crossings(e, size, 1) then {e} else {})
      && r.balls == prev.balls && r.pistons == prev.pistons
  {
  }

  /** What adding the `n`-th vertex and its edge does to one cell. */
  lemma ObstacleStepAt(g: Grid, prev: Grid, r: Grid, poly: Polygon, size: real, n: nat, d: Cell)
    requires size > 0.0 && 0 < n <= Size(poly)
    requires VerticesAt(prev, d) == VerticesIn(poly.vertices[..n - 1], size, d) + VerticesAt(g, d)
    requires SegmentsAt(prev, d) == SegmentsAt(g, d) + EdgesThrough(poly, size, n - 1, d)
    requires VerticesAt(r, d) == (if CellOf(Point(poly, n - 1), size) == d then [Point(poly, n - 1)] else []) + VerticesAt(prev, d)
    requires SegmentsAt(r, d) == SegmentsAt(prev, d)
      + (if d in Crossings(Polygons.Edge(poly, n - 1), size, 1) then {Polygons.Edge(poly, n - 1)} else {})
    ensures VerticesAt(r, d) == VerticesIn(poly.vertices[..n], size, d) + VerticesAt(g, d)
    ensures SegmentsAt(r, d) == SegmentsAt(g, d) + EdgesThrough(poly, size, n, d)
  {
    var q, e := Point(poly, n - 1), Polygons.Edge(poly, n - 1);
    VerticesInPrefix(poly.vertices, n, size, d);
    ConcatRegroup(if CellOf(q, size) == d then [q] else [], VerticesIn(poly.vertices[..n - 1], size, d), VerticesAt(g, d));
    EdgesThroughStep(poly, size, n, d);
    UnionRegroup(SegmentsAt(g, d), EdgesThrough(poly, size, n - 1, d), if d in Crossings(e, size, 1) then {e} else {});
  }

  /** What adding the `n`-th vertex and its edge does to a grid holding the first `n - 1`. */
  lemma ObstacleStep(g: Grid, prev: Grid, poly: Polygon, size: real, n: nat)
    requires size > 0.0 && 0 < n <= Size(poly)
    requires forall d :: VerticesAt(prev, d) == VerticesIn(poly.vertices[..n - 1], size, d) + VerticesAt(g, d)
    requires forall d :: SegmentsAt(prev, d) == SegmentsAt(g, d) + EdgesThrough(poly, size, n - 1, d)
    ensures var r := AddSegment(AddVertex(prev, Point(poly, n - 1), size), Polygons.Edge(poly, n - 1), size);
      && (forall d :: VerticesAt(r, d) == VerticesIn(poly.vertices[..n], size, d) + VerticesAt(g, d))
      && (forall d :: SegmentsAt(r, d) == SegmentsAt(g, d) + EdgesThrough(poly, size, n, d))
      && r.balls == prev.balls && r.pistons == prev.pistons
  {
    var q, e := Point(poly, n - 1), Polygons.Edge(poly, n - 1);
    var r := AddSegment(AddVertex(prev, q, size), e, size);
    forall d
      ensures VerticesAt(r, d) == VerticesIn(poly.vertices[..n], size, d) + VerticesAt(g, d)
      ensures SegmentsAt(r, d) == SegmentsAt(g, d) + EdgesThrough(poly, size, n, d)
    {
      VertexThenSegment(prev, q, e, size, d);
      ObstacleStepAt(g, prev, r, poly, size, n, d);
    }
    VertexThenSegment(prev, q, e, size, Cell(0, 0));
  }

  /**
   `addObstacle` over the first `n` vertices: each vertex is inserted in
   its cell, then the edge from it to the next vertex is registered.
   */
  function AddObstacle(g: Grid, poly: Polygon, size: real, n: nat): (r: Grid)
    requires size > 0.0 && n <= Size(poly)
    ensures forall d :: VerticesAt(r, d) == VerticesIn(poly.vertices[..n], size, d) + VerticesAt(g, d)
    ensures forall d :: SegmentsAt(r, d) == SegmentsAt(g, d) + EdgesThrough(poly, size, n, d)
    ensures r.balls == g.balls && r.pistons == g.pistons
    decreases n
  {
    if n == 0 then g
    else
      var prev := AddObstacle(g, poly, size, n - 1);
      ObstacleStep(g, prev, poly, size, n);
      AddSegment(AddVertex(prev, Point(poly, n - 1), size), Polygons.Edge(poly, n - 1), size)
  }

  /** An edge registered in a cell meets that cell. */
  lemma EdgeThroughMeets(poly: Polygon, size: real, n: nat, d: Cell, e: Segment)
    requires size > 0.0 && n <= Size(poly)
    requires e in EdgesThrough(poly, size, n, d)
    ensures Meets(e, d, size)
  {
    CorrectedCellsMeetSegment(e, size);
  }

  /** The cells an obstacle adds a segment to are all met by that segment. */
  lemma ObstacleEdgesMeetTheirCells(g: Grid, poly: Polygon, size: real)
    requires size > 0.0
    ensures var r := AddObstacle(g, poly, size, Size(poly));
      forall d, e :: e in SegmentsAt(r, d) && e !in SegmentsAt(g, d) ==> Meets(e, d, size)
  {
    var r := AddObstacle(g, poly, size, Size(poly));
    forall d, e | e in SegmentsAt(r, d) && e !in SegmentsAt(g, d)
      ensures Meets(e, d, size)
    {
      EdgeThroughMeets(poly, size, Size(poly), d, e);
    }
  }

  /** A vertex of a list is among those listed for its own cell, ahead of anything listed before. */
  lemma VertexIsListed(vs: seq<Vec>, before: seq<Vec>, after: seq<Vec>, size: real, q: Vec)
    requires size > 0.0 && q in vs
    requires after == VerticesIn(vs, size, CellOf(q, size)) + before
    ensures q in after
  {
    assert q in VerticesIn(vs, size, CellOf(q, size));
  }

  /** A grid that lists the vertices of `vs` in their cells lists each of them. */
  lemma VerticesAreListed(g: Grid, r: Grid, vs: seq<Vec>, size: real)
    requires size > 0.0
    requires forall d :: VerticesAt(r, d) == VerticesIn(vs, size, d) + VerticesAt(g, d)
    ensures forall j :: 0 <= j < |vs| ==> vs[j] in VerticesAt(r, CellOf(vs[j], size))
  {
    forall j | 0 <= j < |vs|
      ensures vs[j] in VerticesAt(r, CellOf(vs[j], size))
    {
      var c := CellOf(vs[j], size);
      VertexIsListed(vs, VerticesAt(g, c), VerticesAt(r, c), size, vs[j]);
    }
  }

  /** Every vertex of an obstacle is listed in the cell that holds it. */
  lemma ObstacleVerticesAreListed(g: Grid, poly: Polygon, size: real)
    requires size > 0.0
    ensures var r := AddObstacle(g, poly, size, Size(poly));
      forall j :: 0 <= j < Size(poly) ==> Point(poly, j) in VerticesAt(r, CellOf(Point(poly, j), size))
  {
    VerticesAreListed(g, AddObstacle(g, poly, size, Size(poly)), poly.vertices[..Size(poly)], size);
    assert poly.vertices[..Size(poly)] == poly.vertices;
  }

  /** The vertices of a list of polygons, one polygon after another. */
  function AllVertices(polys: seq<Polygon>): (vs: seq<Vec>)
    ensures forall p, q :: p in polys && q in p.vertices ==> q in vs
  {
    if |polys| == 0 then [] else polys[0].vertices + AllVertices(polys[1..])
  }

  /** Listing a concatenation: the later vertices come first. */
  lemma {:induction false} VerticesInAppend(a: seq<Vec>, b: seq<Vec>, size: real, c: Cell)
    requires size > 0.0
    ensures VerticesIn(a + b, size, c) == VerticesIn(b, size, c) + VerticesIn(a, size, c)
    decreases |b|
  {
    if |b| == 0 {
      assert a + b == a;
    } else {
      assert (a + b)[..|a + b| - 1] == a + b[..|b| - 1];
      VerticesInAppend(a, b[..|b| - 1], size, c);
    }
  }

  /** The edges of any of the polygons whose registration reaches cell `d`. */
  function AllEdgesThrough(polys: seq<Polygon>, size: real, d: Cell): (r: set<Segment>)
    requires size > 0.0
    ensures forall k, j ::
      0 <= k < |polys| && 0 <= j < Size(polys[k]) && d in Crossings(Polygons.Edge(polys[k], j), size, 1) ==>
        Polygons.Edge(polys[k], j) in r
  {
    if |polys| == 0 then {}
    else
      var rest := AllEdgesThrough(polys[1..], size, d);
      assert forall k :: 0 < k < |polys| ==> polys[k] == polys[1..][k - 1];
      EdgesThrough(polys[0], size, Size(polys[0]), d) + rest
  }

  /** Regrouping a union of three sets. */
  lemma UnionRegroup<T>(a: set<T>, b: set<T>, c: set<T>)
    ensures (a + b) + c == a + (b + c)
  {
  }

  /** Regrouping a concatenation of three lists. */
  lemma ConcatRegroup<T>(a: seq<T>, b: seq<T>, c: seq<T>)
    ensures a + (b + c) == (a + b) + c
  {
  }

  /** What adding the first polygon, then the rest, does to one cell. */
  lemma PolygonStepAt(g: Grid, mid: Grid, r: Grid, polys: seq<Polygon>, size: real, d: Cell)
    requires size > 0.0 && |polys| > 0
    requires VerticesAt(mid, d) == VerticesIn(polys[0].vertices[..Size(polys[0])], size, d) + VerticesAt(g, d)
    requires SegmentsAt(mid, d) == SegmentsAt(g, d) + EdgesThrough(polys[0], size, Size(polys[0]), d)
    requires VerticesAt(r, d) == VerticesIn(AllVertices(polys[1..]), size, d) + VerticesAt(mid, d)
    requires SegmentsAt(r, d) == SegmentsAt(mid, d) + AllEdgesThrough(polys[1..], size, d)
    ensures VerticesAt(r, d) == VerticesIn(AllVertices(polys), size, d) + VerticesAt(g, d)
    ensures SegmentsAt(r, d) == SegmentsAt(g, d) + AllEdgesThrough(polys, size, d)
  {
    var first, rest := polys[0].vertices, AllVertices(polys[1..]);
    assert first[..Size(polys[0])] == first;
    assert AllVertices(polys) == first + rest;
    VerticesInAppend(first, rest, size, d);
    ConcatRegroup(VerticesIn(rest, size, d), VerticesIn(first, size, d), VerticesAt(g, d));
    var e0, es := EdgesThrough(polys[0], size, Size(polys[0]), d), AllEdgesThrough(polys[1..], size, d);
    assert AllEdgesThrough(polys, size, d) == e0 + es;
    UnionRegroup(SegmentsAt(g, d), e0, es);
  }

  /**
   `addObstacles` for a list of polygons: each one is added in order,
   with all its vertices and edges.
   */
  function AddPolygons(g: Grid, polys: seq<Polygon>, size: real): (r: Grid)
    requires size > 0.0
    ensures forall d :: VerticesAt(r, d) == VerticesIn(AllVertices(polys), size, d) + VerticesAt(g, d)
    ensures forall d :: SegmentsAt(r, d) == SegmentsAt(g, d) + AllEdgesThrough(polys, size, d)
    ensures r.balls == g.balls && r.pistons == g.pistons
    decreases |polys|
  {
    if |polys| == 0 then g
    else
      var mid := AddObstacle(g, polys[0], size, Size(polys[0]));
      var r := AddPolygons(mid, polys[1..], size);
      PolygonStep(g, mid, r, polys, size);
      r
  }

  /** What adding the first polygon, then the rest, does to every cell. */
  lemma PolygonStep(g: Grid, mid: Grid, r: Grid, polys: seq<Polygon>, size: real)
    requires size > 0.0 && |polys| > 0
    requires forall d :: VerticesAt(mid, d) == VerticesIn(polys[0].vertices[..Size(polys[0])], size, d) + VerticesAt(g, d)
    requires forall d :: SegmentsAt(mid, d) == SegmentsAt(g, d) + EdgesThrough(polys[0], size, Size(polys[0]), d)
    requires forall d :: VerticesAt(r, d) == VerticesIn(AllVertices(polys[1..]), size, d) + VerticesAt(mid, d)
    requires forall d :: SegmentsAt(r, d) == SegmentsAt(mid, d) + AllEdgesThrough(polys[1..], size, d)
    ensures forall d :: VerticesAt(r, d) == VerticesIn(AllVertices(polys), size, d) + VerticesAt(g, d)
    ensures forall d :: SegmentsAt(r, d) == SegmentsAt(g, d) + AllEdgesThrough(polys, size, d)
  {
    forall d
      ensures VerticesAt(r, d) == VerticesIn(AllVertices(polys), size, d) + VerticesAt(g, d)
      ensures SegmentsAt(r, d) == SegmentsAt(g, d) + AllEdgesThrough(polys, size, d)
    {
      PolygonStepAt(g, mid, r, polys, size, d);
    }
  }

  /** `addObstacles`: the obstacles in order, then the contour. */
  function AddObstacles(g: Grid, obstacles: seq<Polygon>, contour: Polygon, size: real): (r: Grid)
    requires size > 0.0
    ensures forall d :: VerticesAt(r, d) == VerticesIn(AllVertices(obstacles + [contour]), size, d) + VerticesAt(g, d)
    ensures forall d :: SegmentsAt(r, d) == SegmentsAt(g, d) + AllEdgesThrough(obstacles + [contour], size, d)
    ensures r.balls == g.balls && r.pistons == g.pistons
  {
    AddPolygons(g, obstacles + [contour], size)
  }
}

=== FILE: handlers.dfy ===
/**
 What a collision or a mutation timer does when it fires: the handler
 the simulator hands to the driver. A collision is first recorded in the
 histories of its mobiles; then the contact is dispatched on the kinds of
 the mobiles (particle or piston) and of the collision: a bounce, an
 obstacle contact, or a change of cell. Every mobile whose trajectory
 changed is marked for a new prediction with the mobiles that targeted
 it; a refused bounce marks only the mobiles themselves. After a contact
 of two particles the reaction rules run whether or not the bounce was
 accepted. A mutation timer changes the particle's population.
 */
module Handlers {
  import opened Times
  import opened Geometry
  import opened Segments
  import opened Events
  import opened Links
  import opened Configs
  import opened Driver
  import Areas
  import Particles
  import Pistons
  import Populations
  import Reactions

  /**
   The random draws of a step: whether a probabilistic reaction rule
   fires for a contact, and the uniform draw behind a particle's next
   mutation delay.
   */
  datatype Draws = Draws(success: (Time, Collision) -> bool, delay: (Time, MobileId) -> real)

  /** The configuration a handler reads: the rules, the square root and the draws. */
  datatype Env = Env(
    mutations: seq<MutationConfig>,
    reactions: seq<ReactionConfig>,
    sqrt: real -> real,
    draws: Draws)

  /** A particle whose population and pending timer are consistent with the state. */
  predicate Swappable(s: Sim, a: MobileId)
  {
    IsBall(s, a) && s.balls[a].population < |s.pops| && Populations.TimerOk(s.graph, a, s.balls[a])
  }

  /**
   The collisions the source can fire: the mobiles are known and of a
   kind the double dispatch handles, a bounce has a nonzero total mass,
   and a pair names two distinct mobiles.
   */
  ghost predicate HitReady(s: Sim, c: Collision)
  {
    match c
    case Default => false
    case Mobiles(a, b) =>
      a != b &&
      ((Swappable(s, a) && Swappable(s, b) && s.balls[b].mass + s.balls[a].mass != 0.0)
       || (IsBall(s, a) && IsPiston(s, b) && s.balls[a].mass + s.pistons[b].mass != 0.0)
       || (IsPiston(s, a) && IsBall(s, b) && s.balls[b].mass + s.pistons[a].mass != 0.0)
       || (IsPiston(s, a) && IsPiston(s, b) && s.pistons[b].mass + s.pistons[a].mass != 0.0))
    case Vertex(a, _) => IsBall(s, a) || IsPiston(s, a)
    case Edge(a, _) => IsBall(s, a) || IsPiston(s, a)
    case Area(a) => IsBall(s, a) || IsPiston(s, a)
  }

  /**
   The states in which the source fires an event: the invariants hold,
   the grid step is positive, the rules only name existing populations,
   and the event is a collision as above or the timer of a consistent
   particle. Drawing, sampling and plotting never reach the handler.
   */
  ghost predicate Ready(env: Env, s: Sim, e: Event)
  {
    && Inv(s) && s.size > 0.0
    && Populations.MutationsFit(env.mutations, |s.pops|)
    && Populations.ReactionsFit(env.reactions, |s.pops|)
    && match e
       case Hit(c) => HitReady(s, c)
       case Mutation(a) => Swappable(s, a)
       case _ => false
  }

  /**
   What a contact may do to a state: the clock, the counters and the
   prediction graph's mobiles, targets and histories stay; the invariants
   hold after it; and the queue changes only by mutation timers.
   */
  ghost predicate Handled(s: Sim, r: Sim)
  {
    && Inv(r) && r.now == s.now && r.chocs == s.chocs
    && r.graph.nodes == s.graph.nodes && r.graph.target == s.graph.target && r.graph.history == s.graph.history
    && Populations.TimersOnly(s.graph, r.graph, s.now)
  }

  /** `updateRefresh` of one mobile after an accepted contact, or the mobile alone after a refused one. */
  function MarkOne(s: Sim, a: MobileId, accepted: bool): (r: set<MobileId>)
    requires Valid(s.graph) && a in s.graph.nodes
    ensures s.dirty <= r && a in r
    ensures accepted ==> forall b :: b in s.graph.nodes && a in s.graph.nodes[b].targets ==> b in r
    ensures !accepted ==> r == s.dirty + {a}
    ensures r <= s.dirty + s.graph.nodes.Keys
  {
    if accepted then UpdateRefresh(s.graph, s.dirty, a) else s.dirty + {a}
  }

  /** Two marks, for the two mobiles of a contact, in the source's order. */
  function MarkTwo(s: Sim, a: MobileId, b: MobileId, accepted: bool): (r: set<MobileId>)
    requires Valid(s.graph) && a in s.graph.nodes && b in s.graph.nodes
    ensures s.dirty + {a, b} <= r
    ensures accepted ==> forall m :: m in s.graph.nodes && (a in s.graph.nodes[m].targets || b in s.graph.nodes[m].targets) ==> m in r
    ensures !accepted ==> r == s.dirty + {a, b}
    ensures r <= s.dirty + s.graph.nodes.Keys
  {
    MarkOne(s.(dirty := MarkOne(s, a, accepted)), b, accepted)
  }

  /**
   Two particles: the second mobile bounces off the first (the source's
   double dispatch makes it `this`); then the reaction rules run on the
   two particles, whether the bounce was accepted or refused.
   */
  ghost function BallBall(env: Env, s: Sim, a: MobileId, b: MobileId): (r: Sim)
    requires Inv(s) && Swappable(s, a) && Swappable(s, b) && a != b
    requires s.balls[b].mass + s.balls[a].mass != 0.0
    requires Populations.ReactionsFit(env.reactions, |s.pops|)
    ensures Handled(s, r)
    ensures r.pistons == s.pistons && r.grid == s.grid && r.balls.Keys == s.balls.Keys
  {
    var bounce := Particles.CollideBalls(s.balls[b], s.balls[a], s.now, env.sqrt);
    assert bounce.0.timer == s.balls[b].timer && bounce.0.population == s.balls[b].population;
    assert bounce.1.timer == s.balls[a].timer && bounce.1.population == s.balls[a].population;
    var react := Populations.Reaction(bounce.0, b, bounce.1, a, s.pops, s.graph, env.reactions, env.mutations, s.now,
                                      env.draws.success(s.now, Mobiles(a, b)), env.draws.delay(s.now, b), env.draws.delay(s.now, a));
    s.(balls := s.balls[b := react.0][a := react.1], pops := react.2, graph := react.3,
       dirty := MarkTwo(s, b, a, bounce.2))
  }

  /**
   After a contact of two particles the reaction rules decide both
   populations from the populations before the contact, whether the
   bounce was accepted or refused: the rule loop follows both branches.
   */
  lemma BallBallReacts(env: Env, s: Sim, a: MobileId, b: MobileId)
    requires Inv(s) && Swappable(s, a) && Swappable(s, b) && a != b
    requires s.balls[b].mass + s.balls[a].mass != 0.0
    requires Populations.ReactionsFit(env.reactions, |s.pops|)
    ensures var r := BallBall(env, s, a, b);
      var react := Reactions.React(env.reactions, s.balls[b].population, s.balls[a].population, env.draws.success(s.now, Mobiles(a, b)));
      && a in r.balls && b in r.balls
      && (react.Some? ==> (r.balls[b].population, r.balls[a].population) == react.value)
      && (react.None? ==> r.balls[b].population == s.balls[b].population && r.balls[a].population == s.balls[a].population && r.pops == s.pops)
  {
  }

  /**
   A refused contact of two particles (they move apart) leaves both
   motions as they were and marks exactly the two particles for a new
   prediction.
   */
  lemma BallBallRefused(env: Env, s: Sim, a: MobileId, b: MobileId)
    requires Inv(s) && Swappable(s, a) && Swappable(s, b) && a != b
    requires s.balls[b].mass + s.balls[a].mass != 0.0
    requires Populations.ReactionsFit(env.reactions, |s.pops|)
    requires !Physics.Approaching(s.balls[b].motion, s.balls[a].motion)
    ensures var r := BallBall(env, s, a, b);
      && a in r.balls && b in r.balls
      && r.balls[a].motion == s.balls[a].motion && r.balls[b].motion == s.balls[b].motion
      && r.dirty == s.dirty + {a, b}
  {
  }

  /**
   An accepted contact of two particles gives them the velocities of the
   elastic bounce, the second mobile as `self`, keeps their positions,
   and marks both with every mobile that targeted either.
   */
  lemma BallBallAccepted(env: Env, s: Sim, a: MobileId, b: MobileId)
    requires Inv(s) && Swappable(s, a) && Swappable(s, b) && a != b
    requires s.balls[b].mass + s.balls[a].mass != 0.0
    requires Populations.ReactionsFit(env.reactions, |s.pops|)
    requires Physics.Approaching(s.balls[b].motion, s.balls[a].motion)
    ensures var r := BallBall(env, s, a, b);
      && a in r.balls && b in r.balls
      && (r.balls[b].motion.velocity, r.balls[a].motion.velocity) ==
         Physics.BallBallBounce(s.balls[b].motion, s.balls[b].mass, s.balls[a].motion, s.balls[a].mass, env.sqrt)
      && r.balls[a].motion.position == s.balls[a].motion.position && r.balls[b].motion.position == s.balls[b].motion.position
      && forall m :: m in s.graph.nodes && (a in s.graph.nodes[m].targets || b in s.graph.nodes[m].targets) ==> m in r.dirty
  {
  }

  /** A particle and a piston: the particle bounces off the piston, whichever mobile came first. */
  ghost function BallPiston(s: Sim, ball: MobileId, piston: MobileId): (r: Sim)
    requires Inv(s) && IsBall(s, ball) && IsPiston(s, piston)
    requires s.balls[ball].mass + s.pistons[piston].mass != 0.0
    ensures Handled(s, r)
    ensures r == s.(balls := r.balls, pistons := r.pistons, dirty := r.dirty)
    ensures ball in r.balls && piston in r.pistons
    ensures r.balls == s.balls[ball := r.balls[ball]] && r.pistons == s.pistons[piston := r.pistons[piston]]
    ensures r.pistons[piston] == s.pistons[piston].(motion := r.pistons[piston].motion)
  {
    var p := s.pistons[piston];
    var bounce := Particles.CollidePiston(s.balls[ball], p.motion, p.mass, s.now);
    s.(balls := s.balls[ball := bounce.0], pistons := s.pistons[piston := p.(motion := bounce.1)],
       dirty := MarkTwo(s, ball, piston, bounce.2))
  }

  /** Two pistons: the second bounces off the first. */
  ghost function PistonPiston(s: Sim, a: MobileId, b: MobileId): (r: Sim)
    requires Inv(s) && IsPiston(s, a) && IsPiston(s, b)
    requires s.pistons[b].mass + s.pistons[a].mass != 0.0
    ensures Handled(s, r)
    ensures r == s.(pistons := r.pistons, dirty := r.dirty)
    ensures a in r.pistons && b in r.pistons && r.pistons == s.pistons[a := r.pistons[a]][b := r.pistons[b]]
  {
    var bounce := Pistons.CollidePistons(s.pistons[b], s.pistons[a]);
    s.(pistons := s.pistons[b := bounce.0][a := bounce.1], dirty := MarkTwo(s, b, a, bounce.2))
  }

  /** A particle at an obstacle's vertex. */
  ghost function BallVertex(env: Env, s: Sim, a: MobileId, vertex: Vec): (r: Sim)
    requires Inv(s) && IsBall(s, a)
    ensures Handled(s, r)
    ensures r == s.(balls := r.balls, dirty := r.dirty) && a in r.balls && r.balls == s.balls[a := r.balls[a]]
  {
    var bounce := Particles.CollideVertex(s.balls[a], vertex, s.now, env.sqrt);
    s.(balls := s.balls[a := bounce.0], dirty := MarkOne(s, a, bounce.1))
  }

  /** A particle at an obstacle's edge. */
  ghost function BallEdge(env: Env, s: Sim, a: MobileId, edge: Segment): (r: Sim)
    requires Inv(s) && IsBall(s, a)
    ensures Handled(s, r)
    ensures r == s.(balls := r.balls, dirty := r.dirty) && a in r.balls && r.balls == s.balls[a := r.balls[a]]
  {
    var bounce := Particles.CollideSegment(s.balls[a], edge, s.now, env.sqrt);
    s.(balls := s.balls[a := bounce.0], dirty := MarkOne(s, a, bounce.1))
  }

  /** A mobile whose contact changes nothing but its predictions: a piston at an obstacle. */
  ghost function Touch(s: Sim, a: MobileId): (r: Sim)
    requires Inv(s) && a in s.graph.nodes
    ensures Handled(s, r)
    ensures r == s.(dirty := r.dirty) && a in r.dirty
    ensures forall b :: b in s.graph.nodes && a in s.graph.nodes[b].targets ==> b in r.dirty
  {
    s.(dirty := MarkOne(s, a, true))
  }

  /** A particle leaving its cell moves to the next cell of the grid. */
  ghost function BallArea(s: Sim, a: MobileId): (r: Sim)
    requires Inv(s) && IsBall(s, a) && s.size > 0.0
    ensures Handled(s, r)
    ensures r == s.(balls := r.balls, grid := r.grid, dirty := r.dirty) && a in r.dirty
    ensures r.balls == s.balls[a := s.balls[a].(area := Particles.NextArea(s.balls[a], s.size))]
  {
    var moved := Areas.ChangeBallArea(s.grid, a, s.balls[a], s.size);
    s.(balls := s.balls[a := moved.0], grid := moved.1, dirty := MarkOne(s, a, true))
  }

  /** A piston face leaving its row moves both faces to their next rows. */
  ghost function PistonArea(s: Sim, a: MobileId): (r: Sim)
    requires Inv(s) && IsPiston(s, a) && s.size > 0.0
    ensures Handled(s, r)
    ensures r == s.(pistons := r.pistons, grid := r.grid, dirty := r.dirty) && a in r.dirty
    ensures r.pistons == s.pistons[a := s.pistons[a].(area1 := Pistons.NextRows(s.pistons[a], s.size).0,
                                                       area2 := Pistons.NextRows(s.pistons[a], s.size).1)]
  {
    var moved := Pistons.ChangeArea(s.grid, a, s.pistons[a], s.size);
    s.(pistons := s.pistons[a := moved.0], grid := moved.1, dirty := MarkOne(s, a, true))
  }

  /** The contact of a recorded collision, dispatched on the kinds of its mobiles. */
  ghost function Contact(env: Env, s: Sim, c: Collision): (r: Sim)
    requires Inv(s) && HitReady(s, c) && s.size > 0.0
    requires Populations.ReactionsFit(env.reactions, |s.pops|)
    ensures Handled(s, r)
    ensures c.Mobiles? && IsBall(s, c.first) && IsBall(s, c.second) ==> r == BallBall(env, s, c.first, c.second)
  {
    match c
    case Mobiles(a, b) =>
      if IsBall(s, a) && IsBall(s, b) then BallBall(env, s, a, b)
      else if IsBall(s, a) then BallPiston(s, a, b)
      else if IsBall(s, b) then BallPiston(s, b, a)
      else PistonPiston(s, a, b)
    case Vertex(a, p) => if IsBall(s, a) then BallVertex(env, s, a, p) else Touch(s, a)
    case Edge(a, e) => if IsBall(s, a) then BallEdge(env, s, a, e) else Touch(s, a)
    case Area(a) => if IsBall(s, a) then BallArea(s, a) else PistonArea(s, a)
  }

  /** The collision recorded in the histories of its mobiles. */
  ghost function Recorded(s: Sim, c: Collision): (r: Sim)
    requires Inv(s) && HitReady(s, c)
    ensures Inv(r) && HitReady(r, c)
    ensures r == s.(graph := r.graph) && r.graph == s.graph.(history := r.graph.history)
    ensures forall m :: m in r.graph.history && Involves(c, m) ==> RecordedAt(r.graph.history[m], c, s.now)
    ensures forall m :: m in r.graph.history && !Involves(c, m) ==> r.graph.history[m] == s.graph.history[m]
  {
    RecordKeepsValid(s.graph, s.now, c);
    var r := s.(graph := s.graph.(history := Record(s.graph.history, s.now, c)));
    ReadyFrame(s, r, c);
    r
  }

  /** Readiness reads the mobiles, the populations and the queue, not the histories. */
  lemma ReadyFrame(s: Sim, r: Sim, c: Collision)
    requires HitReady(s, c)
    requires r == s.(graph := r.graph) && r.graph.nodes == s.graph.nodes && r.graph.queue == s.graph.queue
    ensures HitReady(r, c)
  {
  }

  /** A state changed by a contact keeps what the driver demands of a handler. */
  lemma HandledKeeps(s: Sim, m: Sim, r: Sim)
    requires Inv(s) && m == s.(graph := m.graph) && m.graph == s.graph.(history := m.graph.history)
    requires Handled(m, r)
    ensures Keeps(s, r) && r.chocs == s.chocs
  {
  }

  /**
   The handler: a collision is recorded, then its contact performed; a
   timer changes its particle's population. States the source never
   fires in are left alone.
   */
  ghost function Fire(env: Env, s: Sim, e: Event): (r: Sim)
    ensures Keeps(s, r) && r.chocs == s.chocs
    ensures !Ready(env, s, e) ==> r == s
    ensures Ready(env, s, e) ==> r.graph.nodes == s.graph.nodes && r.graph.target == s.graph.target
    ensures Ready(env, s, e) ==> Populations.TimersOnly(s.graph, r.graph, s.now)
    ensures forall h :: h in r.graph.queue && h !in s.graph.queue ==>
      r.graph.queue[h].event.Mutation? && (!IsNever(s.now) ==> Times.Less(s.now, r.graph.queue[h].time))
    ensures Ready(env, s, e) && e.Hit? ==>
      r == Contact(env, Recorded(s, e.collision), e.collision)
    ensures Ready(env, s, e) && e.Hit? ==> r.graph.history == Record(s.graph.history, s.now, e.collision)
  {
    if !Ready(env, s, e) then s
    else if e.Hit? then
      var m := Recorded(s, e.collision);
      var r := Contact(env, m, e.collision);
      HandledKeeps(s, m, r);
      r
    else
      var r := Mutate(env, s, e.particle);
      HandledKeeps(s, s, r);
      r
  }

  /**
   `performBouleEvent`: the particle's population changes by its first
   mutation rule, and the timer that fired leaves the queue even when
   the rule leads back to the particle's own population.
   */
  ghost function Mutate(env: Env, s: Sim, a: MobileId): (r: Sim)
    requires Inv(s) && Swappable(s, a) && Populations.MutationsFit(env.mutations, |s.pops|)
    ensures Handled(s, r)
    ensures r == s.(balls := r.balls, pops := r.pops, graph := r.graph)
    ensures a in r.balls && r.balls == s.balls[a := r.balls[a]] && |r.pops| == |s.pops|
    ensures Reactions.MutationTarget(env.mutations, s.balls[a].population).None? ==> r == s
    ensures Reactions.MutationTarget(env.mutations, s.balls[a].population).Some? ==>
      r.balls[a].population == Reactions.MutationTarget(env.mutations, s.balls[a].population).value
  {
    var changed := Populations.Remutate(s.balls[a], a, s.pops, s.graph, env.mutations, s.now, env.draws.delay(s.now, a));
    s.(balls := s.balls[a := changed.0], pops := changed.1, graph := changed.2)
  }

  /** The mutation timer that fired is gone after `Mutate`, so the same timer cannot fire again at that instant. */
  lemma MutateRetiresTimer(env: Env, s: Sim, a: MobileId)
    requires Inv(s) && Swappable(s, a) && Populations.MutationsFit(env.mutations, |s.pops|)
    requires s.balls[a].timer.Some? && Reactions.MutationTarget(env.mutations, s.balls[a].population).Some?
    ensures s.balls[a].timer.value !in Mutate(env, s, a).graph.queue
  {
    Populations.RemutateRetiresTimer(s.balls[a], a, s.pops, s.graph, env.mutations, s.now, env.draws.delay(s.now, a));
  }

  /** The handler as a value the driver accepts. */
  ghost function Dispatch(env: Env): (fire: Handler)
    ensures IsHandler(fire)
    ensures forall s, e :: fire(s, e) == Fire(env, s, e)
  {
    (s, e) => Fire(env, s, e)
  }

  /** A contact of two particles is the bounce and reaction of `BallBall` on the recorded state. */
  lemma FireOnParticles(env: Env, s: Sim, a: MobileId, b: MobileId)
    requires Ready(env, s, Hit(Mobiles(a, b))) && IsBall(s, a) && IsBall(s, b)
    ensures var m := Recorded(s, Mobiles(a, b));
      && m.balls == s.balls && m.dirty == s.dirty && m.now == s.now && m.graph.nodes == s.graph.nodes
      && Inv(m) && Swappable(m, a) && Swappable(m, b) && a != b && m.balls[b].mass + m.balls[a].mass != 0.0
      && Populations.ReactionsFit(env.reactions, |m.pops|)
      && Fire(env, s, Hit(Mobiles(a, b))) == BallBall(env, m, a, b)
  {
  }

  /**
   Performed by the driver, a collision the source can fire is recorded,
   then its contact happens, then the collision counter is raised when
   the collision is a real one.
   */
  lemma PerformRecordsFirst(env: Env, s: Sim, c: Collision, isDraw: bool)
    requires Ready(env, s, Hit(c))
    ensures var r := Perform(s, Hit(c), isDraw, Dispatch(env)).0;
      && r == Contact(env, Recorded(s, c), c).(chocs := r.chocs)
      && r.graph.history == Record(s.graph.history, s.now, c)
      && r.chocs == if IsReal(c) then (s.chocs + 1) % TwoTo32 else s.chocs
  {
    assert Dispatch(env)(s, Hit(c)) == Fire(env, s, Hit(c));
  }
}

=== FILE: links.dfy ===
/**
 The prediction graph. Every mobile keeps the instant of its next
 predicted collision (its target), the queue handles of the collision
 events it takes part in (`pending`), the mobiles it is predicted to hit
 at that instant (`targets`) and the mobiles predicted to hit it
 (`attached`), plus a record of the collisions it performed last. When a
 trajectory changes, `attached` says whose predictions went stale.
 The source keeps all of these as fields of one mobile object; here the
 links live in `nodes`, and the predicted instants and the records in
 two maps over the same mobiles, so that updating a prediction or a
 record visibly leaves the links alone.
 */
module Links {
  import opened Times
  import opened Events
  import Configs

  /** A mobile's links. */
  datatype Node = Node(pending: set<EventId>, targets: set<MobileId>, attached: set<MobileId>)

  /** The collisions a mobile performed last, all at instant `time`. */
  datatype History = History(time: Time, last: seq<Collision>)

  /**
   The mobiles' links, predicted instants and records, the event queue,
   and the next free event id.
   */
  datatype Graph = Graph(
    nodes: map<MobileId, Node>,
    target: map<MobileId, Time>,
    history: map<MobileId, History>,
    queue: map<EventId, Entry>,
    nextEvent: EventId)

  /** The two study counters: collision tests, and among them pair tests; both wrap modulo 2^32. */
  datatype Studies = Studies(tests: Configs.U32, pairs: Configs.U32)

  /** A mobile as constructed has no links... */
  function NewNode(): (n: Node)
    ensures n.pending == {} && n.targets == {} && n.attached == {}
  {
    Node({}, {}, {})
  }

  /** ...and no record. */
  function NewHistory(): (h: History)
    ensures IsNever(h.time) && h.last == []
  {
    History(Never, [])
  }

  // ---------------------------------------------------------------------
  // Mobile ids

  /** The shared id counter starts at 2^32 - 1, so that the first increment wraps to 0. */
  const InitialIndex: Configs.U32 := 0xFFFF_FFFF

  /** Each construction pre-increments the 32-bit counter and takes its value. */
  function NextIndex(counter: Configs.U32): (r: Configs.U32)
    ensures counter < InitialIndex ==> r == counter + 1
    ensures counter == InitialIndex ==> r == 0
  {
    (counter + 1) % Configs.TwoTo32
  }

  /** The id of the k-th mobile ever constructed (k >= 1). */
  function IndexAfter(k: nat): Configs.U32
  {
    if k == 0 then InitialIndex else NextIndex(IndexAfter(k - 1))
  }

  /** The k-th mobile gets id k - 1, for the first 2^32 constructions. */
  lemma {:induction false} IndexIsRank(k: nat)
    requires 1 <= k <= Configs.TwoTo32
    ensures IndexAfter(k) == k - 1
  {
    if k > 1 {
      IndexIsRank(k - 1);
    }
  }

  /** Ids are distinct and strictly increasing in construction order (until the counter wraps). */
  lemma IdsIncrease(j: nat, k: nat)
    requires 1 <= j < k <= Configs.TwoTo32
    ensures IndexAfter(j) < IndexAfter(k)
  {
    IndexIsRank(j);
    IndexIsRank(k);
  }

  // ---------------------------------------------------------------------
  // Invariants

  /** Links only point at known mobiles. */
  ghost predicate Closed(g: Graph)
  {
    forall a :: a in g.nodes ==> g.nodes[a].targets <= g.nodes.Keys && g.nodes[a].attached <= g.nodes.Keys
  }

  /** `targets` and `attached` are mutual inverses. */
  ghost predicate Mutual(g: Graph)
  {
    forall a, b {:trigger b in g.nodes[a].targets} {:trigger a in g.nodes[b].attached} ::
      a in g.nodes && b in g.nodes ==> (b in g.nodes[a].targets <==> a in g.nodes[b].attached)
  }

  /**
   A pending handle of `a` is a live collision event involving `a`; a
   pair event joins two distinct known mobiles and is pending for both.
   */
  ghost predicate HandleOk(g: Graph, a: MobileId, h: EventId)
  {
    h in g.queue && g.queue[h].event.Hit? &&
    var c := g.queue[h].event.collision;
    Involves(c, a) &&
    (c.Mobiles? ==> c.first != c.second && Other(c, a) in g.nodes && h in g.nodes[Other(c, a)].pending)
  }

  ghost predicate Handles(g: Graph)
  {
    forall a, h :: a in g.nodes && h in g.nodes[a].pending ==> HandleOk(g, a, h)
  }

  /** Every queued collision is pending for each of its participants. */
  ghost predicate Tracked(g: Graph)
  {
    forall h, m {:trigger Involves(g.queue[h].event.collision, m)} ::
      h in g.queue && g.queue[h].event.Hit? && Involves(g.queue[h].event.collision, m) ==>
      m in g.nodes && h in g.nodes[m].pending
  }

  /** Event ids in use are below the next free one. */
  ghost predicate Fresh(g: Graph)
  {
    forall h :: h in g.queue ==> h < g.nextEvent
  }

  /** Every mobile has a prediction and a record. */
  predicate Aligned(g: Graph)
  {
    g.target.Keys == g.nodes.Keys && g.history.Keys == g.nodes.Keys
  }

  ghost predicate Valid(g: Graph)
  {
    Aligned(g) && Closed(g) && Mutual(g) && Handles(g) && Tracked(g) && Fresh(g)
  }

  /** Every pending handle of a valid graph is live. */
  lemma PendingIsLive(g: Graph, a: MobileId)
    requires Valid(g) && a in g.nodes
    ensures g.nodes[a].pending <= g.queue.Keys
  {
    forall h | h in g.nodes[a].pending
      ensures h in g.queue
    {
      assert HandleOk(g, a, h);
    }
  }

  /** A graph with no mobiles and an empty queue. */
  function EmptyGraph(): (g: Graph)
    ensures Valid(g)
    ensures g.nodes == map[] && g.queue == map[]
  {
    Graph(map[], map[], map[], map[], 0)
  }

  /** Registers a freshly constructed mobile, which predicts no collision. */
  function AddMobile(g: Graph, a: MobileId): (r: Graph)
    requires Valid(g) && a !in g.nodes
    ensures Valid(r)
    ensures r.nodes.Keys == g.nodes.Keys + {a}
    ensures forall m :: m in g.nodes ==> r.nodes[m] == g.nodes[m] && r.target[m] == g.target[m]
    ensures IsNever(r.target[a]) && r.nodes[a] == NewNode()
    ensures r.queue == g.queue
  {
    var r := g.(nodes := g.nodes[a := NewNode()], target := g.target[a := Never], history := g.history[a := NewHistory()]);
    AddMobileIsValid(g, a, r);
    r
  }

  lemma AddMobileIsValid(g: Graph, a: MobileId, r: Graph)
    requires Valid(g) && a !in g.nodes
    requires r == g.(nodes := g.nodes[a := NewNode()], target := g.target[a := Never], history := g.history[a := NewHistory()])
    ensures Valid(r)
  {
    forall x, y | x in r.nodes && y in r.nodes
      ensures y in r.nodes[x].targets <==> x in r.nodes[y].attached
    {
      if x != a && y != a {
        assert y in g.nodes[x].targets <==> x in g.nodes[y].attached;
      }
    }
    forall m, h | m in r.nodes && h in r.nodes[m].pending
      ensures HandleOk(r, m, h)
    {
      assert HandleOk(g, m, h);
    }
  }

  // ---------------------------------------------------------------------
  // Removing a collision from a partner

  /** Whether a queue entry holds a collision equal to `c`. */
  predicate HoldsEqual(e: Entry, c: Collision)
  {
    e.event.Hit? && Events.Eq(e.event.collision, c)
  }

  /**
   The partner's scan visits its handles in increasing order and reads
   each entry until it finds an equal collision; it is defined when every
   handle it reads is in the queue.
   */
  predicate ScanIsDefined(pending: set<EventId>, queue: map<EventId, Entry>, c: Collision)
    decreases |pending|
  {
    pending == {} ||
    var h := MinOf(pending);
    h in queue && (HoldsEqual(queue[h], c) || ScanIsDefined(pending - {h}, queue, c))
  }

  /** A defined scan reads only live handles; if it finds no match, it has read them all. */
  lemma {:induction false} ScanReadsLive(pending: set<EventId>, queue: map<EventId, Entry>, c: Collision)
    requires ScanIsDefined(pending, queue, c)
    requires forall k :: k in pending && k in queue ==> !HoldsEqual(queue[k], c)
    ensures pending <= queue.Keys
    decreases |pending|
  {
    if pending != {} {
      var h := MinOf(pending);
      ScanReadsLive(pending - {h}, queue, c);
    }
  }

  /**
   The partner's `detach(collision)`: removes the first (smallest) handle
   whose collision equals `c`, if any, and nothing else.
   */
  function DetachCollision(pending: set<EventId>, queue: map<EventId, Entry>, c: Collision): (r: set<EventId>)
    requires ScanIsDefined(pending, queue, c)
    ensures r <= pending
    ensures r == pending ==> forall k :: k in pending && k in queue ==> !HoldsEqual(queue[k], c)
    ensures r != pending ==>
      exists k :: k in pending && r == pending - {k} && k in queue && HoldsEqual(queue[k], c) &&
        forall j :: j in pending && j < k ==> j in queue && !HoldsEqual(queue[j], c)
    decreases |pending|
  {
    if pending == {} then {}
    else
      var h := MinOf(pending);
      if HoldsEqual(queue[h], c) then pending - {h}
      else
        var rest := DetachCollision(pending - {h}, queue, c);
        rest + {h}
  }

  /**
   If `h` is the smallest handle holding a collision equal to `c` and all
   handles are live, the scan removes exactly `h`.
   */
  lemma {:induction false} ScanFindsLeast(pending: set<EventId>, queue: map<EventId, Entry>, c: Collision, h: EventId)
    requires pending <= queue.Keys
    requires h in pending && HoldsEqual(queue[h], c)
    requires forall k :: k in pending && HoldsEqual(queue[k], c) ==> h <= k
    ensures ScanIsDefined(pending, queue, c)
    ensures DetachCollision(pending, queue, c) == pending - {h}
    decreases |pending|
  {
    var m := MinOf(pending);
    if m != h {
      assert !HoldsEqual(queue[m], c);
      ScanFindsLeast(pending - {m}, queue, c, h);
      assert pending - {m} - {h} + {m} == pending - {h};
    }
  }

  /**
   The source erases a handle from the queue before asking the partner to
   drop the equal collision, and the partner's scan then reads the erased
   handle: with the erased handle being the partner's first equal one, the
   scan is not defined on the queue after the erase.
   */
  lemma {:induction false} EraseThenScanReadsErased(pending: set<EventId>, queue: map<EventId, Entry>, c: Collision, h: EventId)
    requires h in pending && h in queue && HoldsEqual(queue[h], c)
    requires forall k :: k in pending && k < h ==> k in queue && !HoldsEqual(queue[k], c)
    ensures !ScanIsDefined(pending, queue - {h}, c)
    decreases |pending|
  {
    var m := MinOf(pending);
    if m != h {
      EraseThenScanReadsErased(pending - {m}, queue, c, h);
    }
  }

  // ---------------------------------------------------------------------
  // Detaching a mobile

  function RemoveKeys(q: map<EventId, Entry>, s: set<EventId>): (r: map<EventId, Entry>)
    ensures r.Keys == q.Keys - s
    ensures forall h :: h in r ==> r[h] == q[h]
  {
    map h | h in q && h !in s :: q[h]
  }

  /** Every queued entry that is not a collision is still queued, unchanged, in `r`. */
  ghost predicate KeepsOthers(g: Graph, r: Graph)
  {
    forall h :: h in g.queue && !g.queue[h].event.Hit? ==> h in r.queue && r.queue[h] == g.queue[h]
  }

  /**
   Only `a` and the mobiles in `partners` may change prediction between
   `g` and `r`: every other mobile keeps its target, and a partner's target
   can only move earlier.
   */
  ghost predicate OthersKeepTargets(g: Graph, r: Graph, a: MobileId, partners: set<MobileId>)
  {
    forall m :: m in g.target && m in r.target && m != a ==>
      if m in partners then LessEq(r.target[m], g.target[m]) else r.target[m] == g.target[m]
  }

  /**
   `r` only drops entries of `g` and queues fresh ones: an id below `g`'s
   next free one that `r` queues holds the same entry in `g`.
   */
  ghost predicate Extends(g: Graph, r: Graph)
  {
    forall h :: h in r.queue && h < g.nextEvent ==> h in g.queue && r.queue[h] == g.queue[h]
  }

  /** Every entry of `r` that `g` lacks is a collision event at an instant accepted at `now`. */
  ghost predicate Adds(g: Graph, r: Graph, now: Time)
  {
    forall h :: h in r.queue && h !in g.queue ==> r.queue[h].event.Hit? && Accepts(r.queue[h].time, now)
  }

  /**
   The graph after `a` is detached, stated declaratively: `a`'s pending
   events leave the queue and every pending set, `a` has no targets any
   more, and nobody keeps `a` as an attached mobile.
   */
  function Detached(g: Graph, a: MobileId): Graph
    requires a in g.nodes
  {
    var p := g.nodes[a].pending;
    Graph(
      map b | b in g.nodes ::
        if b == a then g.nodes[b].(pending := {}, targets := {}, attached := g.nodes[b].attached - {a})
        else g.nodes[b].(pending := g.nodes[b].pending - p, attached := g.nodes[b].attached - {a}),
      g.target,
      g.history,
      RemoveKeys(g.queue, p),
      g.nextEvent)
  }

  /** Detaching keeps the graph valid. */
  lemma DetachedIsValid(g: Graph, a: MobileId)
    requires Valid(g) && a in g.nodes
    ensures Valid(Detached(g, a))
  {
    var d := Detached(g, a);
    var p := g.nodes[a].pending;
    forall b, h | b in d.nodes && h in d.nodes[b].pending
      ensures HandleOk(d, b, h)
    {
      assert b != a;
      assert HandleOk(g, b, h);
    }
    forall h, m | h in d.queue && d.queue[h].event.Hit? && Involves(d.queue[h].event.collision, m)
      ensures m in d.nodes && h in d.nodes[m].pending
    {
      assert h in g.queue && h !in p;
    }
  }

  /** Facts about the declarative detach result. */
  lemma DetachedFacts(g: Graph, a: MobileId)
    requires Valid(g) && a in g.nodes
    ensures var r := Detached(g, a);
      Valid(r) && r.nodes.Keys == g.nodes.Keys &&
      r.nodes[a].pending == {} && r.nodes[a].targets == {} &&
      (forall b :: b in r.nodes ==> a !in r.nodes[b].attached) &&
      (forall h :: h in r.queue ==> h in g.queue && r.queue[h] == g.queue[h]) &&
      (forall h :: h in r.queue && r.queue[h].event.Hit? ==> !Involves(r.queue[h].event.collision, a)) &&
      r.target == g.target && r.history == g.history
  {
    DetachedIsValid(g, a);
  }

  /**
   `detach(events)`: walks `a`'s pending handles in increasing order; for
   each, asks the partner of a pair collision to drop the equal collision,
   and erases the handle from the queue. Then `a` forgets its pending set,
   and its targets forget `a`.
   */
  method Detach(g: Graph, a: MobileId) returns (r: Graph)
    requires Valid(g) && a in g.nodes
    ensures r == Detached(g, a)
    ensures Valid(r)
    ensures r.nodes.Keys == g.nodes.Keys
    ensures r.nodes[a].pending == {} && r.nodes[a].targets == {}
    ensures forall b :: b in r.nodes ==> a !in r.nodes[b].attached
    ensures forall h :: h in r.queue ==> h in g.queue && r.queue[h] == g.queue[h]
    ensures forall h :: h in r.queue && r.queue[h].event.Hit? ==> !Involves(r.queue[h].event.collision, a)
    ensures r.target == g.target && r.history == g.history
    ensures KeepsOthers(g, r)
  {
    var nodes, q := DropPending(g, a);
    r := Graph(Unlinked(nodes, a), g.target, g.history, q, g.nextEvent);
    UnlinkedIsDetached(g, a, nodes, q);
    DetachedFacts(g, a);
    DetachedKeepsOthers(g, a);
  }

  /** Only collision entries are pending, so detaching keeps every other entry. */
  lemma DetachedKeepsOthers(g: Graph, a: MobileId)
    requires Valid(g) && a in g.nodes
    ensures KeepsOthers(g, Detached(g, a))
  {
    forall h | h in g.queue && !g.queue[h].event.Hit?
      ensures h !in g.nodes[a].pending
    {
      assert h in g.nodes[a].pending ==> HandleOk(g, a, h);
    }
  }

  /** The end of `detach`: `a` forgets its pending set, then its targets forget `a`, then `a` forgets its targets. */
  function Unlinked(nodes: map<MobileId, Node>, a: MobileId): map<MobileId, Node>
    requires a in nodes
  {
    var n1 := nodes[a := nodes[a].(pending := {})];
    var t := n1[a].targets;
    var n2 := map b | b in n1 :: if b in t then n1[b].(attached := n1[b].attached - {a}) else n1[b];
    n2[a := n2[a].(targets := {})]
  }

  /** After the loop of `DropPending`, the end of `detach` yields the declarative result. */
  lemma UnlinkedIsDetached(g: Graph, a: MobileId, nodes: map<MobileId, Node>, q: map<EventId, Entry>)
    requires Valid(g) && a in g.nodes
    requires q == RemoveKeys(g.queue, g.nodes[a].pending)
    requires nodes.Keys == g.nodes.Keys && nodes[a] == g.nodes[a]
    requires forall b :: b in nodes && b != a ==> nodes[b] == g.nodes[b].(pending := g.nodes[b].pending - g.nodes[a].pending)
    ensures Graph(Unlinked(nodes, a), g.target, g.history, q, g.nextEvent) == Detached(g, a)
  {
    var u := Unlinked(nodes, a);
    var d := Detached(g, a);
    var t := g.nodes[a].targets;
    forall b | b in g.nodes
      ensures u[b] == d.nodes[b]
    {
      if b !in t {
        assert a !in g.nodes[b].attached;
      }
    }
    assert u == d.nodes;
  }

  /** The state of `Detach`'s loop once the handles of `a` outside `todo` have been dropped. */
  ghost predicate Dropped(g: Graph, a: MobileId, todo: set<EventId>, nodes: map<MobileId, Node>, q: map<EventId, Entry>)
    requires a in g.nodes
  {
    todo <= g.nodes[a].pending &&
    nodes.Keys == g.nodes.Keys &&
    q == RemoveKeys(g.queue, g.nodes[a].pending - todo) &&
    nodes[a] == g.nodes[a] &&
    forall b :: b in nodes && b != a ==> nodes[b] == g.nodes[b].(pending := g.nodes[b].pending - (g.nodes[a].pending - todo))
  }

  /** The loop of `Detach`: every pending handle of `a` leaves the queue and its partner's pending set. */
  method DropPending(g: Graph, a: MobileId) returns (nodes: map<MobileId, Node>, q: map<EventId, Entry>)
    requires Valid(g) && a in g.nodes
    ensures q == RemoveKeys(g.queue, g.nodes[a].pending)
    ensures nodes.Keys == g.nodes.Keys && nodes[a] == g.nodes[a]
    ensures forall b :: b in nodes && b != a ==> nodes[b] == g.nodes[b].(pending := g.nodes[b].pending - g.nodes[a].pending)
  {
    var todo := g.nodes[a].pending;
    q := g.queue;
    nodes := g.nodes;
    assert Dropped(g, a, todo, nodes, q);
    while todo != {}
      invariant Dropped(g, a, todo, nodes, q)
      decreases |todo|
    {
      var h := MinOf(todo);
      var step := DropOne(g, a, todo, nodes, q, h);
      nodes, q := step.0, step.1;
      todo := todo - {h};
    }
  }

  /**
   One turn of `Detach`'s loop on the least handle `h` left: the partner
   of a pair collision drops its equal collision, then `h` is erased from
   the queue.
   */
  function DropOne(g: Graph, a: MobileId, todo: set<EventId>, nodes: map<MobileId, Node>, q: map<EventId, Entry>, h: EventId):
    (r: (map<MobileId, Node>, map<EventId, Entry>))
    requires Valid(g) && a in g.nodes && Dropped(g, a, todo, nodes, q)
    requires h in todo && forall k :: k in todo ==> h <= k
    ensures Dropped(g, a, todo - {h}, r.0, r.1)
  {
    HandleIsPendingEvent(g, a, todo, nodes, q, h);
    var c := q[h].event.collision;
    var nodes' :=
      if c.Mobiles? then
        var partner := Other(c, a);
        PartnerScan(g, a, h, todo, nodes[partner].pending, q);
        nodes[partner := nodes[partner].(pending := DetachCollision(nodes[partner].pending, q, c))]
      else nodes;
    DropStep(g, a, todo, h, nodes, q, nodes');
    (nodes', q - {h})
  }

  lemma HandleIsPendingEvent(g: Graph, a: MobileId, todo: set<EventId>, nodes: map<MobileId, Node>, q: map<EventId, Entry>, h: EventId)
    requires Valid(g) && a in g.nodes && Dropped(g, a, todo, nodes, q) && h in todo
    ensures h in q && q[h] == g.queue[h] && q[h].event.Hit? && Involves(q[h].event.collision, a)
    ensures q[h].event.collision.Mobiles? ==> Other(q[h].event.collision, a) in nodes
  {
    assert HandleOk(g, a, h);
  }

  /** Dropping `h` (the least handle left) moves the loop state from `todo` to `todo - {h}`. */
  lemma DropStep(g: Graph, a: MobileId, todo: set<EventId>, h: EventId, nodes: map<MobileId, Node>, q: map<EventId, Entry>,
                 nodes': map<MobileId, Node>)
    requires Valid(g) && a in g.nodes && Dropped(g, a, todo, nodes, q) && h in todo
    requires h in g.queue && g.queue[h].event.Hit? && Involves(g.queue[h].event.collision, a)
    requires var c := g.queue[h].event.collision;
      if c.Mobiles? then
        var b := Other(c, a);
        b in nodes && nodes' == nodes[b := nodes[b].(pending := nodes[b].pending - {h})]
      else nodes' == nodes
    ensures Dropped(g, a, todo - {h}, nodes', q - {h})
  {
    var p := g.nodes[a].pending;
    assert HandleOk(g, a, h);
    forall b | b in nodes' && b != a
      ensures nodes'[b] == g.nodes[b].(pending := g.nodes[b].pending - (p - (todo - {h})))
    {
      if h in g.nodes[b].pending {
        assert HandleOk(g, b, h);
      }
    }
  }

  /**
   One step of `Detach`: the partner of the pair collision `h` holds `h`
   as its first equal handle, so its scan removes exactly `h`.
   */
  lemma PartnerScan(g: Graph, a: MobileId, h: EventId, todo: set<EventId>, pb: set<EventId>, q: map<EventId, Entry>)
    requires Valid(g) && a in g.nodes
    requires todo <= g.nodes[a].pending && h in todo && forall k :: k in todo ==> h <= k
    requires q == RemoveKeys(g.queue, g.nodes[a].pending - todo)
    requires h in g.queue && g.queue[h].event.Hit? && g.queue[h].event.collision.Mobiles?
    requires Involves(g.queue[h].event.collision, a)
    requires Other(g.queue[h].event.collision, a) in g.nodes
    requires pb == g.nodes[Other(g.queue[h].event.collision, a)].pending - (g.nodes[a].pending - todo)
    ensures pb <= q.Keys && h in pb
    ensures ScanIsDefined(pb, q, g.queue[h].event.collision)
    ensures DetachCollision(pb, q, g.queue[h].event.collision) == pb - {h}
  {
    var c := g.queue[h].event.collision;
    var b := Other(c, a);
    var p := g.nodes[a].pending;
    assert HandleOk(g, a, h);
    PendingIsLive(g, b);
    forall k | k in pb && HoldsEqual(q[k], c)
      ensures h <= k
    {
      assert HandleOk(g, b, k);
      var ck := g.queue[k].event.collision;
      EqKeepsParticipants(ck, c, a);
      EqIsSameOrSwapped(ck, c);
      assert k in p;
    }
    EqIsSameOrSwapped(c, c);
    ScanFindsLeast(pb, q, c, h);
  }

  // ---------------------------------------------------------------------
  // Building the graph

  /** Sets a mobile's predicted instant; the links are untouched. */
  function SetTarget(g: Graph, a: MobileId, t: Time): (r: Graph)
    requires Valid(g) && a in g.nodes
    ensures Valid(r)
    ensures r.nodes == g.nodes && r.history == g.history && r.queue == g.queue && r.nextEvent == g.nextEvent
    ensures r.target.Keys == g.target.Keys && r.target[a] == t
    ensures forall m :: m in r.target && m != a ==> r.target[m] == g.target[m]
  {
    g.(target := g.target[a := t])
  }

  /**
   `addTarget`: `a` now targets `b`. When `add` is set and `b` already
   targets `a`, both halves of the pair are known: one pair event is
   queued at `a`'s predicted instant and becomes pending for both.
   */
  method AddTarget(g: Graph, a: MobileId, b: MobileId, add: bool) returns (r: Graph, added: bool)
    requires Valid(g) && a in g.nodes && b in g.nodes && a != b
    ensures Valid(r)
    ensures added <==> add && a in g.nodes[b].targets
    ensures r.nodes.Keys == g.nodes.Keys
    ensures r.nodes[a].targets == g.nodes[a].targets + {b}
    ensures r.nodes[b].attached == g.nodes[b].attached + {a}
    ensures !added ==> r.queue == g.queue && r.nextEvent == g.nextEvent
    ensures added ==> r.nextEvent == g.nextEvent + 1 && g.nextEvent !in g.queue
    ensures added ==> r.queue == g.queue[g.nextEvent := Entry(g.target[a], Hit(Mobiles(a, b)))]
    ensures r.nodes[a].pending == g.nodes[a].pending + (if added then {g.nextEvent} else {})
    ensures r.nodes[b].pending == g.nodes[b].pending + (if added then {g.nextEvent} else {})
    ensures r.target == g.target
    ensures r.history == g.history
    ensures forall m :: m in r.nodes && m != a && m != b ==> r.nodes[m] == g.nodes[m]
  {
    var na := g.nodes[a].(targets := g.nodes[a].targets + {b});
    var nb := g.nodes[b].(attached := g.nodes[b].attached + {a});
    var nodes := g.nodes[a := na][b := nb];
    added := add && a in nodes[b].targets;
    if added {
      var h := g.nextEvent;
      nodes := nodes[a := nodes[a].(pending := nodes[a].pending + {h})][b := nodes[b].(pending := nodes[b].pending + {h})];
      r := Graph(nodes, g.target, g.history, g.queue[h := Entry(g.target[a], Hit(Mobiles(a, b)))], h + 1);
    } else {
      r := g.(nodes := nodes);
    }
    AddTargetIsValid(g, a, b, added, r);
  }

  /** `r` is `g` after `a` targets `b`, with the pair event queued when `added`. */
  ghost predicate TargetAdded(g: Graph, a: MobileId, b: MobileId, added: bool, r: Graph)
    requires a in g.nodes && b in g.nodes && a in g.target
  {
    r.nodes.Keys == g.nodes.Keys && r.target == g.target && r.history == g.history &&
    r.nodes[a] == g.nodes[a].(targets := g.nodes[a].targets + {b}, pending := g.nodes[a].pending + (if added then {g.nextEvent} else {})) &&
    r.nodes[b] == g.nodes[b].(attached := g.nodes[b].attached + {a}, pending := g.nodes[b].pending + (if added then {g.nextEvent} else {})) &&
    (forall m :: m in r.nodes && m != a && m != b ==> r.nodes[m] == g.nodes[m]) &&
    (!added ==> r.queue == g.queue && r.nextEvent == g.nextEvent) &&
    (added ==> r.queue == g.queue[g.nextEvent := Entry(g.target[a], Hit(Mobiles(a, b)))] && r.nextEvent == g.nextEvent + 1)
  }

  lemma AddTargetIsValid(g: Graph, a: MobileId, b: MobileId, added: bool, r: Graph)
    requires Valid(g) && a in g.nodes && b in g.nodes && a != b
    requires TargetAdded(g, a, b, added, r)
    ensures Valid(r)
    ensures added ==> g.nextEvent !in g.queue
  {
    AddTargetHandles(g, a, b, added, r);
    AddTargetTracked(g, a, b, added, r);
    AddTargetMutual(g, a, b, added, r);
  }

  lemma AddTargetMutual(g: Graph, a: MobileId, b: MobileId, added: bool, r: Graph)
    requires Valid(g) && a in g.nodes && b in g.nodes && a != b
    requires TargetAdded(g, a, b, added, r)
    ensures Closed(r) && Mutual(r)
  {
    forall x, y | x in r.nodes && y in r.nodes
      ensures y in r.nodes[x].targets <==> x in r.nodes[y].attached
    {
      assert y in g.nodes[x].targets <==> x in g.nodes[y].attached;
    }
  }

  lemma AddTargetHandles(g: Graph, a: MobileId, b: MobileId, added: bool, r: Graph)
    requires Valid(g) && a in g.nodes && b in g.nodes && a != b
    requires TargetAdded(g, a, b, added, r)
    ensures Handles(r)
  {
    forall m, h | m in r.nodes && h in r.nodes[m].pending
      ensures HandleOk(r, m, h)
    {
      if !(added && h == g.nextEvent) {
        assert HandleOk(g, m, h);
      }
    }
  }

  lemma AddTargetTracked(g: Graph, a: MobileId, b: MobileId, added: bool, r: Graph)
    requires Valid(g) && a in g.nodes && b in g.nodes && a != b
    requires TargetAdded(g, a, b, added, r)
    ensures Tracked(r)
  {
  }

  /** A candidate instant is kept unless it is before `now` or never. */
  predicate Accepts(t: Time, now: Time)
  {
    !(Less(t, now) || IsNever(t))
  }

  // ---------------------------------------------------------------------
  // Last collisions and the time of a collision

  /**
   `setLastCollision`: records `c` as performed at `now`; the record list
   restarts when the instant changes.
   */
  function SetLastCollision(n: History, now: Time, c: Collision): (r: History)
    ensures r.time == now
    ensures |r.last| >= 1 && r.last[|r.last| - 1] == c
    ensures n.time == now ==> r.last[..|r.last| - 1] == n.last
    ensures n.time != now ==> r.last == [c]
    ensures RecordedAt(r, c, now)
  {
    EqIsIdentity(n.time, now);
    EqIsSameOrSwapped(c, c);
    History(now, (if NotEq(n.time, now) then [] else n.last) + [c])
  }

  /** Whether the record holds a collision equal to `c` performed at exactly instant `t`. */
  ghost predicate RecordedAt(n: History, c: Collision, t: Time)
  {
    n.time == t && exists i :: 0 <= i < |n.last| && Events.Eq(n.last[i], c)
  }

  /** The loop of `checkLastCollision` over the record list. */
  function ScanRecords(records: seq<Collision>, lastTime: Time, c: Collision, t: Time): (ok: bool)
    ensures !ok <==> Times.Eq(lastTime, t) && exists i :: 0 <= i < |records| && Events.Eq(records[i], c)
  {
    if |records| == 0 then true
    else if Events.Eq(records[0], c) && Times.Eq(lastTime, t) then false
    else
      var ok := ScanRecords(records[1..], lastTime, c, t);
      assert forall i :: 1 <= i < |records| ==> records[i] == records[1..][i - 1];
      ok
  }

  /** `checkLastCollision`: false exactly when an equal collision was recorded at instant `t`. */
  function CheckLastCollision(n: History, c: Collision, t: Time): (ok: bool)
    ensures !ok <==> RecordedAt(n, c, t)
  {
    EqIsIdentity(n.time, t);
    ScanRecords(n.last, n.time, c, t)
  }

  /** The mobiles a collision refers to have records. */
  predicate Known(h: map<MobileId, History>, c: Collision)
  {
    (!c.Default? ==> c.first in h) && (c.Mobiles? ==> c.second in h)
  }

  /**
   A collision at instant `at` is vetoed when it is not an area change and
   every participant has already recorded an equal collision at `at`.
   */
  ghost predicate Vetoed(h: map<MobileId, History>, c: Collision, at: Time)
  {
    !c.Default? && !c.Area? && forall m :: Involves(c, m) ==> m in h && RecordedAt(h[m], c, at)
  }

  /**
   `Collision::time`: never for the default collision; otherwise `now`
   plus the relative time predicted by the mobiles, unless vetoed by the
   participants' records `h`.
   */
  function CollisionTime(h: map<MobileId, History>, c: Collision, now: Time, rel: Time): Time
    requires Known(h, c)
  {
    if c.Default? then Never
    else
      var at := Add(now, rel);
      if !c.Area? && !CheckLastCollision(h[c.first], c, at) &&
         (!c.Mobiles? || !CheckLastCollision(h[c.second], c, at))
      then Never
      else at
  }

  /**
   The default collision never happens; any other happens at `now + rel`
   unless that is never or the collision is vetoed.
   */
  lemma CollisionTimeIsVetoedSum(h: map<MobileId, History>, c: Collision, now: Time, rel: Time)
    requires Known(h, c)
    ensures var t := CollisionTime(h, c, now, rel);
      (c.Default? ==> IsNever(t)) &&
      (!IsNever(t) ==> t == Add(now, rel)) &&
      (!c.Default? ==> (IsNever(t) <==> IsNever(Add(now, rel)) || Vetoed(h, c, Add(now, rel))))
  {
  }

  /**
   `doCollision`'s bookkeeping: the performed collision is recorded by its
   first mobile and, for a pair, by the second one.
   */
  function Record(h: map<MobileId, History>, now: Time, c: Collision): (r: map<MobileId, History>)
    requires Known(h, c) && !c.Default?
    ensures r.Keys == h.Keys
    ensures forall m :: m in r && !Involves(c, m) ==> r[m] == h[m]
    ensures forall m :: m in r && Involves(c, m) ==> RecordedAt(r[m], c, now)
  {
    EqIsSameOrSwapped(c, c);
    var h1 := h[c.first := SetLastCollision(h[c.first], now, c)];
    if c.Mobiles? then h1[c.second := SetLastCollision(h1[c.second], now, c)] else h1
  }

  /** Recording a collision touches only the histories, so the graph stays valid. */
  lemma RecordKeepsValid(g: Graph, now: Time, c: Collision)
    requires Valid(g) && Known(g.history, c) && !c.Default?
    ensures Valid(g.(history := Record(g.history, now, c)))
  {
  }

  /**
   The veto's purpose: once a collision is recorded at `now`, the same
   collision predicted again for `now` (relative time 0) is refused, while
   an area change is never refused.
   */
  lemma RecordedCollisionIsVetoed(h: map<MobileId, History>, now: Time, c: Collision, d: Collision)
    requires Known(h, c) && !c.Default? && !IsNever(now)
    requires Events.Eq(c, d)
    ensures Known(Record(h, now, c), d)
    ensures !c.Area? ==> IsNever(CollisionTime(Record(h, now, c), d, now, At(0.0)))
    ensures c.Area? ==> CollisionTime(Record(h, now, c), d, now, At(0.0)) == now
  {
    var r := Record(h, now, c);
    EqIsSameOrSwapped(c, d);
    assert Add(now, At(0.0)) == now;
    if !c.Area? {
      RecordVetoes(h, now, c, d);
    }
    CollisionTimeIsVetoedSum(r, d, now, At(0.0));
  }

  /** After recording `c` at `now`, every participant of a collision equal to `c` holds it at `now`. */
  lemma RecordVetoes(h: map<MobileId, History>, now: Time, c: Collision, d: Collision)
    requires Known(h, c) && !c.Default? && !c.Area?
    requires Events.Eq(c, d)
    ensures Vetoed(Record(h, now, c), d, now)
  {
    var r := Record(h, now, c);
    EqIsSameOrSwapped(c, d);
    forall m | Involves(d, m)
      ensures m in r && RecordedAt(r[m], d, now)
    {
      EqKeepsParticipants(c, d, m);
      var n := r[m];
      assert RecordedAt(n, c, now);
      var i :| 0 <= i < |n.last| && Events.Eq(n.last[i], c);
      EqIsTransitive(n.last[i], c, d);
    }
  }

  /** Only the exact instant is refused: a record at `now` does not veto a later instant. */
  lemma LaterInstantIsNotVetoed(h: map<MobileId, History>, c: Collision, now: Time, rel: Time)
    requires Known(h, c) && !c.Default? && !IsNever(now) && !IsNever(rel) && Value(rel) > 0.0
    requires forall m :: Involves(c, m) ==> h[m].time == now
    ensures CollisionTime(h, c, now, rel) == Add(now, rel)
  {
    CollisionTimeIsVetoedSum(h, c, now, rel);
    assert !RecordedAt(h[c.first], c, Add(now, rel));
  }

  /** A collision test counts once, and a pair test also counts as a pair test; counters wrap at 2^32. */
  function Count(s: Studies, c: Collision): (r: Studies)
    ensures c.Default? ==> r == s
    ensures !c.Default? ==> r.tests == (s.tests + 1) % Configs.TwoTo32
    ensures r.pairs == if c.Mobiles? then (s.pairs + 1) % Configs.TwoTo32 else s.pairs
  {
    if c.Default? then s
    else if c.Mobiles? then Studies((s.tests + 1) % Configs.TwoTo32, (s.pairs + 1) % Configs.TwoTo32)
    else s.(tests := (s.tests + 1) % Configs.TwoTo32)
  }

  // ---------------------------------------------------------------------
  // Collision tests

  /**
   An accepted instant earlier than `a`'s prediction becomes the new
   prediction, and `a`'s now stale events are dropped.
   */
  method Lower(g: Graph, a: MobileId, t: Time) returns (r: Graph)
    requires Valid(g) && a in g.nodes
    ensures Valid(r)
    ensures r.nodes.Keys == g.nodes.Keys && r.nextEvent == g.nextEvent
    ensures r.target[a] == Earlier(g.target[a], t)
    ensures forall m :: m in r.nodes && m != a ==> r.target[m] == g.target[m]
    ensures r.history == g.history
    ensures forall h :: h in r.queue ==> h in g.queue && r.queue[h] == g.queue[h]
    ensures !Less(t, g.target[a]) ==> r == g
    ensures KeepsOthers(g, r)
  {
    r := g;
    if Less(t, g.target[a]) {
      r := SetTarget(r, a, t);
      r := Detach(r, a);
    }
  }

  /**
   `testeCollision` with another mobile: keeps the pair's instant if it is
   not earlier than `now` and not never; an earlier instant replaces a
   mobile's prediction (dropping its old events), and when the instant
   equals both predictions the two mobiles target each other and one pair
   event is queued.
   */
  method TestPair(g: Graph, s: Studies, a: MobileId, b: MobileId, rel: Time, now: Time) returns (r: Graph, s': Studies)
    requires Valid(g) && a in g.nodes && b in g.nodes && a != b
    ensures Valid(r)
    ensures r.nodes.Keys == g.nodes.Keys
    ensures s' == Count(s, Mobiles(a, b))
    ensures !Accepts(CollisionTime(g.history, Mobiles(a, b), now, rel), now) ==> r == g
    ensures Accepts(CollisionTime(g.history, Mobiles(a, b), now, rel), now) ==>
      r.target[a] == Earlier(g.target[a], CollisionTime(g.history, Mobiles(a, b), now, rel)) &&
      r.target[b] == Earlier(g.target[b], CollisionTime(g.history, Mobiles(a, b), now, rel))
    ensures forall m :: m in r.nodes && m != a && m != b ==> r.target[m] == g.target[m]
    ensures r.history == g.history
    ensures g.nextEvent <= r.nextEvent <= g.nextEvent + 1
    ensures forall h :: h in r.queue && h in g.queue ==> r.queue[h] == g.queue[h]
    ensures forall h :: h in r.queue && h !in g.queue ==>
      h == g.nextEvent &&
      r.queue[h].time == CollisionTime(g.history, Mobiles(a, b), now, rel) &&
      (r.queue[h].event == Hit(Mobiles(a, b)) || r.queue[h].event == Hit(Mobiles(b, a)))
    ensures var t := CollisionTime(g.history, Mobiles(a, b), now, rel);
      Accepts(t, now) && LessEq(t, g.target[a]) && LessEq(t, g.target[b]) ==>
      g.nextEvent in r.queue && g.nextEvent !in g.queue && r.queue[g.nextEvent].time == t &&
      (r.queue[g.nextEvent].event == Hit(Mobiles(a, b)) || r.queue[g.nextEvent].event == Hit(Mobiles(b, a)))
    ensures KeepsOthers(g, r)
  {
    s' := Count(s, Mobiles(a, b));
    var t := CollisionTime(g.history, Mobiles(a, b), now, rel);
    if Less(t, now) || IsNever(t) {
      return g, s';
    }
    LessIsStrictTotalOrder(t, g.target[a], g.target[a]);
    LessIsStrictTotalOrder(t, g.target[b], g.target[b]);
    r := Lower(g, a, t);
    r := Lower(r, b, t);
    r := LinkPair(r, a, b, t);
  }

  /**
   The end of `testeCollision` with another mobile: each mobile whose
   prediction is the pair's instant `t` targets the other, and the second
   of the two to do so queues the pair event.
   */
  method LinkPair(g: Graph, a: MobileId, b: MobileId, t: Time) returns (r: Graph)
    requires Valid(g) && a in g.nodes && b in g.nodes && a != b
    ensures Valid(r) && r.nodes.Keys == g.nodes.Keys
    ensures r.target == g.target
    ensures r.history == g.history
    ensures g.nextEvent <= r.nextEvent <= g.nextEvent + 1
    ensures forall h :: h in r.queue && h in g.queue ==> r.queue[h] == g.queue[h]
    ensures forall h :: h in r.queue && h !in g.queue ==>
      h == g.nextEvent && r.queue[h].time == t &&
      (r.queue[h].event == Hit(Mobiles(a, b)) || r.queue[h].event == Hit(Mobiles(b, a)))
    ensures t == g.target[a] && t == g.target[b] ==>
      g.nextEvent in r.queue && g.nextEvent !in g.queue &&
      r.queue[g.nextEvent] == Entry(t, if a in g.nodes[b].targets then Hit(Mobiles(a, b)) else Hit(Mobiles(b, a)))
    ensures KeepsOthers(g, r)
  {
    EqIsIdentity(t, g.target[a]);
    EqIsIdentity(t, g.target[b]);
    r := g;
    var add := true;
    if Times.Eq(t, r.target[a]) {
      var added;
      r, added := AddTarget(r, a, b, true);
      add := !added;
    }
    if Times.Eq(t, r.target[b]) {
      var added;
      r, added := AddTarget(r, b, a, add);
    }
  }

  /**
   `testeCollision` with an obstacle or the grid: an accepted instant
   earlier than the prediction replaces it (dropping the old events); an
   instant equal to the prediction queues one event, pending for `a`.
   */
  method TestSingle(g: Graph, s: Studies, a: MobileId, c: Collision, rel: Time, now: Time) returns (r: Graph, s': Studies)
    requires Valid(g) && a in g.nodes
    requires (c.Vertex? || c.Edge? || c.Area?) && c.first == a
    ensures Valid(r)
    ensures r.nodes.Keys == g.nodes.Keys
    ensures s' == Count(s, c)
    ensures !Accepts(CollisionTime(g.history, c, now, rel), now) ==> r == g
    ensures Accepts(CollisionTime(g.history, c, now, rel), now) ==>
      r.target[a] == Earlier(g.target[a], CollisionTime(g.history, c, now, rel))
    ensures forall m :: m in r.nodes && m != a ==> r.target[m] == g.target[m]
    ensures r.history == g.history
    ensures g.nextEvent <= r.nextEvent <= g.nextEvent + 1
    ensures forall h :: h in r.queue && h in g.queue ==> r.queue[h] == g.queue[h]
    ensures forall h :: h in r.queue && h !in g.queue ==>
      h == g.nextEvent && h in r.nodes[a].pending && r.queue[h] == Entry(CollisionTime(g.history, c, now, rel), Hit(c))
    ensures Accepts(CollisionTime(g.history, c, now, rel), now) && LessEq(CollisionTime(g.history, c, now, rel), g.target[a]) ==>
      g.nextEvent in r.queue
    ensures KeepsOthers(g, r)
  {
    s' := Count(s, c);
    var t := CollisionTime(g.history, c, now, rel);
    if Less(t, now) || IsNever(t) {
      return g, s';
    }
    r := Lower(g, a, t);
    LessIsStrictTotalOrder(t, g.target[a], g.target[a]);
    EqIsIdentity(t, g.target[a]);
    LessEqIsLessOrEq(t, g.target[a]);
    if Times.Eq(t, r.target[a]) {
      r := Enqueue(r, a, c);
    }
  }

  /** Queues `c` at `a`'s predicted instant, pending for `a`. */
  function Enqueue(g: Graph, a: MobileId, c: Collision): (r: Graph)
    requires Valid(g) && a in g.nodes
    requires (c.Vertex? || c.Edge? || c.Area?) && c.first == a
    ensures Valid(r)
    ensures r.nodes.Keys == g.nodes.Keys && r.nextEvent == g.nextEvent + 1 && g.nextEvent !in g.queue
    ensures r.queue == g.queue[g.nextEvent := Entry(g.target[a], Hit(c))]
    ensures r.nodes[a] == g.nodes[a].(pending := g.nodes[a].pending + {g.nextEvent})
    ensures forall m :: m in r.nodes && m != a ==> r.nodes[m] == g.nodes[m]
    ensures r.target == g.target && r.history == g.history
  {
    var h := g.nextEvent;
    var r := g.(nodes := g.nodes[a := g.nodes[a].(pending := g.nodes[a].pending + {h})], queue := g.queue[h := Entry(g.target[a], Hit(c))], nextEvent := h + 1);
    EnqueueIsValid(g, a, c, r);
    r
  }

  lemma EnqueueIsValid(g: Graph, a: MobileId, c: Collision, r: Graph)
    requires Valid(g) && a in g.nodes
    requires (c.Vertex? || c.Edge? || c.Area?) && c.first == a
    requires r == g.(nodes := g.nodes[a := g.nodes[a].(pending := g.nodes[a].pending + {g.nextEvent})],
      queue := g.queue[g.nextEvent := Entry(g.target[a], Hit(c))], nextEvent := g.nextEvent + 1)
    ensures Valid(r)
  {
    forall x, y | x in r.nodes && y in r.nodes
      ensures y in r.nodes[x].targets <==> x in r.nodes[y].attached
    {
      assert y in g.nodes[x].targets <==> x in g.nodes[y].attached;
    }
    forall m, k | m in r.nodes && k in r.nodes[m].pending
      ensures HandleOk(r, m, k)
    {
      if k != g.nextEvent {
        assert HandleOk(g, m, k);
      }
    }
  }

  /**
   Queues an entry that is not a collision (a drawing, sampling or
   mutation timer): no mobile tracks it, so nothing else changes.
   */
  function Schedule(g: Graph, e: Entry): (r: Graph)
    requires Valid(g) && !e.event.Hit?
    ensures Valid(r)
    ensures g.nextEvent !in g.queue
    ensures r.queue == g.queue[g.nextEvent := e] && r.nextEvent == g.nextEvent + 1
    ensures r.nodes == g.nodes && r.target == g.target && r.history == g.history
  {
    var r := g.(queue := g.queue[g.nextEvent := e], nextEvent := g.nextEvent + 1);
    ScheduleIsValid(g, e, r);
    r
  }

  lemma ScheduleIsValid(g: Graph, e: Entry, r: Graph)
    requires Valid(g) && !e.event.Hit?
    requires r == g.(queue := g.queue[g.nextEvent := e], nextEvent := g.nextEvent + 1)
    ensures Valid(r)
  {
    forall m, k | m in r.nodes && k in r.nodes[m].pending
      ensures HandleOk(r, m, k)
    {
      assert HandleOk(g, m, k);
    }
  }

  /** Erases an entry that is not a collision; no pending set refers to it. */
  function Cancel(g: Graph, h: EventId): (r: Graph)
    requires Valid(g) && (h in g.queue ==> !g.queue[h].event.Hit?)
    ensures Valid(r)
    ensures r.queue == g.queue - {h}
    ensures r.nodes == g.nodes && r.target == g.target && r.history == g.history && r.nextEvent == g.nextEvent
  {
    var r := g.(queue := g.queue - {h});
    CancelIsValid(g, h, r);
    r
  }

  lemma CancelIsValid(g: Graph, h: EventId, r: Graph)
    requires Valid(g) && (h in g.queue ==> !g.queue[h].event.Hit?)
    requires r == g.(queue := g.queue - {h})
    ensures Valid(r)
  {
    forall m, k | m in r.nodes && k in r.nodes[m].pending
      ensures HandleOk(r, m, k)
    {
      assert HandleOk(g, m, k);
    }
  }

  // ---------------------------------------------------------------------
  // Recomputing a mobile's prediction

  /** A candidate test of mobile `a`, with the relative time the mobiles predict for it. */
  datatype Test = PairTest(other: MobileId, rel: Time) | SingleTest(collision: Collision, rel: Time)

  /** The mobiles that the pair tests among `tests` name. */
  function Partners(tests: seq<Test>): (p: set<MobileId>)
    ensures forall i :: 0 <= i < |tests| && tests[i].PairTest? ==> tests[i].other in p
    ensures forall m :: m in p ==> exists i :: 0 <= i < |tests| && tests[i].PairTest? && tests[i].other == m
  {
    set i | 0 <= i < |tests| && tests[i].PairTest? :: tests[i].other
  }

  /** The partners of one test. */
  function TestPartners(t: Test): set<MobileId>
  {
    if t.PairTest? then {t.other} else {}
  }

  /** Pair tests name another known mobile; single tests are obstacle or grid collisions of `a`. */
  predicate TestOk(g: Graph, a: MobileId, t: Test)
  {
    match t
    case PairTest(b, _) => b in g.nodes && b != a
    case SingleTest(c, _) => (c.Vertex? || c.Edge? || c.Area?) && c.first == a
  }

  predicate TestsOk(g: Graph, a: MobileId, tests: seq<Test>)
  {
    forall i :: 0 <= i < |tests| ==> TestOk(g, a, tests[i])
  }

  /** The collision a test is about. */
  function Tested(a: MobileId, t: Test): Collision
  {
    match t
    case PairTest(b, _) => Mobiles(a, b)
    case SingleTest(c, _) => c
  }

  /** The instant a test yields on graph `g`. */
  function TestTime(g: Graph, a: MobileId, t: Test, now: Time): Time
    requires Aligned(g) && a in g.nodes && TestOk(g, a, t)
  {
    CollisionTime(g.history, Tested(a, t), now, t.rel)
  }

  /** The earliest instant accepted among the tests; never when none is accepted. */
  function Earliest(g: Graph, a: MobileId, tests: seq<Test>, now: Time): Time
    requires Aligned(g) && a in g.nodes && TestsOk(g, a, tests)
  {
    if |tests| == 0 then Never
    else
      var t := TestTime(g, a, tests[|tests| - 1], now);
      if Accepts(t, now) then Earlier(Earliest(g, a, tests[..|tests| - 1], now), t)
      else Earliest(g, a, tests[..|tests| - 1], now)
  }

  /**
   The earliest instant is never exactly when no test is accepted;
   otherwise it is the instant of an accepted test and no later than any
   accepted test's instant.
   */
  lemma {:induction false} EarliestIsLeast(g: Graph, a: MobileId, tests: seq<Test>, now: Time)
    requires Aligned(g) && a in g.nodes && TestsOk(g, a, tests)
    ensures var e := Earliest(g, a, tests, now);
      (IsNever(e) <==> forall i :: 0 <= i < |tests| ==> !Accepts(TestTime(g, a, tests[i], now), now)) &&
      (forall i :: 0 <= i < |tests| && Accepts(TestTime(g, a, tests[i], now), now) ==> LessEq(e, TestTime(g, a, tests[i], now)))
  {
    if |tests| > 0 {
      var init := tests[..|tests| - 1];
      assert forall i :: 0 <= i < |init| ==> init[i] == tests[i];
      EarliestIsLeast(g, a, init, now);
      var e := Earliest(g, a, init, now);
      var t := TestTime(g, a, tests[|tests| - 1], now);
      if Accepts(t, now) {
        EarlierIsLowerBound(e, t, Earlier(e, t));
      }
    }
  }

  /** A finite earliest instant is the instant of an accepted test. */
  lemma {:induction false} EarliestIsAttained(g: Graph, a: MobileId, tests: seq<Test>, now: Time)
    requires Aligned(g) && a in g.nodes && TestsOk(g, a, tests)
    ensures var e := Earliest(g, a, tests, now);
      !IsNever(e) ==> exists i :: 0 <= i < |tests| && Accepts(TestTime(g, a, tests[i], now), now) && e == TestTime(g, a, tests[i], now)
  {
    if |tests| > 0 {
      var init := tests[..|tests| - 1];
      assert forall i :: 0 <= i < |init| ==> init[i] == tests[i];
      EarliestIsAttained(g, a, init, now);
      var e := Earliest(g, a, init, now);
      var t := TestTime(g, a, tests[|tests| - 1], now);
      if Accepts(t, now) && Earlier(e, t) == t {
        assert Accepts(TestTime(g, a, tests[|tests| - 1], now), now);
      }
    }
  }

  lemma EarlierIsLowerBound(e: Time, t: Time, r: Time)
    requires r == Earlier(e, t)
    ensures forall u :: LessEq(e, u) ==> LessEq(r, u)
    ensures !IsNever(t) ==> !IsNever(r)
  {
    forall u | LessEq(e, u)
      ensures LessEq(r, u)
    {
      LessEqIsLessOrEq(e, u);
      LessEqIsLessOrEq(r, e);
      LessEqIsLessOrEq(r, u);
      LessIsStrictTotalOrder(r, e, u);
      EqIsIdentity(r, e);
      EqIsIdentity(e, u);
    }
    NeverIsUniqueMaximum(t, r);
  }

  /** The number of pair tests. */
  function PairCount(tests: seq<Test>): (n: nat)
    ensures n <= |tests|
  {
    if |tests| == 0 then 0
    else PairCount(tests[..|tests| - 1]) + (if tests[|tests| - 1].PairTest? then 1 else 0)
  }

  lemma ModStep(x: int, i: nat)
    ensures ((x + i) % Configs.TwoTo32 + 1) % Configs.TwoTo32 == (x + i + 1) % Configs.TwoTo32
  {
  }

  /**
   `updateCollisions`: forgets `a`'s prediction, detaches it, then runs
   its candidate tests in order. The resulting prediction is the earliest
   accepted instant among the tests, and each test queues at most one
   event.
   */
  method UpdateCollisions(g: Graph, s: Studies, a: MobileId, tests: seq<Test>, now: Time) returns (r: Graph, s': Studies)
    requires Valid(g) && a in g.nodes && TestsOk(g, a, tests)
    ensures Valid(r) && r.nodes.Keys == g.nodes.Keys
    ensures r.target[a] == Earliest(g, a, tests, now)
    ensures s'.tests == (s.tests + |tests|) % Configs.TwoTo32
    ensures s'.pairs == (s.pairs + PairCount(tests)) % Configs.TwoTo32
    ensures r.history == g.history
    ensures g.nextEvent <= r.nextEvent <= g.nextEvent + |tests|
    ensures forall h :: h in g.nodes[a].pending ==> h !in r.queue
    ensures Extends(g, r) && Adds(g, r, now)
    ensures KeepsOthers(g, r)
    ensures OthersKeepTargets(g, r, a, Partners(tests))
  {
    r := Forget(g, a);
    ghost var forgotten := r;
    r, s' := RunTests(g, r, s, a, tests, now);
    AddsCompose(g, forgotten, r, now);
    KeepTargetsCompose(g, forgotten, r, a, {}, Partners(tests));
    assert {} + Partners(tests) == Partners(tests);
    forall i | 0 <= i < |tests|
      ensures tests[i].SingleTest? ==> !tests[i].collision.Default? && !tests[i].collision.Mobiles?
    {
      assert TestOk(g, a, tests[i]);
    }
    CountAllWraps(s, a, tests);
  }

  /** The start of `updateCollisions`: `a` predicts nothing and is detached. */
  method Forget(g: Graph, a: MobileId) returns (r: Graph)
    requires Valid(g) && a in g.nodes
    ensures Valid(r) && r.nodes.Keys == g.nodes.Keys && r.nextEvent == g.nextEvent
    ensures r.history == g.history
    ensures IsNever(r.target[a])
    ensures forall h :: h in g.nodes[a].pending ==> h !in r.queue
    ensures Extends(g, r)
    ensures forall h :: h in r.queue ==> h in g.queue
    ensures KeepsOthers(g, r)
    ensures OthersKeepTargets(g, r, a, {})
  {
    r := SetTarget(g, a, Never);
    r := Detach(r, a);
  }

  /** The loop of `updateCollisions` over the candidate tests, starting from a detached mobile. */
  method RunTests(g: Graph, r0: Graph, s: Studies, a: MobileId, tests: seq<Test>, now: Time) returns (r: Graph, s': Studies)
    requires Valid(g) && Valid(r0) && a in g.nodes && TestsOk(g, a, tests)
    requires r0.nodes.Keys == g.nodes.Keys && g.nextEvent <= r0.nextEvent
    requires r0.history == g.history
    requires r0.target[a] == Never
    requires forall h :: h in g.nodes[a].pending ==> h !in r0.queue
    ensures Valid(r) && r.nodes.Keys == g.nodes.Keys
    ensures r.target[a] == Earliest(g, a, tests, now)
    ensures s' == CountAll(s, a, tests)
    ensures r.history == g.history
    ensures r0.nextEvent <= r.nextEvent <= r0.nextEvent + |tests|
    ensures forall h :: h in g.nodes[a].pending ==> h !in r.queue
    ensures Extends(r0, r) && Adds(r0, r, now)
    ensures KeepsOthers(r0, r)
    ensures OthersKeepTargets(r0, r, a, Partners(tests))
  {
    r := r0;
    s' := s;
    var i := 0;
    assert tests[..0] == [];
    assert Partners(tests[..0]) == {};
    assert OthersKeepTargets(r0, r, a, {});
    while i < |tests|
      invariant 0 <= i <= |tests|
      invariant Valid(r) && r.nodes.Keys == g.nodes.Keys
      invariant r.history == g.history
      invariant r.target[a] == Earliest(g, a, tests[..i], now)
      invariant s' == CountAll(s, a, tests[..i])
      invariant r0.nextEvent <= r.nextEvent <= r0.nextEvent + i
      invariant forall h :: h in g.nodes[a].pending ==> h !in r.queue
      invariant Extends(r0, r) && Adds(r0, r, now)
      invariant KeepsOthers(r0, r)
      invariant OthersKeepTargets(r0, r, a, Partners(tests[..i]))
    {
      r, s' := RunNext(g, r0, r, s, s', a, tests, i, now);
      i := i + 1;
    }
    assert tests[..i] == tests;
  }

  /** One round of the loop of `updateCollisions`: runs test `i`, keeping the loop's invariants. */
  method RunNext(g: Graph, r0: Graph, r: Graph, s: Studies, s': Studies, a: MobileId, tests: seq<Test>, i: nat, now: Time)
    returns (r': Graph, s'': Studies)
    requires Valid(g) && a in g.nodes && TestsOk(g, a, tests) && i < |tests|
    requires Valid(r) && r.nodes.Keys == g.nodes.Keys && r.history == g.history
    requires r.target[a] == Earliest(g, a, tests[..i], now)
    requires s' == CountAll(s, a, tests[..i])
    requires g.nextEvent <= r0.nextEvent <= r.nextEvent <= r0.nextEvent + i
    requires forall h :: h in g.nodes[a].pending ==> h !in r.queue
    requires Extends(r0, r) && Adds(r0, r, now) && KeepsOthers(r0, r)
    requires OthersKeepTargets(r0, r, a, Partners(tests[..i]))
    ensures Valid(r') && r'.nodes.Keys == g.nodes.Keys && r'.history == g.history
    ensures r'.target[a] == Earliest(g, a, tests[..i + 1], now)
    ensures s'' == CountAll(s, a, tests[..i + 1])
    ensures r0.nextEvent <= r'.nextEvent <= r0.nextEvent + i + 1
    ensures forall h :: h in g.nodes[a].pending ==> h !in r'.queue
    ensures Extends(r0, r') && Adds(r0, r', now) && KeepsOthers(r0, r')
    ensures OthersKeepTargets(r0, r', a, Partners(tests[..i + 1]))
  {
    var test := tests[i];
    EarliestStep(g, a, tests, i, now);
    CountAllStep(s, a, tests, i);
    SameHistorySameTime(g, r, a, test, now);
    r', s'' := RunTest(r, s', a, test, now);
    FreshKeysAreNew(g, r, r', a);
    ExtendsCompose(r0, r, r');
    AddsCompose(r0, r, r', now);
    KeepTargetsCompose(r0, r, r', a, Partners(tests[..i]), TestPartners(test));
    PartnersStep(tests, i);
  }

  /** Target changes compose: the partners of two steps are the union of each step's. */
  lemma {:induction false} KeepTargetsCompose(g: Graph, m: Graph, r: Graph, a: MobileId, p: set<MobileId>, q: set<MobileId>)
    requires m.target.Keys == r.target.Keys
    requires OthersKeepTargets(g, m, a, p) && OthersKeepTargets(m, r, a, q)
    ensures OthersKeepTargets(g, r, a, p + q)
  {
    forall x | x in g.target && x in r.target && x != a
      ensures if x in p + q then LessEq(r.target[x], g.target[x]) else r.target[x] == g.target[x]
    {
      assert x in m.target;
      LessIsStrictTotalOrder(g.target[x], m.target[x], r.target[x]);
      LessIsStrictTotalOrder(r.target[x], m.target[x], g.target[x]);
      EqIsIdentity(r.target[x], m.target[x]);
      EqIsIdentity(m.target[x], g.target[x]);
    }
  }

  /** One more test adds its partners. */
  lemma PartnersStep(tests: seq<Test>, i: nat)
    requires i < |tests|
    ensures Partners(tests[..i + 1]) == Partners(tests[..i]) + TestPartners(tests[i])
  {
    var before, after := tests[..i], tests[..i + 1];
    forall m | m in Partners(after)
      ensures m in Partners(before) + TestPartners(tests[i])
    {
      var k :| 0 <= k < |after| && after[k].PairTest? && after[k].other == m;
      if k < i {
        assert before[k] == after[k];
      }
    }
    forall m | m in Partners(before) + TestPartners(tests[i])
      ensures m in Partners(after)
    {
      if m in Partners(before) {
        var k :| 0 <= k < |before| && before[k].PairTest? && before[k].other == m;
        assert after[k] == before[k];
      } else {
        assert after[i] == tests[i];
      }
    }
  }

  lemma CountAllStep(s: Studies, a: MobileId, tests: seq<Test>, i: nat)
    requires i < |tests|
    ensures CountAll(s, a, tests[..i + 1]) == Count(CountAll(s, a, tests[..i]), Tested(a, tests[i]))
  {
    assert tests[..i + 1][..i] == tests[..i];
  }

  /** A test's instant depends on the graph only through the records. */
  lemma SameHistorySameTime(g: Graph, r: Graph, a: MobileId, test: Test, now: Time)
    requires Aligned(g) && Aligned(r) && a in g.nodes && TestOk(g, a, test)
    requires r.nodes.Keys == g.nodes.Keys && r.history == g.history
    ensures TestOk(r, a, test) && TestTime(r, a, test, now) == TestTime(g, a, test, now)
  {
  }

  /** The counters after counting every test in order. */
  function CountAll(s: Studies, a: MobileId, tests: seq<Test>): Studies
  {
    if |tests| == 0 then s else Count(CountAll(s, a, tests[..|tests| - 1]), Tested(a, tests[|tests| - 1]))
  }

  /** Every test is a non-default collision, so each adds one to the first counter; pair tests add one to the second. */
  lemma {:induction false} CountAllWraps(s: Studies, a: MobileId, tests: seq<Test>)
    requires forall i :: 0 <= i < |tests| ==> (tests[i].SingleTest? ==> !tests[i].collision.Default? && !tests[i].collision.Mobiles?)
    ensures CountAll(s, a, tests).tests == (s.tests + |tests|) % Configs.TwoTo32
    ensures CountAll(s, a, tests).pairs == (s.pairs + PairCount(tests)) % Configs.TwoTo32
  {
    if |tests| > 0 {
      var init := tests[..|tests| - 1];
      assert forall i :: 0 <= i < |init| ==> init[i] == tests[i];
      CountAllWraps(s, a, init);
      var last := tests[|tests| - 1];
      assert last.PairTest? ==> Tested(a, last).Mobiles?;
      ModStep(s.tests, |init|);
      ModStep(s.pairs, PairCount(init));
    }
  }

  lemma EarliestStep(g: Graph, a: MobileId, tests: seq<Test>, i: nat, now: Time)
    requires Aligned(g) && a in g.nodes && TestsOk(g, a, tests) && i < |tests|
    ensures TestsOk(g, a, tests[..i]) && TestsOk(g, a, tests[..i + 1]) && TestOk(g, a, tests[i])
    ensures Earliest(g, a, tests[..i + 1], now) ==
      if Accepts(TestTime(g, a, tests[i], now), now) then Earlier(Earliest(g, a, tests[..i], now), TestTime(g, a, tests[i], now))
      else Earliest(g, a, tests[..i], now)
  {
    assert tests[..i + 1][..i] == tests[..i];
  }

  /** Runs one candidate test of `a`. */
  method RunTest(g: Graph, s: Studies, a: MobileId, test: Test, now: Time) returns (r: Graph, s': Studies)
    requires Valid(g) && a in g.nodes && TestOk(g, a, test)
    ensures Valid(r) && r.nodes.Keys == g.nodes.Keys
    ensures s' == Count(s, Tested(a, test))
    ensures r.target[a] ==
      if Accepts(TestTime(g, a, test, now), now) then Earlier(g.target[a], TestTime(g, a, test, now)) else g.target[a]
    ensures r.history == g.history
    ensures g.nextEvent <= r.nextEvent <= g.nextEvent + 1
    ensures forall h :: h in r.queue && h !in g.queue ==> h == g.nextEvent
    ensures Extends(g, r) && Adds(g, r, now)
    ensures KeepsOthers(g, r)
    ensures OthersKeepTargets(g, r, a, TestPartners(test))
  {
    match test {
      case PairTest(b, rel) =>
        r, s' := TestPair(g, s, a, b, rel, now);
      case SingleTest(c, rel) =>
        r, s' := TestSingle(g, s, a, c, rel, now);
    }
  }

  lemma ExtendsCompose(g: Graph, m: Graph, r: Graph)
    requires Extends(g, m) && Extends(m, r) && g.nextEvent <= m.nextEvent
    ensures Extends(g, r)
  {
  }

  lemma AddsCompose(g: Graph, m: Graph, r: Graph, now: Time)
    requires Adds(g, m, now) && Adds(m, r, now) && Extends(m, r) && Fresh(m)
    ensures Adds(g, r, now)
  {
  }

  lemma FreshKeysAreNew(g: Graph, before: Graph, r: Graph, a: MobileId)
    requires Valid(g) && a in g.nodes && g.nextEvent <= before.nextEvent
    requires forall h :: h in g.nodes[a].pending ==> h !in before.queue
    requires forall h :: h in r.queue && h !in before.queue ==> h == before.nextEvent
    ensures forall h :: h in g.nodes[a].pending ==> h !in r.queue
  {
    PendingIsLive(g, a);
  }

  /**
   `updateRefresh`: marks `a` and every mobile that targets `a` as needing
   a new prediction; nothing is removed from the dirty set.
   */
  function UpdateRefresh(g: Graph, dirty: set<MobileId>, a: MobileId): (r: set<MobileId>)
    requires Valid(g) && a in g.nodes
    ensures dirty <= r && a in r
    ensures forall b :: b in g.nodes && a in g.nodes[b].targets ==> b in r
    ensures forall b :: b in r ==> b in dirty || b == a || (b in g.nodes && a in g.nodes[b].targets)
  {
    dirty + {a} + g.nodes[a].attached
  }
}

=== FILE: particle.dfy ===
/**
 A particle: a disc with a mass and a radius, the grid cell it is
 registered in, its population and colour, the handle of its pending
 mutation timer, and two checkpoints of its free ride (where and when it
 performed its last two accepted collisions). This module holds the
 particle's own state changes: free flight, the free-ride accessors, its
 response to each kind of contact, and the choice of its next cell.
 */
module Particles {
  import opened Geometry
  import opened Segments
  import opened Times
  import opened Physics
  import opened Colors
  import opened Events
  import opened Wrappers

  /** A place and an instant; the instant is never while no collision happened. */
  datatype Checkpoint = Checkpoint(position: Vec, time: Time)

  datatype Particle = Particle(
    motion: Motion, mass: real, radius: real, origin: Vec,
    oldFree: Checkpoint, lastFree: Checkpoint, area: Cell,
    population: nat, color: Color, timer: Option<EventId>)

  /** The half-open grid cell `area` of step `size` holds q. */
  predicate InCell(q: Vec, area: Cell, size: real)
  {
    area.x as real * size <= q.x < (area.x + 1) as real * size
    && area.y as real * size <= q.y < (area.y + 1) as real * size
  }

  // ---------------------------------------------------------------------
  // Construction and accessors

  /**
   A new particle starts its free ride where it is placed: the last
   checkpoint is (position, now), the old one has a never instant. It is
   registered in the cell holding its position and has no mutation timer
   until its population is set.
   */
  function Create(position: Vec, velocity: Vec, color: Color, mass: real, radius: real, now: Time, size: real, population: nat): (p: Particle)
    requires size > 0.0
    ensures p.motion == Motion(position, velocity) && p.mass == mass && p.radius == radius
    ensures !ValidFree(p) && IsNever(FreeTime(p))
    ensures FromOrigin(p) == Zero()
    ensures p.lastFree == Checkpoint(position, now)
    ensures InCell(position, p.area, size)
    ensures p.timer == None
  {
    Particle(Motion(position, velocity), mass, radius, position,
      Checkpoint(Zero(), Never), Checkpoint(position, now), CellOf(position, size),
      population, color, None)
  }

  /** The displacement between the last two checkpoints. */
  function FreeRide(p: Particle): Vec
  {
    Minus(p.lastFree.position, p.oldFree.position)
  }

  /** The duration between the last two checkpoints, under the saturating difference of times. */
  function FreeTime(p: Particle): Time
  {
    Sub(p.lastFree.time, p.oldFree.time)
  }

  /** The free ride is meaningful once the old checkpoint has a finite instant. */
  predicate ValidFree(p: Particle)
  {
    !IsNever(p.oldFree.time)
  }

  /** The displacement since construction. */
  function FromOrigin(p: Particle): Vec
  {
    Minus(p.motion.position, p.origin)
  }

  /** Without a valid free ride the free time is never. */
  lemma InvalidFreeHasNeverTime(p: Particle)
    ensures !ValidFree(p) ==> IsNever(FreeTime(p))
    ensures ValidFree(p) && !IsNever(p.lastFree.time) && Value(p.oldFree.time) <= Value(p.lastFree.time) ==>
      Value(FreeTime(p)) == Value(p.lastFree.time) - Value(p.oldFree.time)
  {
  }

  // ---------------------------------------------------------------------
  // Free flight

  /**
   `avance`: free flight during dt under gravity g. A never dt has value
   0, so it moves nothing. Only the motion changes.
   */
  function Advance(p: Particle, dt: Time, g: Vec): (r: Particle)
    ensures r == p.(motion := r.motion)
    ensures IsNever(dt) ==> r == p
  {
    FlyLimits(p.motion, g, Value(dt));
    p.(motion := Fly(p.motion, g, Value(dt)))
  }

  /** Two finite flights in a row are one flight of the summed duration. */
  lemma AdvanceComposes(p: Particle, s: Time, t: Time, g: Vec)
    requires !IsNever(s) && !IsNever(t)
    ensures Advance(Advance(p, s, g), t, g) == Advance(p, Add(s, t), g)
  {
    FlightsCompose(p.motion, g, Value(s), Value(t));
  }

  // ---------------------------------------------------------------------
  // Free-ride checkpoints

  /**
   The checkpoint update of a particle performing an accepted collision as
   `this`: the last checkpoint becomes the old one and a new one is taken
   here and now. The free ride then spans exactly the ride since the
   previous collision.
   */
  function Shift(p: Particle, now: Time): (r: Particle)
    ensures FreeRide(r) == Minus(p.motion.position, p.lastFree.position)
    ensures FreeTime(r) == Sub(now, p.lastFree.time)
    ensures ValidFree(r) <==> !IsNever(p.lastFree.time)
    ensures r.lastFree == Checkpoint(p.motion.position, now)
    ensures r == p.(oldFree := r.oldFree, lastFree := r.lastFree)
  {
    p.(oldFree := p.lastFree, lastFree := Checkpoint(p.motion.position, now))
  }

  /**
   The checkpoint update the source applies to the other particle of an
   accepted pair collision: the last checkpoint is overwritten and the old
   one kept, so the free ride spans the rides since the collision before
   the previous one, and its validity does not change.
   */
  function Stamp(p: Particle, now: Time): (r: Particle)
    ensures FreeRide(r) == Minus(p.motion.position, p.oldFree.position)
    ensures FreeTime(r) == Sub(now, p.oldFree.time)
    ensures ValidFree(r) <==> ValidFree(p)
    ensures r.lastFree == Checkpoint(p.motion.position, now)
    ensures r == p.(lastFree := r.lastFree)
  {
    p.(lastFree := Checkpoint(p.motion.position, now))
  }

  /**
   A particle that only ever collides as the other particle of pair
   collisions keeps an invalid free ride: a new particle stamped at any
   instants still has a never free time.
   */
  lemma {:induction false} StampedOnlyStaysInvalid(p: Particle, instants: seq<Time>)
    requires !ValidFree(p)
    ensures !ValidFree(StampAll(p, instants)) && IsNever(FreeTime(StampAll(p, instants)))
    decreases |instants|
  {
    if |instants| > 0 {
      StampedOnlyStaysInvalid(p, instants[..|instants| - 1]);
    }
  }

  /** Stamps at each instant in turn. */
  function StampAll(p: Particle, instants: seq<Time>): Particle
    decreases |instants|
  {
    if |instants| == 0 then p else Stamp(StampAll(p, instants[..|instants| - 1]), instants[|instants| - 1])
  }

  /** A particle shifted once, at a finite instant, has a valid free ride from its next shift on. */
  lemma ShiftTwiceIsValid(p: Particle, s: Time, t: Time)
    requires !IsNever(s)
    ensures ValidFree(Shift(Shift(p, s), t))
    ensures FreeTime(Shift(Shift(p, s), t)) == Sub(t, s)
  {
  }

  // ---------------------------------------------------------------------
  // Contacts

  /**
   Particle-particle contact seen from `self`, the particle whose
   `doCollision` runs. It is accepted exactly when the two approach; then
   the velocities are those of `BallBallBounce`, positions stay, `self`
   starts a new free ride and `other` only has its last checkpoint
   overwritten. A refused contact changes nothing.
   */
  function CollideBalls(self: Particle, other: Particle, now: Time, sqrt: real -> real): (r: (Particle, Particle, bool))
    requires self.mass + other.mass != 0.0
    ensures r.2 <==> Approaching(self.motion, other.motion)
    ensures !r.2 ==> r.0 == self && r.1 == other
    ensures r.2 ==> r.0.motion.position == self.motion.position && r.1.motion.position == other.motion.position
    ensures r.2 ==> (r.0.motion.velocity, r.1.motion.velocity) == BallBallBounce(self.motion, self.mass, other.motion, other.mass, sqrt)
    ensures r.2 ==> r.0 == Shift(self, now).(motion := r.0.motion) && r.1 == Stamp(other, now).(motion := r.1.motion)
  {
    if Approaching(self.motion, other.motion) then
      var v := BallBallBounce(self.motion, self.mass, other.motion, other.mass, sqrt);
      (Shift(self, now).(motion := self.motion.(velocity := v.0)),
       Stamp(other, now).(motion := other.motion.(velocity := v.1)),
       true)
    else (self, other, false)
  }

  /**
   With an exact square root, an accepted particle-particle contact keeps
   the total momentum and kinetic energy and leaves the pair separating.
   */
  lemma CollideBallsIsElastic(self: Particle, other: Particle, now: Time, sqrt: real -> real)
    requires self.mass + other.mass != 0.0 && IsSqrt(sqrt)
    requires CollideBalls(self, other, now, sqrt).2
    ensures var r := CollideBalls(self, other, now, sqrt);
      Plus(Scale(r.0.motion.velocity, self.mass), Scale(r.1.motion.velocity, other.mass))
      == Plus(Scale(self.motion.velocity, self.mass), Scale(other.motion.velocity, other.mass))
    ensures var r := CollideBalls(self, other, now, sqrt);
      Product(self.mass, SquareLength(r.0.motion.velocity)) + Product(other.mass, SquareLength(r.1.motion.velocity))
      == Product(self.mass, SquareLength(self.motion.velocity)) + Product(other.mass, SquareLength(other.motion.velocity))
    ensures var r := CollideBalls(self, other, now, sqrt);
      !Approaching(r.0.motion, r.1.motion)
  {
    BallBallBounceKeepsMomentum(self.motion, self.mass, other.motion, other.mass, sqrt);
    BallBallBounceKeepsEnergy(self.motion, self.mass, other.motion, other.mass, sqrt);
    BallBallBounceReflects(self.motion, self.mass, other.motion, other.mass, sqrt);
    var r := CollideBalls(self, other, now, sqrt);
    var dp := Minus(other.motion.position, self.motion.position);
    ScalarSymmetric(dp, Minus(r.1.motion.velocity, r.0.motion.velocity));
  }

  /**
   Particle-piston contact: accepted exactly when the two approach along
   y; then the y velocities are exchanged by mass (`AxialBounce`) and the
   particle starts a new free ride. A refused contact changes nothing.
   */
  function CollidePiston(self: Particle, piston: Motion, pistonMass: real, now: Time): (r: (Particle, Motion, bool))
    requires self.mass + pistonMass != 0.0
    ensures r.2 <==> Product(self.motion.velocity.y - piston.velocity.y, self.motion.position.y - piston.position.y) < 0.0
    ensures !r.2 ==> r.0 == self && r.1 == piston
    ensures r.2 ==> r.0 == Shift(self, now).(motion := r.0.motion) && r.1.position == piston.position
    ensures r.2 ==> r.0.motion.position == self.motion.position
    ensures r.2 ==> (r.0.motion.velocity, r.1.velocity) == AxialBounce(self.motion, self.mass, piston, pistonMass)
  {
    if Product(self.motion.velocity.y - piston.velocity.y, self.motion.position.y - piston.position.y) < 0.0 then
      var v := AxialBounce(self.motion, self.mass, piston, pistonMass);
      (Shift(self, now).(motion := self.motion.(velocity := v.0)), piston.(velocity := v.1), true)
    else (self, piston, false)
  }

  /**
   Particle-vertex contact: accepted exactly when the particle moves
   toward the vertex; then the velocity is reflected (`VertexBounce`) and
   a new free ride starts. A refused contact changes nothing.
   */
  function CollideVertex(self: Particle, vertex: Vec, now: Time, sqrt: real -> real): (r: (Particle, bool))
    ensures r.1 <==> Scalar(Minus(vertex, self.motion.position), self.motion.velocity) > 0.0
    ensures !r.1 ==> r.0 == self
    ensures r.1 ==> r.0 == Shift(self, now).(motion := r.0.motion)
    ensures r.1 ==> r.0.motion == Motion(self.motion.position, VertexBounce(self.motion, vertex, sqrt))
  {
    if Scalar(Minus(vertex, self.motion.position), self.motion.velocity) > 0.0 then
      (Shift(self, now).(motion := self.motion.(velocity := VertexBounce(self.motion, vertex, sqrt))), true)
    else (self, false)
  }

  /**
   Particle-segment contact: accepted exactly when the particle moves
   toward the segment's line; then the velocity is reflected
   (`SegmentBounce`) and a new free ride starts.
   */
  function CollideSegment(self: Particle, s: Segment, now: Time, sqrt: real -> real): (r: (Particle, bool))
    ensures r.1 <==> Product(Det(s.vect, VectTo(s, self.motion.position)), Det(s.vect, self.motion.velocity)) < 0.0
    ensures !r.1 ==> r.0 == self
    ensures r.1 ==> r.0 == Shift(self, now).(motion := r.0.motion)
    ensures r.1 ==> r.0.motion == Motion(self.motion.position, SegmentBounce(self.motion, s, sqrt))
  {
    if Product(Det(s.vect, VectTo(s, self.motion.position)), Det(s.vect, self.motion.velocity)) < 0.0 then
      (Shift(self, now).(motion := self.motion.(velocity := SegmentBounce(self.motion, s, sqrt))), true)
    else (self, false)
  }

  /** With an exact square root, accepted obstacle contacts keep the speed and leave the particle moving away. */
  lemma ObstacleContactsReflect(self: Particle, vertex: Vec, s: Segment, now: Time, sqrt: real -> real)
    requires IsSqrt(sqrt)
    ensures var r := CollideVertex(self, vertex, now, sqrt);
      r.1 ==> (SquareLength(r.0.motion.velocity) == SquareLength(self.motion.velocity)
               && Scalar(Minus(vertex, r.0.motion.position), r.0.motion.velocity) < 0.0)
    ensures var r := CollideSegment(self, s, now, sqrt);
      r.1 ==> (SquareLength(r.0.motion.velocity) == SquareLength(self.motion.velocity)
               && Product(Det(s.vect, VectTo(s, r.0.motion.position)), Det(s.vect, r.0.motion.velocity)) > 0.0)
  {
    if Scalar(Minus(vertex, self.motion.position), self.motion.velocity) > 0.0 {
      VertexBounceReflects(self.motion, vertex, sqrt);
    }
    if Product(Det(s.vect, VectTo(s, self.motion.position)), Det(s.vect, self.motion.velocity)) < 0.0 {
      SegmentBounceReflects(self.motion, s, sqrt);
    }
  }

  // ---------------------------------------------------------------------
  // Grid cell

  /** C's `round`: to the nearest integer, halfway cases away from zero. */
  function Round(u: real): (n: int)
    ensures -0.5 <= n as real - u <= 0.5
    ensures u >= 0.0 ==> -0.5 < n as real - u
    ensures u < 0.0 ==> n as real - u < 0.5
  {
    if u >= 0.0 then (u + 0.5).Floor else -((-u + 0.5).Floor)
  }

  /** The distance from u to the nearest integer. */
  function RoundingError(u: real): (e: real)
    ensures 0.0 <= e <= 0.5
  {
    var d := Round(u) as real - u;
    if d >= 0.0 then d else -d
  }

  /** floor(u + 1/2) for a non-negative velocity, floor(u - 1/2) otherwise. */
  function Toward(u: real, v: real): (n: int)
    ensures v >= 0.0 ==> n as real <= u + 0.5 < n as real + 1.0
    ensures v < 0.0 ==> n as real <= u - 0.5 < n as real + 1.0
  {
    if v >= 0.0 then (u + 0.5).Floor else (u - 0.5).Floor
  }

  /**
   `setArea`'s new cell: only the axis whose coordinate (in cells) is
   closer to a grid line changes, x on ties; that coordinate is rounded to
   the line and the cell beyond it in the direction of motion is taken.
   */
  function NextArea(p: Particle, size: real): (c: Cell)
    requires size > 0.0
    ensures c.x == p.area.x || c.y == p.area.y
    ensures var fx := p.motion.position.x / size; var fy := p.motion.position.y / size;
      RoundingError(fx) <= RoundingError(fy) ==> c == p.area.(x := Toward(fx, p.motion.velocity.x))
    ensures var fx := p.motion.position.x / size; var fy := p.motion.position.y / size;
      RoundingError(fx) > RoundingError(fy) ==> c == p.area.(y := Toward(fy, p.motion.velocity.y))
  {
    var fx := p.motion.position.x / size;
    var fy := p.motion.position.y / size;
    if RoundingError(fx) <= RoundingError(fy) then p.area.(x := Toward(fx, p.motion.velocity.x))
    else p.area.(y := Toward(fy, p.motion.velocity.y))
  }

  /** An integer is its own rounding, and the cells on either side of grid line k are k and k - 1. */
  lemma OnGridLine(k: int, v: real)
    ensures RoundingError(k as real) == 0.0
    ensures Toward(k as real, v) == if v >= 0.0 then k else k - 1
  {
    FloorOfShifted(k, 0.5);
    FloorOfShifted(k - 1, 0.5);
    if k < 0 {
      FloorOfShifted(-k, 0.5);
      assert Round(k as real) == -((-k) as real + 0.5).Floor;
    }
  }

  /** k + f rounds down to k for 0 <= f < 1. */
  lemma FloorOfShifted(k: int, f: real)
    requires 0.0 <= f < 1.0
    ensures (k as real + f).Floor == k
  {
  }

  /**
   A particle on a vertical grid line x = k size moves to the cell the
   line bounds on the side it is heading to: k when x grows or stays,
   k - 1 when it decreases; its row does not change. Symmetrically for a
   horizontal grid line when x is not on a grid line.
   */
  lemma EntersCellAhead(p: Particle, size: real, k: int)
    requires size > 0.0
    ensures p.motion.position.x == k as real * size ==>
      NextArea(p, size) == p.area.(x := if p.motion.velocity.x >= 0.0 then k else k - 1)
    ensures p.motion.position.y == k as real * size && RoundingError(p.motion.position.x / size) > 0.0 ==>
      NextArea(p, size) == p.area.(y := if p.motion.velocity.y >= 0.0 then k else k - 1)
  {
    if p.motion.position.x == k as real * size {
      assert p.motion.position.x / size == k as real;
      OnGridLine(k, p.motion.velocity.x);
    }
    if p.motion.position.y == k as real * size {
      assert p.motion.position.y / size == k as real;
      OnGridLine(k, p.motion.velocity.y);
    }
  }
}

=== FILE: physics.dfy ===
/**
 The physics of the engine: free flight under gravity, the prediction of
 the next contact of a particle (a disc) with another particle, a
 piston, an obstacle vertex or an obstacle segment, the instant a mobile
 leaves its grid cell, and the velocity changes of each kind of contact.

 Predictions return a time relative to the present; the collision graph
 adds the present instant to them. The square root is a parameter
 `sqrt`; the properties below hold whenever it is exact (`IsSqrt`).
 Gravity-driven crossings that need the quartic solver or a quadratic
 in the gravity components are parameters too.
 */
module Physics {
  import opened Geometry
  import opened Segments
  import opened Solver
  import opened Times

  /** A mobile's kinematic state. */
  datatype Motion = Motion(position: Vec, velocity: Vec)

  /** `sqrt` is exact at x: for x >= 0 it is the non-negative number whose square is x. */
  predicate IsSqrtAt(sqrt: real -> real, x: real)
  {
    x >= 0.0 ==> sqrt(x) >= 0.0 && Product(sqrt(x), sqrt(x)) == x
  }

  /** `sqrt` is the exact square root everywhere. */
  ghost predicate IsSqrt(sqrt: real -> real)
  {
    forall x :: IsSqrtAt(sqrt, x)
  }

  /**
   Free flight during t time units under gravity g: the position gains
   v t + g t^2 / 2 and the velocity gains g t.
   */
  function Fly(m: Motion, g: Vec, t: real): Motion
  {
    Motion(Vec(Reach(m.position.x, m.velocity.x, g.x, t), Reach(m.position.y, m.velocity.y, g.y, t)),
      Vec(Pace(m.velocity.x, g.x, t), Pace(m.velocity.y, g.y, t)))
  }

  /** One coordinate after t time units: p + v t + g t^2 / 2. */
  function Reach(p: real, v: real, g: real, t: real): real
  {
    p + v * t + g * (t * t / 2.0)
  }

  /** One speed component after t time units: v + g t. */
  function Pace(v: real, g: real, t: real): real
  {
    v + g * t
  }

  /** Without gravity a flight is a straight line at constant velocity; a flight of no time changes nothing. */
  lemma FlyLimits(m: Motion, g: Vec, t: real)
    ensures g == Zero() ==>
      Fly(m, g, t).velocity == m.velocity && Fly(m, g, t).position == Plus(m.position, Scale(m.velocity, t))
    ensures t == 0.0 ==> Fly(m, g, t) == m
  {
  }

  /** The coordinates of a flight. */
  lemma FlyComponents(m: Motion, g: Vec, t: real)
    ensures Fly(m, g, t).position.x == m.position.x + m.velocity.x * t + g.x * (t * t / 2.0)
    ensures Fly(m, g, t).position.y == m.position.y + m.velocity.y * t + g.y * (t * t / 2.0)
  {
  }

  /** Flying s then t is flying s + t. */
  lemma FlightsCompose(m: Motion, g: Vec, s: real, t: real)
    ensures Fly(Fly(m, g, s), g, t) == Fly(m, g, s + t)
  {
    AxisCompose(m.position.x, m.velocity.x, g.x, s, t);
    AxisCompose(m.position.y, m.velocity.y, g.y, s, t);
  }

  /** One axis of two successive flights. */
  lemma AxisCompose(p: real, v: real, g: real, s: real, t: real)
    ensures Reach(Reach(p, v, g, s), Pace(v, g, s), g, t) == Reach(p, v, g, s + t)
    ensures Pace(Pace(v, g, s), g, t) == Pace(v, g, s + t)
  {
    assert (s + t) * (s + t) == s * s + 2.0 * (s * t) + t * t;
    assert g * ((s + t) * (s + t) / 2.0) == g * (s * s / 2.0) + g * (s * t) + g * (t * t / 2.0);
    assert (v + g * s) * t == v * t + g * (s * t);
    assert v * (s + t) == v * s + v * t;
  }

  /** Two mobiles under the same gravity: their height difference moves linearly. */
  lemma HeightOffset(a: Motion, b: Motion, g: Vec, t: real)
    ensures Fly(a, g, t).position.y - Fly(b, g, t).position.y
         == a.position.y - b.position.y + Product(a.velocity.y - b.velocity.y, t)
  {
    assert a.velocity.y * t - b.velocity.y * t == (a.velocity.y - b.velocity.y) * t;
  }

  /** Two mobiles under the same gravity: their offset moves linearly, gravity cancels. */
  lemma RelativeFlight(a: Motion, b: Motion, g: Vec, t: real)
    ensures Minus(Fly(a, g, t).position, Fly(b, g, t).position)
         == Plus(Minus(a.position, b.position), Scale(Minus(a.velocity, b.velocity), t))
    ensures Minus(Fly(a, g, t).velocity, Fly(b, g, t).velocity) == Minus(a.velocity, b.velocity)
  {
    assert a.velocity.x * t - b.velocity.x * t == (a.velocity.x - b.velocity.x) * t;
    assert a.velocity.y * t - b.velocity.y * t == (a.velocity.y - b.velocity.y) * t;
  }

  /**
   The source's `Time(d / v)`: a negative quotient is never. A zero
   divisor gives an infinite or undefined quotient in the source; the
   model makes it never.
   */
  function Quotient(d: real, v: real): (t: Time)
    ensures !IsNever(t) ==> v != 0.0 && v * Value(t) == d
    ensures IsNever(t) <==> v == 0.0 || Product(d, v) < 0.0
  {
    if v == 0.0 then Never
    else
      QuotientSign(d, v);
      FromReal(d / v)
  }

  lemma QuotientSign(d: real, v: real)
    requires v != 0.0
    ensures d / v >= 0.0 <==> Product(d, v) >= 0.0
  {
    var q := d / v;
    assert d == q * v;
    assert Product(d, v) == Product(q, Product(v, v));
    SquareNonNeg(v);
    if q > 0.0 {
      ProductPos(q, Product(v, v));
    } else if q < 0.0 {
      ProductPos(-q, Product(v, v));
    }
  }

  // ---------------------------------------------------------------
  // Contact prediction
  // ---------------------------------------------------------------

  /**
   The first instant at which |dp + t dv| reaches `reach`: the first root
   of |dv|^2 t^2 + 2 (dv.dp) t + |dp|^2 - reach^2. When dv is zero the
   source divides zero by zero, and the undefined quotient is never.
   */
  function FirstContact(dp: Vec, dv: Vec, reach: real, sqrt: real -> real): (t: Time)
    ensures dv == Zero() ==> IsNever(t)
  {
    var a := SquareLength(dv);
    var b := 2.0 * Scalar(dv, dp);
    var c := SquareLength(dp) - reach * reach;
    if a == 0.0 then Never
    else FromReal(FirstRoot(a, b, c, sqrt(Discriminant(a, b, c))))
  }

  /** The squared distance along dp + s dv, less reach^2, is the quadratic `FirstContact` solves. */
  lemma DistanceIsQuadratic(dp: Vec, dv: Vec, reach: real, s: real)
    ensures SquareLength(Plus(dp, Scale(dv, s))) - reach * reach
         == Poly(SquareLength(dv), 2.0 * Scalar(dv, dp), SquareLength(dp) - reach * reach, s)
  {
    var x := dp.x + dv.x * s;
    var y := dp.y + dv.y * s;
    assert x * x == dp.x * dp.x + 2.0 * (dv.x * dp.x) * s + (dv.x * dv.x) * (s * s);
    assert y * y == dp.y * dp.y + 2.0 * (dv.y * dp.y) * s + (dv.y * dv.y) * (s * s);
  }

  /**
   With an exact square root, `FirstContact` is the earliest contact: at
   the returned instant the distance is exactly `reach`, and at no
   earlier non-negative instant is it `reach`.
   */
  lemma {:induction false} FirstContactIsEarliest(dp: Vec, dv: Vec, reach: real, sqrt: real -> real, s: real)
    requires IsSqrt(sqrt)
    ensures !IsNever(FirstContact(dp, dv, reach, sqrt)) ==>
      SquareLength(Plus(dp, Scale(dv, Value(FirstContact(dp, dv, reach, sqrt))))) == reach * reach
    ensures 0.0 <= s < Value(FirstContact(dp, dv, reach, sqrt)) ==>
      SquareLength(Plus(dp, Scale(dv, s))) != reach * reach
  {
    var t := FirstContact(dp, dv, reach, sqrt);
    var a := SquareLength(dv);
    var b := 2.0 * Scalar(dv, dp);
    var c := SquareLength(dp) - reach * reach;
    if a != 0.0 {
      var root := sqrt(Discriminant(a, b, c));
      assert IsSqrtAt(sqrt, Discriminant(a, b, c));
      assert IsRootOfDiscriminant(a, b, c, root);
      if !IsNever(t) {
        assert Discriminant(a, b, c) >= 0.0;
        DistanceIsQuadratic(dp, dv, reach, Value(t));
      }
      if 0.0 <= s < Value(t) && SquareLength(Plus(dp, Scale(dv, s))) == reach * reach {
        DistanceIsQuadratic(dp, dv, reach, s);
        SelectedRootsAreAllRoots(a, b, c, root, s);
        FirstRootIsSmaller(a, b, c, root);
        assert false;
      }
    } else {
      SquareLengthZero(dv);
    }
  }

  /**
   Particle-particle prediction: the first contact of the two discs, at
   the distance of the sum of the radii. The relative motion is linear
   because both discs fall under the same gravity.
   */
  function BallBallTime(self: Motion, selfRadius: real, other: Motion, otherRadius: real, sqrt: real -> real): (t: Time)
    ensures self.velocity == other.velocity ==> IsNever(t)
  {
    FirstContact(Minus(self.position, other.position), Minus(self.velocity, other.velocity), selfRadius + otherRadius, sqrt)
  }

  /**
   With an exact square root, the discs touch at the predicted instant
   (both having flown under gravity g) and at no earlier one.
   */
  lemma BallBallTouchFirst(self: Motion, selfRadius: real, other: Motion, otherRadius: real, g: Vec, sqrt: real -> real, s: real)
    requires IsSqrt(sqrt)
    ensures var t := BallBallTime(self, selfRadius, other, otherRadius, sqrt);
      !IsNever(t) ==>
        SquareLength(Minus(Fly(self, g, Value(t)).position, Fly(other, g, Value(t)).position))
        == (selfRadius + otherRadius) * (selfRadius + otherRadius)
    ensures var t := BallBallTime(self, selfRadius, other, otherRadius, sqrt);
      0.0 <= s < Value(t) ==>
        SquareLength(Minus(Fly(self, g, s).position, Fly(other, g, s).position))
        != (selfRadius + otherRadius) * (selfRadius + otherRadius)
  {
    var t := BallBallTime(self, selfRadius, other, otherRadius, sqrt);
    FirstContactIsEarliest(Minus(self.position, other.position), Minus(self.velocity, other.velocity), selfRadius + otherRadius, sqrt, s);
    RelativeFlight(self, other, g, Value(t));
    RelativeFlight(self, other, g, s);
  }

  /**
   Particle-vertex prediction. Without gravity it is the first contact
   of the disc with the point; with gravity the source solves a quartic,
   whose answer is the parameter `quartic`.
   */
  function VertexTime(self: Motion, radius: real, vertex: Vec, g: Vec, quartic: Time, sqrt: real -> real): (t: Time)
    ensures g != Zero() ==> t == quartic
    ensures g == Zero() && self.velocity == Zero() ==> IsNever(t)
  {
    if g != Zero() then quartic
    else FirstContact(Minus(self.position, vertex), self.velocity, radius, sqrt)
  }

  /** Without gravity and with an exact square root, the disc reaches the vertex at the predicted instant and not before. */
  lemma VertexTouchFirst(self: Motion, radius: real, vertex: Vec, quartic: Time, sqrt: real -> real, s: real)
    requires IsSqrt(sqrt)
    ensures var t := VertexTime(self, radius, vertex, Zero(), quartic, sqrt);
      !IsNever(t) ==> SquareLength(Minus(Fly(self, Zero(), Value(t)).position, vertex)) == radius * radius
    ensures var t := VertexTime(self, radius, vertex, Zero(), quartic, sqrt);
      0.0 <= s < Value(t) ==> SquareLength(Minus(Fly(self, Zero(), s).position, vertex)) != radius * radius
  {
    var t := VertexTime(self, radius, vertex, Zero(), quartic, sqrt);
    var dp := Minus(self.position, vertex);
    FirstContactIsEarliest(dp, self.velocity, radius, sqrt, s);
    assert Minus(Fly(self, Zero(), Value(t)).position, vertex) == Plus(dp, Scale(self.velocity, Value(t)));
    assert Minus(Fly(self, Zero(), s).position, vertex) == Plus(dp, Scale(self.velocity, s));
  }

  /**
   Particle-piston prediction, with the particle's y position and
   velocity and the piston's. A receding pair never meets. Otherwise the
   gap, less the radius and the thickness when the particle is above the
   piston and plus the radius when it is below, is divided by the closing
   speed.
   */
  function BallPistonTime(ball: Motion, radius: real, piston: Motion, thickness: real): (t: Time)
    ensures Product(piston.velocity.y - ball.velocity.y, ball.position.y - piston.position.y) < 0.0 ==> IsNever(t)
    ensures ball.velocity.y == piston.velocity.y ==> IsNever(t)
  {
    var dv := piston.velocity.y - ball.velocity.y;
    var dp := ball.position.y - piston.position.y;
    if Product(dv, dp) < 0.0 then Never
    else Quotient(if dp >= 0.0 then dp - (radius + thickness) else dp + radius, dv)
  }

  /**
   At the predicted instant, with both mobiles having flown under the
   same gravity, a particle above the piston rests on its top face
   (radius plus thickness above the piston's position) and one below
   touches its bottom face (radius below the piston's position).
   */
  lemma BallPistonTouch(ball: Motion, radius: real, piston: Motion, thickness: real, g: Vec)
    ensures var t := BallPistonTime(ball, radius, piston, thickness);
      !IsNever(t) ==>
        Fly(ball, g, Value(t)).position.y - Fly(piston, g, Value(t)).position.y
        == if ball.position.y >= piston.position.y then radius + thickness else -radius
  {
    var t := BallPistonTime(ball, radius, piston, thickness);
    if !IsNever(t) {
      HeightOffset(ball, piston, g, Value(t));
      assert Product(ball.velocity.y - piston.velocity.y, Value(t)) == -((piston.velocity.y - ball.velocity.y) * Value(t));
    }
  }

  /**
   Piston-piston prediction for `self` against `other` as the source
   writes it: the gap (less the other's thickness when self is above,
   plus self's thickness when below) divided by self's velocity minus the
   other's. There is no receding test.
   */
  function PistonPistonTimeAsWritten(self: Motion, selfThickness: real, other: Motion, otherThickness: real): (t: Time)
    ensures self.velocity.y == other.velocity.y ==> IsNever(t)
    ensures !IsNever(t) ==> (self.velocity.y - other.velocity.y) * Value(t)
                            == if self.position.y >= other.position.y then self.position.y - other.position.y - otherThickness
                               else self.position.y - other.position.y + selfThickness
  {
    var dv := self.velocity.y - other.velocity.y;
    var dp := self.position.y - other.position.y;
    Quotient(if dp >= 0.0 then dp - otherThickness else dp + selfThickness, dv)
  }

  /**
   The as-written prediction has the sign of the closing speed reversed.
   A piston at rest at height 2 and a piston of thickness 1 rising from
   height 0 at unit speed touch after one time unit, yet the prediction is
   never; the corrected `PistonPistonTime` finds the contact.
   */
  lemma PistonPistonAsWrittenMissesContact()
    ensures var self := Motion(Vec(0.0, 2.0), Vec(0.0, 0.0));
      var other := Motion(Vec(0.0, 0.0), Vec(0.0, 1.0));
      IsNever(PistonPistonTimeAsWritten(self, 1.0, other, 1.0))
      && PistonPistonTime(self, 1.0, other, 1.0) == At(1.0)
      && Fly(self, Zero(), 1.0).position.y - Fly(other, Zero(), 1.0).position.y == 1.0
  {
  }

  /**
   Piston-piston prediction, corrected: the gap over the closing speed
   (the other's velocity minus self's), as in the particle-piston case.
   */
  function PistonPistonTime(self: Motion, selfThickness: real, other: Motion, otherThickness: real): (t: Time)
    ensures self.velocity.y == other.velocity.y ==> IsNever(t)
  {
    var dv := self.velocity.y - other.velocity.y;
    var dp := self.position.y - other.position.y;
    Quotient(if dp >= 0.0 then dp - otherThickness else dp + selfThickness, -dv)
  }

  /**
   At the predicted instant the pistons touch: self's position is the
   other's top face when self was above, and self's top face is the
   other's position when self was below.
   */
  lemma PistonPistonTouch(self: Motion, selfThickness: real, other: Motion, otherThickness: real, g: Vec)
    ensures var t := PistonPistonTime(self, selfThickness, other, otherThickness);
      !IsNever(t) ==>
        Fly(self, g, Value(t)).position.y - Fly(other, g, Value(t)).position.y
        == if self.position.y >= other.position.y then otherThickness else -selfThickness
  {
    var t := PistonPistonTime(self, selfThickness, other, otherThickness);
    if !IsNever(t) {
      HeightOffset(self, other, g, Value(t));
    }
  }

  /**
   Whenever the as-written prediction is finite, the pistons touch at
   the predicted instant only if they already touched at the start: the
   prediction never finds a contact that is still to come.
   */
  lemma PistonPistonAsWrittenOnlyFindsPresentContact(self: Motion, selfThickness: real, other: Motion, otherThickness: real, g: Vec)
    ensures var t := PistonPistonTimeAsWritten(self, selfThickness, other, otherThickness);
      var contact := if self.position.y >= other.position.y then otherThickness else -selfThickness;
      !IsNever(t) && Fly(self, g, Value(t)).position.y - Fly(other, g, Value(t)).position.y == contact ==>
        self.position.y - other.position.y == contact
  {
    var t := PistonPistonTimeAsWritten(self, selfThickness, other, otherThickness);
    if !IsNever(t) {
      HeightOffset(self, other, g, Value(t));
    }
  }

  /**
   Particle-segment prediction. The signed distances are determinants
   with the segment's vector: `det` for the particle's offset from the
   segment start, `detvit` for its velocity and `detgrav` for half the
   gravity. The particle is brought to the line shifted by its radius
   (times the segment's length) toward its own side. Gravity parallel to
   the segment leaves a linear equation, never when moving away; otherwise
   the first or second root of the quadratic is taken depending on the
   side and the gravity's direction. The instant is kept only when the
   particle then faces the segment.
   */
  function SegmentTime(self: Motion, radius: real, s: Segment, g: Vec, sqrt: real -> real): (t: Time)
    ensures !IsNever(t) ==> Faces(s, Fly(self, g, Value(t)).position)
    ensures Det(g, s.vect) == 0.0 && Product(Det(VectTo(s, self.position), s.vect), Det(self.velocity, s.vect)) > 0.0 ==> IsNever(t)
  {
    var det := Det(VectTo(s, self.position), s.vect);
    var len := sqrt(SquareLength(s.vect));
    var shifted := if det > 0.0 then det - Product(radius, len) else det + Product(radius, len);
    var result := LineTime(det, Det(self.velocity, s.vect), Det(g, s.vect) / 2.0, shifted, sqrt);
    if Faces(s, Fly(self, g, Value(result)).position) then result else Never
  }

  /**
   The instant the signed distance `det`, moving as
   det + detvit t + detgrav t^2, has covered `det - shifted`: the linear
   case when detgrav is 0 (never when det and detvit have the same
   strict sign, i.e. moving away), else the second root when det and
   detgrav have opposite signs and the first root otherwise.
   */
  function LineTime(det: real, detvit: real, detgrav: real, shifted: real, sqrt: real -> real): (t: Time)
    ensures detgrav == 0.0 && Product(det, detvit) > 0.0 ==> IsNever(t)
  {
    if detgrav == 0.0 then (if det * detvit > 0.0 then Never else Quotient(-shifted, detvit))
    else if det * detgrav < 0.0 then FromReal(SecondRoot(detgrav, detvit, shifted, sqrt(Discriminant(detgrav, detvit, shifted))))
    else FromReal(FirstRoot(detgrav, detvit, shifted, sqrt(Discriminant(detgrav, detvit, shifted))))
  }

  /** With an exact square root, the instant found solves detgrav t^2 + detvit t + shifted = 0. */
  lemma LineTimeSolves(det: real, detvit: real, detgrav: real, shifted: real, sqrt: real -> real)
    requires IsSqrt(sqrt)
    ensures var t := LineTime(det, detvit, detgrav, shifted, sqrt);
      !IsNever(t) ==> Product(detgrav, Product(Value(t), Value(t))) + Product(detvit, Value(t)) == -shifted
  {
    var t := LineTime(det, detvit, detgrav, shifted, sqrt);
    if !IsNever(t) && detgrav != 0.0 {
      var root := sqrt(Discriminant(detgrav, detvit, shifted));
      assert IsSqrtAt(sqrt, Discriminant(detgrav, detvit, shifted));
      assert IsRootOfDiscriminant(detgrav, detvit, shifted, root);
      assert Discriminant(detgrav, detvit, shifted) >= 0.0;
      assert Poly(detgrav, detvit, shifted, Value(t)) == 0.0;
    }
  }

  /** The signed distance (as a determinant) after a flight is a quadratic in the flight time. */
  lemma DetAfterFlight(m: Motion, g: Vec, s: Segment, t: real)
    ensures Det(VectTo(s, Fly(m, g, t).position), s.vect)
         == Det(VectTo(s, m.position), s.vect) + Product(Det(m.velocity, s.vect), t) + Product(Det(g, s.vect) / 2.0, Product(t, t))
  {
    var d := VectTo(s, m.position);
    var v := m.velocity;
    var w := s.vect;
    var q := VectTo(s, Fly(m, g, t).position);
    FlyComponents(m, g, t);
    DetFlightIdentity(q.x, q.y, d.x, d.y, v.x, v.y, g.x, g.y, w.x, w.y, t);
  }

  lemma DetFlightIdentity(qx: real, qy: real, dx: real, dy: real, vx: real, vy: real, gx: real, gy: real, wx: real, wy: real, t: real)
    requires qx == dx + vx * t + gx * (t * t / 2.0) && qy == dy + vy * t + gy * (t * t / 2.0)
    ensures qx * wy - qy * wx
         == (dx * wy - dy * wx) + Product(vx * wy - vy * wx, t) + Product((gx * wy - gy * wx) / 2.0, Product(t, t))
  {
    assert (vx * t) * wy - (vy * t) * wx == (vx * wy - vy * wx) * t;
    assert (gx * (t * t / 2.0)) * wy - (gy * (t * t / 2.0)) * wx == ((gx * wy - gy * wx) / 2.0) * (t * t);
  }

  /**
   With an exact square root, at the predicted instant the particle is
   at distance `radius` from the segment's line on the side it started
   from: the determinant with the segment's vector is the radius times
   the segment's length, with the starting side's sign.
   */
  lemma SegmentTouch(self: Motion, radius: real, s: Segment, g: Vec, sqrt: real -> real)
    requires IsSqrt(sqrt)
    ensures var t := SegmentTime(self, radius, s, g, sqrt);
      var len := sqrt(SquareLength(s.vect));
      !IsNever(t) ==>
        Det(VectTo(s, Fly(self, g, Value(t)).position), s.vect)
        == if Det(VectTo(s, self.position), s.vect) > 0.0 then Product(radius, len) else -Product(radius, len)
  {
    var t := SegmentTime(self, radius, s, g, sqrt);
    var det := Det(VectTo(s, self.position), s.vect);
    var len := sqrt(SquareLength(s.vect));
    var shifted := if det > 0.0 then det - Product(radius, len) else det + Product(radius, len);
    var result := LineTime(det, Det(self.velocity, s.vect), Det(g, s.vect) / 2.0, shifted, sqrt);
    if !IsNever(t) {
      LineTimeSolves(det, Det(self.velocity, s.vect), Det(g, s.vect) / 2.0, shifted, sqrt);
      DetAfterFlight(self, g, s, Value(t));
      assert Det(VectTo(s, Fly(self, g, Value(t)).position), s.vect) == det - shifted;
    }
  }

  // ---------------------------------------------------------------
  // Leaving a grid cell
  // ---------------------------------------------------------------

  /** The grid line number `index`, at index * size. */
  function Bound(index: int, size: real): real
  {
    index as real * size
  }

  lemma ProductSameSign(a: real, b: real)
    requires (a >= 0.0 && b >= 0.0) || (a <= 0.0 && b <= 0.0)
    ensures Product(a, b) >= 0.0
  {
    if a > 0.0 && b > 0.0 {
      ProductPos(a, b);
    } else if a < 0.0 && b < 0.0 {
      ProductPos(-a, -b);
      ProductNegNeg(a, b);
    }
  }

  /**
   The instant a coordinate p moving at speed v leaves the slab
   [index * size, (index + 1) * size): through the upper bound when
   moving up, the lower bound when moving down; never at rest.
   */
  function AxisExit(p: real, v: real, index: int, size: real): (t: Time)
    ensures v == 0.0 ==> IsNever(t)
    ensures !IsNever(t) ==> p + Product(v, Value(t)) == if v > 0.0 then Bound(index + 1, size) else Bound(index, size)
    ensures v != 0.0 && Bound(index, size) <= p <= Bound(index + 1, size) ==> !IsNever(t)
  {
    if v > 0.0 then
      if p <= Bound(index + 1, size) then
        ProductSameSign(Bound(index + 1, size) - p, v);
        Quotient(Bound(index + 1, size) - p, v)
      else Quotient(Bound(index + 1, size) - p, v)
    else if v < 0.0 then
      if Bound(index, size) <= p then
        ProductSameSign(Bound(index, size) - p, v);
        Quotient(Bound(index, size) - p, v)
      else Quotient(Bound(index, size) - p, v)
    else Never
  }

  /** Until it leaves, a coordinate that starts in the closed slab stays in it. */
  lemma AxisStaysInSlab(p: real, v: real, index: int, size: real, s: real)
    requires Bound(index, size) <= p <= Bound(index + 1, size)
    requires 0.0 <= s
    requires v != 0.0 ==> s <= Value(AxisExit(p, v, index, size))
    ensures Bound(index, size) <= p + Product(v, s) <= Bound(index + 1, size)
  {
    var t := Value(AxisExit(p, v, index, size));
    if v > 0.0 {
      assert v * s <= v * t;
    } else if v < 0.0 {
      assert (-v) * s <= (-v) * t;
    }
  }

  /**
   The instant a particle leaves its grid cell: the earlier of the x and
   y crossings. An axis with gravity needs the solver on a quadratic in
   the gravity component; those crossings are the parameters `curvedX`
   and `curvedY`.
   */
  function BallExit(self: Motion, area: Cell, size: real, g: Vec, curvedX: Time, curvedY: Time): (t: Time)
    ensures g.x != 0.0 && g.y != 0.0 ==> t == Earlier(curvedX, curvedY)
    ensures g == Zero() && self.velocity == Zero() ==> IsNever(t)
    ensures g == Zero() && !IsNever(t) ==>
      self.position.x + Product(self.velocity.x, Value(t))
        == (if self.velocity.x > 0.0 then Bound(area.x + 1, size) else Bound(area.x, size))
      || self.position.y + Product(self.velocity.y, Value(t))
        == (if self.velocity.y > 0.0 then Bound(area.y + 1, size) else Bound(area.y, size))
  {
    var x := if g.x == 0.0 then AxisExit(self.position.x, self.velocity.x, area.x, size) else curvedX;
    var y := if g.y == 0.0 then AxisExit(self.position.y, self.velocity.y, area.y, size) else curvedY;
    Earlier(x, y)
  }

  /** The closed cell [x0, x0 + size] x [y0, y0 + size] of `area` contains q. */
  predicate InClosedCell(q: Vec, area: Cell, size: real)
  {
    Bound(area.x, size) <= q.x <= Bound(area.x + 1, size)
    && Bound(area.y, size) <= q.y <= Bound(area.y + 1, size)
  }

  /** Without gravity, a moving particle inside its cell leaves it at a finite instant. */
  lemma BallLeavesCell(self: Motion, area: Cell, size: real, curvedX: Time, curvedY: Time)
    requires InClosedCell(self.position, area, size)
    requires self.velocity != Zero()
    ensures !IsNever(BallExit(self, area, size, Zero(), curvedX, curvedY))
  {
    var p := self.position;
    var v := self.velocity;
    var tx := AxisExit(p.x, v.x, area.x, size);
    var ty := AxisExit(p.y, v.y, area.y, size);
    BallExitFree(self, area, size, curvedX, curvedY);
    assert v.x != 0.0 || v.y != 0.0;
  }

  /**
   Without gravity, until it leaves its cell a particle stays in the
   closed cell; its flight is then the straight line of `FlyLimits`.
   */
  lemma BallStaysInCell(self: Motion, area: Cell, size: real, curvedX: Time, curvedY: Time, s: real)
    requires InClosedCell(self.position, area, size)
    requires 0.0 <= s <= Value(BallExit(self, area, size, Zero(), curvedX, curvedY))
    ensures InClosedCell(Vec(self.position.x + Product(self.velocity.x, s), self.position.y + Product(self.velocity.y, s)), area, size)
  {
    var p := self.position;
    var v := self.velocity;
    var tx := AxisExit(p.x, v.x, area.x, size);
    var ty := AxisExit(p.y, v.y, area.y, size);
    BallExitFree(self, area, size, curvedX, curvedY);
    EarlierBoundsBoth(tx, ty, s);
    BothAxesStay(p, v, area, size, s, Vec(p.x + Product(v.x, s), p.y + Product(v.y, s)));
  }

  /** Without gravity the exit is the earlier of the two straight-line crossings. */
  lemma BallExitFree(self: Motion, area: Cell, size: real, curvedX: Time, curvedY: Time)
    ensures BallExit(self, area, size, Zero(), curvedX, curvedY)
      == Earlier(AxisExit(self.position.x, self.velocity.x, area.x, size), AxisExit(self.position.y, self.velocity.y, area.y, size))
  {
  }

  lemma BothAxesStay(p: Vec, v: Vec, area: Cell, size: real, s: real, q: Vec)
    requires InClosedCell(p, area, size)
    requires 0.0 <= s
    requires !IsNever(AxisExit(p.x, v.x, area.x, size)) ==> s <= Value(AxisExit(p.x, v.x, area.x, size))
    requires !IsNever(AxisExit(p.y, v.y, area.y, size)) ==> s <= Value(AxisExit(p.y, v.y, area.y, size))
    requires q == Vec(p.x + Product(v.x, s), p.y + Product(v.y, s))
    ensures InClosedCell(q, area, size)
  {
    StaysBefore(p.x, v.x, area.x, size, s);
    StaysBefore(p.y, v.y, area.y, size, s);
  }

  /** `AxisStaysInSlab` with its bound on s given for finite exits only. */
  lemma StaysBefore(p: real, v: real, index: int, size: real, s: real)
    requires Bound(index, size) <= p <= Bound(index + 1, size)
    requires 0.0 <= s
    requires !IsNever(AxisExit(p, v, index, size)) ==> s <= Value(AxisExit(p, v, index, size))
    ensures Bound(index, size) <= p + Product(v, s) <= Bound(index + 1, size)
  {
    AxisStaysInSlab(p, v, index, size, s);
  }

  /** An instant no later than the earlier of two times is no later than either finite one. */
  lemma EarlierBoundsBoth(x: Time, y: Time, s: real)
    requires s <= Value(Earlier(x, y))
    ensures !IsNever(x) ==> s <= Value(x)
    ensures !IsNever(y) ==> s <= Value(y)
  {
  }

  /**
   The instant a piston leaves one of its two rows: its position y in
   row `area1` and its top face y + thickness in row `area2`, the earlier
   of the two crossings. With vertical gravity the source solves
   quadratics; their earliest answer is the parameter `curved`.
   */
  function PistonExit(self: Motion, thickness: real, area1: int, area2: int, size: real, g: Vec, curved: Time): (t: Time)
    ensures g.y != 0.0 ==> t == curved
    ensures g.y == 0.0 && self.velocity.y == 0.0 ==> IsNever(t)
    ensures g.y == 0.0 && !IsNever(t) ==>
      var y := self.position.y + Product(self.velocity.y, Value(t));
      y == (if self.velocity.y > 0.0 then Bound(area1 + 1, size) else Bound(area1, size))
      || y + thickness == (if self.velocity.y > 0.0 then Bound(area2 + 1, size) else Bound(area2, size))
  {
    if g.y == 0.0 then
      Earlier(AxisExit(self.position.y, self.velocity.y, area1, size),
              AxisExit(self.position.y + thickness, self.velocity.y, area2, size))
    else curved
  }

  /** Without vertical gravity, a moving piston leaves one of its rows in finite time. */
  lemma PistonLeavesRows(self: Motion, thickness: real, area1: int, area2: int, size: real, g: Vec, curved: Time)
    requires g.y == 0.0 && self.velocity.y != 0.0
    requires Bound(area1, size) <= self.position.y <= Bound(area1 + 1, size)
    ensures !IsNever(PistonExit(self, thickness, area1, area2, size, g, curved))
  {
    var y := self.position.y;
    var v := self.velocity.y;
    assert !IsNever(AxisExit(y, v, area1, size));
  }

  /** Without vertical gravity, until a piston leaves a row both its faces stay in their rows. */
  lemma PistonStaysInRows(self: Motion, thickness: real, area1: int, area2: int, size: real, g: Vec, curved: Time, s: real)
    requires g.y == 0.0
    requires Bound(area1, size) <= self.position.y <= Bound(area1 + 1, size)
    requires Bound(area2, size) <= self.position.y + thickness <= Bound(area2 + 1, size)
    requires 0.0 <= s <= Value(PistonExit(self, thickness, area1, area2, size, g, curved))
    ensures var y := Fly(self, g, s).position.y;
      Bound(area1, size) <= y <= Bound(area1 + 1, size)
      && Bound(area2, size) <= y + thickness <= Bound(area2 + 1, size)
  {
    var y := self.position.y;
    var v := self.velocity.y;
    var t1 := AxisExit(y, v, area1, size);
    var t2 := AxisExit(y + thickness, v, area2, size);
    assert PistonExit(self, thickness, area1, area2, size, g, curved) == Earlier(t1, t2);
    EarlierBoundsBoth(t1, t2, s);
    StaysBefore(y, v, area1, size, s);
    StaysBefore(y + thickness, v, area2, size, s);
    FlyVertically(self, g, s);
  }

  /** Without vertical gravity the height moves linearly. */
  lemma FlyVertically(m: Motion, g: Vec, s: real)
    requires g.y == 0.0
    ensures Fly(m, g, s).position.y == m.position.y + Product(m.velocity.y, s)
  {
  }

  // ---------------------------------------------------------------
  // Contact resolution
  // ---------------------------------------------------------------

  /**
   The vector divided by its length, as the source normalises in place.
   A zero length would give undefined components in the source; with an
   exact square root it happens only for the zero vector, which every
   caller has already excluded.
   */
  function Unit(a: Vec, sqrt: real -> real): (n: Vec)
    ensures IsSqrtAt(sqrt, SquareLength(a)) && a != Zero() ==>
      sqrt(SquareLength(a)) > 0.0 && SquareLength(n) == 1.0 && Scale(n, sqrt(SquareLength(a))) == a
  {
    var len := sqrt(SquareLength(a));
    SquareLengthZero(a);
    if len == 0.0 then Zero()
    else
      UnitFacts(a, len);
      Vec(a.x / len, a.y / len)
  }

  lemma UnitFacts(a: Vec, len: real)
    requires len != 0.0
    ensures Scale(Vec(a.x / len, a.y / len), len) == a
    ensures Product(len, len) == SquareLength(a) ==> SquareLength(Vec(a.x / len, a.y / len)) == 1.0
  {
    var n := Vec(a.x / len, a.y / len);
    assert n.x * len == a.x && n.y * len == a.y;
    assert SquareLength(a) == SquareLength(n) * (len * len);
    if Product(len, len) == SquareLength(a) {
      assert Product(SquareLength(n) - 1.0, Product(len, len)) == 0.0;
      SquareNonNeg(len);
      ProductZero(SquareLength(n) - 1.0, Product(len, len));
    }
  }

  /** With an exact square root, `Unit` of a non-zero vector is a unit vector pointing along it. */
  lemma UnitAlong(a: Vec, sqrt: real -> real)
    requires IsSqrt(sqrt) && a != Zero()
    ensures var n := Unit(a, sqrt);
      var len := sqrt(SquareLength(a));
      len > 0.0 && SquareLength(n) == 1.0 && a == Scale(n, len)
  {
    assert IsSqrtAt(sqrt, SquareLength(a));
    SquareLengthZero(a);
    SquareNonNeg(sqrt(SquareLength(a)));
  }

  /**
   One-dimensional elastic exchange between masses m1 and m2:
   v1' = (v1 (m1 - m2) + 2 m2 v2) / (m1 + m2), and symmetrically for v2'.
   */
  function Exchange(v1: real, m1: real, v2: real, m2: real): (r: (real, real))
    requires m1 + m2 != 0.0
    ensures m1 * r.0 + m2 * r.1 == m1 * v1 + m2 * v2
    ensures r.0 - r.1 == v2 - v1
    ensures m1 == m2 ==> r.0 == v2 && r.1 == v1
  {
    var w := (v2 - v1) / (m1 + m2);
    ExchangeForm(v1, m1, v2, m2);
    ((v1 * (m1 - m2) + v2 * 2.0 * m2) / (m1 + m2), (v2 * (m2 - m1) + v1 * 2.0 * m1) / (m1 + m2))
  }

  /** The exchanged velocities as v1 + 2 m2 w and v2 - 2 m1 w, with w = (v2 - v1) / (m1 + m2). */
  lemma ExchangeForm(v1: real, m1: real, v2: real, m2: real)
    requires m1 + m2 != 0.0
    ensures var w := (v2 - v1) / (m1 + m2);
      (m1 + m2) * w == v2 - v1
      && (v1 * (m1 - m2) + v2 * 2.0 * m2) / (m1 + m2) == v1 + 2.0 * m2 * w
      && (v2 * (m2 - m1) + v1 * 2.0 * m1) / (m1 + m2) == v2 - 2.0 * m1 * w
  {
    var M := m1 + m2;
    var w := (v2 - v1) / M;
    assert M * w == v2 - v1;
    assert (v1 + 2.0 * m2 * w) * M == v1 * M + 2.0 * m2 * (M * w);
    assert (v1 + 2.0 * m2 * w) * M == v1 * (m1 - m2) + v2 * 2.0 * m2;
    MulDiv(v1 + 2.0 * m2 * w, v1 * (m1 - m2) + v2 * 2.0 * m2, M);
    assert (v2 - 2.0 * m1 * w) * M == v2 * M - 2.0 * m1 * (M * w);
    assert (v2 - 2.0 * m1 * w) * M == v2 * (m2 - m1) + v1 * 2.0 * m1;
    MulDiv(v2 - 2.0 * m1 * w, v2 * (m2 - m1) + v1 * 2.0 * m1, M);
  }

  /** The exchange keeps the kinetic energy m1 v1^2 + m2 v2^2. */
  lemma ExchangeKeepsEnergy(v1: real, m1: real, v2: real, m2: real)
    requires m1 + m2 != 0.0
    ensures var r := Exchange(v1, m1, v2, m2);
      Product(m1, Product(r.0, r.0)) + Product(m2, Product(r.1, r.1))
      == Product(m1, Product(v1, v1)) + Product(m2, Product(v2, v2))
  {
    var r := Exchange(v1, m1, v2, m2);
    var w := (v2 - v1) / (m1 + m2);
    ExchangeForm(v1, m1, v2, m2);
    assert r.0 == v1 + 2.0 * m2 * w;
    assert r.1 == v2 - 2.0 * m1 * w;
    assert (m1 + m2) * w == v2 - v1;
    assert m1 * (r.0 * r.0) + m2 * (r.1 * r.1) - m1 * (v1 * v1) - m2 * (v2 * v2)
        == 4.0 * m1 * m2 * w * (v1 - v2 + (m1 + m2) * w);
  }

  /** Two particles approach when their offset and relative velocity point against each other. */
  predicate Approaching(self: Motion, other: Motion)
  {
    Scalar(Minus(other.position, self.position), Minus(other.velocity, self.velocity)) < 0.0
  }

  /**
   Particle-particle contact, the velocities of `self` and `other` after
   it. When approaching, the components along the unit normal from self
   to other are exchanged by mass and the tangential components are kept;
   otherwise nothing changes.
   */
  function BallBallBounce(self: Motion, selfMass: real, other: Motion, otherMass: real, sqrt: real -> real): (r: (Vec, Vec))
    requires selfMass + otherMass != 0.0
    ensures !Approaching(self, other) ==> r == (self.velocity, other.velocity)
  {
    if Approaching(self, other) then
      var n := Unit(Minus(other.position, self.position), sqrt);
      var e := Exchange(Scalar(self.velocity, n), selfMass, Scalar(other.velocity, n), otherMass);
      (Plus(Scale(n, e.0), Scale(Perp(n), Det(n, self.velocity))),
       Plus(Scale(n, e.1), Scale(Perp(n), Det(n, other.velocity))))
    else (self.velocity, other.velocity)
  }

  /** Coordinates in the frame of a unit vector n: n a + perp(n) b has n-component a and perpendicular component b. */
  lemma FrameCoordinates(n: Vec, a: real, b: real)
    requires SquareLength(n) == 1.0
    ensures Scalar(Plus(Scale(n, a), Scale(Perp(n), b)), n) == a
    ensures Det(n, Plus(Scale(n, a), Scale(Perp(n), b))) == b
  {
    assert (n.x * a - n.y * b) * n.x + (n.y * a + n.x * b) * n.y == a * (n.x * n.x + n.y * n.y);
    assert n.x * (n.y * a + n.x * b) - n.y * (n.x * a - n.y * b) == b * (n.x * n.x + n.y * n.y);
  }

  /** A vector is determined by its two coordinates in the frame of a unit vector. */
  lemma FrameDetermines(n: Vec, u: Vec, w: Vec)
    requires SquareLength(n) == 1.0
    requires Scalar(u, n) == Scalar(w, n) && Det(n, u) == Det(n, w)
    ensures u == w
  {
    UnitDecomposition(n, u);
    UnitDecomposition(n, w);
  }

  /** The squared length in the frame of a unit vector: |w|^2 = (w.n)^2 + det(n, w)^2. */
  lemma FrameLength(n: Vec, w: Vec)
    requires SquareLength(n) == 1.0
    ensures SquareLength(w) == Scalar(w, n) * Scalar(w, n) + Det(n, w) * Det(n, w)
  {
    ScalarDetIdentity(n, w);
    ScalarSymmetric(n, w);
  }

  /** Scalar and determinant against a positive multiple of n scale by the factor. */
  lemma AlongMultiple(n: Vec, len: real, w: Vec)
    ensures Scalar(Scale(n, len), w) == len * Scalar(w, n)
    ensures Det(Scale(n, len), w) == len * Det(n, w)
  {
  }

  /** Scalar and determinant with n are linear in the other argument. */
  lemma FrameLinear(n: Vec, x: Vec, y: Vec, k: real, l: real)
    ensures Scalar(Plus(Scale(x, k), Scale(y, l)), n) == k * Scalar(x, n) + l * Scalar(y, n)
    ensures Det(n, Plus(Scale(x, k), Scale(y, l))) == k * Det(n, x) + l * Det(n, y)
  {
  }

  /**
   The bounce in the frame of the unit normal n from self to other: the
   normal components are exchanged by mass, so they keep the momentum and
   the energy along n, the tangential ones are kept, and the offset dp is
   len times n.
   */
  lemma BallBallBounceFrame(self: Motion, selfMass: real, other: Motion, otherMass: real, sqrt: real -> real)
    returns (n: Vec, len: real)
    requires selfMass + otherMass != 0.0
    requires IsSqrt(sqrt)
    requires Approaching(self, other)
    ensures SquareLength(n) == 1.0 && len > 0.0
    ensures Minus(other.position, self.position) == Scale(n, len)
    ensures var r := BallBallBounce(self, selfMass, other, otherMass, sqrt);
      Det(n, r.0) == Det(n, self.velocity) && Det(n, r.1) == Det(n, other.velocity)
    ensures var r := BallBallBounce(self, selfMass, other, otherMass, sqrt);
      Scalar(r.0, n) - Scalar(r.1, n) == Scalar(other.velocity, n) - Scalar(self.velocity, n)
    ensures var r := BallBallBounce(self, selfMass, other, otherMass, sqrt);
      selfMass == otherMass ==> Scalar(r.0, n) == Scalar(other.velocity, n) && Scalar(r.1, n) == Scalar(self.velocity, n)
    ensures var r := BallBallBounce(self, selfMass, other, otherMass, sqrt);
      selfMass * Scalar(r.0, n) + otherMass * Scalar(r.1, n)
      == selfMass * Scalar(self.velocity, n) + otherMass * Scalar(other.velocity, n)
    ensures var r := BallBallBounce(self, selfMass, other, otherMass, sqrt);
      Product(selfMass, Product(Scalar(r.0, n), Scalar(r.0, n))) + Product(otherMass, Product(Scalar(r.1, n), Scalar(r.1, n)))
      == Product(selfMass, Product(Scalar(self.velocity, n), Scalar(self.velocity, n)))
         + Product(otherMass, Product(Scalar(other.velocity, n), Scalar(other.velocity, n)))
  {
    var dp := Minus(other.position, self.position);
    n := Unit(dp, sqrt);
    len := sqrt(SquareLength(dp));
    assert dp != Zero();
    UnitAlong(dp, sqrt);
    var e := Exchange(Scalar(self.velocity, n), selfMass, Scalar(other.velocity, n), otherMass);
    ExchangeKeepsEnergy(Scalar(self.velocity, n), selfMass, Scalar(other.velocity, n), otherMass);
    var r := BallBallBounce(self, selfMass, other, otherMass, sqrt);
    assert r == (Plus(Scale(n, e.0), Scale(Perp(n), Det(n, self.velocity))),
                 Plus(Scale(n, e.1), Scale(Perp(n), Det(n, other.velocity))));
    FrameCoordinates(n, e.0, Det(n, self.velocity));
    FrameCoordinates(n, e.1, Det(n, other.velocity));
    assert Scalar(r.0, n) == e.0 && Scalar(r.1, n) == e.1;
  }

  /** Vectors whose mass-weighted normal parts balance and whose tangential parts agree have equal momentum. */
  lemma MomentumFromFrame(n: Vec, r0: Vec, r1: Vec, v0: Vec, v1: Vec, m0: real, m1: real)
    requires SquareLength(n) == 1.0
    requires m0 * Scalar(r0, n) + m1 * Scalar(r1, n) == m0 * Scalar(v0, n) + m1 * Scalar(v1, n)
    requires Det(n, r0) == Det(n, v0) && Det(n, r1) == Det(n, v1)
    ensures Plus(Scale(r0, m0), Scale(r1, m1)) == Plus(Scale(v0, m0), Scale(v1, m1))
  {
    FrameLinear(n, r0, r1, m0, m1);
    FrameLinear(n, v0, v1, m0, m1);
    FrameDetermines(n, Plus(Scale(r0, m0), Scale(r1, m1)), Plus(Scale(v0, m0), Scale(v1, m1)));
  }

  /** Vectors whose normal parts keep the energy and whose tangential parts agree keep the energy. */
  lemma EnergyFromFrame(n: Vec, r0: Vec, r1: Vec, v0: Vec, v1: Vec, m0: real, m1: real)
    requires SquareLength(n) == 1.0
    requires Product(m0, Product(Scalar(r0, n), Scalar(r0, n))) + Product(m1, Product(Scalar(r1, n), Scalar(r1, n)))
      == Product(m0, Product(Scalar(v0, n), Scalar(v0, n))) + Product(m1, Product(Scalar(v1, n), Scalar(v1, n)))
    requires Det(n, r0) == Det(n, v0) && Det(n, r1) == Det(n, v1)
    ensures Product(m0, SquareLength(r0)) + Product(m1, SquareLength(r1))
      == Product(m0, SquareLength(v0)) + Product(m1, SquareLength(v1))
  {
    FrameLength(n, r0);
    FrameLength(n, r1);
    FrameLength(n, v0);
    FrameLength(n, v1);
    EnergySplit(m0, m1, Scalar(r0, n), Scalar(r1, n), Scalar(v0, n), Scalar(v1, n), Det(n, v0), Det(n, v1));
  }

  /** Kinetic energy splits into a normal part and a tangential part. */
  lemma EnergySplit(m1: real, m2: real, a1: real, a2: real, b1: real, b2: real, t1: real, t2: real)
    requires m1 * (a1 * a1) + m2 * (a2 * a2) == m1 * (b1 * b1) + m2 * (b2 * b2)
    ensures m1 * (a1 * a1 + t1 * t1) + m2 * (a2 * a2 + t2 * t2) == m1 * (b1 * b1 + t1 * t1) + m2 * (b2 * b2 + t2 * t2)
  {
  }

  /** With an exact square root, an approaching pair's bounce keeps the total momentum. */
  lemma BallBallBounceKeepsMomentum(self: Motion, selfMass: real, other: Motion, otherMass: real, sqrt: real -> real)
    requires selfMass + otherMass != 0.0
    requires IsSqrt(sqrt)
    requires Approaching(self, other)
    ensures var r := BallBallBounce(self, selfMass, other, otherMass, sqrt);
      Plus(Scale(r.0, selfMass), Scale(r.1, otherMass))
      == Plus(Scale(self.velocity, selfMass), Scale(other.velocity, otherMass))
  {
    var r := BallBallBounce(self, selfMass, other, otherMass, sqrt);
    var n, len := BallBallBounceFrame(self, selfMass, other, otherMass, sqrt);
    MomentumFromFrame(n, r.0, r.1, self.velocity, other.velocity, selfMass, otherMass);
  }

  /** With an exact square root, an approaching pair's bounce keeps the kinetic energy. */
  lemma BallBallBounceKeepsEnergy(self: Motion, selfMass: real, other: Motion, otherMass: real, sqrt: real -> real)
    requires selfMass + otherMass != 0.0
    requires IsSqrt(sqrt)
    requires Approaching(self, other)
    ensures var r := BallBallBounce(self, selfMass, other, otherMass, sqrt);
      Product(selfMass, SquareLength(r.0)) + Product(otherMass, SquareLength(r.1))
      == Product(selfMass, SquareLength(self.velocity)) + Product(otherMass, SquareLength(other.velocity))
  {
    var r := BallBallBounce(self, selfMass, other, otherMass, sqrt);
    var n, len := BallBallBounceFrame(self, selfMass, other, otherMass, sqrt);
    EnergyFromFrame(n, r.0, r.1, self.velocity, other.velocity, selfMass, otherMass);
  }

  /**
   With an exact square root, an approaching pair's bounce keeps each
   tangential component (determinant with the offset dp from self to
   other) and reverses the relative velocity along dp, so the pair
   separates; with equal masses the components along dp are swapped.
   */
  lemma BallBallBounceReflects(self: Motion, selfMass: real, other: Motion, otherMass: real, sqrt: real -> real)
    requires selfMass + otherMass != 0.0
    requires IsSqrt(sqrt)
    requires Approaching(self, other)
    ensures var r := BallBallBounce(self, selfMass, other, otherMass, sqrt);
      var dp := Minus(other.position, self.position);
      Det(dp, r.0) == Det(dp, self.velocity) && Det(dp, r.1) == Det(dp, other.velocity)
    ensures var r := BallBallBounce(self, selfMass, other, otherMass, sqrt);
      var dp := Minus(other.position, self.position);
      Scalar(dp, Minus(r.1, r.0)) == -Scalar(dp, Minus(other.velocity, self.velocity)) > 0.0
    ensures var r := BallBallBounce(self, selfMass, other, otherMass, sqrt);
      var dp := Minus(other.position, self.position);
      selfMass == otherMass ==> Scalar(dp, r.0) == Scalar(dp, other.velocity) && Scalar(dp, r.1) == Scalar(dp, self.velocity)
  {
    var r := BallBallBounce(self, selfMass, other, otherMass, sqrt);
    var n, len := BallBallBounceFrame(self, selfMass, other, otherMass, sqrt);
    AlongFrame(n, len, r.0, r.1, self.velocity, other.velocity);
  }

  /**
   Coordinates along and across dp = len n, for a pair (a0, a1) obtained
   from (b0, b1) by keeping the parts across n and reversing the relative
   part along n.
   */
  lemma AlongFrame(n: Vec, len: real, a0: Vec, a1: Vec, b0: Vec, b1: Vec)
    requires len > 0.0
    requires Det(n, a0) == Det(n, b0) && Det(n, a1) == Det(n, b1)
    requires Scalar(a0, n) - Scalar(a1, n) == Scalar(b1, n) - Scalar(b0, n)
    requires Scalar(Scale(n, len), Minus(b1, b0)) < 0.0
    ensures Det(Scale(n, len), a0) == Det(Scale(n, len), b0) && Det(Scale(n, len), a1) == Det(Scale(n, len), b1)
    ensures Scalar(Scale(n, len), Minus(a1, a0)) == -Scalar(Scale(n, len), Minus(b1, b0)) > 0.0
    ensures Scalar(a0, n) == Scalar(b1, n) && Scalar(a1, n) == Scalar(b0, n) ==>
      Scalar(Scale(n, len), a0) == Scalar(Scale(n, len), b1) && Scalar(Scale(n, len), a1) == Scalar(Scale(n, len), b0)
  {
    AlongMultiple(n, len, a0);
    AlongMultiple(n, len, a1);
    AlongMultiple(n, len, b0);
    AlongMultiple(n, len, b1);
    AlongMultiple(n, len, Minus(a1, a0));
    AlongMultiple(n, len, Minus(b1, b0));
    assert Scalar(Minus(a1, a0), n) == Scalar(a1, n) - Scalar(a0, n);
    assert Scalar(Minus(b1, b0), n) == Scalar(b1, n) - Scalar(b0, n);
    ScalarSymmetric(Scale(n, len), a0);
    ScalarSymmetric(Scale(n, len), a1);
    ScalarSymmetric(Scale(n, len), b0);
    ScalarSymmetric(Scale(n, len), b1);
  }

  /**
   Particle-vertex contact: when moving toward the vertex, the velocity
   component along the unit vector to the vertex is negated and the
   tangential one kept; otherwise nothing changes.
   */
  function VertexBounce(self: Motion, vertex: Vec, sqrt: real -> real): (v: Vec)
    ensures Scalar(Minus(vertex, self.position), self.velocity) <= 0.0 ==> v == self.velocity
  {
    var dp := Minus(vertex, self.position);
    if Scalar(dp, self.velocity) > 0.0 then
      var n := Unit(dp, sqrt);
      Plus(Scale(n, Scalar(self.velocity, Neg(n))), Scale(Perp(n), Det(n, self.velocity)))
    else self.velocity
  }

  /**
   With an exact square root, a bounce off a vertex negates the velocity
   component toward the vertex, keeps the tangential one and the speed,
   and leaves the particle moving away.
   */
  lemma VertexBounceReflects(self: Motion, vertex: Vec, sqrt: real -> real)
    requires IsSqrt(sqrt)
    requires Scalar(Minus(vertex, self.position), self.velocity) > 0.0
    ensures var v := VertexBounce(self, vertex, sqrt);
      var dp := Minus(vertex, self.position);
      Scalar(dp, v) == -Scalar(dp, self.velocity) < 0.0
      && Det(dp, v) == Det(dp, self.velocity)
      && SquareLength(v) == SquareLength(self.velocity)
  {
    var dp := Minus(vertex, self.position);
    var w := self.velocity;
    var v := VertexBounce(self, vertex, sqrt);
    var n := Unit(dp, sqrt);
    var len := sqrt(SquareLength(dp));
    assert dp != Zero();
    UnitAlong(dp, sqrt);
    assert Scalar(w, Neg(n)) == -Scalar(w, n);
    FlipAlong(n, len, v, w);
    ScalarSymmetric(dp, w);
  }

  /** Negating the part along a unit vector n negates the part along len n and keeps the part across and the length. */
  lemma FlipAlong(n: Vec, len: real, a: Vec, b: Vec)
    requires SquareLength(n) == 1.0
    requires a == Plus(Scale(n, -Scalar(b, n)), Scale(Perp(n), Det(n, b)))
    ensures Scalar(Scale(n, len), a) == -Scalar(Scale(n, len), b)
    ensures Det(Scale(n, len), a) == Det(Scale(n, len), b)
    ensures SquareLength(a) == SquareLength(b)
  {
    FrameCoordinates(n, -Scalar(b, n), Det(n, b));
    FlipAlongLength(n, a, b);
    AlongMultiple(n, len, a);
    AlongMultiple(n, len, b);
    ScalarSymmetric(Scale(n, len), a);
    ScalarSymmetric(Scale(n, len), b);
  }

  lemma FlipAlongLength(n: Vec, a: Vec, b: Vec)
    requires SquareLength(n) == 1.0
    requires Scalar(a, n) == -Scalar(b, n) && Det(n, a) == Det(n, b)
    ensures SquareLength(a) == SquareLength(b)
  {
    FrameLength(n, a);
    FrameLength(n, b);
  }

  /** Negating the part across a unit vector n negates the part across len n and keeps the part along and the length. */
  lemma FlipAcross(n: Vec, len: real, a: Vec, b: Vec)
    requires SquareLength(n) == 1.0
    requires a == Plus(Scale(n, Scalar(b, n)), Scale(Perp(n), -Det(n, b)))
    ensures Scalar(Scale(n, len), a) == Scalar(Scale(n, len), b)
    ensures Det(Scale(n, len), a) == -Det(Scale(n, len), b)
    ensures SquareLength(a) == SquareLength(b)
  {
    FrameCoordinates(n, Scalar(b, n), -Det(n, b));
    FlipAcrossLength(n, a, b);
    AlongMultiple(n, len, a);
    AlongMultiple(n, len, b);
    ScalarSymmetric(Scale(n, len), a);
    ScalarSymmetric(Scale(n, len), b);
  }

  lemma FlipAcrossLength(n: Vec, a: Vec, b: Vec)
    requires SquareLength(n) == 1.0
    requires Scalar(a, n) == Scalar(b, n) && Det(n, a) == -Det(n, b)
    ensures SquareLength(a) == SquareLength(b)
  {
    FrameLength(n, a);
    FrameLength(n, b);
  }


  /**
   Particle-segment contact: when moving toward the segment's line, the
   velocity component across the line is negated and the component along
   it kept; otherwise nothing changes.
   */
  function SegmentBounce(self: Motion, s: Segment, sqrt: real -> real): (v: Vec)
    ensures Product(Det(s.vect, VectTo(s, self.position)), Det(s.vect, self.velocity)) >= 0.0 ==> v == self.velocity
  {
    var w := s.vect;
    if Product(Det(w, VectTo(s, self.position)), Det(w, self.velocity)) < 0.0 then
      var u := Unit(w, sqrt);
      Plus(Scale(u, Scalar(u, self.velocity)), Scale(Vec(u.y, -u.x), Det(u, self.velocity)))
    else self.velocity
  }

  /**
   With an exact square root, a bounce off a segment keeps the component
   along the segment and the speed, negates the component across it, and
   leaves the particle moving away from the line.
   */
  lemma SegmentBounceReflects(self: Motion, s: Segment, sqrt: real -> real)
    requires IsSqrt(sqrt)
    requires Product(Det(s.vect, VectTo(s, self.position)), Det(s.vect, self.velocity)) < 0.0
    ensures var v := SegmentBounce(self, s, sqrt);
      Scalar(s.vect, v) == Scalar(s.vect, self.velocity)
      && Det(s.vect, v) == -Det(s.vect, self.velocity)
      && SquareLength(v) == SquareLength(self.velocity)
      && Product(Det(s.vect, VectTo(s, self.position)), Det(s.vect, v)) > 0.0
  {
    var w := s.vect;
    var x := self.velocity;
    var v := SegmentBounce(self, s, sqrt);
    var u := Unit(w, sqrt);
    var len := sqrt(SquareLength(w));
    assert w != Zero();
    UnitAlong(w, sqrt);
    ScalarSymmetric(u, x);
    assert Scale(Vec(u.y, -u.x), Det(u, x)) == Scale(Perp(u), -Det(u, x));
    FlipAcross(u, len, v, x);
    ProductNegNeg(Det(w, VectTo(s, self.position)), Det(w, v));
    assert Product(Det(w, VectTo(s, self.position)), Det(w, v)) == -Product(Det(w, VectTo(s, self.position)), Det(w, x));
  }

  /**
   Particle-piston and piston-piston contact: when the two approach along
   y, their y velocities are exchanged by mass; x velocities never change.
   */
  function AxialBounce(self: Motion, selfMass: real, other: Motion, otherMass: real): (r: (Vec, Vec))
    requires selfMass + otherMass != 0.0
    ensures r.0.x == self.velocity.x && r.1.x == other.velocity.x
    ensures Product(self.velocity.y - other.velocity.y, self.position.y - other.position.y) >= 0.0 ==>
      r == (self.velocity, other.velocity)
    ensures Product(self.velocity.y - other.velocity.y, self.position.y - other.position.y) < 0.0 ==>
      selfMass * r.0.y + otherMass * r.1.y == selfMass * self.velocity.y + otherMass * other.velocity.y
      && Product(r.0.y - r.1.y, self.position.y - other.position.y) > 0.0
      && (selfMass == otherMass ==> r.0.y == other.velocity.y && r.1.y == self.velocity.y)
  {
    var v1 := self.velocity.y;
    var v2 := other.velocity.y;
    var dy := self.position.y - other.position.y;
    if Product(v1 - v2, dy) < 0.0 then
      var e := Exchange(v1, selfMass, v2, otherMass);
      ProductNegNeg(v1 - v2, dy);
      assert Product(e.0 - e.1, dy) == -Product(v1 - v2, dy);
      (Vec(self.velocity.x, e.0), Vec(other.velocity.x, e.1))
    else (self.velocity, other.velocity)
  }
}

=== FILE: piston.dfy ===
/**
 A piston: a horizontal slab of some thickness that moves along y only.
 Its lower face is at `motion.position.y` and its upper face `thickness`
 higher; it is registered in the piston list of the row holding each
 face (twice in one row when both faces share it). This module holds its
 construction, the piston-piston bounce, free flight and the change of
 rows.
 */
module Pistons {
  import opened Geometry
  import opened Times
  import opened Physics
  import opened Colors
  import opened Configs
  import opened Events
  import opened Areas
  import Particles

  datatype Piston = Piston(motion: Motion, mass: real, thickness: real, color: Color, area1: int, area2: int)

  /** Row `k` of step `size` holds height `y`. */
  predicate InRow(y: real, k: int, size: real)
  {
    k as real * size <= y < (k + 1) as real * size
  }

  /** The row holding height `y`. */
  function RowOf(y: real, size: real): (k: int)
    requires size > 0.0
    ensures InRow(y, k, size)
  {
    FloorDivBounds(y, size);
    (y / size).Floor
  }

  /**
   A configured piston sits at x = 0 with a vertical velocity; it is
   registered in the row of its lower face and the row of its upper face.
   */
  function Create(config: PistonConfig, size: real): (p: Piston)
    requires size > 0.0
    ensures p.motion == Motion(Vec(0.0, config.position), Vec(0.0, config.speed))
    ensures p.mass == config.mass && p.thickness == config.thickness && p.color == config.color
  {
    Piston(Motion(Vec(0.0, config.position), Vec(0.0, config.speed)), config.mass, config.thickness,
      config.color, RowOf(config.position, size), RowOf(config.position + config.thickness, size))
  }

  /** A configured piston is registered in the rows holding its lower and its upper face. */
  lemma CreatedInRows(config: PistonConfig, size: real)
    requires size > 0.0
    ensures InRow(config.position, Create(config, size).area1, size)
    ensures InRow(config.position + config.thickness, Create(config, size).area2, size)
  {
  }

  /**
   A new piston in the grid: listed in front of the lists of its lower
   row, then of its upper row. A mobile not yet in any piston list ends
   up registered exactly in its two rows.
   */
  function Place(g: Grid, a: MobileId, config: PistonConfig, size: real): (r: (Piston, Grid))
    requires size > 0.0
    ensures r.0 == Create(config, size)
    ensures (forall j :: a !in PistonsAt(g, j)) ==> PistonRegistered(r.1, a, r.0.area1, r.0.area2)
    ensures r.1.balls == g.balls && r.1.vertices == g.vertices && r.1.segments == g.segments
  {
    var p := Create(config, size);
    RegisterPistonCounts(g, a, p.area1, p.area2);
    (p, RegisterPiston(g, a, p.area1, p.area2))
  }

  /** The thickness is positive exactly when the upper face row is at or above the lower face row. */
  lemma CreatedRowsOrdered(config: PistonConfig, size: real)
    requires size > 0.0 && config.thickness >= 0.0
    ensures Create(config, size).area1 <= Create(config, size).area2
  {
    var p := Create(config, size);
    CreatedInRows(config, size);
    if p.area2 < p.area1 {
      assert (p.area2 + 1) as real <= p.area1 as real;
      MulMonotone((p.area2 + 1) as real, p.area1 as real, size);
    }
  }

  /** A configured piston is moving only along y. */
  lemma CreatedMovesVertically(config: PistonConfig, size: real)
    requires size > 0.0
    ensures Create(config, size).motion.velocity.x == 0.0 && Create(config, size).motion.position.x == 0.0
  {
  }

  // ---------------------------------------------------------------------
  // Free flight

  /**
   `avance` for a piston: the same free flight as a particle, gravity on
   both axes; a never dt moves nothing. Only the motion changes.
   */
  function Advance(p: Piston, dt: Time, g: Vec): (r: Piston)
    ensures r == p.(motion := r.motion)
    ensures IsNever(dt) ==> r == p
    ensures !IsNever(dt) ==> r.motion == Fly(p.motion, g, Value(dt))
  {
    FlyLimits(p.motion, g, Value(dt));
    p.(motion := Fly(p.motion, g, Value(dt)))
  }

  /** Without horizontal gravity a vertical piston stays on the line x = 0. */
  lemma AdvanceStaysOnAxis(p: Piston, dt: Time, g: Vec)
    requires g.x == 0.0 && p.motion.position.x == 0.0 && p.motion.velocity.x == 0.0
    ensures Advance(p, dt, g).motion.position.x == 0.0 && Advance(p, dt, g).motion.velocity.x == 0.0
  {
    FlyComponents(p.motion, g, Value(dt));
  }

  // ---------------------------------------------------------------------
  // Piston-piston contact

  /** Two pistons approach along y. */
  predicate Approaching(self: Piston, other: Piston)
  {
    Product(self.motion.velocity.y - other.motion.velocity.y, self.motion.position.y - other.motion.position.y) < 0.0
  }

  /**
   Piston-piston contact: accepted exactly when the pistons approach
   along y; then their y velocities are exchanged by mass. Positions and
   every other field stay. A refused contact changes nothing (both are
   refreshed as they are).
   */
  function CollidePistons(self: Piston, other: Piston): (r: (Piston, Piston, bool))
    requires self.mass + other.mass != 0.0
    ensures r.2 <==> Approaching(self, other)
    ensures !r.2 ==> r.0 == self && r.1 == other
    ensures r.0 == self.(motion := r.0.motion) && r.1 == other.(motion := r.1.motion)
    ensures r.0.motion.position == self.motion.position && r.1.motion.position == other.motion.position
    ensures r.2 ==> (r.0.motion.velocity, r.1.motion.velocity) == AxialBounce(self.motion, self.mass, other.motion, other.mass)
  {
    if Approaching(self, other) then
      var v := AxialBounce(self.motion, self.mass, other.motion, other.mass);
      (self.(motion := self.motion.(velocity := v.0)), other.(motion := other.motion.(velocity := v.1)), true)
    else (self, other, false)
  }

  /**
   An accepted piston-piston contact keeps the total momentum and the
   kinetic energy along y and leaves the two pistons separating; equal
   masses swap their velocities.
   */
  lemma CollidePistonsIsElastic(self: Piston, other: Piston)
    requires self.mass + other.mass != 0.0 && Approaching(self, other)
    ensures var r := CollidePistons(self, other);
      self.mass * r.0.motion.velocity.y + other.mass * r.1.motion.velocity.y
      == self.mass * self.motion.velocity.y + other.mass * other.motion.velocity.y
    ensures var r := CollidePistons(self, other);
      Product(self.mass, Product(r.0.motion.velocity.y, r.0.motion.velocity.y))
      + Product(other.mass, Product(r.1.motion.velocity.y, r.1.motion.velocity.y))
      == Product(self.mass, Product(self.motion.velocity.y, self.motion.velocity.y))
      + Product(other.mass, Product(other.motion.velocity.y, other.motion.velocity.y))
    ensures var r := CollidePistons(self, other);
      !Approaching(r.0, r.1)
    ensures self.mass == other.mass ==> var r := CollidePistons(self, other);
      r.0.motion.velocity.y == other.motion.velocity.y && r.1.motion.velocity.y == self.motion.velocity.y
  {
    var v1, v2 := self.motion.velocity.y, other.motion.velocity.y;
    var e := Exchange(v1, self.mass, v2, other.mass);
    assert AxialBounce(self.motion, self.mass, other.motion, other.mass).0.y == e.0;
    assert AxialBounce(self.motion, self.mass, other.motion, other.mass).1.y == e.1;
    ExchangeKeepsEnergy(v1, self.mass, v2, other.mass);
  }

  // ---------------------------------------------------------------------
  // Change of rows

  /**
   The rows a piston moves to when one of its faces reaches a row line:
   each face's height, in rows, is pushed half a row in the direction of
   motion and rounded down, so the face on the line moves to the row
   beyond it and the other face keeps its row.
   */
  function NextRows(p: Piston, size: real): (r: (int, int))
    requires size > 0.0
    ensures r.0 == Particles.Toward(p.motion.position.y / size, p.motion.velocity.y)
    ensures r.1 == Particles.Toward((p.motion.position.y + p.thickness) / size, p.motion.velocity.y)
  {
    (Particles.Toward(p.motion.position.y / size, p.motion.velocity.y),
     Particles.Toward((p.motion.position.y + p.thickness) / size, p.motion.velocity.y))
  }

  /**
   A face on the row line y = k size moves to row k going up (or
   standing) and to row k - 1 going down.
   */
  lemma FaceEntersRowAhead(y: real, v: real, size: real, k: int)
    requires size > 0.0 && y == k as real * size
    ensures Particles.Toward(y / size, v) == if v >= 0.0 then k else k - 1
  {
    assert y / size == k as real;
    Particles.OnGridLine(k, v);
  }

  /**
   A face strictly inside row k, at least half a row from its bottom when
   going up and at most half a row above it when going down, keeps row k.
   */
  lemma FaceKeepsRow(y: real, v: real, size: real, k: int)
    requires size > 0.0
    requires v >= 0.0 ==> k as real * size <= y < (k as real + 0.5) * size
    requires v < 0.0 ==> (k as real + 0.5) * size <= y < (k + 1) as real * size
    ensures Particles.Toward(y / size, v) == k
  {
    var u := y / size;
    if v >= 0.0 {
      ScaledOrder(y, size, k as real);
      ScaledOrder(y, size, k as real + 0.5);
      Particles.FloorOfShifted(k, u + 0.5 - k as real);
    } else {
      ScaledOrder(y, size, k as real + 0.5);
      ScaledOrder(y, size, (k + 1) as real);
      Particles.FloorOfShifted(k, u - 0.5 - k as real);
    }
  }

  /** Comparing a height with c rows is comparing its height in rows with c. */
  lemma ScaledOrder(y: real, size: real, c: real)
    requires size > 0.0
    ensures c * size <= y <==> c <= y / size
    ensures y < c * size <==> y / size < c
  {
    var u := y / size;
    assert u * size == y;
    if c <= u {
      MulMonotone(c, u, size);
    } else {
      MulStrict(u, c, size);
    }
  }

  /**
   `changeArea` as the source writes it: the two row lists are bound
   before the rows are recomputed, so the piston is erased from the lists
   of its old rows and put back in front of those same lists, while its
   row fields take the new rows.
   */
  function ChangeAreaAsWritten(g: Grid, a: MobileId, p: Piston, size: real): (r: (Piston, Grid))
    requires size > 0.0
    ensures r.0 == p.(area1 := NextRows(p, size).0, area2 := NextRows(p, size).1)
    ensures r.1.balls == g.balls && r.1.vertices == g.vertices && r.1.segments == g.segments
  {
    var rows := NextRows(p, size);
    (p.(area1 := rows.0, area2 := rows.1), RegisterPiston(UnregisterPiston(g, a, p.area1, p.area2), a, p.area1, p.area2))
  }

  /**
   As written, a registered piston stays registered in its old rows
   whatever its new rows are.
   */
  lemma AsWrittenKeepsOldRows(g: Grid, a: MobileId, p: Piston, size: real)
    requires size > 0.0 && PistonRegistered(g, a, p.area1, p.area2)
    ensures PistonRegistered(ChangeAreaAsWritten(g, a, p, size).1, a, p.area1, p.area2)
  {
    var e := UnregisterPiston(g, a, p.area1, p.area2);
    UnregisterPistonCounts(g, a, p.area1, p.area2);
    RegisterPistonCounts(e, a, p.area1, p.area2);
    forall j: int
      ensures multiset(PistonsAt(e, j))[a] == 0
    {
      assert a !in PistonsAt(e, j);
    }
  }

  /**
   A piston 0.5 thick with its lower face reaching the row line y = 1
   upward (rows 0 and 1, grid step 1) takes rows 1 and 2, but as written
   it is still listed in row 0 and not in row 2: a particle in row 2 does
   not see it.
   */
  lemma AsWrittenMissesNewRow(g: Grid, a: MobileId)
    requires PistonRegistered(g, a, 0, 1)
    ensures var p := Piston(Motion(Vec(0.0, 1.0), Vec(0.0, 1.0)), 1.0, 0.5, Colors.Color(0, 0, 0), 0, 1);
      var r := ChangeAreaAsWritten(g, a, p, 1.0);
      r.0.area1 == 1 && r.0.area2 == 2
      && a in PistonsAt(r.1, 0) && a !in PistonsAt(r.1, 2)
  {
    var p := Piston(Motion(Vec(0.0, 1.0), Vec(0.0, 1.0)), 1.0, 0.5, Colors.Color(0, 0, 0), 0, 1);
    var r := ChangeAreaAsWritten(g, a, p, 1.0);
    FaceEntersRowAhead(1.0, 1.0, 1.0, 1);
    assert (1.5 / 1.0 + 0.5).Floor == 2;
    AsWrittenKeepsOldRows(g, a, p, 1.0);
    assert multiset(PistonsAt(r.1, 0))[a] == 1;
    assert multiset(PistonsAt(r.1, 2))[a] == 0;
  }

  /**
   `changeArea` as intended: the piston is erased from the lists of its
   old rows and put in front of the lists of its new rows.
   */
  function ChangeArea(g: Grid, a: MobileId, p: Piston, size: real): (r: (Piston, Grid))
    requires size > 0.0
    ensures r.0 == p.(area1 := NextRows(p, size).0, area2 := NextRows(p, size).1)
    ensures r.1.balls == g.balls && r.1.vertices == g.vertices && r.1.segments == g.segments
  {
    var rows := NextRows(p, size);
    (p.(area1 := rows.0, area2 := rows.1), RegisterPiston(UnregisterPiston(g, a, p.area1, p.area2), a, rows.0, rows.1))
  }

  /**
   The corrected change keeps the index exact: a piston registered in
   its old rows ends up registered in its new rows and nowhere else, and
   every other mobile is listed where it was, as often as it was.
   */
  lemma ChangeAreaKeepsRegistration(g: Grid, a: MobileId, p: Piston, size: real)
    requires size > 0.0 && PistonRegistered(g, a, p.area1, p.area2)
    ensures var r := ChangeArea(g, a, p, size);
      PistonRegistered(r.1, a, r.0.area1, r.0.area2)
    ensures var r := ChangeArea(g, a, p, size);
      forall b, j :: b != a ==> multiset(PistonsAt(r.1, j))[b] == multiset(PistonsAt(g, j))[b]
  {
    var rows := NextRows(p, size);
    var e := UnregisterPiston(g, a, p.area1, p.area2);
    UnregisterPistonCounts(g, a, p.area1, p.area2);
    RegisterPistonCounts(e, a, rows.0, rows.1);
    forall j: int
      ensures multiset(PistonsAt(e, j))[a] == 0
    {
      assert a !in PistonsAt(e, j);
    }
  }
}

=== FILE: polygon.dfy ===
/**
 Polygons given by their vertex list, closed by an edge from the last
 vertex back to the first: even-odd point containment, circle/polygon
 intersection, bounding coordinates and the shoelace surface.
 */
module Polygons {
  import opened Geometry
  import opened Segments

  datatype Polygon = Polygon(vertices: seq<Vec>)

  function Size(p: Polygon): (n: nat)
    ensures n == |p.vertices|
  {
    |p.vertices|
  }

  /** The polygon with no vertex. */
  function Clear(p: Polygon): (r: Polygon)
    ensures Size(r) == 0
  {
    Polygon([])
  }

  /** Vertex i, unchanged. */
  function Point(p: Polygon, i: nat): (v: Vec)
    requires i < Size(p)
    ensures v in p.vertices
  {
    p.vertices[i]
  }

  /** Index of the vertex after vertex i, wrapping around to 0 after the last one. */
  function Next(n: nat, i: nat): (j: nat)
    requires i < n
    ensures j < n
    ensures j == if i + 1 == n then 0 else i + 1
  {
    (i + 1) % n
  }

  /** Edge i runs from vertex i to the next vertex. */
  function Edge(p: Polygon, i: nat): (s: Segment)
    requires i < Size(p)
    ensures s.start == p.vertices[i]
    ensures End(s) == p.vertices[Next(Size(p), i)]
  {
    Make(p.vertices[i], p.vertices[Next(Size(p), i)])
  }

  /** The last edge closes the polygon: it ends at the first vertex. */
  lemma LastEdgeCloses(p: Polygon)
    requires Size(p) > 0
    ensures End(Edge(p, Size(p) - 1)) == p.vertices[0]
    ensures Size(p) > 1 ==> forall i :: 0 <= i < Size(p) - 1 ==> End(Edge(p, i)) == p.vertices[i + 1]
  {
  }

  // ---------------------------------------------------------------------------
  // Even-odd containment

  /** The edge a -> b straddles the horizontal line through pt, with half-open y-range. */
  predicate Straddles(a: Vec, b: Vec, pt: Vec)
  {
    (a.y <= pt.y && b.y > pt.y) || (a.y > pt.y && b.y <= pt.y)
  }

  /**
   The edge a -> b straddles the line through pt and crosses it strictly left of pt.
   The straddle test is evaluated first, so the inverse slope never divides by zero.
   */
  predicate Crosses(a: Vec, b: Vec, pt: Vec)
  {
    Straddles(a, b, pt) && a.x + (pt.y - a.y) * ((b.x - a.x) / (b.y - a.y)) < pt.x
  }

  /** Number of the edges 0 .. k-1 that cross the ray going left from pt. */
  function CrossCount(vs: seq<Vec>, pt: Vec, k: nat): (c: nat)
    requires k <= |vs|
    ensures c <= k
    ensures (forall i :: 0 <= i < k ==> !Straddles(vs[i], vs[Next(|vs|, i)], pt)) ==> c == 0
  {
    if k == 0 then 0
    else CrossCount(vs, pt, k - 1) + (if Crosses(vs[k - 1], vs[Next(|vs|, k - 1)], pt) then 1 else 0)
  }

  /** The even-odd rule: the empty polygon contains everything, otherwise an odd crossing count. */
  predicate Contains(p: Polygon, pt: Vec)
  {
    Size(p) == 0 || CrossCount(p.vertices, pt, Size(p)) % 2 == 1
  }

  /** Point-in-polygon test: the result flips once per crossing edge. */
  method Inside(p: Polygon, pt: Vec) returns (r: bool)
    ensures r == Contains(p, pt)
  {
    var vs := p.vertices;
    r := |vs| == 0;
    var i := 0;
    while i < |vs|
      invariant 0 <= i <= |vs|
      invariant r == (|vs| == 0 || CrossCount(vs, pt, i) % 2 == 1)
    {
      var j := Next(|vs|, i);
      if Crosses(vs[i], vs[j], pt) {
        r := !r;
      }
      i := i + 1;
    }
  }

  // ---------------------------------------------------------------------------
  // Bounds

  /** Smallest vertex abscissa. */
  function Left(vs: seq<Vec>): (r: real)
    requires |vs| > 0
    ensures forall i :: 0 <= i < |vs| ==> r <= vs[i].x
    ensures exists i :: 0 <= i < |vs| && r == vs[i].x
  {
    if |vs| == 1 then vs[0].x
    else
      var m := Left(vs[..|vs| - 1]);
      assert forall i :: 0 <= i < |vs| - 1 ==> vs[..|vs| - 1][i] == vs[i];
      if vs[|vs| - 1].x < m then vs[|vs| - 1].x else m
  }

  /** Smallest vertex ordinate. */
  function Top(vs: seq<Vec>): (r: real)
    requires |vs| > 0
    ensures forall i :: 0 <= i < |vs| ==> r <= vs[i].y
    ensures exists i :: 0 <= i < |vs| && r == vs[i].y
  {
    if |vs| == 1 then vs[0].y
    else
      var m := Top(vs[..|vs| - 1]);
      assert forall i :: 0 <= i < |vs| - 1 ==> vs[..|vs| - 1][i] == vs[i];
      if vs[|vs| - 1].y < m then vs[|vs| - 1].y else m
  }

  /** Largest vertex abscissa. */
  function Right(vs: seq<Vec>): (r: real)
    requires |vs| > 0
    ensures forall i :: 0 <= i < |vs| ==> vs[i].x <= r
    ensures exists i :: 0 <= i < |vs| && r == vs[i].x
  {
    if |vs| == 1 then vs[0].x
    else
      var m := Right(vs[..|vs| - 1]);
      assert forall i :: 0 <= i < |vs| - 1 ==> vs[..|vs| - 1][i] == vs[i];
      if vs[|vs| - 1].x > m then vs[|vs| - 1].x else m
  }

  /** Largest vertex ordinate. */
  function Bottom(vs: seq<Vec>): (r: real)
    requires |vs| > 0
    ensures forall i :: 0 <= i < |vs| ==> vs[i].y <= r
    ensures exists i :: 0 <= i < |vs| && r == vs[i].y
  {
    if |vs| == 1 then vs[0].y
    else
      var m := Bottom(vs[..|vs| - 1]);
      assert forall i :: 0 <= i < |vs| - 1 ==> vs[..|vs| - 1][i] == vs[i];
      if vs[|vs| - 1].y > m then vs[|vs| - 1].y else m
  }

  /** The bounds enclose every vertex and are ordered. */
  lemma BoundsOrdered(vs: seq<Vec>)
    requires |vs| > 0
    ensures Left(vs) <= Right(vs) && Top(vs) <= Bottom(vs)
  {
    assert Left(vs) <= vs[0].x <= Right(vs);
    assert Top(vs) <= vs[0].y <= Bottom(vs);
  }

  /** A point above the topmost vertex, or at or below the bottommost one, is outside. */
  lemma OutsideVerticalBounds(p: Polygon, pt: Vec)
    requires Size(p) > 0
    requires pt.y < Top(p.vertices) || pt.y >= Bottom(p.vertices)
    ensures !Contains(p, pt)
  {
    var vs := p.vertices;
    forall i | 0 <= i < |vs|
      ensures !Straddles(vs[i], vs[Next(|vs|, i)], pt)
    {
      var j := Next(|vs|, i);
      assert Top(vs) <= vs[i].y <= Bottom(vs);
      assert Top(vs) <= vs[j].y <= Bottom(vs);
    }
  }

  // ---------------------------------------------------------------------------
  // Circle intersection

  /**
   The circle (c, r) touches edge a -> b: the centre projects onto the edge within
   distance r of its line, or lies within r of the vertex a. The source compares
   |det| <= r * |edge| and |c - a| <= r; over the reals these are the square-root-free
   conditions below; a zero-length edge (a == b) passes the first test for every radius,
   since both sides of |det| <= r * |edge| are then 0.
   */
  predicate EdgeTouches(a: Vec, b: Vec, c: Vec, r: real)
  {
    var edge := Minus(b, a);
    var v := Minus(c, a);
    var d := Det(edge, v);
    ((a == b || (r >= 0.0 && Product(d, d) <= Product(Product(r, r), SquareLength(edge))))
      && 0.0 <= Scalar(edge, v) <= SquareLength(edge))
    || (r >= 0.0 && SquareLength(v) <= Product(r, r))
  }

  /** Edge i of the vertex list touches the circle (c, r). */
  predicate TouchesEdge(vs: seq<Vec>, i: nat, c: Vec, r: real)
    requires i < |vs|
  {
    EdgeTouches(vs[i], vs[Next(|vs|, i)], c, r)
  }

  /** Whether a circle of centre c and radius r meets some edge or vertex. */
  method Intersect(p: Polygon, c: Vec, r: real) returns (b: bool)
    ensures b <==> exists i :: 0 <= i < Size(p) && TouchesEdge(p.vertices, i, c, r)
  {
    var vs := p.vertices;
    b := false;
    var i := 0;
    while i < |vs|
      invariant 0 <= i <= |vs|
      invariant !b
      invariant forall k :: 0 <= k < i ==> !TouchesEdge(vs, k, c, r)
    {
      if TouchesEdge(vs, i, c, r) {
        b := true;
        return;
      }
      i := i + 1;
    }
  }

  /** A circle whose centre is within its radius of some vertex meets the polygon. */
  lemma VertexInsideCircleIntersects(p: Polygon, c: Vec, r: real, i: nat)
    requires i < Size(p) && r >= 0.0
    requires SquareLength(Minus(c, p.vertices[i])) <= Product(r, r)
    ensures TouchesEdge(p.vertices, i, c, r)
  {
  }

  // ---------------------------------------------------------------------------
  // Surface

  /** Signed trapezoid under edge a -> b: (a.x + b.x)(b.y - a.y) / 2. */
  function Trapezoid(a: Vec, b: Vec): real
  {
    (a.x + b.x) * (b.y - a.y) / 2.0
  }

  /** Sum of the trapezoids of the open chain vs[0] -> ... -> vs[k-1]. */
  function ChainSum(vs: seq<Vec>, k: nat): real
    requires 1 <= k <= |vs|
  {
    if k == 1 then 0.0 else ChainSum(vs, k - 1) + Trapezoid(vs[k - 2], vs[k - 1])
  }

  /** Shoelace surface: the absolute value of the closing trapezoid plus the chain. */
  function Surface(p: Polygon): (s: real)
    requires Size(p) > 0
    ensures s >= 0.0
    ensures Size(p) <= 2 ==> s == 0.0
  {
    var vs := p.vertices;
    var n := |vs|;
    TrapezoidReverse(vs[0], vs[n - 1]);
    assert n == 2 ==> ChainSum(vs, n) == Trapezoid(vs[0], vs[1]);
    var signed := Trapezoid(vs[n - 1], vs[0]) + ChainSum(vs, n);
    if signed < 0.0 then -signed else signed
  }

  /** Reversing an edge negates its trapezoid; a single point has none. */
  lemma TrapezoidReverse(a: Vec, b: Vec)
    ensures Trapezoid(b, a) == -Trapezoid(a, b)
    ensures Trapezoid(a, a) == 0.0
  {
    assert (b.x + a.x) * (a.y - b.y) == -((a.x + b.x) * (b.y - a.y));
  }

  /** Sum of the determinants det(vs[i-1], vs[i]) along the open chain of length k. */
  function DetChain(vs: seq<Vec>, k: nat): real
    requires 1 <= k <= |vs|
  {
    if k == 1 then 0.0 else DetChain(vs, k - 1) + Det(vs[k - 2], vs[k - 1])
  }

  /** A trapezoid is half a determinant plus a telescoping term. */
  lemma TrapezoidSplit(a: Vec, b: Vec)
    ensures Trapezoid(a, b) == Det(a, b) / 2.0 + (Product(b.x, b.y) - Product(a.x, a.y)) / 2.0
  {
    assert (a.x + b.x) * (b.y - a.y) == a.x * b.y - a.y * b.x + b.x * b.y - a.x * a.y;
  }

  lemma {:induction false} ChainSumTelescopes(vs: seq<Vec>, k: nat)
    requires 1 <= k <= |vs|
    ensures ChainSum(vs, k) == DetChain(vs, k) / 2.0
      + (Product(vs[k - 1].x, vs[k - 1].y) - Product(vs[0].x, vs[0].y)) / 2.0
  {
    if k > 1 {
      ChainSumTelescopes(vs, k - 1);
      TrapezoidSplit(vs[k - 2], vs[k - 1]);
    }
  }

  /** The shoelace surface is half the absolute cyclic sum of vertex determinants. */
  lemma SurfaceIsHalfDeterminantSum(p: Polygon)
    requires Size(p) > 0
    ensures var vs := p.vertices;
      var total := Det(vs[|vs| - 1], vs[0]) + DetChain(vs, |vs|);
      Surface(p) == (if total < 0.0 then -total else total) / 2.0
  {
    var vs := p.vertices;
    ChainSumTelescopes(vs, |vs|);
    TrapezoidSplit(vs[|vs| - 1], vs[0]);
  }
}

=== FILE: populations.dfy ===
/**
 Populations and the particles' moves between them. A population is an
 ordered list of particle ids and a colour. A particle belongs to the
 list of its population; changing population moves it to the end of the
 new list, takes the new colour, erases its pending mutation timer and
 arms the timer of its new population. Mutation timers are queue
 entries of the prediction graph that no mobile tracks.
 */
module Populations {
  import opened Times
  import Colors
  import opened Events
  import opened Configs
  import opened Wrappers
  import opened Links
  import opened Reactions
  import opened Particles

  datatype Population = Population(members: seq<MobileId>, color: Colors.Color)

  /** The number of particles over all populations. */
  function Total(pops: seq<Population>): nat
  {
    if |pops| == 0 then 0 else Total(pops[..|pops| - 1]) + |pops[|pops| - 1].members|
  }

  /** Replacing one population changes the total by the difference of sizes. */
  lemma {:induction false} TotalUpdate(pops: seq<Population>, k: nat, x: Population)
    requires k < |pops|
    ensures Total(pops[k := x]) == Total(pops) - |pops[k].members| + |x.members|
    decreases |pops|
  {
    var n := |pops| - 1;
    if k < n {
      assert pops[k := x][..n] == pops[..n][k := x];
      TotalUpdate(pops[..n], k, x);
    } else {
      assert pops[k := x][..n] == pops[..n];
    }
  }

  /** The list without `a`. */
  function Remove(s: seq<MobileId>, a: MobileId): (r: seq<MobileId>)
    ensures a !in r
    ensures multiset(r) == multiset(s)[a := 0]
    decreases |s|
  {
    if |s| == 0 then []
    else
      assert s == [s[0]] + s[1..];
      if s[0] == a then Remove(s[1..], a) else [s[0]] + Remove(s[1..], a)
  }

  /** `a` is a member of population k and of no other, exactly once. */
  predicate Placed(pops: seq<Population>, a: MobileId, k: nat)
  {
    k < |pops|
    && multiset(pops[k].members)[a] == 1
    && forall j :: 0 <= j < |pops| && j != k ==> a !in pops[j].members
  }

  /** Every rule names existing populations. */
  predicate MutationsFit(rules: seq<MutationConfig>, n: nat)
  {
    forall k :: 0 <= k < |rules| ==> rules[k].pop2 < n
  }

  predicate ReactionsFit(rules: seq<ReactionConfig>, n: nat)
  {
    forall k :: 0 <= k < |rules| ==> rules[k].dest1 < n && rules[k].dest2 < n
  }

  /** The particle's timer, if any, is a queued mutation of that particle. */
  predicate TimerOk(g: Graph, a: MobileId, p: Particle)
  {
    p.timer.Some? ==> p.timer.value in g.queue && g.queue[p.timer.value].event == Mutation(a)
  }

  /** The handle a timer may hold does not name a collision entry. */
  predicate TimerIsNotHit(g: Graph, p: Particle)
  {
    p.timer.Some? && p.timer.value in g.queue ==> !g.queue[p.timer.value].event.Hit?
  }

  /**
   `setPopulation`: the particle takes `population` and loses its timer
   handle; if the first mutation rule of that population has a positive
   delay, a mutation of the particle is queued at now + delay and the
   particle keeps its handle. Nothing else in the queue or the graph
   changes.
   */
  function SetPopulation(p: Particle, a: MobileId, population: nat, g: Graph,
                         rules: seq<MutationConfig>, now: Time, draw: real): (r: (Particle, Graph))
    requires Valid(g)
    ensures Valid(r.1) && TimerOk(r.1, a, r.0)
    ensures r.0 == p.(population := population, timer := r.0.timer)
    ensures r.0.timer.Some? <==> var d := MutationDelay(rules, population, draw); d.Some? && d.value > 0.0
    ensures r.0.timer.Some? ==> r.0.timer.value !in g.queue && r.1.queue == g.queue[r.0.timer.value := r.1.queue[r.0.timer.value]]
    ensures r.0.timer.Some? ==> r.1.queue[r.0.timer.value].time == Add(now, FromReal(MutationDelay(rules, population, draw).value))
    ensures r.0.timer.None? ==> r.1 == g
    ensures r.1.nodes == g.nodes && r.1.target == g.target && r.1.history == g.history
  {
    match MutationDelay(rules, population, draw)
    case Some(delay) =>
      if delay > 0.0 then
        var e := Entry(Add(now, FromReal(delay)), Mutation(a));
        (p.(population := population, timer := Some(g.nextEvent)), Schedule(g, e))
      else (p.(population := population, timer := None), g)
    case None => (p.(population := population, timer := None), g)
  }

  /**
   `swap`: moving to the particle's own population does nothing.
   Otherwise the particle leaves its list for the end of the new one and
   takes the new population's colour; with `erase` its queued timer is
   erased; then `SetPopulation` arms the new timer.
   */
  function Swap(p: Particle, a: MobileId, population: nat, pops: seq<Population>, g: Graph,
                rules: seq<MutationConfig>, now: Time, draw: real, erase: bool): (r: (Particle, seq<Population>, Graph))
    requires Valid(g) && TimerIsNotHit(g, p)
    requires p.population < |pops| && population < |pops|
    ensures Valid(r.2) && |r.1| == |pops|
    ensures population == p.population ==> r == (p, pops, g)
    ensures population != p.population ==> TimerOk(r.2, a, r.0) && r.0.color == pops[population].color
    ensures r.0 == p.(population := population, color := r.0.color, timer := r.0.timer)
    ensures population != p.population ==> r.1 == Move(pops, a, p.population, population)
    ensures r.2.nodes == g.nodes && r.2.target == g.target && r.2.history == g.history
    ensures TimerOk(g, a, p) ==> TimersOnly(g, r.2, now)
  {
    if population == p.population then (p, pops, g)
    else
      var g1 := if erase && p.timer.Some? then Cancel(g, p.timer.value) else g;
      var armed := SetPopulation(p.(color := pops[population].color), a, population, g1, rules, now, draw);
      ArmingIsLater(p.(color := pops[population].color), a, population, g1, rules, now, draw);
      (armed.0, Move(pops, a, p.population, population), armed.1)
  }

  /**
   From `g` to `r` the queue only loses mutation timers and gains
   mutation timers under fresh ids, after `now` (strictly, when now is
   finite); every other entry is as it was.
   */
  ghost predicate TimersOnly(g: Graph, r: Graph, now: Time)
  {
    && g.nextEvent <= r.nextEvent
    && (forall h :: h in g.queue && h in r.queue ==> r.queue[h] == g.queue[h])
    && (forall h :: h in g.queue && h !in r.queue ==> g.queue[h].event.Mutation?)
    && (forall h :: h in r.queue && h !in g.queue ==>
          g.nextEvent <= h && r.queue[h].event.Mutation? &&
          LessEq(now, r.queue[h].time) && (!IsNever(now) ==> Less(now, r.queue[h].time)))
  }

  lemma TimersOnlyCompose(g: Graph, m: Graph, r: Graph, now: Time)
    requires Fresh(g) && TimersOnly(g, m, now) && TimersOnly(m, r, now)
    ensures TimersOnly(g, r, now)
  {
  }

  /** `SetPopulation` only arms a mutation timer of the particle, after a positive delay. */
  lemma ArmingIsLater(p: Particle, a: MobileId, population: nat, g: Graph, rules: seq<MutationConfig>, now: Time, draw: real)
    requires Valid(g)
    ensures TimersOnly(g, SetPopulation(p, a, population, g, rules, now, draw).1, now)
  {
    var d := MutationDelay(rules, population, draw);
    if d.Some? && d.value > 0.0 && !IsNever(now) {
      AddIsMonotone(now, FromReal(d.value));
    }
  }

  /** The lists after particle `a` leaves population `from` for the end of population `to`. */
  function Move(pops: seq<Population>, a: MobileId, from: nat, to: nat): (r: seq<Population>)
    requires from < |pops| && to < |pops|
    ensures |r| == |pops|
    ensures forall j :: 0 <= j < |pops| ==> r[j].color == pops[j].color
  {
    var left := pops[from := pops[from].(members := Remove(pops[from].members, a))];
    left[to := left[to].(members := left[to].members + [a])]
  }

  /** Moving a placed particle places it in the destination, exactly once. */
  lemma MovePlaces(pops: seq<Population>, a: MobileId, from: nat, to: nat)
    requires from < |pops| && to < |pops| && from != to
    requires Placed(pops, a, from)
    ensures Placed(Move(pops, a, from, to), a, to)
  {
    var left := pops[from := pops[from].(members := Remove(pops[from].members, a))];
    assert a !in left[to].members;
    assert Move(pops, a, from, to)[to].members == left[to].members + [a];
  }

  /** Moving a placed particle keeps the number of particles. */
  lemma MoveKeepsTotal(pops: seq<Population>, a: MobileId, from: nat, to: nat)
    requires from < |pops| && to < |pops| && from != to
    requires Placed(pops, a, from)
    ensures Total(Move(pops, a, from, to)) == Total(pops)
  {
    var was := pops[from];
    var fewer := was.(members := Remove(was.members, a));
    var left := pops[from := fewer];
    assert |Remove(was.members, a)| == |was.members| - 1 by {
      assert |multiset(Remove(was.members, a))| == |multiset(was.members)| - 1;
    }
    TotalUpdate(pops, from, fewer);
    TotalUpdate(left, to, left[to].(members := left[to].members + [a]));
  }

  /** Moving a particle leaves every other particle's memberships as they were. */
  lemma MoveKeepsOthers(pops: seq<Population>, a: MobileId, from: nat, to: nat, j: nat, b: MobileId)
    requires from < |pops| && to < |pops| && from != to
    requires j < |pops| && b != a
    ensures multiset(Move(pops, a, from, to)[j].members)[b] == multiset(pops[j].members)[b]
  {
  }

  /**
   A swap keeps the particle count, moves the particle's single
   membership from its old population to the new one, and leaves every
   other particle's memberships as they were.
   */
  lemma SwapMovesMembership(pops: seq<Population>, r: seq<Population>, a: MobileId, from: nat, to: nat)
    requires from < |pops| && to < |pops|
    requires Placed(pops, a, from)
    requires r == (if from == to then pops else Move(pops, a, from, to))
    ensures Placed(r, a, to) && Total(r) == Total(pops)
    ensures forall j, b :: 0 <= j < |pops| && b != a ==> multiset(r[j].members)[b] == multiset(pops[j].members)[b]
  {
    if from != to {
      MovePlaces(pops, a, from, to);
      MoveKeepsTotal(pops, a, from, to);
      forall j, b | 0 <= j < |pops| && b != a
        ensures multiset(r[j].members)[b] == multiset(pops[j].members)[b]
      {
        MoveKeepsOthers(pops, a, from, to, j, b);
      }
    }
  }

  /** With `erase`, a real swap removes the particle's former timer from the queue. */
  lemma SwapErasesTimer(p: Particle, a: MobileId, population: nat, pops: seq<Population>, g: Graph,
                        rules: seq<MutationConfig>, now: Time, draw: real)
    requires Valid(g) && TimerIsNotHit(g, p)
    requires p.population < |pops| && population < |pops|
    requires population != p.population && p.timer.Some? && p.timer.value in g.queue
    ensures p.timer.value !in Swap(p, a, population, pops, g, rules, now, draw, true).2.queue
  {
  }

  /**
   `changePopulation`: the first mutation rule of the particle's
   population says where it goes, and the particle swaps there, erasing
   its timer. Without a rule nothing happens.
   */
  function ChangePopulation(p: Particle, a: MobileId, pops: seq<Population>, g: Graph,
                            rules: seq<MutationConfig>, now: Time, draw: real): (r: (Particle, seq<Population>, Graph))
    requires Valid(g) && TimerIsNotHit(g, p)
    requires p.population < |pops| && MutationsFit(rules, |pops|)
    ensures Valid(r.2) && |r.1| == |pops|
    ensures MutationTarget(rules, p.population).None? ==> r == (p, pops, g)
    ensures MutationTarget(rules, p.population).Some? ==> r.0.population == MutationTarget(rules, p.population).value
    ensures r.2.nodes == g.nodes && r.2.target == g.target && r.2.history == g.history
    ensures TimerOk(g, a, p) ==> TimersOnly(g, r.2, now)
  {
    match MutationTarget(rules, p.population)
    case None => (p, pops, g)
    case Some(target) => Swap(p, a, target, pops, g, rules, now, draw, true)
  }

  /**
   A mutation rule whose destination is its own source changes nothing
   when its timer fires: the swap is a no-op, so the timer is not erased
   and stays queued, at the instant it fired.
   */
  lemma SelfMutationKeepsTimer(p: Particle, a: MobileId, pops: seq<Population>, g: Graph,
                               rules: seq<MutationConfig>, now: Time, draw: real)
    requires Valid(g) && TimerIsNotHit(g, p)
    requires p.population < |pops| && MutationsFit(rules, |pops|)
    requires MutationTarget(rules, p.population) == Some(p.population)
    requires TimerOk(g, a, p) && p.timer.Some?
    ensures ChangePopulation(p, a, pops, g, rules, now, draw) == (p, pops, g)
    ensures p.timer.value in ChangePopulation(p, a, pops, g, rules, now, draw).2.queue
  {
  }

  /**
   The `changePopulation` the timer evidently calls for: the timer that
   fired always leaves the queue. A rule back into the particle's own
   population keeps its list and colour, erases the fired timer and arms
   the next one; any other rule is the swap of `ChangePopulation`.
   */
  function Remutate(p: Particle, a: MobileId, pops: seq<Population>, g: Graph,
                    rules: seq<MutationConfig>, now: Time, draw: real): (r: (Particle, seq<Population>, Graph))
    requires Valid(g) && TimerIsNotHit(g, p)
    requires p.population < |pops| && MutationsFit(rules, |pops|)
    ensures Valid(r.2) && |r.1| == |pops|
    ensures MutationTarget(rules, p.population).None? ==> r == (p, pops, g)
    ensures MutationTarget(rules, p.population).Some? ==> r.0.population == MutationTarget(rules, p.population).value
    ensures MutationTarget(rules, p.population) != Some(p.population) ==> r == ChangePopulation(p, a, pops, g, rules, now, draw)
    ensures MutationTarget(rules, p.population) == Some(p.population) ==> r.1 == pops && r.0 == p.(timer := r.0.timer)
    ensures r.2.nodes == g.nodes && r.2.target == g.target && r.2.history == g.history
    ensures TimerOk(g, a, p) ==> TimersOnly(g, r.2, now)
  {
    match MutationTarget(rules, p.population)
    case None => (p, pops, g)
    case Some(target) =>
      if target == p.population then
        var g1 := if p.timer.Some? then Cancel(g, p.timer.value) else g;
        var armed := SetPopulation(p, a, target, g1, rules, now, draw);
        ArmingIsLater(p, a, target, g1, rules, now, draw);
        (armed.0, pops, armed.1)
      else Swap(p, a, target, pops, g, rules, now, draw, true)
  }

  /**
   With `Remutate`, a timer that fires is gone from the queue afterwards,
   whichever population its rule names, so it cannot fire again.
   */
  lemma RemutateRetiresTimer(p: Particle, a: MobileId, pops: seq<Population>, g: Graph,
                             rules: seq<MutationConfig>, now: Time, draw: real)
    requires Valid(g) && TimerIsNotHit(g, p)
    requires p.population < |pops| && MutationsFit(rules, |pops|)
    requires TimerOk(g, a, p) && p.timer.Some?
    requires MutationTarget(rules, p.population).Some?
    ensures p.timer.value !in Remutate(p, a, pops, g, rules, now, draw).2.queue
  {
    var target := MutationTarget(rules, p.population).value;
    if target != p.population {
      SwapErasesTimer(p, a, target, pops, g, rules, now, draw);
    }
  }

  /**
   The population changes of a particle-particle contact: the reaction
   chosen by `React` (with the Bernoulli outcome `success`) sends `self`
   to its first destination and then `other` to its second, each swap
   erasing the particle's timer and drawing a new one (`drawSelf`,
   `drawOther`). Without a reaction nothing changes.
   */
  function Reaction(self: Particle, a: MobileId, other: Particle, b: MobileId, pops: seq<Population>, g: Graph,
                    reactions: seq<ReactionConfig>, mutations: seq<MutationConfig>, now: Time,
                    success: bool, drawSelf: real, drawOther: real): (r: (Particle, Particle, seq<Population>, Graph))
    requires Valid(g) && TimerIsNotHit(g, self) && TimerIsNotHit(g, other)
    requires self.population < |pops| && other.population < |pops| && ReactionsFit(reactions, |pops|)
    requires TimerOk(g, a, self) && TimerOk(g, b, other) && a != b
    ensures Valid(r.3) && |r.2| == |pops|
    ensures React(reactions, self.population, other.population, success).None? ==> r == (self, other, pops, g)
    ensures React(reactions, self.population, other.population, success).Some? ==>
      (r.0.population, r.1.population) == React(reactions, self.population, other.population, success).value
    ensures r.0 == self.(population := r.0.population, color := r.0.color, timer := r.0.timer)
    ensures r.1 == other.(population := r.1.population, color := r.1.color, timer := r.1.timer)
    ensures r.3.nodes == g.nodes && r.3.target == g.target && r.3.history == g.history
    ensures TimersOnly(g, r.3, now)
  {
    match React(reactions, self.population, other.population, success)
    case None => (self, other, pops, g)
    case Some(dest) =>
      var s1 := Swap(self, a, dest.0, pops, g, mutations, now, drawSelf, true);
      TimerSurvivesOtherSwap(self, a, dest.0, pops, g, mutations, now, drawSelf, other, b);
      var s2 := Swap(other, b, dest.1, s1.1, s1.2, mutations, now, drawOther, true);
      TimersOnlyCompose(g, s1.2, s2.2, now);
      (s1.0, s2.0, s2.1, s2.2)
  }

  /** A swap of particle a leaves particle b's timer queued as it was. */
  lemma TimerSurvivesOtherSwap(p: Particle, a: MobileId, population: nat, pops: seq<Population>, g: Graph,
                               rules: seq<MutationConfig>, now: Time, draw: real, q: Particle, b: MobileId)
    requires Valid(g) && TimerIsNotHit(g, p)
    requires p.population < |pops| && population < |pops|
    requires TimerOk(g, a, p) && TimerOk(g, b, q) && a != b
    ensures TimerOk(Swap(p, a, population, pops, g, rules, now, draw, true).2, b, q)
    ensures TimerIsNotHit(Swap(p, a, population, pops, g, rules, now, draw, true).2, q)
  {
  }
}

=== FILE: predict.dfy ===
/**
 Which tests a mobile runs when its prediction is recomputed: the
 candidates of its broad-phase scan, each with the instant of contact
 relative to now that `Collision::time` asks of the mobiles' kinds. The
 veto on a repeated collision and the shift to absolute time are applied
 later, when the test is run (`Links.CollisionTime`).
 */
module Predictions {
  import opened Times
  import opened Geometry
  import opened Events
  import opened Links
  import opened Driver
  import Areas
  import Scans
  import Physics

  /**
   What the prediction reads besides the state: the gravity, the square
   root, the solvers left out of the model (the quartic of a vertex
   contact under gravity, the curved exits of a cell or a row).
   */
  datatype Solvers = Solvers(
    gravity: Vec,
    sqrt: real -> real,
    quartic: (Sim, MobileId, Vec) -> Time,
    curvedX: (Sim, MobileId) -> Time,
    curvedY: (Sim, MobileId) -> Time,
    curved: (Sim, MobileId) -> Time)

  /**
   `mMobile1->collision(mMobile2)`: the double dispatch ends in the
   second mobile's method for two particles, and in the particle's method
   for a particle and a piston. Two pistons get the corrected
   piston-piston time (`Physics.PistonPistonTime`, with the second piston
   as `self`), not the reversed quotient the source computes. A mobile of
   no known kind never meets anything.
   */
  function PairTime(sv: Solvers, s: Sim, a: MobileId, b: MobileId): (t: Time)
    ensures IsBall(s, a) && IsBall(s, b) ==>
      t == Physics.BallBallTime(s.balls[b].motion, s.balls[b].radius, s.balls[a].motion, s.balls[a].radius, sv.sqrt)
    ensures IsBall(s, a) && IsPiston(s, b) ==>
      t == Physics.BallPistonTime(s.balls[a].motion, s.balls[a].radius, s.pistons[b].motion, s.pistons[b].thickness)
    ensures IsPiston(s, a) && IsBall(s, b) ==>
      t == Physics.BallPistonTime(s.balls[b].motion, s.balls[b].radius, s.pistons[a].motion, s.pistons[a].thickness)
    ensures IsPiston(s, a) && IsPiston(s, b) ==>
      t == Physics.PistonPistonTime(s.pistons[b].motion, s.pistons[b].thickness, s.pistons[a].motion, s.pistons[a].thickness)
    ensures !(IsBall(s, a) || IsPiston(s, a)) || !(IsBall(s, b) || IsPiston(s, b)) ==> t == Never
  {
    if IsBall(s, a) && IsBall(s, b) then
      Physics.BallBallTime(s.balls[b].motion, s.balls[b].radius, s.balls[a].motion, s.balls[a].radius, sv.sqrt)
    else if IsBall(s, a) && IsPiston(s, b) then
      Physics.BallPistonTime(s.balls[a].motion, s.balls[a].radius, s.pistons[b].motion, s.pistons[b].thickness)
    else if IsPiston(s, a) && IsBall(s, b) then
      Physics.BallPistonTime(s.balls[b].motion, s.balls[b].radius, s.pistons[a].motion, s.pistons[a].thickness)
    else if IsPiston(s, a) && IsPiston(s, b) then
      Physics.PistonPistonTime(s.pistons[b].motion, s.pistons[b].thickness, s.pistons[a].motion, s.pistons[a].thickness)
    else Never
  }

  /**
   Two mobiles in contact after flying for `t` under gravity `g`: discs
   at the distance of the sum of their radii, a disc against the face of
   a piston it approaches from above or below, or two pistons face to
   face.
   */
  ghost predicate Touching(s: Sim, g: Vec, a: MobileId, b: MobileId, t: real)
  {
    if IsBall(s, a) && IsBall(s, b) then
      var ra := s.balls[a].radius;
      var rb := s.balls[b].radius;
      SquareLength(Minus(Physics.Fly(s.balls[b].motion, g, t).position, Physics.Fly(s.balls[a].motion, g, t).position)) == (rb + ra) * (rb + ra)
    else if IsBall(s, a) && IsPiston(s, b) then
      BallAtFace(s.balls[a].motion, s.balls[a].radius, s.pistons[b].motion, s.pistons[b].thickness, g, t)
    else if IsPiston(s, a) && IsBall(s, b) then
      BallAtFace(s.balls[b].motion, s.balls[b].radius, s.pistons[a].motion, s.pistons[a].thickness, g, t)
    else if IsPiston(s, a) && IsPiston(s, b) then
      var self := s.pistons[b];
      var other := s.pistons[a];
      Physics.Fly(self.motion, g, t).position.y - Physics.Fly(other.motion, g, t).position.y
        == if self.motion.position.y >= other.motion.position.y then other.thickness else -self.thickness
    else false
  }

  /** A disc touches the face of a piston: the upper one when it starts above, the lower one otherwise. */
  ghost predicate BallAtFace(ball: Physics.Motion, radius: real, piston: Physics.Motion, thickness: real, g: Vec, t: real)
  {
    Physics.Fly(ball, g, t).position.y - Physics.Fly(piston, g, t).position.y
      == if ball.position.y >= piston.position.y then radius + thickness else -radius
  }

  /**
   The partner of `PairTime`: whenever it predicts a contact, the two
   mobiles, flown to that instant under the gravity, are in contact.
   */
  lemma PairTimeIsContact(sv: Solvers, s: Sim, a: MobileId, b: MobileId)
    requires Physics.IsSqrt(sv.sqrt)
    ensures var t := PairTime(sv, s, a, b); !IsNever(t) ==> Touching(s, sv.gravity, a, b, Value(t))
  {
    var t := PairTime(sv, s, a, b);
    if IsBall(s, a) && IsBall(s, b) {
      Physics.BallBallTouchFirst(s.balls[b].motion, s.balls[b].radius, s.balls[a].motion, s.balls[a].radius, sv.gravity, sv.sqrt, 0.0);
    } else if IsBall(s, a) && IsPiston(s, b) {
      Physics.BallPistonTouch(s.balls[a].motion, s.balls[a].radius, s.pistons[b].motion, s.pistons[b].thickness, sv.gravity);
    } else if IsPiston(s, a) && IsBall(s, b) {
      Physics.BallPistonTouch(s.balls[b].motion, s.balls[b].radius, s.pistons[a].motion, s.pistons[a].thickness, sv.gravity);
    } else if IsPiston(s, a) && IsPiston(s, b) {
      Physics.PistonPistonTouch(s.pistons[b].motion, s.pistons[b].thickness, s.pistons[a].motion, s.pistons[a].thickness, sv.gravity);
    }
  }

  /**
   The relative instant of a candidate. Only a particle meets vertices
   and segments (a piston inherits `Mobile::collision`, which never
   meets); particles and pistons each leave their cell or rows by their
   own rule.
   */
  function RelativeTime(sv: Solvers, s: Sim, c: Collision): (t: Time)
    ensures c.Default? ==> t == Never
    ensures (c.Vertex? || c.Edge?) && !IsBall(s, c.first) ==> t == Never
    ensures c.Area? && !IsBall(s, c.first) && !IsPiston(s, c.first) ==> t == Never
  {
    match c
    case Default => Never
    case Mobiles(a, b) => PairTime(sv, s, a, b)
    case Vertex(a, v) =>
      if IsBall(s, a) then
        Physics.VertexTime(s.balls[a].motion, s.balls[a].radius, v, sv.gravity, sv.quartic(s, a, v), sv.sqrt)
      else Never
    case Edge(a, e) =>
      if IsBall(s, a) then Physics.SegmentTime(s.balls[a].motion, s.balls[a].radius, e, sv.gravity, sv.sqrt)
      else Never
    case Area(a) =>
      if IsBall(s, a) then
        Physics.BallExit(s.balls[a].motion, s.balls[a].area, s.size, sv.gravity, sv.curvedX(s, a), sv.curvedY(s, a))
      else if IsPiston(s, a) then
        var p := s.pistons[a];
        Physics.PistonExit(p.motion, p.thickness, p.area1, p.area2, s.size, sv.gravity, sv.curved(s, a))
      else Never
  }

  /**
   A candidate the prediction graph can hold: a pair of `a` with another
   known mobile, or an obstacle or cell collision of `a`.
   */
  predicate Usable(g: Graph, a: MobileId, c: Collision)
  {
    match c
    case Default => false
    case Mobiles(x, b) => x == a && b in g.nodes && b != a
    case Vertex(x, _) => x == a
    case Edge(x, _) => x == a
    case Area(x) => x == a
  }

  /** The test of a candidate of `a`: pairs are named by the other mobile. */
  function AsTest(sv: Solvers, s: Sim, a: MobileId, c: Collision): (t: Test)
    requires Usable(s.graph, a, c)
    ensures TestOk(s.graph, a, t) && Tested(a, t) == c && t.rel == RelativeTime(sv, s, c)
  {
    if c.Mobiles? then PairTest(c.second, RelativeTime(sv, s, c)) else SingleTest(c, RelativeTime(sv, s, c))
  }

  /**
   The tests of a list of candidates, in order; a candidate the graph
   cannot hold is skipped.
   */
  function ToTests(sv: Solvers, s: Sim, a: MobileId, cs: seq<Collision>): (r: seq<Test>)
    ensures TestsOk(s.graph, a, r) && |r| <= |cs|
    ensures forall c :: c in cs && Usable(s.graph, a, c) ==> AsTest(sv, s, a, c) in r
    ensures forall t :: t in r ==> exists c :: c in cs && Usable(s.graph, a, c) && t == AsTest(sv, s, a, c)
    ensures (forall i :: 0 <= i < |cs| ==> Usable(s.graph, a, cs[i])) ==>
      |r| == |cs| && forall i :: 0 <= i < |r| ==> r[i] == AsTest(sv, s, a, cs[i])
    decreases |cs|
  {
    if |cs| == 0 then []
    else
      var rest := ToTests(sv, s, a, cs[1..]);
      assert forall c :: c in cs && c != cs[0] ==> c in cs[1..];
      if Usable(s.graph, a, cs[0]) then
        var r := [AsTest(sv, s, a, cs[0])] + rest;
        assert forall i :: 1 <= i < |r| ==> r[i] == rest[i - 1];
        r
      else rest
  }

  /** `updateCollisionsMobiles`: the particle scan or the piston scan of `a`. */
  function Candidates(sv: Solvers, s: Sim, a: MobileId): (r: seq<Collision>)
    ensures IsBall(s, a) ==> r == Scans.BallScan(s.grid, a, s.balls[a].area)
    ensures IsPiston(s, a) ==> r == Scans.PistonScan(s.grid, a, s.pistons[a].area1, s.pistons[a].area2)
    ensures !IsBall(s, a) && !IsPiston(s, a) ==> r == []
  {
    if IsBall(s, a) then Scans.BallScan(s.grid, a, s.balls[a].area)
    else if IsPiston(s, a) then Scans.PistonScan(s.grid, a, s.pistons[a].area1, s.pistons[a].area2)
    else []
  }

  /** The predictor the simulator hands to the driver. */
  function Predict(sv: Solvers): (predict: Predictor)
    ensures Predicts(predict)
    ensures forall s, a :: predict(s, a) == ToTests(sv, s, a, Candidates(sv, s, a))
  {
    (s: Sim, a: MobileId) => ToTests(sv, s, a, Candidates(sv, s, a))
  }

  /**
   A particle's prediction is complete: it tests every other known
   particle of the nine cells around it, every piston of the three rows,
   every vertex and segment of the nine cells, each at the instant its
   kinds give, and leaving its cell.
   */
  lemma BallPredictionCovers(sv: Solvers, s: Sim, a: MobileId)
    requires IsBall(s, a)
    ensures var area := s.balls[a].area; var tests := Predict(sv)(s, a);
      && (forall d, b :: Scans.Near(d, area) && b in Areas.BallsAt(s.grid, d) && b != a && b in s.graph.nodes ==>
            PairTest(b, PairTime(sv, s, a, b)) in tests)
      && (forall j, q :: area.y - 1 <= j <= area.y + 1 && q in Areas.PistonsAt(s.grid, j) && q != a && q in s.graph.nodes ==>
            PairTest(q, PairTime(sv, s, a, q)) in tests)
      && (forall d, v :: Scans.Near(d, area) && v in Areas.VerticesAt(s.grid, d) ==>
            SingleTest(Vertex(a, v), RelativeTime(sv, s, Vertex(a, v))) in tests)
      && (forall d, t :: Scans.Near(d, area) && t in Areas.SegmentsAt(s.grid, d) ==>
            SingleTest(Edge(a, t), RelativeTime(sv, s, Edge(a, t))) in tests)
      && SingleTest(Area(a), RelativeTime(sv, s, Area(a))) in tests
  {
    var area := s.balls[a].area;
    var cs := Candidates(sv, s, a);
    var tests := Predict(sv)(s, a);
    assert tests == ToTests(sv, s, a, cs);
    Scans.BallScanCovers(s.grid, a, area);
    forall d, b | Scans.Near(d, area) && b in Areas.BallsAt(s.grid, d) && b != a && b in s.graph.nodes
      ensures PairTest(b, PairTime(sv, s, a, b)) in tests
    {
      assert AsTest(sv, s, a, Mobiles(a, b)) in tests;
    }
    forall j, q | area.y - 1 <= j <= area.y + 1 && q in Areas.PistonsAt(s.grid, j) && q != a && q in s.graph.nodes
      ensures PairTest(q, PairTime(sv, s, a, q)) in tests
    {
      assert AsTest(sv, s, a, Mobiles(a, q)) in tests;
    }
    forall d, v | Scans.Near(d, area) && v in Areas.VerticesAt(s.grid, d)
      ensures SingleTest(Vertex(a, v), RelativeTime(sv, s, Vertex(a, v))) in tests
    {
      assert AsTest(sv, s, a, Vertex(a, v)) in tests;
    }
    forall d, t | Scans.Near(d, area) && t in Areas.SegmentsAt(s.grid, d)
      ensures SingleTest(Edge(a, t), RelativeTime(sv, s, Edge(a, t))) in tests
    {
      assert AsTest(sv, s, a, Edge(a, t)) in tests;
    }
    assert cs[|cs| - 1] == Area(a);
    assert AsTest(sv, s, a, Area(a)) in tests;
  }

  /**
   A piston's prediction is complete: it tests every known particle of
   the rows around its two rows and every other known piston of those
   rows, and leaving its rows.
   */
  lemma PistonPredictionCovers(sv: Solvers, s: Sim, a: MobileId)
    requires IsPiston(s, a)
    ensures var p := s.pistons[a]; var tests := Predict(sv)(s, a);
      && (forall i, j, b :: Scans.NearRows(j, p.area1, p.area2) && b in Areas.BallsAt(s.grid, Cell(i, j)) && b != a && b in s.graph.nodes ==>
            PairTest(b, PairTime(sv, s, a, b)) in tests)
      && (forall j, q :: Scans.NearRows(j, p.area1, p.area2) && q in Areas.PistonsAt(s.grid, j) && q != a && q in s.graph.nodes ==>
            PairTest(q, PairTime(sv, s, a, q)) in tests)
      && SingleTest(Area(a), RelativeTime(sv, s, Area(a))) in tests
  {
    var p := s.pistons[a];
    var cs := Candidates(sv, s, a);
    var tests := Predict(sv)(s, a);
    assert tests == ToTests(sv, s, a, cs);
    Scans.PistonScanCovers(s.grid, a, p.area1, p.area2);
    forall i, j, b | Scans.NearRows(j, p.area1, p.area2) && b in Areas.BallsAt(s.grid, Cell(i, j)) && b != a && b in s.graph.nodes
      ensures PairTest(b, PairTime(sv, s, a, b)) in tests
    {
      assert AsTest(sv, s, a, Mobiles(a, b)) in tests;
    }
    forall j, q | Scans.NearRows(j, p.area1, p.area2) && q in Areas.PistonsAt(s.grid, j) && q != a && q in s.graph.nodes
      ensures PairTest(q, PairTime(sv, s, a, q)) in tests
    {
      assert AsTest(sv, s, a, Mobiles(a, q)) in tests;
    }
    assert cs[|cs| - 1] == Area(a);
    assert AsTest(sv, s, a, Area(a)) in tests;
  }

  /**
   A piston's prediction holds pair tests and leaving its rows only: no
   vertex or segment is tested, as in the source's piston scan.
   */
  lemma PistonPredictionHasNoObstacle(sv: Solvers, s: Sim, a: MobileId)
    requires IsPiston(s, a)
    ensures forall t :: t in Predict(sv)(s, a) ==> t.PairTest? || t == SingleTest(Area(a), RelativeTime(sv, s, Area(a)))
  {
    var p := s.pistons[a];
    var cs := Candidates(sv, s, a);
    Scans.PistonScanIsSound(s.grid, a, p.area1, p.area2);
    forall t | t in Predict(sv)(s, a)
      ensures t.PairTest? || t == SingleTest(Area(a), RelativeTime(sv, s, Area(a)))
    {
      var c :| c in cs && Usable(s.graph, a, c) && t == AsTest(sv, s, a, c);
      var i :| 0 <= i < |cs| && cs[i] == c;
      if i < |cs| - 1 {
        assert c.Mobiles?;
      }
    }
  }
}

=== FILE: reactions.dfy ===
/**
 The population rules: which reaction a particle-particle contact
 triggers and which populations the two particles end up in, and which
 mutation rule applies to a population and after what delay. Only the
 first matching rule of each list is ever used; random draws (the
 Bernoulli draw of a probability reaction, the exponential draw of a
 random mutation delay) are given as parameters.
 */
module Reactions {
  import opened Configs
  import opened Wrappers

  /** The index of the first element satisfying `p`, if any. */
  function FirstWhere<T>(s: seq<T>, p: T -> bool): (r: Option<nat>)
    ensures r.Some? ==> r.value < |s| && p(s[r.value])
    ensures r.Some? ==> forall k :: 0 <= k < r.value ==> !p(s[k])
    ensures r.None? ==> forall k :: 0 <= k < |s| ==> !p(s[k])
    decreases |s|
  {
    if |s| == 0 then None
    else if p(s[0]) then Some(0)
    else
      match FirstWhere(s[1..], p)
      case None => None
      case Some(i) => Some(i + 1)
  }

  // ---------------------------------------------------------------------
  // Reactions

  /** A reaction concerns the unordered pair of populations {pop1, pop2}. */
  predicate Matches(rule: ReactionConfig, a: nat, b: nat)
  {
    (a == rule.pop1 && b == rule.pop2) || (a == rule.pop2 && b == rule.pop1)
  }

  /** The first reaction rule concerning the populations a and b. */
  function FirstReaction(rules: seq<ReactionConfig>, a: nat, b: nat): (r: Option<nat>)
    ensures r.Some? ==> r.value < |rules| && Matches(rules[r.value], a, b)
    ensures r.Some? ==> forall k :: 0 <= k < r.value ==> !Matches(rules[k], a, b)
    ensures r.None? <==> forall k :: 0 <= k < |rules| ==> !Matches(rules[k], a, b)
  {
    FirstWhere(rules, rule => Matches(rule, a, b))
  }

  /** The order of the two populations does not change which rule is found. */
  lemma FirstReactionIsSymmetric(rules: seq<ReactionConfig>, a: nat, b: nat)
    ensures FirstReaction(rules, a, b) == FirstReaction(rules, b, a)
  {
    var r, s := FirstReaction(rules, a, b), FirstReaction(rules, b, a);
    if r.Some? {
      assert Matches(rules[r.value], b, a);
    }
    if s.Some? {
      assert Matches(rules[s.value], a, b);
    }
  }

  /**
   The destinations of a contact between a particle of population
   `self` (the one whose collision code runs) and one of population
   `other`: the first matching rule decides; a probability rule whose
   draw fails stops the search with no reaction; any other rule,
   including an energy-typed one, fires whatever the draw. The particle
   that is in the rule's pop1 goes to dest1 and the other one to dest2,
   and `self` is taken as the pop1 side when both are.
   */
  function React(rules: seq<ReactionConfig>, self: nat, other: nat, draw: bool): (r: Option<(nat, nat)>)
    ensures FirstReaction(rules, self, other).None? ==> r.None?
    ensures r.Some? ==> FirstReaction(rules, self, other).Some?
    ensures r.Some? ==> var rule := rules[FirstReaction(rules, self, other).value];
      (self == rule.pop1 && other == rule.pop2 && r.value == (rule.dest1, rule.dest2))
      || (self != rule.pop1 && self == rule.pop2 && other == rule.pop1 && r.value == (rule.dest2, rule.dest1))
    ensures FirstReaction(rules, self, other).Some? ==>
      (r.None? <==> rules[FirstReaction(rules, self, other).value].kind == Probability && !draw)
  {
    match FirstReaction(rules, self, other)
    case None => None
    case Some(i) =>
      var rule := rules[i];
      if rule.kind == Probability && !draw then None
      else if self == rule.pop1 then Some((rule.dest1, rule.dest2))
      else Some((rule.dest2, rule.dest1))
  }

  /**
   A failed draw on the first matching rule means no reaction, even when
   later rules also match the pair.
   */
  lemma FailedDrawStopsTheScan(rules: seq<ReactionConfig>, self: nat, other: nat, k: nat)
    requires k < |rules| && Matches(rules[k], self, other)
    requires rules[k].kind == Probability
    requires forall j :: 0 <= j < k ==> !Matches(rules[j], self, other)
    ensures React(rules, self, other, false).None?
  {
    var r := FirstReaction(rules, self, other);
    if r.Some? {
      assert r.value <= k;
    }
  }

  /**
   Rules that are not probability rules ignore the draw: they always fire
   when they are the first match; in particular the energy threshold is
   never consulted.
   */
  lemma OtherKindsIgnoreTheDraw(rules: seq<ReactionConfig>, self: nat, other: nat)
    requires FirstReaction(rules, self, other).Some?
    requires rules[FirstReaction(rules, self, other).value].kind != Probability
    ensures React(rules, self, other, false).Some?
    ensures React(rules, self, other, false) == React(rules, self, other, true)
  {
  }

  /**
   For particles of two different populations the outcome is the same
   from either side: exchanging `self` and `other` exchanges their
   destinations.
   */
  lemma ReactIsOriented(rules: seq<ReactionConfig>, a: nat, b: nat, draw: bool)
    requires a != b
    ensures React(rules, a, b, draw).Some? <==> React(rules, b, a, draw).Some?
    ensures React(rules, a, b, draw).Some? ==>
      React(rules, b, a, draw).value == (React(rules, a, b, draw).value.1, React(rules, a, b, draw).value.0)
  {
    FirstReactionIsSymmetric(rules, a, b);
  }

  // ---------------------------------------------------------------------
  // Mutations

  /** The first mutation rule whose source is `population`. */
  function FirstMutation(rules: seq<MutationConfig>, population: nat): (r: Option<nat>)
    ensures r.Some? ==> r.value < |rules| && rules[r.value].pop1 == population
    ensures r.Some? ==> forall k :: 0 <= k < r.value ==> rules[k].pop1 != population
    ensures r.None? <==> forall k :: 0 <= k < |rules| ==> rules[k].pop1 != population
  {
    FirstWhere(rules, (rule: MutationConfig) => rule.pop1 == population)
  }

  /**
   The delay before a particle of `population` mutates, if a rule
   applies: `tau` for a fixed delay, the exponential `draw` for a random
   one. The source schedules a mutation only for a positive delay.
   */
  function MutationDelay(rules: seq<MutationConfig>, population: nat, draw: real): (d: Option<real>)
    ensures d.None? <==> FirstMutation(rules, population).None?
    ensures d.Some? ==> var rule := rules[FirstMutation(rules, population).value];
      d.value == if rule.kind == Random then draw else rule.tau
  {
    match FirstMutation(rules, population)
    case None => None
    case Some(i) => Some(if rules[i].kind == Random then draw else rules[i].tau)
  }

  /** The population a particle of `population` mutates into, if a rule applies. */
  function MutationTarget(rules: seq<MutationConfig>, population: nat): (t: Option<nat>)
    ensures t.None? <==> FirstMutation(rules, population).None?
    ensures t.Some? ==> exists k :: 0 <= k < |rules| && rules[k].pop1 == population && rules[k].pop2 == t.value
  {
    match FirstMutation(rules, population)
    case None => None
    case Some(i) => Some(rules[i].pop2)
  }

  /** A delay and a target exist for exactly the same populations, both from the same first rule. */
  lemma DelayAndTargetAgree(rules: seq<MutationConfig>, population: nat, draw: real)
    ensures MutationDelay(rules, population, draw).Some? <==> MutationTarget(rules, population).Some?
    ensures MutationTarget(rules, population).Some? ==>
      MutationTarget(rules, population).value == rules[FirstMutation(rules, population).value].pop2
  {
  }
}

=== FILE: scan.dfy ===
/**
 The broad phase: the candidate collisions a mobile tests when its
 prediction is recomputed. A particle looks at the 3 x 3 cells around its
 own (particles other than itself, then obstacle vertices, cell by cell
 and row by row, each row followed by the pistons registered in it), then
 at the obstacle segments of those nine cells, each once and in the
 segment order, and last at leaving its cell. A piston looks at the three
 rows around each of its two rows (the particles of the row, then the
 pistons of the row other than itself), and last at leaving its rows.
 */
module Scans {
  import opened Geometry
  import opened Segments
  import opened Events
  import opened Areas

  // ---------------------------------------------------------------------
  // Candidate lists

  /** Pair candidates of `a` with the mobiles of `l`, in order, skipping `a` itself when `skipSelf`. */
  function PairsWith(a: MobileId, l: seq<MobileId>, skipSelf: bool): (r: seq<Collision>)
    ensures forall c :: c in r ==> c.Mobiles? && c.first == a && c.second in l && !(skipSelf && c.second == a)
    ensures forall b :: b in l && !(skipSelf && b == a) ==> Mobiles(a, b) in r
    decreases |l|
  {
    if |l| == 0 then []
    else
      var rest := PairsWith(a, l[1..], skipSelf);
      assert forall b :: b in l && b != l[0] ==> b in l[1..];
      if skipSelf && l[0] == a then rest else [Mobiles(a, l[0])] + rest
  }

  /** Vertex candidates of `a`, one per listed vertex, in order. */
  function Corners(a: MobileId, vs: seq<Vec>): (r: seq<Collision>)
    ensures forall c :: c in r ==> c.Vertex? && c.first == a && c.point in vs
    ensures forall v :: v in vs ==> Vertex(a, v) in r
    decreases |vs|
  {
    if |vs| == 0 then []
    else
      var rest := Corners(a, vs[1..]);
      assert forall v :: v in vs && v != vs[0] ==> v in vs[1..];
      [Vertex(a, vs[0])] + rest
  }

  /** Segment candidates of `a`, one per listed segment, in order. */
  function Walls(a: MobileId, ss: seq<Segment>): (r: seq<Collision>)
    ensures |r| == |ss|
    ensures forall i :: 0 <= i < |r| ==> r[i] == Edge(a, ss[i])
  {
    seq(|ss|, i requires 0 <= i < |ss| => Edge(a, ss[i]))
  }

  // ---------------------------------------------------------------------
  // Segment order

  /** A finite set of segments that is not empty has a least element. */
  lemma {:induction false} HasLeast(s: set<Segment>)
    requires s != {}
    ensures exists m :: m in s && forall t :: t in s ==> !Less(t, m)
    decreases |s|
  {
    var x :| x in s;
    if s - {x} == {} {
      assert s == {x};
      LessIsStrictTotalOrder(x, x, x);
      assert forall t :: t in s ==> t == x;
    } else {
      HasLeast(s - {x});
      var m :| m in s - {x} && forall t :: t in s - {x} ==> !Less(t, m);
      if Less(x, m) {
        forall t | t in s
          ensures !Less(t, x)
        {
          if t == x {
            LessIsStrictTotalOrder(x, x, x);
          } else {
            assert t in s - {x};
            LessIsStrictTotalOrder(t, x, m);
          }
        }
        assert x in s;
      } else {
        forall t | t in s
          ensures !Less(t, m)
        {
          if t != x {
            assert t in s - {x};
          }
        }
        assert m in s;
      }
    }
  }

  /** The least segment of a set for the segment order. */
  function Least(s: set<Segment>): (m: Segment)
    requires s != {}
    ensures m in s
    ensures forall t :: t in s && t != m ==> Less(m, t)
  {
    HasLeast(s);
    var m :| m in s && forall t :: t in s ==> !Less(t, m);
    assert forall t :: t in s && t != m ==> Less(m, t) by {
      forall t | t in s && t != m
        ensures Less(m, t)
      {
        LessIsStrictTotalOrder(m, t, t);
        EqIsIdentity(m, t);
      }
    }
    m
  }

  /** A set of segments listed in increasing segment order, as a `std::set` iterates it. */
  function Sorted(s: set<Segment>): (r: seq<Segment>)
    ensures forall t :: t in r <==> t in s
    ensures |r| == |s|
    ensures forall i :: 0 < i < |r| ==> Less(r[0], r[i])
    decreases |s|
  {
    if s == {} then []
    else
      var m := Least(s);
      var rest := Sorted(s - {m});
      [m] + rest
  }

  /** The listing is strictly increasing, so every segment appears once. */
  lemma {:induction false} SortedIncreases(s: set<Segment>)
    ensures var r := Sorted(s);
      forall i, j :: 0 <= i < j < |r| ==> Less(r[i], r[j])
    decreases |s|
  {
    if s != {} {
      var m := Least(s);
      SortedIncreases(s - {m});
      var r := Sorted(s);
      assert r[1..] == Sorted(s - {m});
      forall i, j | 0 <= i < j < |r|
        ensures Less(r[i], r[j])
      {
        if i > 0 {
          assert r[i] == r[1..][i - 1] && r[j] == r[1..][j - 1];
        }
      }
    }
  }

  /** Strictly increasing lists hold no repeated element. */
  lemma SortedIsDistinct(s: set<Segment>)
    ensures var r := Sorted(s);
      forall i, j :: 0 <= i < j < |r| ==> r[i] != r[j]
  {
    SortedIncreases(s);
    var r := Sorted(s);
    forall i, j | 0 <= i < j < |r|
      ensures r[i] != r[j]
    {
      LessIsStrictTotalOrder(r[i], r[j], r[j]);
    }
  }

  // ---------------------------------------------------------------------
  // Particle scan

  /** Cell `d` is one of the nine cells centred on `area`. */
  predicate Near(d: Cell, area: Cell)
  {
    area.x - 1 <= d.x <= area.x + 1 && area.y - 1 <= d.y <= area.y + 1
  }

  /** The three cells of row `j` around column `x`, left to right. */
  function RowCells(x: int, j: int): (cs: seq<Cell>)
    ensures |cs| == 3
    ensures forall k :: 0 <= k < 3 ==> cs[k] == Cell(x - 1 + k, j)
  {
    [Cell(x - 1, j), Cell(x, j), Cell(x + 1, j)]
  }

  /** The three rows around row `y`, bottom to top. */
  function RowsAround(y: int): (js: seq<int>)
    ensures |js| == 3
    ensures forall k :: 0 <= k < 3 ==> js[k] == y - 1 + k
  {
    [y - 1, y, y + 1]
  }

  /** The particles other than `a` in cell `c`, then the vertices of `c`. */
  function CellScan(g: Grid, a: MobileId, c: Cell): (r: seq<Collision>)
  {
    PairsWith(a, BallsAt(g, c), true) + Corners(a, VerticesAt(g, c))
  }

  /** The scans of the cells `cs`, one after the other. */
  function CellsScan(g: Grid, a: MobileId, cs: seq<Cell>): (r: seq<Collision>)
    decreases |cs|
  {
    if |cs| == 0 then [] else CellScan(g, a, cs[0]) + CellsScan(g, a, cs[1..])
  }

  /** The three cells of row `j` around column `x`, then the pistons of row `j`. */
  function RowScan(g: Grid, a: MobileId, x: int, j: int): (r: seq<Collision>)
  {
    CellsScan(g, a, RowCells(x, j)) + PairsWith(a, PistonsAt(g, j), false)
  }

  /** The scans of the rows `js` around column `x`, one after the other. */
  function RowsScan(g: Grid, a: MobileId, x: int, js: seq<int>): (r: seq<Collision>)
    decreases |js|
  {
    if |js| == 0 then [] else RowScan(g, a, x, js[0]) + RowsScan(g, a, x, js[1..])
  }

  /** The segments registered in the cells `cs`, merged into one set. */
  function SegmentsIn(g: Grid, cs: seq<Cell>): (s: set<Segment>)
    decreases |cs|
  {
    if |cs| == 0 then {} else SegmentsAt(g, cs[0]) + SegmentsIn(g, cs[1..])
  }

  /** The nine cells around `area`, row by row from the bottom, each row left to right. */
  function Neighbourhood(area: Cell): (cs: seq<Cell>)
  {
    RowCells(area.x, area.y - 1) + RowCells(area.x, area.y) + RowCells(area.x, area.y + 1)
  }

  /** The segments of the nine cells around `area`, merged into one set. */
  function NearSegments(g: Grid, area: Cell): (s: set<Segment>)
  {
    SegmentsIn(g, Neighbourhood(area))
  }

  /** The three rows around `area`, bottom row first. */
  function Rows(g: Grid, a: MobileId, area: Cell): (r: seq<Collision>)
  {
    RowsScan(g, a, area.x, RowsAround(area.y))
  }

  /** The candidates before leaving the cell: the three rows, then each neighbouring segment once. */
  function Front(g: Grid, a: MobileId, area: Cell): (r: seq<Collision>)
  {
    Rows(g, a, area) + Walls(a, Sorted(NearSegments(g, area)))
  }

  /**
   `updateCollisionsMobiles` of particle `a` in cell `area`: the three
   rows around it, then each neighbouring segment once, then leaving the
   cell.
   */
  function BallScan(g: Grid, a: MobileId, area: Cell): (r: seq<Collision>)
    ensures |r| > 0 && r[|r| - 1] == Area(a)
  {
    Front(g, a, area) + [Area(a)]
  }

  // Membership in the scans of a list of cells or rows.

  lemma {:induction false} CellsScanHas(g: Grid, a: MobileId, cs: seq<Cell>, k: int, e: Collision)
    requires 0 <= k < |cs| && e in CellScan(g, a, cs[k])
    ensures e in CellsScan(g, a, cs)
    decreases |cs|
  {
    if k > 0 {
      assert cs[1..][k - 1] == cs[k];
      CellsScanHas(g, a, cs[1..], k - 1, e);
    }
  }

  lemma {:induction false} CellsScanFrom(g: Grid, a: MobileId, cs: seq<Cell>, e: Collision) returns (k: int)
    requires e in CellsScan(g, a, cs)
    ensures 0 <= k < |cs| && e in CellScan(g, a, cs[k])
    decreases |cs|
  {
    if e in CellScan(g, a, cs[0]) {
      k := 0;
    } else {
      var k' := CellsScanFrom(g, a, cs[1..], e);
      assert cs[1..][k'] == cs[k' + 1];
      k := k' + 1;
    }
  }

  lemma {:induction false} RowsScanHas(g: Grid, a: MobileId, x: int, js: seq<int>, k: int, e: Collision)
    requires 0 <= k < |js| && e in RowScan(g, a, x, js[k])
    ensures e in RowsScan(g, a, x, js)
    decreases |js|
  {
    if k > 0 {
      assert js[1..][k - 1] == js[k];
      RowsScanHas(g, a, x, js[1..], k - 1, e);
    }
  }

  lemma {:induction false} RowsScanFrom(g: Grid, a: MobileId, x: int, js: seq<int>, e: Collision) returns (k: int)
    requires e in RowsScan(g, a, x, js)
    ensures 0 <= k < |js| && e in RowScan(g, a, x, js[k])
    decreases |js|
  {
    if e in RowScan(g, a, x, js[0]) {
      k := 0;
    } else {
      var k' := RowsScanFrom(g, a, x, js[1..], e);
      assert js[1..][k'] == js[k' + 1];
      k := k' + 1;
    }
  }

  /** A segment is in the merged set exactly when one of the cells lists it. */
  lemma {:induction false} SegmentsInHolds(g: Grid, cs: seq<Cell>, t: Segment)
    ensures t in SegmentsIn(g, cs) <==> exists k :: 0 <= k < |cs| && t in SegmentsAt(g, cs[k])
    decreases |cs|
  {
    if |cs| > 0 {
      SegmentsInHolds(g, cs[1..], t);
      if t in SegmentsIn(g, cs[1..]) {
        var k :| 0 <= k < |cs[1..]| && t in SegmentsAt(g, cs[1..][k]);
        assert t in SegmentsAt(g, cs[k + 1]);
      }
      if exists k :: 0 <= k < |cs| && t in SegmentsAt(g, cs[k]) {
        var k :| 0 <= k < |cs| && t in SegmentsAt(g, cs[k]);
        if k > 0 {
          assert cs[1..][k - 1] == cs[k];
        }
      }
    }
  }

  /** The nine cells listed are exactly the cells near `area`. */
  lemma NeighbourhoodIsNear(area: Cell, d: Cell)
    ensures d in Neighbourhood(area) <==> Near(d, area)
  {
    var cs := Neighbourhood(area);
    if Near(d, area) {
      var k := 3 * (d.y - area.y + 1) + (d.x - area.x + 1);
      assert cs[k] == d;
    }
  }

  /** The neighbouring segments are exactly the segments of the nine cells. */
  lemma NearSegmentsHolds(g: Grid, area: Cell, t: Segment)
    ensures t in NearSegments(g, area) <==> exists d :: Near(d, area) && t in SegmentsAt(g, d)
  {
    var cs := Neighbourhood(area);
    SegmentsInHolds(g, cs, t);
    if t in NearSegments(g, area) {
      var k :| 0 <= k < |cs| && t in SegmentsAt(g, cs[k]);
      NeighbourhoodIsNear(area, cs[k]);
    }
    if exists d :: Near(d, area) && t in SegmentsAt(g, d) {
      var d :| Near(d, area) && t in SegmentsAt(g, d);
      NeighbourhoodIsNear(area, d);
      var k :| 0 <= k < |cs| && cs[k] == d;
    }
  }

  /** What a cell scan lists: the other particles of the cell and its vertices, and nothing else. */
  lemma CellScanLists(g: Grid, a: MobileId, c: Cell)
    ensures forall b :: b in BallsAt(g, c) && b != a ==> Mobiles(a, b) in CellScan(g, a, c)
    ensures forall v :: v in VerticesAt(g, c) ==> Vertex(a, v) in CellScan(g, a, c)
    ensures forall e :: e in CellScan(g, a, c) ==>
      (e.Mobiles? && e.first == a && e.second != a && e.second in BallsAt(g, c))
      || (e.Vertex? && e.first == a && e.point in VerticesAt(g, c))
  {
  }

  /** An entry of the scan of one of the nine cells is in the rows' scan. */
  lemma CellInRows(g: Grid, a: MobileId, area: Cell, d: Cell, e: Collision)
    requires Near(d, area) && e in CellScan(g, a, d)
    ensures e in Rows(g, a, area)
  {
    var cs := RowCells(area.x, d.y);
    assert cs[d.x - area.x + 1] == d;
    CellsScanHas(g, a, cs, d.x - area.x + 1, e);
    var js := RowsAround(area.y);
    assert js[d.y - area.y + 1] == d.y;
    RowsScanHas(g, a, area.x, js, d.y - area.y + 1, e);
  }

  /** A piston of one of the three rows is paired with `a` in the rows' scan. */
  lemma PistonInRows(g: Grid, a: MobileId, area: Cell, j: int, q: MobileId)
    requires area.y - 1 <= j <= area.y + 1 && q in PistonsAt(g, j)
    ensures Mobiles(a, q) in Rows(g, a, area)
  {
    assert Mobiles(a, q) in RowScan(g, a, area.x, j);
    var js := RowsAround(area.y);
    assert js[j - area.y + 1] == j;
    RowsScanHas(g, a, area.x, js, j - area.y + 1, Mobiles(a, q));
  }

  /** An entry of the rows' scan is a candidate of the particle scan. */
  lemma RowsInScan(g: Grid, a: MobileId, area: Cell, e: Collision)
    requires e in Rows(g, a, area)
    ensures e in BallScan(g, a, area)
  {
    assert e in Front(g, a, area);
  }

  /** A neighbouring segment is a candidate of the particle scan. */
  lemma WallInScan(g: Grid, a: MobileId, area: Cell, t: Segment)
    requires t in NearSegments(g, area)
    ensures Edge(a, t) in BallScan(g, a, area)
  {
    var ss := Sorted(NearSegments(g, area));
    var i :| 0 <= i < |ss| && ss[i] == t;
    assert Walls(a, ss)[i] == Edge(a, t);
    assert Edge(a, t) in Front(g, a, area);
  }

  /**
   The particle scan is complete: every other particle and every vertex
   of the nine cells, every piston of the three rows and every segment of
   the nine cells is a candidate.
   */
  lemma BallScanCovers(g: Grid, a: MobileId, area: Cell)
    ensures forall d, b :: Near(d, area) && b in BallsAt(g, d) && b != a ==> Mobiles(a, b) in BallScan(g, a, area)
    ensures forall d, v :: Near(d, area) && v in VerticesAt(g, d) ==> Vertex(a, v) in BallScan(g, a, area)
    ensures forall j, q :: area.y - 1 <= j <= area.y + 1 && q in PistonsAt(g, j) ==> Mobiles(a, q) in BallScan(g, a, area)
    ensures forall d, t :: Near(d, area) && t in SegmentsAt(g, d) ==> Edge(a, t) in BallScan(g, a, area)
  {
    forall d, b | Near(d, area) && b in BallsAt(g, d) && b != a
      ensures Mobiles(a, b) in BallScan(g, a, area)
    {
      CellScanLists(g, a, d);
      CellInRows(g, a, area, d, Mobiles(a, b));
      RowsInScan(g, a, area, Mobiles(a, b));
    }
    forall d, v | Near(d, area) && v in VerticesAt(g, d)
      ensures Vertex(a, v) in BallScan(g, a, area)
    {
      CellScanLists(g, a, d);
      CellInRows(g, a, area, d, Vertex(a, v));
      RowsInScan(g, a, area, Vertex(a, v));
    }
    forall j, q | area.y - 1 <= j <= area.y + 1 && q in PistonsAt(g, j)
      ensures Mobiles(a, q) in BallScan(g, a, area)
    {
      PistonInRows(g, a, area, j, q);
      RowsInScan(g, a, area, Mobiles(a, q));
    }
    forall d, t | Near(d, area) && t in SegmentsAt(g, d)
      ensures Edge(a, t) in BallScan(g, a, area)
    {
      NearSegmentsHolds(g, area, t);
      WallInScan(g, a, area, t);
    }
  }

  /** Every entry of a row scan is a pair or vertex candidate of `a`; a self pair comes from a piston list. */
  lemma RowScanIsSound(g: Grid, a: MobileId, x: int, j: int, e: Collision)
    requires e in RowScan(g, a, x, j)
    ensures (e.Mobiles? || e.Vertex?) && e.first == a
    ensures e.Mobiles? && e.second == a ==> a in PistonsAt(g, j)
  {
    var cs := RowCells(x, j);
    if e in CellsScan(g, a, cs) {
      var k := CellsScanFrom(g, a, cs, e);
      CellScanLists(g, a, cs[k]);
    }
  }

  /** Every entry of the three rows' scan is a pair or vertex candidate of `a`. */
  lemma RowsAreSound(g: Grid, a: MobileId, area: Cell, e: Collision)
    requires e in Rows(g, a, area)
    ensures (e.Mobiles? || e.Vertex?) && e.first == a
    ensures e.Mobiles? && e.second == a ==> exists j :: a in PistonsAt(g, j)
  {
    var js := RowsAround(area.y);
    var k := RowsScanFrom(g, a, area.x, js, e);
    RowScanIsSound(g, a, area.x, js[k], e);
  }

  /**
   Where an entry of the particle scan comes from: the rows' scan before
   index |Rows|, the segment listing after it, leaving the cell last.
   */
  lemma ScanIndex(g: Grid, a: MobileId, area: Cell, i: int)
    requires 0 <= i < |BallScan(g, a, area)| - 1
    ensures var rows := Rows(g, a, area);
      var ss := Sorted(NearSegments(g, area));
      && i < |rows| + |ss|
      && (i < |rows| ==> BallScan(g, a, area)[i] == rows[i])
      && (i >= |rows| ==> BallScan(g, a, area)[i] == Edge(a, ss[i - |rows|]))
  {
    var rows := Rows(g, a, area);
    var ws := Walls(a, Sorted(NearSegments(g, area)));
    var front := Front(g, a, area);
    assert BallScan(g, a, area)[i] == front[i];
    if i >= |rows| {
      assert front[i] == ws[i - |rows|];
    }
  }

  /**
   The particle scan is sound: every candidate before the last is a pair,
   vertex or segment candidate of `a` (so only the last is leaving the
   cell), and a pair candidate never pairs `a` with itself unless `a` is
   registered as a piston.
   */
  lemma BallScanIsSound(g: Grid, a: MobileId, area: Cell)
    ensures var r := BallScan(g, a, area);
      forall i :: 0 <= i < |r| - 1 ==> (r[i].Mobiles? || r[i].Vertex? || r[i].Edge?) && r[i].first == a
    ensures (forall j :: a !in PistonsAt(g, j)) ==> Mobiles(a, a) !in BallScan(g, a, area)
  {
    var r := BallScan(g, a, area);
    var rows := Rows(g, a, area);
    forall i | 0 <= i < |r| - 1
      ensures (r[i].Mobiles? || r[i].Vertex? || r[i].Edge?) && r[i].first == a
      ensures r[i].Mobiles? && r[i].second == a ==> exists j :: a in PistonsAt(g, j)
    {
      ScanIndex(g, a, area, i);
      if i < |rows| {
        RowsAreSound(g, a, area, rows[i]);
      }
    }
  }

  /** A candidate about segment `t` sits in the segment listing, at the index of `t`. */
  lemma EdgeIndex(g: Grid, a: MobileId, area: Cell, i: int, t: Segment)
    requires 0 <= i < |BallScan(g, a, area)|
    ensures var rows := Rows(g, a, area);
      var ss := Sorted(NearSegments(g, area));
      BallScan(g, a, area)[i] == Edge(a, t) ==> |rows| <= i < |rows| + |ss| && ss[i - |rows|] == t
  {
    var rows := Rows(g, a, area);
    if i < |BallScan(g, a, area)| - 1 {
      ScanIndex(g, a, area, i);
      if i < |rows| {
        RowsAreSound(g, a, area, rows[i]);
      }
    }
  }

  /** Each neighbouring segment is tested exactly once, however many of the nine cells list it. */
  lemma BallScanTestsSegmentsOnce(g: Grid, a: MobileId, area: Cell, t: Segment)
    requires exists d :: Near(d, area) && t in SegmentsAt(g, d)
    ensures Edge(a, t) in BallScan(g, a, area)
    ensures var r := BallScan(g, a, area);
      forall i, k :: 0 <= i < k < |r| && r[i] == Edge(a, t) ==> r[k] != Edge(a, t)
  {
    var r := BallScan(g, a, area);
    NearSegmentsHolds(g, area, t);
    WallInScan(g, a, area, t);
    SortedIsDistinct(NearSegments(g, area));
    forall i, k | 0 <= i < k < |r| && r[i] == Edge(a, t)
      ensures r[k] != Edge(a, t)
    {
      EdgeIndex(g, a, area, i, t);
      EdgeIndex(g, a, area, k, t);
    }
  }

  // ---------------------------------------------------------------------
  // Piston scan

  /** The particles of row `j`, then the pistons of row `j` other than `a`. */
  function PistonRowScan(g: Grid, a: MobileId, j: int): (r: seq<Collision>)
  {
    PairsWith(a, RowBalls(g, j), false) + PairsWith(a, PistonsAt(g, j), true)
  }

  /** The scans of the rows `js`, one after the other. */
  function PistonRowsScan(g: Grid, a: MobileId, js: seq<int>): (r: seq<Collision>)
    decreases |js|
  {
    if |js| == 0 then [] else PistonRowScan(g, a, js[0]) + PistonRowsScan(g, a, js[1..])
  }

  /**
   `updateCollisionsMobiles` of piston `a` in rows `area1` and `area2`:
   the three rows around each (a mobile in both neighbourhoods is listed
   twice), then leaving its rows.
   */
  function PistonScan(g: Grid, a: MobileId, area1: int, area2: int): (r: seq<Collision>)
    ensures |r| > 0 && r[|r| - 1] == Area(a)
  {
    PistonRowsScan(g, a, RowsAround(area1) + RowsAround(area2)) + [Area(a)]
  }

  lemma {:induction false} PistonRowsScanHas(g: Grid, a: MobileId, js: seq<int>, k: int, e: Collision)
    requires 0 <= k < |js| && e in PistonRowScan(g, a, js[k])
    ensures e in PistonRowsScan(g, a, js)
    decreases |js|
  {
    var head, tail := PistonRowScan(g, a, js[0]), PistonRowsScan(g, a, js[1..]);
    assert PistonRowsScan(g, a, js) == head + tail;
    if k > 0 {
      assert js[1..][k - 1] == js[k];
      PistonRowsScanHas(g, a, js[1..], k - 1, e);
    }
  }

  lemma {:induction false} PistonRowsScanFrom(g: Grid, a: MobileId, js: seq<int>, e: Collision)
    returns (k: int)
    requires e in PistonRowsScan(g, a, js)
    ensures 0 <= k < |js| && e in PistonRowScan(g, a, js[k])
    decreases |js|
  {
    var head, tail := PistonRowScan(g, a, js[0]), PistonRowsScan(g, a, js[1..]);
    assert PistonRowsScan(g, a, js) == head + tail;
    if e in head {
      k := 0;
    } else {
      assert e in tail;
      var k' := PistonRowsScanFrom(g, a, js[1..], e);
      assert js[1..][k'] == js[k' + 1];
      k := k' + 1;
    }
  }

  /** What one row of the piston scan lists, and nothing else. */
  lemma PistonRowScanLists(g: Grid, a: MobileId, j: int)
    ensures forall b :: b in RowBalls(g, j) ==> Mobiles(a, b) in PistonRowScan(g, a, j)
    ensures forall q :: q in PistonsAt(g, j) && q != a ==> Mobiles(a, q) in PistonRowScan(g, a, j)
    ensures forall e :: e in PistonRowScan(g, a, j) ==>
      e.Mobiles? && e.first == a && (e.second in RowBalls(g, j) || (e.second in PistonsAt(g, j) && e.second != a))
  {
  }

  /** Row `j` is one of the three rows around area1 or area2. */
  predicate NearRows(j: int, area1: int, area2: int)
  {
    area1 - 1 <= j <= area1 + 1 || area2 - 1 <= j <= area2 + 1
  }

  /** Mobile `b` is a particle, or a piston other than `a`, of a row around area1 or area2. */
  ghost predicate PairedNear(g: Grid, a: MobileId, b: MobileId, area1: int, area2: int)
  {
    exists j :: NearRows(j, area1, area2) &&
      ((exists i :: b in BallsAt(g, Cell(i, j))) || (b in PistonsAt(g, j) && b != a))
  }

  /** The six rows the piston scan visits are exactly the rows around area1 or area2. */
  lemma ScannedRowsAreNear(area1: int, area2: int, j: int)
    ensures j in RowsAround(area1) + RowsAround(area2) <==> NearRows(j, area1, area2)
  {
    var js := RowsAround(area1) + RowsAround(area2);
    if area1 - 1 <= j <= area1 + 1 {
      assert js[j - area1 + 1] == j;
    } else if area2 - 1 <= j <= area2 + 1 {
      assert js[3 + j - area2 + 1] == j;
    }
  }

  /** An entry of the scan of a row around area1 or area2 is a candidate of the piston scan. */
  lemma RowInPistonScan(g: Grid, a: MobileId, area1: int, area2: int, j: int, e: Collision)
    requires NearRows(j, area1, area2) && e in PistonRowScan(g, a, j)
    ensures e in PistonScan(g, a, area1, area2)
  {
    var js := RowsAround(area1) + RowsAround(area2);
    ScannedRowsAreNear(area1, area2, j);
    var k :| 0 <= k < |js| && js[k] == j;
    PistonRowsScanHas(g, a, js, k, e);
  }

  /**
   The piston scan is complete: it pairs the piston with every particle
   of the rows around its two rows and every other piston of those rows.
   */
  lemma PistonScanCovers(g: Grid, a: MobileId, area1: int, area2: int)
    ensures forall i, j, b :: NearRows(j, area1, area2) && b in BallsAt(g, Cell(i, j)) ==>
      Mobiles(a, b) in PistonScan(g, a, area1, area2)
    ensures forall j, q :: NearRows(j, area1, area2) && q in PistonsAt(g, j) && q != a ==>
      Mobiles(a, q) in PistonScan(g, a, area1, area2)
  {
    forall i, j, b | NearRows(j, area1, area2) && b in BallsAt(g, Cell(i, j))
      ensures Mobiles(a, b) in PistonScan(g, a, area1, area2)
    {
      RowBallsLists(g, j);
      assert b in RowBalls(g, j);
      PistonRowScanLists(g, a, j);
      RowInPistonScan(g, a, area1, area2, j, Mobiles(a, b));
    }
    forall j, q | NearRows(j, area1, area2) && q in PistonsAt(g, j) && q != a
      ensures Mobiles(a, q) in PistonScan(g, a, area1, area2)
    {
      PistonRowScanLists(g, a, j);
      RowInPistonScan(g, a, area1, area2, j, Mobiles(a, q));
    }
  }

  /** Every entry of the scan of the six rows pairs `a` with a mobile listed near its rows. */
  lemma PistonRowsAreSound(g: Grid, a: MobileId, area1: int, area2: int, e: Collision)
    requires e in PistonRowsScan(g, a, RowsAround(area1) + RowsAround(area2))
    ensures e.Mobiles? && e.first == a && PairedNear(g, a, e.second, area1, area2)
  {
    var js := RowsAround(area1) + RowsAround(area2);
    var k := PistonRowsScanFrom(g, a, js, e);
    ScannedRowsAreNear(area1, area2, js[k]);
    PistonRowScanLists(g, a, js[k]);
    RowBallsLists(g, js[k]);
  }

  /**
   The piston scan is sound: every candidate but the last pairs the
   piston with a particle of the rows around its two rows or with
   another piston of those rows, so leaving its rows is tested last and
   only there.
   */
  lemma PistonScanIsSound(g: Grid, a: MobileId, area1: int, area2: int)
    ensures var r := PistonScan(g, a, area1, area2);
      forall i :: 0 <= i < |r| - 1 ==> r[i].Mobiles? && r[i].first == a && PairedNear(g, a, r[i].second, area1, area2)
  {
    var r := PistonScan(g, a, area1, area2);
    var body := PistonRowsScan(g, a, RowsAround(area1) + RowsAround(area2));
    forall i | 0 <= i < |r| - 1
      ensures r[i].Mobiles? && r[i].first == a && PairedNear(g, a, r[i].second, area1, area2)
    {
      assert r[i] == body[i];
      PistonRowsAreSound(g, a, area1, area2, body[i]);
    }
  }
}

=== FILE: segment.dfy ===
/**
 Oriented segments stored as a start point and a direction vector, with
 the grid cells of their endpoints, the axis-parallel projections used
 to walk grid lines, and the "faces the segment" test used by the
 particle/segment collision rules.
 */
module Segments {
  import opened Geometry

  /** A segment from `start` to `start + vect`. */
  datatype Segment = Segment(start: Vec, vect: Vec)

  /** The end point `start + vect`. */
  function End(s: Segment): Vec
  {
    Plus(s.start, s.vect)
  }

  /** Builds the segment from p1 to p2: the start is p1, the direction p2 - p1. */
  function Make(p1: Vec, p2: Vec): (s: Segment)
    ensures s.start == p1
    ensures End(s) == p2
    ensures s.vect == Zero() <==> p1 == p2
  {
    Segment(p1, Minus(p2, p1))
  }

  /** Vector from the start point to p. */
  function VectTo(s: Segment, p: Vec): (r: Vec)
    ensures Plus(s.start, r) == p
    ensures p == End(s) ==> r == s.vect
  {
    Minus(p, s.start)
  }

  /** The source's equality: same start and same direction vector. */
  predicate Eq(a: Segment, b: Segment)
  {
    a.start == b.start && a.vect == b.vect
  }

  /** Lexicographic order: start points first, then direction vectors. */
  predicate Less(a: Segment, b: Segment)
  {
    if a.start == b.start then LexLess(a.vect, b.vect) else LexLess(a.start, b.start)
  }

  /** Equality of segments is equality of the values, and coincides with equal endpoints. */
  lemma EqIsIdentity(a: Segment, b: Segment)
    ensures Eq(a, b) <==> a == b
    ensures Eq(a, b) <==> a.start == b.start && End(a) == End(b)
  {
    if a.start == b.start && End(a) == End(b) {
      assert a.vect == Minus(End(a), a.start);
      assert b.vect == Minus(End(b), b.start);
    }
  }

  /** The segment order is a strict total order whose incomparable pairs are the equal ones. */
  lemma LessIsStrictTotalOrder(a: Segment, b: Segment, c: Segment)
    ensures !Less(a, a)
    ensures Less(a, b) && Less(b, c) ==> Less(a, c)
    ensures Less(a, b) ==> !Less(b, a)
    ensures Less(a, b) || Less(b, a) || Eq(a, b)
  {
    LexLessIsStrictTotalOrder(a.start, b.start, c.start);
    LexLessIsStrictTotalOrder(a.vect, b.vect, c.vect);
    LexLessIsStrictTotalOrder(a.start, c.start, b.start);
    LexLessIsStrictTotalOrder(b.start, a.start, c.start);
  }

  /** Grid cell of the start point for a grid of step `size`. */
  function Cell1(s: Segment, size: real): (c: Cell)
    requires size > 0.0
    ensures c.x as real * size <= s.start.x < (c.x + 1) as real * size
    ensures c.y as real * size <= s.start.y < (c.y + 1) as real * size
  {
    CellOf(s.start, size)
  }

  /** Grid cell of the end point for a grid of step `size`. */
  function Cell2(s: Segment, size: real): (c: Cell)
    requires size > 0.0
    ensures c.x as real * size <= End(s).x < (c.x + 1) as real * size
    ensures c.y as real * size <= End(s).y < (c.y + 1) as real * size
  {
    CellOf(End(s), size)
  }

  /**
   The y coordinate of the segment's line at abscissa x. The slope vect.y / vect.x
   is only defined for a non-vertical segment; the callers only project onto a
   vertical grid line that the segment crosses, so vect.x is non-zero there.
   */
  function YAtX(s: Segment, x: real): (y: real)
    requires s.vect.x != 0.0
    ensures x == s.start.x ==> y == s.start.y
    ensures x == End(s).x ==> y == End(s).y
  {
    s.start.y + (x - s.start.x) * (s.vect.y / s.vect.x)
  }

  /** The segment mirrored in the diagonal: both coordinates exchanged. */
  function Transpose(s: Segment): (t: Segment)
    ensures End(t) == Vec(End(s).y, End(s).x)
  {
    Segment(Vec(s.start.y, s.start.x), Vec(s.vect.y, s.vect.x))
  }

  /**
   The x coordinate of the segment's line at ordinate y, for a
   non-horizontal segment: `YAtX` of the mirrored segment.
   */
  function XAtY(s: Segment, y: real): (x: real)
    requires s.vect.y != 0.0
    ensures y == s.start.y ==> x == s.start.x
    ensures y == End(s).y ==> x == End(s).x
    ensures x == s.start.x + (y - s.start.y) * (s.vect.x / s.vect.y)
  {
    YAtX(Transpose(s), y)
  }

  /** Whether the orthogonal projection of p falls on the segment: 0 <= v.(p - start) <= |v|^2. */
  predicate Faces(s: Segment, p: Vec)
  {
    0.0 <= Scalar(s.vect, VectTo(s, p)) <= SquareLength(s.vect)
  }

  /** Both endpoints face their segment. */
  lemma EndpointsFace(s: Segment)
    ensures Faces(s, s.start)
    ensures Faces(s, End(s))
  {
    assert VectTo(s, s.start) == Zero();
    assert VectTo(s, End(s)) == s.vect;
    SquareLengthIsSelfScalar(s.vect);
  }

  /** Moving a point perpendicularly to the segment does not change whether it faces it. */
  lemma FacesIgnoresPerpendicularShift(s: Segment, p: Vec, k: real)
    ensures Faces(s, Plus(p, Scale(Perp(s.vect), k))) <==> Faces(s, p)
  {
    var q := Plus(p, Scale(Perp(s.vect), k));
    var v := s.vect;
    assert VectTo(s, q) == Plus(VectTo(s, p), Scale(Perp(v), k));
    assert Scalar(v, Scale(Perp(v), k)) == (v.x * (-v.y) + v.y * v.x) * k;
    assert Scalar(v, VectTo(s, q)) == Scalar(v, VectTo(s, p)) + Scalar(v, Scale(Perp(v), k));
  }

  /** A degenerate segment is faced by every point. */
  lemma DegenerateFacesEverything(s: Segment, p: Vec)
    requires s.vect == Zero()
    ensures Faces(s, p)
  {
    assert Scalar(s.vect, VectTo(s, p)) == 0.0;
  }
}

=== FILE: solver.dfy ===
/**
 Selection of the roots of a quadratic a t^2 + b t + c. The square root
 of the discriminant is supplied by the caller as `root`; the selectors
 return roots whenever `root` is the non-negative number whose square is
 the discriminant, which is the only property of the square root they
 rely on.
 */
module Solver {
  import opened Geometry

  /** The discriminant b^2 - 4ac, computed as the source does: (2a) is doubled into b^2 - 2(2a)c. */
  function Discriminant(a: real, b: real, c: real): real
  {
    Product(b, b) - 2.0 * Product(2.0 * a, c)
  }

  /** `root` is the square root of the discriminant whenever that is non-negative. */
  predicate IsRootOfDiscriminant(a: real, b: real, c: real, root: real)
  {
    Discriminant(a, b, c) >= 0.0 ==> root >= 0.0 && Product(root, root) == Discriminant(a, b, c)
  }

  /** The value of the polynomial a t^2 + b t + c. */
  function Poly(a: real, b: real, c: real, t: real): real
  {
    Product(a, Product(t, t)) + Product(b, t) + c
  }

  /**
   The earlier root: for a > 0 it is (-b - sqrt(delta)) / 2a, for a < 0 the branch
   swaps to (-b + sqrt(delta)) / 2a; -1 when there is no real root. With a = 0 the
   source divides by zero, so a is required to be non-zero.
   */
  function FirstRoot(a: real, b: real, c: real, root: real): (t: real)
    requires a != 0.0
    ensures Discriminant(a, b, c) < 0.0 ==> t == -1.0
    ensures IsRootOfDiscriminant(a, b, c, root) && Discriminant(a, b, c) >= 0.0 ==> Poly(a, b, c, t) == 0.0
  {
    var twoA := 2.0 * a;
    if Discriminant(a, b, c) >= 0.0 then
      var t := if twoA > 0.0 then -(b + root) / twoA else (-b + root) / twoA;
      if IsRootOfDiscriminant(a, b, c, root) then
        RootFromLinearForm(a, b, c, root, t, if twoA > 0.0 then -root else root);
        t
      else t
    else -1.0
  }

  /** The later root: the branches of `FirstRoot` exchanged; -1 when there is no real root. */
  function SecondRoot(a: real, b: real, c: real, root: real): (t: real)
    requires a != 0.0
    ensures Discriminant(a, b, c) < 0.0 ==> t == -1.0
    ensures IsRootOfDiscriminant(a, b, c, root) && Discriminant(a, b, c) >= 0.0 ==> Poly(a, b, c, t) == 0.0
  {
    var twoA := 2.0 * a;
    if Discriminant(a, b, c) >= 0.0 then
      var t := if twoA > 0.0 then (-b + root) / twoA else -(b + root) / twoA;
      if IsRootOfDiscriminant(a, b, c, root) then
        RootFromLinearForm(a, b, c, root, t, if twoA > 0.0 then root else -root);
        t
      else t
    else -1.0
  }

  /** 4a * poly(t) = (2at + b)^2 - (b^2 - 4ac). */
  lemma CompletedSquare(a: real, b: real, c: real, t: real)
    ensures Product(4.0 * a, Poly(a, b, c, t)) == Product(2.0 * a * t + b, 2.0 * a * t + b) - Discriminant(a, b, c)
  {
    assert (4.0 * a) * (a * (t * t) + b * t + c) == (2.0 * a * t + b) * (2.0 * a * t + b) - (b * b - 2.0 * ((2.0 * a) * c));
  }

  lemma ProductZero(x: real, y: real)
    requires y != 0.0
    ensures Product(x, y) == 0.0 <==> x == 0.0
  {
    if x != 0.0 {
      if x > 0.0 && y > 0.0 { ProductPos(x, y); }
      else if x < 0.0 && y < 0.0 { ProductPos(-x, -y); }
      else if x > 0.0 { ProductPos(x, -y); }
      else { ProductPos(-x, y); }
    }
  }

  /** If 2at + b = s with s^2 = delta, then t is a root. */
  lemma RootFromLinearForm(a: real, b: real, c: real, root: real, t: real, s: real)
    requires a != 0.0
    requires Product(root, root) == Discriminant(a, b, c)
    requires s == root || s == -root
    requires (2.0 * a) * t == s - b
    ensures Poly(a, b, c, t) == 0.0
  {
    CompletedSquare(a, b, c, t);
    assert 2.0 * a * t + b == s;
    ProductNegNeg(root, root);
    assert Product(s, s) == Product(root, root);
    ProductZero(Poly(a, b, c, t), 4.0 * a);
    assert Product(4.0 * a, Poly(a, b, c, t)) == Product(Poly(a, b, c, t), 4.0 * a);
  }

  /** Multiplication by a non-zero number is undone by division. */
  lemma MulDiv(x: real, y: real, d: real)
    requires d != 0.0 && d * x == y
    ensures x == y / d
  {
  }

  /** With real roots, the first selector never exceeds the second. */
  lemma FirstRootIsSmaller(a: real, b: real, c: real, root: real)
    requires a != 0.0
    requires IsRootOfDiscriminant(a, b, c, root)
    ensures FirstRoot(a, b, c, root) <= SecondRoot(a, b, c, root)
  {
    var twoA := 2.0 * a;
    if Discriminant(a, b, c) >= 0.0 {
      if twoA > 0.0 {
        assert -(b + root) <= -b + root;
        DivMonotone(-(b + root), -b + root, twoA);
      } else {
        assert -(b + root) <= -b + root;
        DivMonotone(-(-b + root), -(-(b + root)), -twoA);
        assert (-b + root) / twoA == -(-b + root) / (-twoA);
        assert -(b + root) / twoA == -(-(b + root)) / (-twoA);
      }
    }
  }

  lemma DivMonotone(x: real, y: real, d: real)
    requires x <= y && d > 0.0
    ensures x / d <= y / d
  {
    if x < y {
      assert (y - x) / d > 0.0;
      assert y / d - x / d == (y - x) / d;
    }
  }

  /**
   With real roots, every root of the polynomial is one of the two selected values:
   the selectors return exactly the roots of a t^2 + b t + c.
   */
  lemma {:induction false} SelectedRootsAreAllRoots(a: real, b: real, c: real, root: real, x: real)
    requires a != 0.0
    requires IsRootOfDiscriminant(a, b, c, root)
    requires Poly(a, b, c, x) == 0.0
    ensures Discriminant(a, b, c) >= 0.0
    ensures x == FirstRoot(a, b, c, root) || x == SecondRoot(a, b, c, root)
  {
    CompletedSquare(a, b, c, x);
    var u := 2.0 * a * x + b;
    assert Product(4.0 * a, 0.0) == 0.0;
    assert Discriminant(a, b, c) == Product(u, u);
    SquareNonNeg(u);
    SameSquare(u, root);
    var twoA := 2.0 * a;
    assert twoA * x == u - b;
    if u == root {
      MulDiv(x, -b + root, twoA);
    } else {
      MulDiv(x, -(b + root), twoA);
    }
  }

  /** Two numbers with the same square, one of them non-negative, are equal up to sign. */
  lemma SameSquare(u: real, r: real)
    requires r >= 0.0 && Product(u, u) == Product(r, r)
    ensures u == r || u == -r
  {
    assert Product(u - r, u + r) == Product(u, u) - Product(r, r);
    if u - r != 0.0 {
      ProductZero(u + r, u - r);
      assert Product(u + r, u - r) == Product(u - r, u + r);
    }
  }
}

=== FILE: time.dfy ===
/**
 Simulation time: a non-negative instant or the sentinel `never`, which
 stands for "no future solution" and sorts after every finite instant.
 Arithmetic saturates to `never`, so a prediction that has no solution
 stays unsolvable whatever is added to it.
 */
module Times {

  /** The stored instant is never negative: negative inputs become `never`. */
  type NonNeg = r: real | r >= 0.0

  /** `Never` carries no value, so the representation is canonical. */
  datatype Time = Never | At(value: NonNeg)

  /** The default time is `never`. */
  function Default(): (t: Time)
    ensures IsNever(t) && Value(t) == 0.0
  {
    Never
  }

  /** Conversion from a real: non-negative reals are kept, negative ones give `never`. */
  function FromReal(d: real): (t: Time)
    ensures !IsNever(t) <==> d >= 0.0
    ensures !IsNever(t) ==> Value(t) == d
    ensures IsNever(t) ==> Value(t) == 0.0
  {
    if d >= 0.0 then At(d) else Never
  }

  predicate IsNever(t: Time)
  {
    t.Never?
  }

  /** The stored instant; `never` stores 0. */
  function Value(t: Time): (r: real)
    ensures r >= 0.0
    ensures IsNever(t) ==> r == 0.0
  {
    match t
    case Never => 0.0
    case At(v) => v
  }

  /** Saturating difference: `never` when either side is `never` or the result would be negative. */
  function Sub(a: Time, b: Time): (r: Time)
    ensures IsNever(r) <==> IsNever(a) || IsNever(b) || Value(a) < Value(b)
    ensures !IsNever(r) ==> Value(r) == Value(a) - Value(b)
    ensures IsNever(r) ==> Value(r) == 0.0
  {
    if a.Never? || b.Never? || a.value < b.value then Never
    else At(a.value - b.value)
  }

  /** Saturating sum: `never` when either side is `never`. */
  function Add(a: Time, b: Time): (r: Time)
    ensures IsNever(r) <==> IsNever(a) || IsNever(b)
    ensures !IsNever(r) ==> Value(r) == Value(a) + Value(b)
    ensures IsNever(r) ==> Value(r) == 0.0
  {
    if a.Never? || b.Never? then Never
    else At(a.value + b.value)
  }

  /** Strict order: `never` precedes nothing, every finite time precedes `never`. */
  predicate Less(a: Time, b: Time)
  {
    if a.Never? then false
    else if b.Never? then true
    else a.value < b.value
  }

  /** Equality as the source compares: both flags and, for finite times, both values. */
  predicate Eq(a: Time, b: Time)
  {
    if a.Never? != b.Never? then false
    else if a.Never? then true
    else a.value == b.value
  }

  predicate LessEq(a: Time, b: Time)
  {
    !Less(b, a)
  }

  predicate NotEq(a: Time, b: Time)
  {
    !Eq(b, a)
  }

  /** Because `never` stores nothing, the source's equality is structural equality. */
  lemma EqIsIdentity(a: Time, b: Time)
    ensures Eq(a, b) <==> a == b
  {
  }

  /** `Less` is irreflexive, transitive and total modulo `Eq`. */
  lemma LessIsStrictTotalOrder(a: Time, b: Time, c: Time)
    ensures !Less(a, a)
    ensures Less(a, b) && Less(b, c) ==> Less(a, c)
    ensures Less(a, b) ==> !Less(b, a)
    ensures Less(a, b) || Less(b, a) || Eq(a, b)
    ensures Eq(a, b) ==> !Less(a, b) && !Less(b, a)
  {
  }

  /** `never` is the greatest time, and the only one above every time. */
  lemma NeverIsUniqueMaximum(t: Time, m: Time)
    ensures LessEq(t, Never)
    ensures LessEq(Never, t) <==> IsNever(t)
    ensures (LessEq(At(Value(m) + 1.0), m) ==> m == Never)
  {
  }

  /** `<=` is `<` or `==`, and equal times are ordered both ways. */
  lemma LessEqIsLessOrEq(a: Time, b: Time)
    ensures LessEq(a, b) <==> Less(a, b) || Eq(a, b)
    ensures Eq(a, b) ==> LessEq(a, b) && LessEq(b, a)
    ensures NotEq(a, b) <==> !Eq(a, b)
  {
  }

  /** Adding back what was subtracted restores the original finite time. */
  lemma SubThenAdd(a: Time, b: Time)
    requires !IsNever(a) && !IsNever(b) && LessEq(b, a)
    ensures Add(Sub(a, b), b) == a
  {
  }

  /** Subtracting what was added restores the original finite time. */
  lemma AddThenSub(a: Time, b: Time)
    requires !IsNever(a) && !IsNever(b)
    ensures Sub(Add(a, b), b) == a
  {
  }

  /** A finite sum is never earlier than either summand. */
  lemma AddIsMonotone(a: Time, b: Time)
    requires !IsNever(Add(a, b))
    ensures LessEq(a, Add(a, b)) && LessEq(b, Add(a, b))
  {
  }

  /**
   The earlier of two instants, keeping the first on a tie: the source's
   `if (b < a) a = b` idiom.
   */
  function Earlier(x: Time, y: Time): (r: Time)
    ensures LessEq(r, x) && LessEq(r, y)
    ensures r == x || r == y
    ensures IsNever(r) <==> IsNever(x) && IsNever(y)
  {
    LessIsStrictTotalOrder(x, y, y);
    EqIsIdentity(x, y);
    if Less(y, x) then y else x
  }
}

=== FILE: wrappers.dfy ===
/** Optional values, for lookups and choices that may find nothing. */
module Wrappers {
  datatype Option<T> = None | Some(value: T)
}
